=== FILE: README.md ===
# coolcode agent core in Dafny

A model of the core of a terminal coding agent. The model sends the
conversation to a language model and reads back either a final answer or a
batch of JSON tool calls. Each call is validated against its schema and run
by a handler. The handler's output goes back into the conversation log.

The model covers three parts of the repository:

- the agent core under `src/`;
- its older copy under `cli/`;
- the navigation and player state of the music web app under `Spotify-clone/`.

Everything is modelled with immutable datatypes and pure functions. Side effects become returned values:

- a new file-system map;
- the list of shell commands issued;
- the new message log;
- the next page state.

The language model, subprocesses, `JSON.parse`/`JSON.stringify`,
regular expressions, `glob` and `stat` are oracles passed as parameters. The
file system is a map from absolute paths to text, plus sets of directories
and of unreadable or unwritable paths. Node's POSIX `path` functions
(`join`, `resolve`, `relative`, `basename`, `dirname`, `extname`) are
implemented on `/`-separated strings.

Modules, following the source layout:

- **`src/core`**
  - `ContextManager`: the message log, token estimate, pruning, conversation window and prompt sections.
  - `Config`: dotted-path get/set, value parsing, merging and loading.
  - `Processor` and `Fence`: the turn loop, fence stripping and the final-answer test.
  - `TaskPlanner`: plan parsing.
- **`src/core/tools`**
  - `Validator` and `Registry`: the dispatcher with its six schemas, and the 21-entry catalogue.
  - `ReadFile`: the read guardrail and line ranges.
  - `ReplaceInFiles`: literal and oracle-regex replacement.
  - `GitIgnore`: pattern parsing and translation. The `cli/` copy is textually identical and is covered by the same module.
  - `ToolUtils`: the root check, shell escaping and Pascal case.
  - `CommandTools`: git commit and diff, find-symbol, format, lint and tests.
  - `PackageJson`, `Scaffold` and `FileOps`: add-script, new-module, README section, rename, and the `fs` calls they make.
  - `RecentFiles` and `Ranking`: recent files, and the stable newest-first sort.
  - `ScanProject`: project scan.
- **`cli/src/core`**
  - `LegacyContext`, `LegacyValidator`, `LegacyRegistry`, `LegacyReadFile`, `Edit` and `LegacyGrep`.
  - `FolderTree`: `cli/src/core/utils/getFolderStructure.ts`.
- **`src/ui/prompt.ts`**: `PromptSession`.
- **`Spotify-clone/src/app/page.tsx`**: `Navigation`.
- **Shared support**: `Common`, `Text`, `Json` and `Paths`.

The model keeps these behaviours of the code as they are:

- The root check accepts a path only when it starts with the resolved root followed by `/`. With a root of `/` it therefore accepts nothing, as `ToolUtils.WithinRootIff` states.
- The `src/` dispatcher returns the read handler's promise without awaiting it. The turn loop records `undefined` as that call's output. It also records `undefined` for every call that fails validation, because such a failure carries no `result`. See `Validator.ReadResultUndefined` and `Processor.FailureRecordsUndefined`.
- Nobody handles a rejection of that unawaited promise. The read handler throws outside its own `try` when the blocklist cannot be walked, for example `blockReadPatterns: [".env", 1]` or `5`. Node then ends the process. In the model the batch holding such a read ends the query as `Crashed` and no further prompt is sent. See `Processor.LoopBatch`, `Processor.ReadRejectionDies` and `Processor.BadBlocklistDies`.
- `Number()` in `parseConfigValue` reads decimal integers and unsigned hexadecimal, octal and binary literals. Text with a fraction or an exponent stays raw text.

## Model

| member | source | states |
|---|---|---|
| Common.CombineOutput | src/core/tools/runTestsTool.ts:32-34 | the text for the model is stdout alone when stderr is empty, and stdout followed by an `STDERR:` block otherwise |
| ToolUtils.EnsureWithinRoot | src/core/tools/toolUtils.ts:4-17 | a relative path gets the "must be absolute" error; any other rejection names the resolved root |
| ToolUtils.WithinRootIff | src/core/tools/toolUtils.ts:8-16 | a path is accepted exactly when it is absolute and its resolved segments properly extend the root's, so a root resolving to `/` admits nothing |
| ToolUtils.WithinRootRelative | src/core/tools/toolUtils.ts:38-40 | an accepted path is named relative to the root by its segments below the root, none of them `..` |
| ToolUtils.ShellEscape | src/core/tools/toolUtils.ts:34-36 | text without a single quote is unchanged and escaping never shortens the text |
| ToolUtils.ShellEscapeRoundTrip | src/core/tools/toolUtils.ts:34-36 | a POSIX shell reads the escaped text wrapped in single quotes back as exactly the original text |
| ToolUtils.EscapeSplit | src/core/tools/toolUtils.ts:35 | each single quote becomes `'"'"'` and the text around it is escaped independently |
| ToolUtils.PascalCase | src/core/tools/toolUtils.ts:42-50 | the result consists of letters and digits only |
| ToolUtils.PascalRun | src/core/tools/toolUtils.ts:48 | a run of letters and digits comes out with only its first character upper-cased |
| ToolUtils.PascalSeparated | src/core/tools/toolUtils.ts:44-49 | runs separated by a non-alphanumeric character are converted independently and concatenated |
| ToolUtils.PascalNoAlnum | src/core/tools/toolUtils.ts:44-47 | input with no letter or digit gives the empty name |
| Config.PathParts | src/core/config.ts:69 | the parts of a dotted path are never empty |
| Config.GetParts | src/core/config.ts:68-78 | no parts gives the starting value; a null, undefined or primitive value met before the last part gives undefined |
| Config.GetByPath | src/core/config.ts:68-78 | a path without parts gives the value itself; one part reads that key of an object; a null, undefined or primitive value has nothing below it |
| Config.SetByPath | src/core/config.ts:80-92 | a path with no parts leaves the object unchanged; the result stays an object of the same kind; an assignment throws only at an array's `length` |
| Config.Put | src/core/config.ts:86-91 | an object gains the key; an array takes the value at any index, growing with `null` holes and keeping its other elements; its `length` throws exactly when the value is no valid length and otherwise reads back as that length; any other key on an array leaves it as JSON shows it |
| Json.SetIndex | src/core/config.ts:91 | writing index i leaves the array at length max(len, i+1) with the value at i, the old elements elsewhere and `null` in any gap |
| Json.Resize | src/core/config.ts:91 | an array given length n has exactly n elements, the old ones first and `null` after |
| Json.LengthValue | src/core/config.ts:91 | a value is a valid array length only when it reads as a whole number from 0 to 2^32-1; a number is one exactly when it is in that range, and gives itself |
| Config.SetParts | src/core/config.ts:84-91 | the nested writes keep the container's kind and throw only where a segment is `length` |
| Config.ArrayGrows | src/core/config.ts:84-91 | writing `a.0` into `{"a":[]}` gives `{"a":[1]}`, and `a.2` pads with two `null`s |
| Config.ArrayLength | src/core/config.ts:84-91 | `a.length` resizes an array to a valid length, throws on `-1`, and descending through `length` throws |
| Config.GetAfterSet | src/core/config.ts:68-92 | writing a non-empty path through object keys and array indices (past an array's end too) does not throw, and reading the path back gives the written value |
| Config.GetAfterSetParts | src/core/config.ts:84-91 | the same no-throw read-after-write, part by part, through intermediates that setByPath creates or reuses |
| Config.SetKeepsOtherKeys | src/core/config.ts:80-92 | writing a path leaves every other top-level key present or absent as before, with its value, and can throw only at a `length` below the top level |
| Config.SwapOuterQuotes | src/core/config.ts:107 | the quote swap keeps the length and every inner character |
| Config.ParseConfigValue | src/core/config.ts:94-117 | blank text is `''`; JSON-looking text is the parse of its quote-swapped trimmed form or, when that fails, the raw text; other text is its number when it is a decimal integer or an unsigned hexadecimal, octal or binary literal, else the raw, untrimmed text |
| Config.ParseConfigKeywords | src/core/config.ts:97-107 | `true`, `false` and `null` give their JSON values |
| Config.ParseConfigNumber | src/core/config.ts:112-115 | the decimal text of any integer gives that number back |
| Text.JsNumber | src/core/config.ts:112-115 | a string of decimal digits reads as its value |
| Text.RadixLiterals | src/core/config.ts:112-115 | `0x10`, `0XfF`, `0o17` and `0b11` read as 16, 255, 15 and 3; `0x`, `-0x10` and `0b12` are not numbers |
| Config.Nullish | src/core/config.ts:122-142 | `??` keeps the first value unless it is null or undefined, else takes the second |
| Config.MergeConfig | src/core/config.ts:119-146 | each of the nine fields (`llm` model, temperature and maxTokens; the five `features`; `guardrails` blockReadPatterns) is the override's value at the same section and key when set and not null, else the base's; a null base temperature or maxTokens becomes undefined |
| Config.MergeSaved | src/core/config.ts:63-66 | loading what saveConfig wrote, merged over any base, gives back the saved configuration when every field is set |
| Config.MergeNothing | src/core/config.ts:119-146 | an absent, null or empty override leaves the base unchanged exactly when the base's temperature and maxTokens are not null |
| Config.MergeIdempotent | src/core/config.ts:119-146 | merging the same overrides twice equals merging them once |
| Config.LoadConfig | src/core/config.ts:49-61 | a missing or unreadable file, or one that is not JSON, gives the defaults; otherwise the parsed overrides merged over the defaults |
| Config.ConfigPath | src/core/config.ts:45-47 | the configuration file is `.coolcode.json` at an absolute path |
| Config.PutGet | src/core/config.ts:91 | assigning an object key or an array index, in range or not, does not throw, and reading it back gives the assigned value |
| ContextManager.EstimateTokens | src/core/contextManager.ts:194-197 | the estimate is the least whole number of tokens at four characters per token |
| ContextManager.NewMessage | src/core/contextManager.ts:56-60 | a new message carries its role, its content and the estimate of its content |
| ContextManager.CostOfNew | src/core/contextManager.ts:122 | a message the manager built costs exactly its estimate, never a negative amount |
| ContextManager.Prune | src/core/contextManager.ts:134-141 | up to 100 messages are kept as they are; beyond that only the newest 50 remain |
| ContextManager.Init | src/core/contextManager.ts:27-52 | a new manager has no messages, agent mode, no summary, no pins, a 20000-token budget, and root and cwd both set to the directory |
| ContextManager.AddUserMessage | src/core/contextManager.ts:65-72 | a user message with its estimate is appended and the log pruned; nothing else changes |
| ContextManager.AddResponse | src/core/contextManager.ts:54-63 | a model message `Output of <call>:` followed by the response is appended and the log pruned; nothing else changes |
| ContextManager.AppendKeepsValid | src/core/contextManager.ts:61-71 | after an append the log stays within the cap, estimated, and ends with the new message; below the cap nothing is dropped, at the cap 50 remain |
| ContextManager.AppendsStayBounded | src/core/contextManager.ts:134-141 | any run of additions keeps the log at or below 100 messages |
| ContextManager.TotalAppend | src/core/contextManager.ts:152 | the summed cost grows by the cost of the appended message |
| ContextManager.TotalNonNegative | src/core/contextManager.ts:152 | the summed cost of messages the manager built is never negative |
| ContextManager.Fit | src/core/contextManager.ts:121-126 | the walk takes at most as many messages as there are |
| ContextManager.Window | src/core/contextManager.ts:117-126 | the messages included are a suffix of the log: the newest ones, in chronological order |
| ContextManager.FitWithin | src/core/contextManager.ts:123 | the suffix the walk takes fits the budget together with what was already used |
| ContextManager.FitMaximal | src/core/contextManager.ts:123 | adding the next older message to the taken suffix would exceed the budget |
| ContextManager.WindowBudget | src/core/contextManager.ts:116-126 | the window stays within the token budget and is as long as the budget allows |
| ContextManager.OversizedNewest | src/core/contextManager.ts:123 | a newest message that alone exceeds the budget leaves the window empty, since the walk stops at the first misfit |
| ContextManager.FitMonotone | src/core/contextManager.ts:121-126 | a larger budget never takes fewer messages |
| ContextManager.LowerBudgetShrinksWindow | src/core/contextManager.ts:147-149 | lowering the budget never includes more messages |
| ContextManager.IncludedMessages | src/core/contextManager.ts:117-126 | the loop over the reversed log, putting each fitting message in front, computes exactly the window |
| ContextManager.ConversationSection | src/core/contextManager.ts:110-132 | the section starts with its header and the summary line, and ends with one line per message of the window |
| ContextManager.SummaryFirst | src/core/contextManager.ts:112-114 | a set summary appears right after the header, before every message of the window |
| ContextManager.ProjectSection | src/core/contextManager.ts:88-108 | the project section starts with the `CWD:` line |
| ContextManager.ProjectSectionShape | src/core/contextManager.ts:88-107 | the section is the `CWD:` line, the `File Tree:` line and, when files are pinned, the pinned-files marker after a blank line, then each pinned part on a line of its own |
| ContextManager.ShownPins | src/core/contextManager.ts:95-97 | the paths shown are exactly the pinned paths that exist |
| ContextManager.PinnedPartsShown | src/core/contextManager.ts:95-104 | one part per existing pinned path, in pin order: a fenced block under the path relative to the root for a readable file, an `(Error reading file)` line with the full path otherwise |
| ContextManager.BuildPrompt | src/core/contextManager.ts:74-81 | the prompt is the system, project, tool and conversation sections in that order, separated by blank lines, none filtered out |
| ContextManager.Join4 | src/core/contextManager.ts:80 | joining four texts puts the separator between each neighbouring pair |
| ContextManager.SetSummary | src/core/contextManager.ts:143-145 | the summary is set and nothing else changes |
| ContextManager.SetMaxTokens | src/core/contextManager.ts:147-149 | the budget is set and nothing else changes |
| ContextManager.SetMode | src/core/contextManager.ts:177-179 | the mode is set and nothing else changes |
| ContextManager.UpdateProjectCwd | src/core/contextManager.ts:165-167 | the cwd is set, the root stays, and nothing else changes |
| ContextManager.Pin | src/core/contextManager.ts:181-183 | the pins become the old pins plus the path; nothing else changes |
| ContextManager.Unpin | src/core/contextManager.ts:185-187 | the pins become the old pins without the path; nothing else changes |
| ContextManager.Remove | src/core/contextManager.ts:186 | removing a path keeps exactly the other entries, and removing an absent one changes nothing |
| ContextManager.RemoveLast | src/core/contextManager.ts:182-186 | removing a path just added after distinct entries gives the entries back |
| ContextManager.PinIdempotent | src/core/contextManager.ts:181-183 | pinning twice is pinning once and the pins stay distinct |
| ContextManager.UnpinUndoesPin | src/core/contextManager.ts:181-187 | unpinning an absent path changes nothing, and unpinning a fresh pin undoes it |
| ContextManager.GetStats | src/core/contextManager.ts:151-158 | the message count and the file-tree length are reported as they are |
| ContextManager.StatsAfterUserMessage | src/core/contextManager.ts:65-72 | below the cap a user message adds one message and its estimate to the total |
| LegacyContext.Init | cli/src/core/contextManager.ts:30-42 | a new manager has no messages, an empty current query and the given cwd |
| LegacyContext.AddResponse | cli/src/core/contextManager.ts:44-46 | the argument-less `push()` records nothing: the state is unchanged |
| LegacyContext.AddUserMessage | cli/src/core/contextManager.ts:49-55 | a user message is appended and becomes the current query; nothing else changes |
| LegacyContext.UpdateCurrentQuery | cli/src/core/contextManager.ts:113-119 | updating the current query does exactly what adding a user message does |
| LegacyContext.ToolResultText | cli/src/core/contextManager.ts:61 | with neither a truthy display result nor a truthy error the recorded text is empty |
| LegacyContext.AddToolResult | cli/src/core/contextManager.ts:58-66 | one model message is appended, carrying the call, after the unchanged log; the current query stays |
| LegacyContext.DisplayResultRecorded | cli/src/core/contextManager.ts:61 | for a successful result with a non-empty display text, that text is the recorded content |
| LegacyContext.Recent | cli/src/core/contextManager.ts:89 | the recent messages are the last ten, or all when fewer |
| LegacyContext.ToolLines | cli/src/core/contextManager.ts:95-99 | a message without tool calls adds no `Tool:` line |
| LegacyContext.ToolLinesLastTwo | cli/src/core/contextManager.ts:96-98 | a message with more than two tool calls shows only the last two |
| LegacyContext.ConversationSection | cli/src/core/contextManager.ts:88-102 | the section starts with its header |
| LegacyContext.OlderMessagesIgnored | cli/src/core/contextManager.ts:89 | messages older than the last ten never change the section |
| LegacyContext.BuildPrompt | cli/src/core/contextManager.ts:68-75 | the prompt is system prompt (dropped when empty), project state, conversation and tools, joined by blank lines |
| LegacyContext.DropEmptyFirst | cli/src/core/contextManager.ts:74 | with the later three sections non-empty only an empty first one is filtered out, and the order is kept |
| LegacyContext.UpdateProjectCwd | cli/src/core/contextManager.ts:109-111 | the cwd is set and nothing else changes |
| Edit.CountIsCapped | cli/src/core/tools/editTool.ts:54-64 | the number of replacements is the requested number, capped by the non-overlapping occurrences in the file |
| Edit.ReplaceAllIsSplitJoin | cli/src/core/tools/editTool.ts:54-64 | asking for at least as many replacements as there are occurrences gives the same text as split-and-join |
| Edit.OccursShift | cli/src/core/tools/editTool.ts:56 | an occurrence at `from + j` of the text is an occurrence at `j` of its tail from `from` |
| Edit.FindFromShift | cli/src/core/tools/editTool.ts:56 | `indexOf(old, idx)` finds what `indexOf(old)` finds in the text from `idx` on, shifted by `idx` |
| Edit.ProgressStart | cli/src/core/tools/editTool.ts:45-54 | before the loop the whole text is unsearched and all requested replacements remain |
| Edit.ReplaceStep | cli/src/core/tools/editTool.ts:56-62 | one replacement on the unsearched text replaces its first occurrence and continues after it with one fewer allowed |
| Edit.SpliceAt | cli/src/core/tools/editTool.ts:58-63 | after the splice, the settled text ends with the replacement and the unsearched rest follows the old occurrence |
| Edit.LoopStep | cli/src/core/tools/editTool.ts:55-64 | one loop turn keeps the loop invariant: settled text plus the reference result on the rest |
| Edit.StepText | cli/src/core/tools/editTool.ts:58-61 | the settled prefix grows by the text before the occurrence and the new string |
| Edit.StepCount | cli/src/core/tools/editTool.ts:62 | one loop turn adds one replacement to the count |
| Edit.LoopDone | cli/src/core/tools/editTool.ts:55-57 | when the count is reached or no occurrence is left, the text and count are the reference result |
| Edit.ReplaceLoop | cli/src/core/tools/editTool.ts:54-64 | the loop computes the reference result and its count: first occurrences left to right, at most the requested number, never searching inserted text |
| Edit.ValidateForEditing | cli/src/core/tools/editTool.ts:15-41 | the checks pass exactly for an absolute path of an existing, readable and writable file |
| Edit.EditFile | cli/src/core/tools/editTool.ts:12-79 | a relative path, a missing file, an unreadable or unwritable file, an empty old string or no occurrence each get their message and leave the files unchanged; otherwise exactly the replaced text is written and returned, with the count, old and new strings and base name in the display |
| Edit.EditTouchesOnlyTarget | cli/src/core/tools/editTool.ts:73 | only the edited file changes; every other path keeps its presence and content |
| Edit.FewerThanExpected | cli/src/core/tools/editTool.ts:55-73 | with fewer occurrences than requested all are replaced and the file is still written |
| Edit.InsertedTextNotRematched | cli/src/core/tools/editTool.ts:63 | inserted text is never searched again: `a` to `aa` twice in `a` makes one replacement |
| Fence.DropLetters | src/core/processor.ts:70 | exactly the leading ASCII letters are removed |
| Fence.DropOpening | src/core/processor.ts:70 | the opening fence with its language tag and optional newline is cut from the front |
| Fence.DropJsonOpening | src/core/processor.ts:76 | the opening "```json" with its optional newline is cut from the front |
| Fence.DropClosing | src/core/processor.ts:71 | a trailing fence is cut off, and text without one is unchanged |
| Fence.DropLettersPrefix | src/core/processor.ts:70 | a letters-only language tag is dropped in full and nothing after it |
| Fence.UnfenceFenced | src/core/processor.ts:68-73 | removing both fences of a fenced block gives back its body |
| Fence.FencedTrimmed | src/core/processor.ts:67 | a fenced block is unchanged by trimming |
| Processor.CleanResponse | src/core/processor.ts:67-79 | an answer that does not start with a fence after trimming is parsed as its trimmed text |
| Processor.CleanFenced | src/core/processor.ts:67-80 | a fenced answer is parsed as its trimmed body |
| Processor.IsFinalMessage | src/core/processor.ts:47-53 | the check throws exactly for `null`, and holds exactly for an object with a `text` key |
| Processor.Chars | src/core/processor.ts:94 | iterating a string visits its characters, each as a one-character string |
| Processor.Iterate | src/core/processor.ts:94 | only arrays and strings can be iterated; neither ends the loop |
| Processor.Interpret | src/core/processor.ts:65-94 | an object with `text` ends the loop with that text; a failed parse or `null` ends it as unparsed; an array is the batch; a string is parsed a second time and then iterated |
| Processor.ReparsedTextIsNotFinal | src/core/processor.ts:81-94 | a final message encoded twice is not final: the object from the second parse is iterated and is not iterable |
| Processor.Record | src/core/processor.ts:96-117 | an entry adds at most one model message, and adds one exactly when it has a `tool` key and the call does not throw |
| Processor.BatchMessages | src/core/processor.ts:94-119 | a batch adds at most one model message per entry |
| Processor.LogCons | src/core/contextManager.ts:61-62 | appending a message and then more is one append with pruning, followed by the rest |
| Processor.LogConcat | src/core/contextManager.ts:61-62 | appending two lists is appending one after the other |
| Processor.LogBelowCap | src/core/contextManager.ts:138 | below the cap the log is the old log followed by the new messages |
| Processor.RunBatch | src/core/processor.ts:94-119 | the batch appends its messages to the log, nothing else in the context changes, and the files are those the calls leave, one after the other |
| Processor.BatchConcat | src/core/processor.ts:94 | the messages of two batches in a row are those of the first followed by those of the second |
| Processor.RejectedCallSkipped | src/core/processor.ts:111-117 | an exception in one call is caught: the batch records what the entries before and after it record |
| Processor.ShapelessSkipped | src/core/processor.ts:96 | entries that are not objects with a `tool` key are skipped |
| Processor.StringBatchRecordsNothing | src/core/processor.ts:85-96 | a batch that is a string dispatches nothing |
| Processor.FailureRecordsUndefined | src/core/processor.ts:107-110 | a call that fails validation records `undefined` after the call's JSON, not the error |
| Processor.ValidatorRecordsEveryCall | src/core/processor.ts:96-110 | with the real dispatcher, every entry with a `tool` key adds exactly one message |
| Processor.ShapedEntries | src/core/processor.ts:96 | the entries kept all have the `tool` key |
| Processor.Loop | src/core/processor.ts:61-120 | the loop only appends model messages to the log and sends at most one prompt per turn; its first prompt is built from the context and the files it starts with |
| Processor.BatchStep | src/core/processor.ts:94-120 | a turn that answered with a batch appends only model messages, keeps the rest of the context, and starts with the prompt built from the context and files it was given |
| Processor.LoopBatch | src/core/processor.ts:94-120 | a batch that leaves a rejection nobody handles ends the query as crashed after that one prompt; any other batch is followed by the loop from the context and files it left |
| Processor.NextPromptSeesWrites | src/core/processor.ts:61-62 | the prompt after a batch is built from the context and the files that batch left, so a pinned file a tool rewrote is shown with its new content; after a batch that leaves an unhandled rejection no prompt follows |
| Processor.SecondPrompt | src/core/processor.ts:61-62 | after a batch that leaves no unhandled rejection, the next prompt is built from the context and files the batch left |
| Processor.ReadRejectionDies | src/core/tools/toolValidator.ts:120-121 | with the real dispatcher, a read call whose handler throws leaves a rejection nobody handles, so its batch ends the query |
| Processor.BadBlocklistDies | src/core/tools/readFileTool.ts:26-31 | a blocklist the guardrail cannot walk makes the read throw outside its `try`, so the batch holding that read ends the query |
| Processor.ProcessQuery | src/core/processor.ts:55-121 | the query is the first message recorded and every later one is a model message; nothing else in the context changes |
| Processor.QueryBeforeFirstPrompt | src/core/processor.ts:56-62 | the first prompt is built after the query is recorded, so the query is its newest message |
| Processor.StopRunsNoTool | src/core/processor.ts:81-91 | a final or unparsable first answer ends the query after one prompt with only the query recorded |
| Processor.QueryAppends | src/core/processor.ts:55-121 | while below the cap, the query's messages are appended in order to the old log |
| TaskPlanner.SafeParseJson | src/core/taskPlanner.ts:50-60 | an unfenced answer is parsed as its trimmed text |
| TaskPlanner.SafeParseFenced | src/core/taskPlanner.ts:53-56 | a fenced answer is parsed as its body, which is not trimmed again |
| TaskPlanner.Property | src/core/taskPlanner.ts:46 | `goal` and `steps` read off a value are defined only for an object holding that key |
| TaskPlanner.TaskPrompt | src/core/taskPlanner.ts:16-32 | the prompt ends with the goal on its own last line |
| TaskPlanner.CreateTaskPlan | src/core/taskPlanner.ts:34-48 | the answer is returned unchanged exactly when it parses to an object with a truthy goal and an array of steps, otherwise null |
| TaskPlanner.RejectedAnswers | src/core/taskPlanner.ts:44-46 | an unparsable answer, a missing or empty goal, or steps that are an object give no plan |
| Validator.ToolName | src/core/tools/toolValidator.ts:63-69 | every typed call names one of the six tools |
| Validator.SafeParse | src/core/tools/toolValidator.ts:11-61 | a successful parse gives a call of the tool asked for that meets the schema's constraints |
| Validator.ConformingIsValid | src/core/tools/toolValidator.ts:11-61 | options that conform to a tool's schema give a valid call of that tool |
| Validator.PutText | src/core/tools/toolValidator.ts:34-35 | an optional text field is present exactly when it has a value |
| Validator.PutInt | src/core/tools/toolValidator.ts:15-16 | an optional number field is present exactly when it has a value |
| Validator.ParseEncode | src/core/tools/toolValidator.ts:11-61 | every valid call survives encoding and parsing unchanged |
| Validator.EncodeRead | src/core/tools/toolValidator.ts:11-18 | an encoded valid read call conforms to its schema and extracts back to itself |
| Validator.EncodeEdit | src/core/tools/toolValidator.ts:20-28 | an encoded valid edit call conforms to its schema and extracts back to itself |
| Validator.EncodeShell | src/core/tools/toolValidator.ts:30-37 | an encoded valid shell call conforms to its schema and extracts back to itself |
| Validator.EncodeGrep | src/core/tools/toolValidator.ts:46-53 | an encoded valid grep call conforms to its schema and extracts back to itself |
| Validator.EncodeParse | src/core/tools/toolValidator.ts:11-61 | whatever the parse accepts, re-encoded, parses to the same call: unknown keys are stripped |
| Validator.LlmResultOf | src/core/processor.ts:108 | the text for the model is defined exactly for a success whose handler value is settled |
| Validator.ShellDisplay | src/core/tools/toolValidator.ts:160-162 | the display text starts with success or failure as the subprocess reported, and names a non-null exit code |
| Validator.Dispatch | src/core/tools/toolValidator.ts:98-214 | an unknown tool gets the unknown-tool error and a schema mismatch the schema error; a success carries the call the schema parsed for the tool named |
| Validator.RunCall | src/core/tools/toolValidator.ts:98-208 | a success carries the parsed call; a failure is the range error or a caught exception, never the shape error; a read that passes the range check is an unawaited promise that rejects exactly when the read handler throws; only a read or an unawaited edit can leave such a rejection |
| Validator.AwaitedCall | src/core/tools/toolValidator.ts:216-221 | an awaited handler succeeds exactly when it returns, with its result settled; a throw becomes the caught-exception message, never the shape error |
| Validator.Run | src/core/tools/toolValidator.ts:78-222 | the shape error occurs exactly for a payload that is not an object with a `tool` key; a success carries a valid call of the tool named that the schema accepts |
| Validator.NotFormatError | src/core/tools/toolValidator.ts:89-94 | once past the shape check, no failure repeats the shape error |
| Validator.DispatchErrorShape | src/core/tools/toolValidator.ts:98-221 | a failure is the schema error of the named tool when its schema rejects the payload, else a message other than the shape error |
| Validator.SchemaErrorNotFormat | src/core/tools/toolValidator.ts:104 | no schema error equals the shape error |
| Validator.ShapeIsObjectWithTool | src/core/tools/toolValidator.ts:89 | only an object with a `tool` key gets past the shape check |
| Validator.SchemaMismatchSkipsHandlers | src/core/tools/toolValidator.ts:100-106 | a payload the schema rejects yields the schema error whatever the handlers are |
| Validator.EmptyRequiredTextRejected | src/core/tools/toolValidator.ts:14 | an empty path, command or pattern is rejected by the schema |
| Validator.ReadRangeRejected | src/core/tools/toolValidator.ts:108-118 | a read with `startLine > endLine` fails with the range error before the handler |
| Validator.EditDefaultsToOne | src/core/tools/toolValidator.ts:133-139 | an edit without `expected_replacements` reaches the handler with 1, otherwise with the positive count given |
| Validator.ShellOutput | src/core/tools/toolValidator.ts:152-165 | the shell result's text is stdout, with a `STDERR:` block only when stderr is non-empty |
| Validator.UnknownTool | src/core/tools/toolValidator.ts:210-214 | a tool name outside the six gets the error listing the six |
| Validator.HandlerExceptionCaught | src/core/tools/toolValidator.ts:216-221 | an exception from an awaited handler becomes a failure carrying its message, with no text for the model |
| Validator.ReadResultUndefined | src/core/tools/toolValidator.ts:120-121 | a read that passes the checks resolves to an unawaited promise, so its text for the model is undefined, and it leaves a rejection nobody handles exactly when the read handler throws |
| ReadFile.Guardrail | src/core/tools/readFileTool.ts:142-166 | a missing, falsy or zero-length blocklist allows every read, an object counting only through a `length` key holding 0; a list is walked entry by entry and a string character by character; any other truthy value throws |
| ReadFile.GuardrailFails | src/core/tools/readFileTool.ts:142-166 | the guardrail throws exactly for a truthy blocklist that is not a list, a string or an object of `length` 0, or a list whose walk reaches a non-string entry before any pattern blocks |
| ReadFile.ObjectBlocklist | src/core/tools/readFileTool.ts:144-148 | an object blocklist with `length` 0 allows every read; any other object throws when walked |
| ReadFile.UnwalkableBlocklists | src/core/tools/readFileTool.ts:148-158 | a list whose first pattern does not block and whose next entry is not a string throws, and so does a non-zero number |
| ReadFile.CheckPatterns | src/core/tools/readFileTool.ts:148-165 | blocked only when some string pattern blocks the basename; throwing only when some pattern is not a string; allowed exactly when every pattern is a string that does not block |
| ReadFile.CharPatterns | src/core/tools/readFileTool.ts:148 | a string blocklist is walked as its characters, each a one-character pattern |
| ReadFile.EmptyBlocklistAllows | src/core/tools/readFileTool.ts:144-145 | an empty or missing blocklist never blocks |
| ReadFile.CheckStrings | src/core/tools/readFileTool.ts:148-165 | over string patterns the check never throws, and blocks exactly when some pattern blocks the basename |
| ReadFile.DefaultBlocks | src/core/config.ts:32-42 | any basename one of the default patterns blocks is refused, whatever the directory |
| ReadFile.DefaultBlocksEnv | src/core/tools/readFileTool.ts:149-151 | the default list blocks `.env` by equality |
| ReadFile.DefaultBlocksEnvLocal | src/core/tools/readFileTool.ts:152-157 | the default list blocks `.env.local` by the prefix pattern `.env.*` |
| ReadFile.DefaultBlocksPem | src/core/tools/readFileTool.ts:158-163 | the default list blocks `key.pem` by the suffix pattern `*.pem` |
| ReadFile.ValidateForReading | src/core/tools/readFileTool.ts:119-140 | the checks pass exactly for an absolute path of a readable file; a relative or missing path gets its own message |
| ReadFile.NormalizeEol | src/core/tools/readFileTool.ts:75-83 | writing each `\r\n` and lone `\r` as `\n` leaves no `\r`, never lengthens the text, and leaves text without `\r` as it is |
| ReadFile.LinesOf | src/core/tools/readFileTool.ts:75-83 | no line holds a `\n`, and none holds a `\r` when the text has none |
| ReadFile.ReadlineLines | src/core/tools/readFileTool.ts:75-83 | no line readline yields contains a `\n` or a `\r` |
| ReadFile.NormalizeKeeps | src/core/tools/readFileTool.ts:75-83 | a character other than `\r` passes through as it is |
| ReadFile.NormalizeCrLf | src/core/tools/readFileTool.ts:75-83 | `\r\n` is one line end |
| ReadFile.NormalizeLoneCr | src/core/tools/readFileTool.ts:75-83 | a `\r` not followed by `\n` is a line end of its own |
| ReadFile.ReadlineLinesJoin | src/core/tools/readFileTool.ts:75-83 | joining the lines with `\n` gives the content back with its line ends written as `\n`, less a final line end; content without `\r` comes back as it is |
| ReadFile.LastPieceEnd | src/core/tools/readFileTool.ts:83 | a non-empty last piece means the content does not end with a newline |
| ReadFile.JoinLastPiece | src/core/tools/readFileTool.ts:102 | a join ends with its last piece |
| ReadFile.SelectLines | src/core/tools/readFileTool.ts:80-93 | the selection holds lines `startLine` to `endLine`, or to the last line when the file is shorter, in order |
| ReadFile.SelectAdjacent | src/core/tools/readFileTool.ts:80-102 | two adjacent ranges read one after the other join to the combined range |
| ReadFile.SelectAll | src/core/tools/readFileTool.ts:80-102 | the full range reads back the content with its line ends written as `\n`, up to a final line end |
| ReadFile.CheckRange | src/core/tools/readFileTool.ts:53-70 | the bounds are accepted exactly when both are given and `1 <= startLine <= endLine` |
| ReadFile.Read | src/core/tools/readFileTool.ts:26-117 | a throwing blocklist throws; a blocked path or a failed check gets its message; no bounds returns the whole file; a bad range gets the range message; a start past the last line gets the "only has" message; any other ranged read returns exactly the selected lines with the "Reading lines" display |
| ReadFile.GuardBeforeValidation | src/core/tools/readFileTool.ts:31-37 | a blocked path is refused whatever the file system holds |
| LegacyReadFile.SliceLines | cli/src/core/tools/readFileTool.ts:45-72 | the slice holds exactly lines `startLine` to `endLine` of the split content, in order |
| LegacyReadFile.Read | cli/src/core/tools/readFileTool.ts:25-88 | a failed check gets its message; no bounds returns the whole file; a bad range gets the range message; an `endLine` past the last line gets the "only has" message; any other ranged read returns lines `startLine` to `endLine` with the "Reading lines" display |
| LegacyReadFile.ReadAllLines | cli/src/core/tools/readFileTool.ts:45-73 | reading every line by range gives back exactly the whole content |
| LegacyReadFile.ReadAdjacent | cli/src/core/tools/readFileTool.ts:72-73 | two adjacent ranges read one after the other, joined by a newline, give the combined range |
| Registry.Keys | src/core/tools/tool-registery.ts:15-37 | the declared keys are the options' keys, in order |
| Registry.TableWellFormed | src/core/tools/tool-registery.ts:1-428 | the catalogue has 21 entries with distinct names, each requiring only keys it declares, and an entry with no options requires none |
| Registry.TableAt | src/core/tools/tool-registery.ts:1-428 | the first six entries are the dispatched ones in order, the rest follow |
| Registry.DispatchedNamed | src/core/tools/tool-registery.ts:3-139 | the first six names are the dispatcher's six tools, `edit_file` and `read_file` swapped |
| Registry.DispatchedWellFormed | src/core/tools/tool-registery.ts:2-154 | the six dispatched entries have distinct names, declare options and require only declared keys |
| Registry.UndispatchedWellFormed | src/core/tools/tool-registery.ts:155-427 | the other fifteen require only declared keys, and none without options requires any |
| Registry.UndispatchedNamesApart | src/core/tools/tool-registery.ts:155-427 | the other fifteen have distinct names |
| Registry.Lookup | src/core/tools/tool-registery.ts:1 | a found entry is in the catalogue under that name; not found means no entry has the name |
| Registry.LookupIn | src/core/tools/tool-registery.ts:1 | a found entry is in the list under that name; not found means no entry has the name |
| Registry.EditMinimum | src/core/tools/tool-registery.ts:31-36 | `edit_file` declares `expected_replacements` with a minimum of 1 |
| Registry.SchemaKeys | src/core/tools/toolValidator.ts:11-61 | a schema's key list has one key per field |
| Registry.RegistryMatchesSchemas | src/core/tools/tool-registery.ts:1-428 | each of the first six entries declares exactly its schema's keys and requires exactly its non-optional fields; the other fifteen, `git_commit` among them, are unknown to the dispatcher |
| Registry.EntryUndispatched | src/core/tools/toolValidator.ts:210-214 | no entry after the sixth is a tool the dispatcher knows |
| Registry.UndispatchedUnknown | src/core/tools/toolValidator.ts:98-214 | none of the fifteen later entries has a dispatcher case |
| Registry.DispatchedMatch | src/core/tools/tool-registery.ts:2-154 | each dispatched entry agrees with its dispatcher schema |
| Registry.EditMatches | src/core/tools/tool-registery.ts:2-40 | the `edit_file` entry agrees with its schema |
| Registry.ReadMatches | src/core/tools/tool-registery.ts:41-64 | the `read_file` entry agrees with its schema |
| Registry.ShellMatches | src/core/tools/tool-registery.ts:65-98 | the `shell_command` entry agrees with its schema |
| Registry.GlobMatches | src/core/tools/tool-registery.ts:99-112 | the `glob` entry agrees with its schema |
| Registry.GrepMatches | src/core/tools/tool-registery.ts:114-137 | the `grep` entry agrees with its schema |
| Registry.NewFileMatches | src/core/tools/tool-registery.ts:138-154 | the `new_file` entry agrees with its schema |
| Registry.UndispatchedIsUnknown | src/core/tools/toolValidator.ts:210-214 | a call to any of the fifteen advertised but undispatched tools gets the unknown-tool error |
| LegacyRegistry.AsWrittenReadUndeclared | cli/src/core/tools/tool-registery.ts:45-62 | as written, `read_file` requires `absolute_path`, a key it does not declare, so the catalogue is not well formed |
| LegacyRegistry.TableWellFormed | cli/src/core/tools/tool-registery.ts:1-156 | the corrected catalogue has six distinct names, every required key declared, and `read_file` requiring what its schema requires |
| LegacyRegistry.CatalogueAgainstSchemas | cli/src/core/tools/tool-registery.ts:56-60 | edit, shell and glob declare exactly their schema's keys; `read_file` declares `EndLine` where its schema reads `endLine` |
| LegacyRegistry.AdvertisedUndispatched | cli/src/core/tools/toolValidator.ts:83-153 | the first four entries have dispatcher cases, while `grep` and `new_file` are advertised with none |
| LegacyRegistry.NewFileContentKey | cli/src/core/tools/tool-registery.ts:142-152 | `new_file` declares its content as `Content`, never `content` |
| LegacyRegistry.EditMinimumNotEnforced | cli/src/core/tools/toolValidator.ts:21 | `edit_file` declares a minimum of 1 replacement, but the older schema accepts any number |
| LegacyValidator.SafeParse | cli/src/core/tools/toolValidator.ts:6-48 | the parse succeeds exactly for an object naming the tool whose options, under `parameters` for reads and `toolOptions` otherwise, conform to the schema; the call it gives meets the constraints |
| LegacyValidator.ConformingIsValid | cli/src/core/tools/toolValidator.ts:6-39 | options that conform to one of the four schemas give a valid call of that tool |
| LegacyValidator.ParseEncode | cli/src/core/tools/toolValidator.ts:6-39 | every valid call of the four tools survives encoding and parsing unchanged |
| LegacyValidator.RunCall | cli/src/core/tools/toolValidator.ts:92-146 | a success carries the call; a call fails exactly when it is a glob whose handler throws, with the caught-exception message; only an edit changes the files |
| LegacyValidator.Run | cli/src/core/tools/toolValidator.ts:63-160 | the shape error occurs exactly for a payload that is not an object with a `tool` key; a success carries a valid call of the tool named; only a successful edit changes the files |
| LegacyValidator.SchemaErrorNotFormat | cli/src/core/tools/toolValidator.ts:89-141 | no schema error, the glob wording included, equals the shape error |
| LegacyValidator.ReadNeedsParameters | cli/src/core/tools/toolValidator.ts:8 | a read whose options sit under `toolOptions` only is rejected by the schema |
| LegacyValidator.ReadBoundsPositive | cli/src/core/tools/toolValidator.ts:9-11 | a read parses exactly when its path is non-empty and any given bound is at least 1 |
| LegacyValidator.EditDefaultsToOne | cli/src/core/tools/toolValidator.ts:104-111 | an edit reaches the handler with its count or 1, any number accepted, and the files change as the edit changes them |
| LegacyValidator.SchemaMismatchSkipsHandlers | cli/src/core/tools/toolValidator.ts:86-91 | a payload the schema rejects gets the schema error whatever the handlers, and the files stay as they were |
| LegacyValidator.ShellOutput | cli/src/core/tools/toolValidator.ts:122-134 | shell output is wrapped exactly as in the newer dispatcher, and the files stay |
| LegacyValidator.GrepIsUnknown | cli/src/core/tools/toolValidator.ts:148-152 | `grep` has a schema but no case, so it gets the unknown-tool error listing four tools |
| LegacyValidator.GlobExceptionCaught | cli/src/core/tools/toolValidator.ts:154-159 | an exception from `globFiles` is caught and reported with its message |
| LegacyGrep.LineMatches | cli/src/core/tools/grepTool.ts:33-40 | each match names the file, a 1-based line number within the file, that line's text, and a line the pattern matches; there are no more matches than lines |
| LegacyGrep.LineMatchesOrdered | cli/src/core/tools/grepTool.ts:35-39 | the matches of one file come in increasing line order |
| LegacyGrep.LineMatchesComplete | cli/src/core/tools/grepTool.ts:35-39 | every line the pattern matches is reported with its number and text |
| LegacyGrep.VisitLeaf | cli/src/core/tools/grepTool.ts:48-52 | a non-directory entry only adds matches; the visit fails, naming the path, exactly when an included file cannot be read |
| LegacyGrep.WalkDir | cli/src/core/tools/grepTool.ts:42-54 | the walk only adds matches, and fails exactly when some directory below cannot be listed or some included file cannot be read |
| LegacyGrep.AllMatchesAppend | cli/src/core/tools/grepTool.ts:44-53 | the matches of two runs of files are those of the first followed by those of the second |
| LegacyGrep.VisitLeafFiles | cli/src/core/tools/grepTool.ts:48-52 | a readable leaf adds exactly the matches of the file it contributes, if any |
| LegacyGrep.WalkFirst | cli/src/core/tools/grepTool.ts:44-53 | the walk handles its first entry, then continues with the rest |
| LegacyGrep.WalkIsFileOrder | cli/src/core/tools/grepTool.ts:42-54 | on a readable tree the walk pushes the matches of the included files in depth-first listing order, each file's in line order |
| LegacyGrep.OptionsJson | cli/src/core/tools/grepTool.ts:7-11 | the options object the tool receives never carries a `tool` key |
| LegacyGrep.AsWrittenRejectsAll | cli/src/core/tools/grepTool.ts:94-98 | parsing the options against the whole-call schema rejects every call |
| LegacyGrep.Validate | cli/src/core/tools/grepTool.ts:94-107 | with the options checked against the options part of the schema, validation passes exactly for a non-empty pattern that compiles; an empty pattern gets the schema error |
| LegacyGrep.MatchLines | cli/src/core/tools/grepTool.ts:84-86 | one `path:line: text` line per match, in order |
| LegacyGrep.Report | cli/src/core/tools/grepTool.ts:77-91 | the "No matches found" result is given exactly when there are no matches |
| LegacyGrep.SearchPath | cli/src/core/tools/grepTool.ts:56 | without a path the working directory is searched; an absolute path is searched as it resolves |
| LegacyGrep.Search | cli/src/core/tools/grepTool.ts:56-91 | the search throws exactly when the include filter or the pattern does not compile; a path that cannot be stat-ed gets the read error and one neither file nor directory the invalid-path result |
| LegacyGrep.GrepNeverSearches | cli/src/core/tools/grepTool.ts:19-26 | as written every call ends at validation, whatever the file system holds |
| LegacyGrep.GrepToolAsWritten | cli/src/core/tools/grepTool.ts:19-26 | a failed validation is returned as the result; only a passing one goes on to the search |
| LegacyGrep.GrepTool | cli/src/core/tools/grepTool.ts:19-92 | with the corrected validation, an empty pattern gets the schema error and a compiling pattern goes on to the search |
| LegacyGrep.DirectorySearch | cli/src/core/tools/grepTool.ts:56-91 | searching a readable directory reports the matching lines of the included files in walk order |
| LegacyGrep.FileSearch | cli/src/core/tools/grepTool.ts:58-61 | a file path is searched only when its base name passes the include filter |
| GitIgnore.KeepPatterns | src/core/tools/ignoreGitIgnoreFileTool.ts:40-41 | the kept lines are exactly the input lines that are non-empty and neither comments nor negations |
| GitIgnore.ParsePatterns | src/core/tools/ignoreGitIgnoreFileTool.ts:36-42 | every parsed pattern is trimmed, non-empty, and neither a comment nor a negation |
| GitIgnore.EveryPatternLineKept | src/core/tools/ignoreGitIgnoreFileTool.ts:36-42 | every line that is a pattern once trimmed appears, trimmed, among the parsed patterns |
| GitIgnore.Translate | src/core/tools/ignoreGitIgnoreFileTool.ts:50-55 | a pattern without special characters translates to itself, and translation never shortens the text |
| GitIgnore.TranslateSlashEnd | src/core/tools/ignoreGitIgnoreFileTool.ts:50-55 | a trailing `/` translates to itself, whatever precedes it |
| GitIgnore.ToRegex | src/core/tools/ignoreGitIgnoreFileTool.ts:44-70 | every expression ends with `(/.*)?$`; a rooted pattern or one containing `/` is anchored with `^`, any other matches after `(^\|/)` |
| GitIgnore.Body | src/core/tools/ignoreGitIgnoreFileTool.ts:57-61 | the body ends with `(/.*)?$`, appended to the translation when the pattern has no trailing `/` |
| GitIgnore.TrailingSlash | src/core/tools/ignoreGitIgnoreFileTool.ts:57-67 | `name/` loses its slash but is anchored at the root, while `name` matches at any depth |
| GitIgnore.RootedBody | src/core/tools/ignoreGitIgnoreFileTool.ts:45-48 | a leading `/` is stripped and the rest anchored with `^` |
| GitIgnore.LeadingSlash | src/core/tools/ignoreGitIgnoreFileTool.ts:45-64 | a rooted pattern without a trailing slash is its translation, anchored at the root |
| GitIgnore.ToRegexAll | src/core/tools/ignoreGitIgnoreFileTool.ts:18-20 | one expression per pattern, in order |
| GitIgnore.CreateChecker | src/core/tools/ignoreGitIgnoreFileTool.ts:8-34 | the checker holds expressions exactly when `.gitignore` exists and can be read, and then they are the translations of its parsed patterns, in order; otherwise, the `catch` included, it ignores nothing |
| GitIgnore.IgnoredByPattern | src/core/tools/ignoreGitIgnoreFileTool.ts:8-34 | with a readable `.gitignore` a path is ignored exactly when the expression of one of its patterns matches the root-relative path; with an unreadable one, no path is |
| GitIgnore.AnyMatches | src/core/tools/ignoreGitIgnoreFileTool.ts:28 | the path is ignored exactly when some expression matches it |
| GitIgnore.IsIgnored | src/core/tools/ignoreGitIgnoreFileTool.ts:22-29 | the empty checker ignores nothing; otherwise a path is ignored exactly when some expression matches it relative to the root |
| GitIgnore.NoFileIgnoresNothing | src/core/tools/ignoreGitIgnoreFileTool.ts:11-13 | without a `.gitignore` no path is ignored |
| ReplaceInFiles.IgnoreList | src/core/tools/replaceInFilesTool.ts:24-32 | the four build and VCS globs come first, then `exclude` when it is a non-empty string |
| ReplaceInFiles.LiteralRewrite | src/core/tools/replaceInFilesTool.ts:62-68 | in literal mode the count is the number of non-overlapping occurrences and the new content replaces all of them, as the edit tool's leftmost replacement would |
| ReplaceInFiles.SumCountsAppend | src/core/tools/replaceInFilesTool.ts:71 | the total grows by the count of the file listed |
| ReplaceInFiles.Step | src/core/tools/replaceInFilesTool.ts:45-80 | one file either adds nothing or lists itself with a positive count added to the total; only that file can change, never in a dry run; a failed write names it; a readable file met with a regular expression that does not compile throws and changes nothing else |
| ReplaceInFiles.Scan | src/core/tools/replaceInFilesTool.ts:45-80 | the total is the sum of the listed counts, all positive, at most one per file; a dry run changes nothing; files outside the selection keep their content |
| ReplaceInFiles.ScanStep | src/core/tools/replaceInFilesTool.ts:47-79 | one more file keeps the loop's invariant: the total is the sum of the listed counts, a dry run changes nothing, and only visited files change |
| ReplaceInFiles.Selected | src/core/tools/replaceInFilesTool.ts:34-39 | each globbed path is joined onto the root, in order |
| ReplaceInFiles.ReplaceInFiles | src/core/tools/replaceInFilesTool.ts:15-95 | an empty pattern gets "pattern is required."; a dry run, the default, changes nothing; the summary lists at most 50 files, all if there are no more, each with a positive count; the regular-expression exception occurs only for a pattern that does not compile, which writes nothing |
| ReplaceInFiles.ScanBadRegex | src/core/tools/replaceInFilesTool.ts:45-57 | with a pattern `new RegExp` rejects, the scan throws at the first readable file, before listing or writing anything, and ends unchanged when no file is readable |
| ReplaceInFiles.BadRegexThrows | src/core/tools/replaceInFilesTool.ts:45-57 | in regular-expression mode a pattern that does not compile throws out of the call exactly when some selected file is readable, and nothing is written |
| ReplaceInFiles.SummaryCounts | src/core/tools/replaceInFilesTool.ts:82-87 | the summary counts every changed file and the sum of their counts, and lists them in scan order |
| ReplaceInFiles.StepOnFile | src/core/tools/replaceInFilesTool.ts:47-79 | with a pattern that compiles, a readable file is listed exactly when it has a replacement, and is rewritten exactly when the call is also not a dry run; with a regular expression that does not compile the scan throws at that file |
| CommandTools.FromExec | src/core/tools/gitDiffTool.ts:25-30 | the result's text is the combined output and its display is the success or failure text as the subprocess reported |
| CommandTools.FirstInvalid | src/core/tools/gitCommitTool.ts:37-41 | no error exactly when every file passes the root check; otherwise the error is that of the first listed file that fails it |
| CommandTools.QuotedRelative | src/core/tools/gitCommitTool.ts:42-44 | each file appears double-quoted and relative to the root, in order |
| CommandTools.GitCommit | src/core/tools/gitCommitTool.ts:11-69 | a blank message, or a listed file outside the root, runs nothing; at most two commands run, and when two do, the add succeeded and the second is the commit |
| CommandTools.CommitAll | src/core/tools/gitCommitTool.ts:22-34 | with `all`, the commit runs only after `git add -A` succeeds, and the file list is ignored |
| CommandTools.CommitFiles | src/core/tools/gitCommitTool.ts:35-54 | listed files are all checked before anything runs, staged by relative path in order, and the commit runs only if staging succeeds |
| CommandTools.CommitOnly | src/core/tools/gitCommitTool.ts:56-68 | with nothing to stage, the commit runs alone |
| CommandTools.CommitMessageQuoted | src/core/tools/gitCommitTool.ts:56-57 | the shell reads the commit message back exactly from its quoted argument |
| CommandTools.GitDiff | src/core/tools/gitDiffTool.ts:10-31 | a path outside the root runs nothing and returns the check's error; otherwise one diff command runs and its output is returned |
| CommandTools.DiffWhole | src/core/tools/gitDiffTool.ts:23 | without a path the whole tree is diffed, with `--staged` exactly when asked |
| CommandTools.DiffFile | src/core/tools/gitDiffTool.ts:15-23 | a valid path is diffed alone, quoted and relative to the root |
| CommandTools.FindSymbol | src/core/tools/findSymbolTool.ts:10-32 | a blank pattern, and only that, runs nothing; otherwise one ripgrep command searches the given path or the root |
| CommandTools.RipgrepInclude | src/core/tools/findSymbolTool.ts:22-23 | the include glob appears as a `-g` flag exactly when it is given and non-empty |
| CommandTools.FormatFile | src/core/tools/formatFileTool.ts:9-26 | a path outside the root, and only that, runs nothing; otherwise prettier runs on the relative path |
| CommandTools.LintCommand | src/core/tools/lintFixTool.ts:14-23 | no command exactly when none of `lint:fix`, `lint`, `format` is a script; `lint:fix` wins when present |
| CommandTools.LintFix | src/core/tools/lintFixTool.ts:9-42 | an explicit non-empty command runs as given; nothing runs exactly when no command was found; at most one command runs |
| CommandTools.LintPriority | src/core/tools/lintFixTool.ts:15-31 | without a command, `lint:fix`, then `lint` with `--fix`, then `format` decide, and with none of them nothing runs |
| CommandTools.RunTests | src/core/tools/runTestsTool.ts:9-36 | an explicit non-empty command runs; otherwise `npm run test` when a `test` script exists, else nothing; the result reports that command's output |
| FileOps.ReadText | src/core/tools/toolUtils.ts:23 | reading succeeds exactly on a readable file and yields its content |
| FileOps.WriteText | src/core/tools/toolUtils.ts:31 | writing succeeds exactly when the path is neither a directory nor write-protected and its parent directory exists, and then the file holds the content |
| FileOps.AppendText | src/core/tools/generateReadmeSectionTool.ts:44 | appending succeeds under the same condition as writing and leaves the old content (or nothing) followed by the new |
| FileOps.MakeDir | src/core/tools/newModuleTool.ts:28 | a recursive mkdir fails only when a file has the directory's name; otherwise the directory exists and no file changes |
| PackageJson.ReadPackageJson | src/core/tools/toolUtils.ts:19-27 | a missing package.json gives `null`; a readable one gives whatever parsing its text gives |
| PackageJson.ScriptOf | src/core/tools/addScriptTool.ts:30 | a script is found only inside an object package.json that has a `scripts` key |
| PackageJson.HasScriptOfObject | src/core/tools/addScriptTool.ts:30 | on an object package.json, a script counts as present exactly when its entry exists and is truthy |
| PackageJson.WithScript | src/core/tools/addScriptTool.ts:29-37 | the written package has the script set to the command, every other script and every other top-level key unchanged |
| PackageJson.StringProp | src/core/tools/addScriptTool.ts:30 | a string has a property only for `length` and for an index within it |
| PackageJson.AssignScript | src/core/tools/addScriptTool.ts:37 | an object gains the key; an array takes the command at an index and keeps a non-index key out of the JSON; an array's `length` throws exactly when the command is no valid length and otherwise reads back as it; assigning to a primitive throws |
| PackageJson.AddScript | src/core/tools/addScriptTool.ts:10-44 | a missing name or command changes nothing and reports the requirement; a truthy primitive package throws; an array package is written back unchanged and reported as added when writable; the file system changes only by writing package.json, and only on success |
| PackageJson.AddScriptReadsBack | src/core/tools/addScriptTool.ts:29-43 | a duplicate is refused exactly when a truthy entry exists and overwrite is off; otherwise the new script reads back and every other script is unchanged |
| PackageJson.ObjectScriptStep | src/core/tools/addScriptTool.ts:29-43 | on an object package with object scripts, a truthy entry without overwrite is refused with the file system unchanged; otherwise package.json is rewritten with the script set and every other key kept |
| PackageJson.FalsyScriptReplaced | src/core/tools/addScriptTool.ts:30 | an existing empty command does not block a new one, even without overwrite |
| PackageJson.MissingPackage | src/core/tools/addScriptTool.ts:21-27 | with package.json missing or parsing to `null`, nothing changes and the invalid-package message is returned |
| PackageJson.ArrayScriptsDropped | src/core/tools/addScriptTool.ts:29-43 | with a `scripts` array and a name that is no index, package.json is rewritten with the same package and success is reported |
| Scaffold.ExportName | src/core/tools/newModuleTool.ts:30 | the export name is a non-empty alphanumeric identifier, the Pascal-case name whenever that is non-empty |
| Scaffold.WriteIfAbsent | src/core/tools/newModuleTool.ts:31-39 | an existing file is left alone; an absent one is created with the content; no other file changes |
| Scaffold.EnsureExportLine | src/core/tools/newModuleTool.ts:41-52 | afterwards the root index contains the export line, its old text is a prefix of the new, and no other file changes |
| Scaffold.Create | src/core/tools/newModuleTool.ts:28-57 | on success the module directory exists, both files exist, with root export the root index contains the export line, and the reported path is the joined one |
| Scaffold.NewModule | src/core/tools/newModuleTool.ts:12-58 | a blank module name, and only that, changes nothing and reports the requirement; success reports the module directory |
| Scaffold.NewModuleShownPath | src/core/tools/newModuleTool.ts:23-56 | the reported directory is the normalized join of root, base directory and module name, with the module name's trailing `/` kept unless the join normalizes to `/` |
| Paths.JoinLastPart | src/core/tools/newModuleTool.ts:24 | `path.join` keeps a trailing `/` exactly when its last part ends with one and the normalized path is not `/` |
| Scaffold.CreateKeepsFiles | src/core/tools/newModuleTool.ts:31-51 | existing files keep their content, except the root index, which can only grow |
| Scaffold.NewModuleKeepsFiles | src/core/tools/newModuleTool.ts:12-58 | existing files keep their content, except the root index, which can only grow |
| Scaffold.CreateContents | src/core/tools/newModuleTool.ts:31-39 | a fresh module file gets the template with the export name, and a fresh index re-exports the module |
| Scaffold.NewModuleContents | src/core/tools/newModuleTool.ts:23-39 | a fresh module file gets the template with the export name, and a fresh index re-exports the module |
| Scaffold.CreateIdempotent | src/core/tools/newModuleTool.ts:31-51 | running the steps again after success changes nothing |
| Scaffold.NewModuleIdempotent | src/core/tools/newModuleTool.ts:12-58 | a second run after success changes nothing and reports the same result |
| Scaffold.Bulleted | src/core/tools/generateReadmeSectionTool.ts:29 | each bullet becomes one `- ` line, in order |
| Scaffold.SectionBody | src/core/tools/generateReadmeSectionTool.ts:24-32 | the body ends in a newline; non-blank content wins, trimmed; else the bullets one per line; else the placeholder |
| Scaffold.Section | src/core/tools/generateReadmeSectionTool.ts:23-34 | the section starts with a blank line, the heading and another blank line, ends with the body, and contains the trimmed heading |
| Scaffold.ReadmeSection | src/core/tools/generateReadmeSectionTool.ts:11-53 | a blank title changes nothing; an existing README is refused exactly when it contains the trimmed heading, and throws when unreadable; a missing README, or one without the heading, gets the section added exactly when the write can succeed; on success the README is the old text, or a title line, followed by the section, and no other file changes |
| Scaffold.SectionHasHeading | src/core/tools/generateReadmeSectionTool.ts:23-38 | text with a section appended contains that section's trimmed heading |
| Scaffold.ReadmeSectionOnce | src/core/tools/generateReadmeSectionTool.ts:36-43 | after a section is added, the same title is refused and the README stays as it is |
| Scaffold.Move | src/core/tools/renameFileTool.ts:37 | the rename fails exactly on a directory, a write-protected path or a target whose parent directory is missing; otherwise the target holds the source's content, the source is gone, and no other file changes |
| Scaffold.RenameFile | src/core/tools/renameFileTool.ts:11-42 | the source path is checked first, then the target; a missing source and an occupied target without overwrite get their messages; once both checks pass the rename is reported exactly when the move succeeds; the file system changes only on success |
| Scaffold.RenameRoundTrip | src/core/tools/renameFileTool.ts:11-42 | renaming back undoes a rename onto a free name |
| Ranking.WithKey | src/core/tools/listRecentFilesTool.ts:49 | the entries with one key form a subsequence no longer than the input |
| Ranking.Insert | src/core/tools/listRecentFilesTool.ts:49 | inserting adds exactly one entry |
| Ranking.SortDescending | src/core/tools/listRecentFilesTool.ts:49 | sorting keeps the length |
| Ranking.InsertMember | src/core/tools/listRecentFilesTool.ts:49 | every entry after an insertion is the new item or an old one |
| Ranking.InsertDescending | src/core/tools/listRecentFilesTool.ts:49 | inserting into a newest-first list keeps it newest-first |
| Ranking.InsertPermutes | src/core/tools/listRecentFilesTool.ts:49 | inserting adds exactly the new item to the multiset |
| Ranking.InsertStable | src/core/tools/listRecentFilesTool.ts:49 | the new item goes ahead of every entry with its own key, and the others keep their order |
| Ranking.SortDescendingCorrect | src/core/tools/listRecentFilesTool.ts:49 | the sort is newest first, a permutation, and stable, as `Array.prototype.sort` is |
| Ranking.Items | src/core/tools/listRecentFilesTool.ts:50-53 | the items are those of the entries, in order |
| RecentFiles.Stamp | src/core/tools/listRecentFilesTool.ts:35-47 | exactly the files whose `stat` succeeds are kept, each with the time `stat` gives |
| RecentFiles.RelativeTo | src/core/tools/listRecentFilesTool.ts:50-53 | each entry's path becomes relative to the root and keeps its time |
| RecentFiles.JoinAll | src/core/tools/listRecentFilesTool.ts:33 | each globbed path is joined to the root, in order |
| RecentFiles.ListRecentFiles | src/core/tools/listRecentFilesTool.ts:12-59 | at most `limit` files are listed (20 by default), all of them when fewer are found, newest first, each the corresponding sorted candidate made relative to the root; the display reports the count and the text is the stringified list |
| RecentFiles.CandidatesAreStamped | src/core/tools/listRecentFilesTool.ts:28-49 | the candidates are exactly the stamped globbed files, and equal times keep the glob's order |
| ScanProject.Existing | src/core/utils/scanProject.ts:73-75 | exactly the candidate entry points that exist under the root are kept, in the list's order |
| ScanProject.ReadManifest | src/core/utils/scanProject.ts:81-93 | no package.json, or one parsing to `null`, gives no scripts and no dependencies; an object's dependencies are the keys of `dependencies` and `devDependencies` together |
| ScanProject.ManifestScripts | src/core/utils/scanProject.ts:84 | the script names are the keys of the `scripts` object |
| ScanProject.SortedFrameworksSorted | src/core/utils/scanProject.ts:34-45 | the framework names, listed in code-unit order, are exactly the keys of the framework map |
| ScanProject.NoAstro | src/core/utils/scanProject.ts:34-45 | the framework map has no Astro entry, so only the config file can set `isAstro` |
| ScanProject.KeepDetected | src/core/utils/scanProject.ts:118-122 | a framework is kept exactly when one of its keywords is a dependency |
| ScanProject.KeepDetectedAscending | src/core/utils/scanProject.ts:116-124 | filtering a sorted list of frameworks keeps it sorted |
| ScanProject.DetectFrameworks | src/core/utils/scanProject.ts:116-124 | the result is exactly the frameworks with a keyword among the dependencies, in sorted order |
| ScanProject.SkippedUnread | src/core/utils/scanProject.ts:147-149 | the contents of a `node_modules` or `.git` directory never affect the walk |
| ScanProject.Languages | src/core/utils/scanProject.ts:128-134 | the languages met are exactly those of files with a known extension |
| ScanProject.FirstSeen | src/core/utils/scanProject.ts:127-135 | the keys of the counts are distinct, cover every language met, and keep the order of first appearance |
| ScanProject.Tally | src/core/utils/scanProject.ts:131-133 | each language is paired with the number of files in it |
| ScanProject.RankMembers | src/core/utils/scanProject.ts:135 | the ranked list holds exactly the languages met |
| ScanProject.RankOrder | src/core/utils/scanProject.ts:135 | the ranked list has no repeats and is in non-increasing order of file count |
| ScanProject.LanguagesRanked | src/core/utils/scanProject.ts:126-136 | the languages reported are those of files with a known extension, each once, by decreasing count, ties in order of first appearance |
| ScanProject.RootLanguages | src/core/utils/scanProject.ts:126-144 | an unreadable root gives no languages; a readable one gives the languages met, each once, in non-increasing order of file count |
| ScanProject.Scan | src/core/utils/scanProject.ts:72-114 | entry points, scripts and frameworks come from the file system and package.json as above; the languages are those met, each once, by decreasing count; `hasTsConfig` and `hasReadme` hold exactly when those files exist; the root and timestamp are those given; `isNextJS` holds exactly with NextJS or a Next config file; `isAstro` holds exactly with an Astro config file |
| ScanProject.FrameworksFromDependencies | src/core/utils/scanProject.ts:85-89 | a framework is reported exactly when package.json lists one of its keywords among its dependencies |
| ScanProject.NoManifest | src/core/utils/scanProject.ts:78-93 | without a readable package.json there are no scripts and no frameworks |
| FolderTree.Checker | cli/src/core/utils/getFolderStructure.ts:17-21 | a missing checker ignores nothing; a given one decides every path |
| FolderTree.LexLessAsymmetric | cli/src/core/utils/getFolderStructure.ts:37 | no two names each precede the other |
| FolderTree.InOrderTransitive | cli/src/core/utils/getFolderStructure.ts:34-38 | the comparator's order (directories first, then by name) is transitive |
| FolderTree.Insert | cli/src/core/utils/getFolderStructure.ts:34-38 | inserting adds exactly the one entry |
| FolderTree.SortItems | cli/src/core/utils/getFolderStructure.ts:34-38 | sorting keeps every entry, as often as it occurs |
| FolderTree.InsertSorted | cli/src/core/utils/getFolderStructure.ts:34-38 | inserting into a sorted listing keeps it sorted |
| FolderTree.SortItemsSorted | cli/src/core/utils/getFolderStructure.ts:34-38 | the sorted listing is directories first, then by name, and a permutation of the entries |
| FolderTree.NodeOf | cli/src/core/utils/getFolderStructure.ts:49-57 | a node has its entry's name and kind |
| FolderTree.Build | cli/src/core/utils/getFolderStructure.ts:26-67 | an unreadable directory yields no nodes |
| FolderTree.BuildItems | cli/src/core/utils/getFolderStructure.ts:40-60 | the loop keeps at most one node per entry, and a first entry that is not ignored comes first, with its name and kind |
| FolderTree.BuildItemsKeeps | cli/src/core/utils/getFolderStructure.ts:40-60 | the loop keeps exactly the entries whose relative path is not ignored, each as its node with its subtree |
| FolderTree.BuildItemsAfter | cli/src/core/utils/getFolderStructure.ts:40-60 | every kept node may follow an entry that precedes all the sorted entries |
| FolderTree.ConsInOrder | cli/src/core/utils/getFolderStructure.ts:59 | putting a node ahead of nodes it may precede keeps siblings in order |
| FolderTree.BuildItemsOrdered | cli/src/core/utils/getFolderStructure.ts:40-60 | the kept nodes keep the sorted order |
| FolderTree.BuildListed | cli/src/core/utils/getFolderStructure.ts:26-67 | a readable directory yields one node per entry not ignored by its path relative to the base directory; siblings come directories first, then by name |
| FolderTree.FormatTree | cli/src/core/utils/getFolderStructure.ts:69-93 | at the top the drawing starts with the `basename/` header; no nodes draw nothing more |
| FolderTree.FormatIsLines | cli/src/core/utils/getFolderStructure.ts:69-93 | the drawing is the `basename/` header, only at the top, followed by the tree's lines, each ended by a newline |
| FolderTree.FormatFromIsLines | cli/src/core/utils/getFolderStructure.ts:77-90 | the loop from node `i` draws exactly the lines of those nodes |
| FolderTree.LinesCount | cli/src/core/utils/getFolderStructure.ts:77-90 | one line per node, counting the contents of directories |
| FolderTree.LinesFromCount | cli/src/core/utils/getFolderStructure.ts:77-90 | the lines from node `i` number the size of the remaining nodes |
| FolderTree.LinesPrefixed | cli/src/core/utils/getFolderStructure.ts:81-88 | every line below a prefix starts with it |
| FolderTree.LinesFromPrefixed | cli/src/core/utils/getFolderStructure.ts:81-88 | every line drawn from node `i` on starts with the prefix |
| FolderTree.NodeLine | cli/src/core/utils/getFolderStructure.ts:78-89 | node `i` is drawn after the lines of the nodes before it, as prefix, corner or tee connector, name and `/` for a directory, followed by its contents drawn under the extended prefix |
| FolderTree.LinesFromSplit | cli/src/core/utils/getFolderStructure.ts:77-90 | the lines from node `i` on follow the lines of the nodes before it |
| FolderTree.BlockCount | cli/src/core/utils/getFolderStructure.ts:84-89 | a node takes one line plus those of its contents |
| FolderTree.SizeAppend | cli/src/core/utils/getFolderStructure.ts:77-90 | the line count of two node lists adds up |
| FolderTree.FolderStructureShape | cli/src/core/utils/getFolderStructure.ts:15-24 | the output is `basename(root)/` followed by one line per node of the built tree; an unreadable root gives the header alone |
| FolderTree.GetFolderStructure | cli/src/core/utils/getFolderStructure.ts:15-24 | the output starts with the `basename(root)/` header, and an unreadable or empty root gives the header alone |
| PromptSession.HistoryFile | src/ui/prompt.ts:21-25 | a given history file is used as is; otherwise `.coolcode_history` in the home directory |
| PromptSession.LowerYes | src/ui/prompt.ts:63-65 | the lower-cased answer is `y` or `yes` exactly when the answer is one of those in any mix of letter case |
| PromptSession.Confirm | src/ui/prompt.ts:59-66 | end of input means no; a blank answer means the default; any other answer means yes exactly when, trimmed, it is `y` or `yes` in any letter case |
| PromptSession.ConfirmShowsDefault | src/ui/prompt.ts:60-61 | the question ends in `[Y/n] ` exactly when the default is yes, and in `[y/N] ` otherwise |
| PromptSession.LoadHistory | src/ui/prompt.ts:95-107 | a missing file gives no history; the loaded history holds at most 200 entries, each non-empty, trimmed and on one line |
| PromptSession.AppendHistory | src/ui/prompt.ts:109-115 | a successful append leaves the old text followed by the line and a newline; a failed one leaves the file as it was |
| PromptSession.SplitEndLines | src/ui/prompt.ts:98-100 | a file of lines splits on newlines into those lines and an empty last piece |
| PromptSession.HistoryRoundTrip | src/ui/prompt.ts:95-115 | a file written one history line at a time loads back as the last 200 of those lines, newest first |
| PromptSession.NewestFirst | src/ui/prompt.ts:103 | the first entry of the loaded history is the last line written |
| PromptSession.Ask | src/ui/prompt.ts:50-58 | end of input, and only that, gives `null`; otherwise the answer is the line read, trimmed; the history file only grows, and only for a non-empty answer |
| PromptSession.AskAppendsLine | src/ui/prompt.ts:53-56 | a non-blank answer is appended to the history file as one more history line |
| PromptSession.OnLine | src/ui/prompt.ts:67-75 | the callback gets a line exactly when it is not blank, and then gets that line trimmed, which is non-empty; a blank line leaves the history file alone |
| PromptSession.OnLineIsAsk | src/ui/prompt.ts:50-75 | `onInput` records lines exactly as `ask` does and forwards the non-blank answers `ask` would return |
| PromptSession.WithPrefix | src/ui/prompt.ts:37 | the hits are exactly the completions starting with the line, in their order |
| PromptSession.Complete | src/ui/prompt.ts:32-39 | path completion wins when it applies; otherwise the completions starting with the line, or all of them when none does, together with the line |
| Navigation.PageOfViewOf | Spotify-clone/src/app/page.tsx:115-133 | every page the handlers record maps back to the view that recorded it |
| Navigation.InitialValid | Spotify-clone/src/app/page.tsx:19-30 | the first render shows the home page, alone in the history |
| Navigation.AddToHistory | Spotify-clone/src/app/page.tsx:135-140 | the history is cut after the current entry, the page is appended, and the index points at it |
| Navigation.Visit | Spotify-clone/src/app/page.tsx:115-133 | the view becomes the one visited and the current entry shows it; nothing is left forward; only the view and the history change |
| Navigation.VisitTruncates | Spotify-clone/src/app/page.tsx:115-140 | visiting keeps the history up to the current entry, appends the page, and leaves nothing forward and something back; only the view and history change, and a valid state stays valid |
| Navigation.Back | Spotify-clone/src/app/page.tsx:142-151 | when `canGoBack`, the index moves back one and a recognised page sets the view, an unrecognised one keeps it; otherwise nothing changes; the history never changes |
| Navigation.Forward | Spotify-clone/src/app/page.tsx:153-162 | when `canGoForward`, the index moves forward one and a recognised page sets the view, an unrecognised one keeps it; otherwise nothing changes; the history never changes |
| Navigation.BackMoves | Spotify-clone/src/app/page.tsx:142-151 | back moves exactly when `canGoBack`, to the previous entry and its view, keeping the history; otherwise nothing changes |
| Navigation.ForwardMoves | Spotify-clone/src/app/page.tsx:153-162 | forward moves exactly when `canGoForward`, to the next entry and its view, keeping the history; otherwise nothing changes |
| Navigation.BackForwardRoundTrip | Spotify-clone/src/app/page.tsx:142-162 | back then forward, and forward then back, return to the same state whenever the first move is possible |
| Navigation.PlayTrack | Spotify-clone/src/app/page.tsx:109-113 | the track becomes current and plays from the start, and nothing else changes |
| Navigation.Restart | Spotify-clone/src/app/page.tsx:168-176 | next and previous only reset the position |
| Navigation.PlayPause | Spotify-clone/src/app/page.tsx:164-166 | the playing flag flips and nothing else changes |
| Navigation.Shuffle | Spotify-clone/src/app/page.tsx:178-180 | the shuffle flag flips and nothing else changes |
| Navigation.Seek | Spotify-clone/src/app/page.tsx:189-191 | the position becomes the time given and nothing else changes |
| Navigation.SetVolume | Spotify-clone/src/app/page.tsx:193-195 | the volume becomes the value given and nothing else changes |
| Navigation.ToggleLike | Spotify-clone/src/app/page.tsx:197-199 | the liked flag flips and nothing else changes |
| Navigation.SetSearch | Spotify-clone/src/app/page.tsx:201-203 | the search query becomes the text given and nothing else changes |
| Navigation.ToggleSidebar | Spotify-clone/src/app/page.tsx:216 | the sidebar flag flips and nothing else changes |
| Navigation.TogglesInvolutive | Spotify-clone/src/app/page.tsx:164-199 | each toggle flips its own flag, undoes itself, and touches nothing else |
| Navigation.PlayerKeepsNavigation | Spotify-clone/src/app/page.tsx:109-203 | the player controls leave the navigation valid |
| Navigation.IndexOf | Spotify-clone/src/app/page.tsx:184 | the index is the first position of the mode, or -1 exactly when it is absent |
| Navigation.Repeat | Spotify-clone/src/app/page.tsx:182-187 | the repeat mode always changes, `one` wraps round to `off`, and nothing else changes |
| Navigation.RepeatCycles | Spotify-clone/src/app/page.tsx:182-187 | repeat goes off, all, one and back to off: every press changes the mode, and three presses come back |

## Left out

- The transport to the language model (`src/core/llm.ts`, `cli/src/core/llm.ts`) is not modelled. The model is an oracle giving one response per loop iteration. The loop runs on fuel: a turn whose responses run out ends as out of fuel, a state the source never reaches.
- The shell subprocess (`shellTool.ts` in both trees) is not modelled. `execCommand` is an oracle returning stdout, stderr, success and exit code.
- Regular-expression matching, zod's error text, `JSON.parse`, `JSON.stringify` and the ISO date text are oracles. The key order of JSON objects is not modelled: objects are maps.
- Floating point is modelled with integers. `mtimeMs` and JSON numbers are integers, so zod's `.int()` refinements hold trivially.
- Config.ParseConfigValue: `Number()` is modelled on decimal integers and unsigned `0x`, `0o` and `0b` literals only. Text with a fraction or an exponent (`1.0`, `1e3`) stays raw text in the model, where the source gives a number, because the model has no floating point. `Infinity` stays raw in both, since the source keeps only finite numbers.
- Json.Get: keys inherited from `Object.prototype` (`constructor`, `toString`, `__proto__` and the rest) are not modelled. A key is present only when the parsed JSON holds it.
- Config.GetByPath: for the same reason, a path through an inherited name such as `constructor` gives undefined in the model, where the source reads the inherited value.
- Config.SetByPath: in the source a path through `__proto__` descends into the shared `Object.prototype` and writes there, and a last part `__proto__` replaces the prototype, which `JSON.stringify` does not show. The model stores `__proto__` as an ordinary key.
- PackageJson.HasScriptOfObject: a script named after an inherited property (`constructor`, `toString`) counts as absent in the model; the source finds the inherited function and counts it as present.
- PackageJson.AddScriptReadsBack: for the same reason, adding a script named `constructor` or `toString` without `overwrite` is reported as already existing by the source; the model adds it.
- Processor.Loop: a batch whose read leaves an unhandled rejection is run to its end before the query ends as `Crashed`. Node ends the process at the first wait for I/O, which can fall earlier in that batch, for example at a later shell call, so the later calls of the batch may not run in the source.
- Config.SetByPath: a hole an array grows by is `null` in the model, where the source has an empty slot; the two differ only before `JSON.stringify`. An array's `length` given as text reads numbers as `ParseConfigValue` does, so a fraction or an exponent there throws in the model.
- PackageJson.AssignScript: the same holds for a script named `length` on an array of scripts: a command such as `1.0` throws in the model, where the source resizes.
- ContextManager.EstimateTokens: string lengths are counted in code points, not UTF-16 units, so the estimate differs from the source for text outside the Basic Multilingual Plane.
- `toLowerCase` and `toUpperCase` are modelled on ASCII letters only.
- FolderTree.SortItemsSorted: `localeCompare` in the folder-tree sort is modelled as code-unit order, so names that a locale collates differently (case, accents) can come out in another order than the source's.
- `readdirSync` and `statSync` are a snapshot tree of listings; a listing that throws is an unreadable node.
- The directory reading of `completePath` in `src/ui/prompt.ts` is not modelled. Its answer is a parameter.
- `mkdirSync` with `recursive` does not create ancestor directories in the model.
- `renameSync` of a directory, or onto one, is modelled as an exception rather than a tree move.
- `updateProjectStateTree` in both context managers is not modelled. It is an asynchronous rescan whose result is simply the file-tree field, and that field is a parameter of the state.
- `getPinnedFiles` is not modelled; it only copies the pinned set.
- ReadFile.Read: the readline stream is modelled as the file's lines, cut at `\r\n`, a lone `\r` and `\n`. The stream's chunking is not modelled, so a `\r\n` split across two reads is taken as one line end.
- The terminal, SIGINT handling, `pause`, `resume` and `close` in `src/ui/prompt.ts` are not modelled. A failed history write is a boolean parameter.
- The following are outside the agent core and are not modelled:
  - the spinner, markdown and clipboard helpers;
  - `src/ui/query.ts`, which calls a processor interface that the processor does not provide;
  - both landing screens and the `index.ts` entry files;
  - the prompt text in `cli/src/core/prompts.ts`.
- `cli/src/core/tools/toolExecutor.ts` and `cli/src/core/tools/examples.ts` are not modelled; they are entirely commented out.
- The random mock in `cli/src/core/index.ts` is not modelled.
- The type-only files are not modelled beyond the datatypes borrowed from them.
- The thin wrappers are not modelled: `gitStatusTool.ts`, `openFileAtTool.ts`, `projectSummaryTool.ts`, and the `cli/` `globTool.ts` and `newFileTool.ts`.
- In the music app, the fetch effects and `recordRecentlyPlayed`, the Prisma routes and the seed script are not modelled. Seek, volume and search values are taken as given.
- Navigation.Back, Navigation.Forward: an out-of-range history lookup keeps the current view. Such a lookup cannot happen in a valid state.
- The `§DOUBLESTAR§` placeholder in the gitignore translation is not modelled. `GitIgnore` translates `**` to `.*` directly.

## Findings

| source | as written | input that shows it | evidently intended | confidence | as-written member | corrected member |
|---|---|---|---|---|---|---|
| cli/src/core/tools/tool-registery.ts:62 | `read_file` requires `absolute_path`, which is not among its declared options | the catalogue entry itself: its option keys are `absolutePath`, `startLine`, `EndLine` | the required key is the declared `absolutePath`, as the dispatcher's schema demands | not executed | LegacyRegistry.AsWrittenReadUndeclared | LegacyRegistry.TableWellFormed |
| cli/src/core/tools/grepTool.ts:95 | the bare options are validated against the whole-call `GrepSchema`, which requires `tool` and `toolOptions` | any options, e.g. `{pattern: "x"}`: it has no `tool` key, so validation fails | the options are validated against the schema's `toolOptions` part | not executed | LegacyGrep.GrepNeverSearches | LegacyGrep.GrepTool |

=== FILE: command_tools.dfy ===
/**
  The tools that build a command line and hand it to `execCommand`:
  `gitCommit`, `gitDiff`, `findSymbol`, `formatFile`, `lintFix` and
  `runTests` of src/core/tools/. The subprocess is an oracle from the
  issued command to its `ExecResult`; each tool returns its result and the
  commands it issued, in order, all run in the project root.
 */
module CommandTools {
  import opened Common
  import opened Json
  import opened Text
  import opened Paths
  import ToolUtils
  import PackageJson

  /** A tool's result and the commands it issued. */
  datatype Run = Run(result: ToolResult, issued: seq<Command>)

  /** The result every tool builds from its last subprocess: the combined output and a display for success or failure. */
  function FromExec(x: ExecResult, ok: string, failed: string): (r: ToolResult)
    ensures r.llmResult == CombineOutput(x)
    ensures r.displayResult == if x.success then ok else failed
  {
    ToolResult(CombineOutput(x), if x.success then ok else failed)
  }

  const FixingIssues := "Fixing Issues"

  // ----- gitCommit -----

  /** `files` absent and `files: []` behave alike, as do `all` absent and `all: false`. */
  datatype CommitOptions = CommitOptions(message: string, all: bool, files: seq<string>)

  /** The first file the root check rejects, with the check's message. */
  function FirstInvalid(files: seq<string>, root: string): (r: Option<string>)
    ensures r.None? <==> forall k :: 0 <= k < |files| ==> ToolUtils.EnsureWithinRoot(files[k], root).None?
    ensures r.Some? ==> exists k :: FirstRejected(files, root, k) && ToolUtils.EnsureWithinRoot(files[k], root) == r
  {
    if |files| == 0 then None
    else if ToolUtils.EnsureWithinRoot(files[0], root).Some? then
      assert FirstRejected(files, root, 0);
      ToolUtils.EnsureWithinRoot(files[0], root)
    else
      var rest := FirstInvalid(files[1..], root);
      assert forall k :: 1 <= k < |files| ==> files[k] == files[1..][k - 1];
      FirstRejectedShift(files, root, rest);
      rest
  }

  lemma FirstRejectedShift(files: seq<string>, root: string, rest: Option<string>)
    requires |files| > 0 && ToolUtils.EnsureWithinRoot(files[0], root).None?
    requires rest.Some? ==> exists k :: FirstRejected(files[1..], root, k) && ToolUtils.EnsureWithinRoot(files[1..][k], root) == rest
    ensures rest.Some? ==> exists k :: FirstRejected(files, root, k) && ToolUtils.EnsureWithinRoot(files[k], root) == rest
  {
    if rest.Some? {
      var k :| FirstRejected(files[1..], root, k) && ToolUtils.EnsureWithinRoot(files[1..][k], root) == rest;
      assert files[k + 1] == files[1..][k];
      forall j | 0 <= j < k + 1 ensures ToolUtils.EnsureWithinRoot(files[j], root).None? {
        if j > 0 {
          assert files[j] == files[1..][j - 1];
        }
      }
      assert FirstRejected(files, root, k + 1);
    }
  }

  /** `files[k]` is the first file the root check rejects. */
  predicate FirstRejected(files: seq<string>, root: string, k: int) {
    && 0 <= k < |files|
    && ToolUtils.EnsureWithinRoot(files[k], root).Some?
    && forall j :: 0 <= j < k ==> ToolUtils.EnsureWithinRoot(files[j], root).None?
  }

  /** `"r"` for each file, relative to the root, joined by spaces. */
  function QuotedRelative(files: seq<string>, root: string): (r: seq<string>)
    ensures |r| == |files| && forall k :: 0 <= k < |files| ==> r[k] == "\"" + ToolUtils.ToRelative(files[k], root) + "\""
  {
    if |files| == 0 then [] else ["\"" + ToolUtils.ToRelative(files[0], root) + "\""] + QuotedRelative(files[1..], root)
  }

  function AddFilesLine(files: seq<string>, root: string): string {
    "git add -- " + JoinWith(QuotedRelative(files, root), " ")
  }

  /** `git commit -m '<message with each ' escaped>'`. */
  function CommitLine(message: string): string {
    "git commit -m '" + ToolUtils.ShellEscape(message) + "'"
  }

  const MessageRequired := ToolResult("Commit message is required.", FixingIssues)

  /** `gitCommit(options, rootPath)`. */
  function GitCommit(o: CommitOptions, root: string, exec: Command -> ExecResult): (r: Run)
    ensures IsBlank(o.message) ==> r == Run(MessageRequired, [])
    ensures !o.all && FirstInvalid(o.files, root).Some? && !IsBlank(o.message) ==>
      r == Run(ToolResult(FirstInvalid(o.files, root).value, FixingIssues), [])
    ensures |r.issued| <= 2
    ensures |r.issued| == 2 ==> r.issued[1] == Command(CommitLine(o.message), root) && exec(r.issued[0]).success
  {
    if IsBlank(o.message) then Run(MessageRequired, [])
    else
      var commit := Command(CommitLine(o.message), root);
      var done := FromExec(exec(commit), "Commit created", "Commit failed");
      if o.all then
        var add := Command("git add -A", root);
        if !exec(add).success then Run(FromExec(exec(add), "", "Git add failed"), [add])
        else Run(done, [add, commit])
      else if |o.files| > 0 then
        match FirstInvalid(o.files, root)
        case Some(message) => Run(ToolResult(message, FixingIssues), [])
        case None =>
          var add := Command(AddFilesLine(o.files, root), root);
          if !exec(add).success then Run(FromExec(exec(add), "", "Git add failed"), [add])
          else Run(done, [add, commit])
      else Run(done, [commit])
  }

  /**
    With `all` the commit runs only after `git add -A` succeeds, and the
    files list is then ignored.
   */
  lemma CommitAll(o: CommitOptions, root: string, exec: Command -> ExecResult)
    requires o.all && !IsBlank(o.message)
    ensures var add := exec(Command("git add -A", root));
      GitCommit(o, root, exec) ==
        if add.success then Run(FromExec(exec(Command(CommitLine(o.message), root)), "Commit created", "Commit failed"),
                                [Command("git add -A", root), Command(CommitLine(o.message), root)])
        else Run(ToolResult(CombineOutput(add), "Git add failed"), [Command("git add -A", root)])
  {
  }

  /**
    Listed files are all checked before anything runs; then they are staged
    by relative path, in order, and the commit runs only if that succeeds.
   */
  lemma CommitFiles(o: CommitOptions, root: string, exec: Command -> ExecResult)
    requires !o.all && |o.files| > 0 && !IsBlank(o.message)
    requires forall k :: 0 <= k < |o.files| ==> ToolUtils.EnsureWithinRoot(o.files[k], root).None?
    ensures var add := exec(Command(AddFilesLine(o.files, root), root));
      GitCommit(o, root, exec) ==
        if add.success then Run(FromExec(exec(Command(CommitLine(o.message), root)), "Commit created", "Commit failed"),
                                [Command(AddFilesLine(o.files, root), root), Command(CommitLine(o.message), root)])
        else Run(ToolResult(CombineOutput(add), "Git add failed"), [Command(AddFilesLine(o.files, root), root)])
  {
  }

  /** With nothing to stage the commit runs alone. */
  lemma CommitOnly(o: CommitOptions, root: string, exec: Command -> ExecResult)
    requires !o.all && |o.files| == 0 && !IsBlank(o.message)
    ensures GitCommit(o, root, exec) ==
      Run(FromExec(exec(Command(CommitLine(o.message), root)), "Commit created", "Commit failed"), [Command(CommitLine(o.message), root)])
  {
  }

  /** The shell reads the commit message back exactly from the quoted argument. */
  lemma CommitMessageQuoted(message: string)
    ensures IsPrefix("git commit -m ", CommitLine(message))
    ensures ToolUtils.ShellWord(CommitLine(message)[|"git commit -m "|..]) == Some(message)
  {
    var line := CommitLine(message);
    assert line == "git commit -m " + ("'" + ToolUtils.ShellEscape(message) + "'");
    assert line[|"git commit -m "|..] == "'" + ToolUtils.ShellEscape(message) + "'";
    ToolUtils.ShellEscapeRoundTrip(message);
  }

  // ----- gitDiff -----

  datatype DiffOptions = DiffOptions(filePath: Option<string>, staged: bool)

  function DiffLine(staged: bool, fileArg: string): string {
    "git diff" + (if staged then " --staged" else "") + fileArg
  }

  /** `gitDiff(options, rootPath)`. */
  function GitDiff(o: DiffOptions, root: string, exec: Command -> ExecResult): (r: Run)
    ensures o.filePath.Some? && o.filePath.value != "" && ToolUtils.EnsureWithinRoot(o.filePath.value, root).Some? ==>
      r == Run(ToolResult(ToolUtils.EnsureWithinRoot(o.filePath.value, root).value, FixingIssues), [])
    ensures r.issued != [] ==> |r.issued| == 1 && r.result == FromExec(exec(r.issued[0]), "Git diff", "Git diff failed")
  {
    if o.filePath.Some? && o.filePath.value != "" then
      match ToolUtils.EnsureWithinRoot(o.filePath.value, root)
      case Some(message) => Run(ToolResult(message, FixingIssues), [])
      case None =>
        var c := Command(DiffLine(o.staged, " -- \"" + ToolUtils.ToRelative(o.filePath.value, root) + "\""), root);
        Run(FromExec(exec(c), "Git diff", "Git diff failed"), [c])
    else
      var c := Command(DiffLine(o.staged, ""), root);
      Run(FromExec(exec(c), "Git diff", "Git diff failed"), [c])
  }

  /** Without a path, the whole tree is diffed; `--staged` appears iff `staged`. */
  lemma DiffWhole(o: DiffOptions, root: string, exec: Command -> ExecResult)
    requires o.filePath.None? || o.filePath.value == ""
    ensures GitDiff(o, root, exec).issued == [Command(if o.staged then "git diff --staged" else "git diff", root)]
  {
    assert DiffLine(o.staged, "") == (if o.staged then "git diff --staged" else "git diff");
  }

  /** A valid path is diffed alone, quoted and relative to the root. */
  lemma DiffFile(o: DiffOptions, root: string, exec: Command -> ExecResult, rel: string)
    requires o.filePath.Some? && o.filePath.value != "" && ToolUtils.EnsureWithinRoot(o.filePath.value, root).None?
    requires rel == ToolUtils.ToRelative(o.filePath.value, root)
    ensures GitDiff(o, root, exec).issued ==
      [Command((if o.staged then "git diff --staged" else "git diff") + (" -- \"" + rel + "\""), root)]
  {
    var arg := " -- \"" + rel + "\"";
    assert GitDiff(o, root, exec).issued == [Command(DiffLine(o.staged, arg), root)];
    assert DiffLine(o.staged, arg) == (if o.staged then "git diff --staged" else "git diff") + arg;
  }

  // ----- findSymbol -----

  datatype SymbolOptions = SymbolOptions(pattern: string, includeGlob: Option<string>, path: Option<string>)

  const PatternRequired := ToolResult("pattern is required.", FixingIssues)

  function RipgrepLine(pattern: string, includeGlob: Option<string>, searchPath: string): string {
    "rg -n --hidden --glob '!.git/*' --glob '!node_modules/*'"
      + (if includeGlob.Some? && includeGlob.value != "" then " -g \"" + includeGlob.value + "\"" else "")
      + " \"" + pattern + "\" \"" + searchPath + "\""
  }

  /** `findSymbol(options, rootPath)`: the search path defaults to the root. */
  function FindSymbol(o: SymbolOptions, root: string, exec: Command -> ExecResult): (r: Run)
    ensures IsBlank(o.pattern) <==> r == Run(PatternRequired, [])
    ensures !IsBlank(o.pattern) ==> var searchPath := if o.path.Some? && o.path.value != "" then o.path.value else root;
      && r.issued == [Command(RipgrepLine(o.pattern, o.includeGlob, searchPath), root)]
      && r.result == FromExec(exec(r.issued[0]), "Symbol search results", "Symbol search failed")
  {
    if IsBlank(o.pattern) then Run(PatternRequired, [])
    else
      var searchPath := if o.path.Some? && o.path.value != "" then o.path.value else root;
      var c := Command(RipgrepLine(o.pattern, o.includeGlob, searchPath), root);
      Run(FromExec(exec(c), "Symbol search results", "Symbol search failed"), [c])
  }

  /** The include glob appears as a `-g` flag exactly when it is given and non-empty. */
  lemma RipgrepInclude(pattern: string, includeGlob: Option<string>, searchPath: string)
    ensures var base := "rg -n --hidden --glob '!.git/*' --glob '!node_modules/*'";
      var tail := " \"" + pattern + "\" \"" + searchPath + "\"";
      && (includeGlob.None? || includeGlob.value == "" ==> RipgrepLine(pattern, includeGlob, searchPath) == base + tail)
      && (includeGlob.Some? && includeGlob.value != "" ==>
            RipgrepLine(pattern, includeGlob, searchPath) == base + " -g \"" + includeGlob.value + "\"" + tail)
  {
    var base := "rg -n --hidden --glob '!.git/*' --glob '!node_modules/*'";
    var tail := " \"" + pattern + "\" \"" + searchPath + "\"";
    if includeGlob.None? || includeGlob.value == "" {
      assert base + "" == base;
    }
  }

  // ----- formatFile -----

  function PrettierLine(rel: string): string {
    "npx prettier --write \"" + rel + "\""
  }

  /** `formatFile(options, rootPath)`. */
  function FormatFile(absolutePath: string, root: string, exec: Command -> ExecResult): (r: Run)
    ensures ToolUtils.EnsureWithinRoot(absolutePath, root).Some? <==> r.issued == []
    ensures r.issued == [] ==> r.result == ToolResult(ToolUtils.EnsureWithinRoot(absolutePath, root).value, FixingIssues)
    ensures r.issued != [] ==>
      && r.issued == [Command(PrettierLine(ToolUtils.ToRelative(absolutePath, root)), root)]
      && r.result == FromExec(exec(r.issued[0]), "File formatted", "Formatting failed")
  {
    match ToolUtils.EnsureWithinRoot(absolutePath, root)
    case Some(message) => Run(ToolResult(message, FixingIssues), [])
    case None =>
      var c := Command(PrettierLine(ToolUtils.ToRelative(absolutePath, root)), root);
      Run(FromExec(exec(c), "File formatted", "Formatting failed"), [c])
  }

  // ----- lintFix and runTests -----

  /** The command `lintFix` chooses when none is given: `lint:fix`, then `lint` with `--fix`, then `format`. */
  function LintCommand(pkg: Option<Json>): (r: Option<string>)
    ensures r.None? <==> !PackageJson.HasScript(pkg, "lint:fix") && !PackageJson.HasScript(pkg, "lint") && !PackageJson.HasScript(pkg, "format")
    ensures PackageJson.HasScript(pkg, "lint:fix") ==> r == Some("npm run lint:fix")
  {
    if PackageJson.HasScript(pkg, "lint:fix") then Some("npm run lint:fix")
    else if PackageJson.HasScript(pkg, "lint") then Some("npm run lint -- --fix")
    else if PackageJson.HasScript(pkg, "format") then Some("npm run format")
    else None
  }

  const NoLintCommand := ToolResult("No lint/format command found. Provide a command explicitly.", "No lint/format command found")

  /** `lintFix(options, rootPath)`: an explicit non-empty command wins and package.json is then not read. */
  function LintFix(command: Option<string>, root: string, fs: FileSystem, parse: string -> Option<Json>, exec: Command -> ExecResult): (r: Run)
    ensures command.Some? && command.value != "" ==>
      r == Run(FromExec(exec(Command(command.value, root)), "Lint/format completed successfully", "Lint/format failed"),
               [Command(command.value, root)])
    ensures r.issued == [] <==> r.result == NoLintCommand
    ensures |r.issued| <= 1
  {
    var chosen := if command.Some? && command.value != "" then command
      else LintCommand(PackageJson.ReadPackageJson(root, fs, parse));
    if chosen.None? then Run(NoLintCommand, [])
    else
      var c := Command(chosen.value, root);
      var x := exec(c);
      assert FromExec(x, "Lint/format completed successfully", "Lint/format failed").displayResult[0] == 'L';
      Run(FromExec(x, "Lint/format completed successfully", "Lint/format failed"), [c])
  }

  /** Without an explicit command, the script priority decides; with no script nothing runs. */
  lemma LintPriority(root: string, fs: FileSystem, parse: string -> Option<Json>, exec: Command -> ExecResult)
    ensures var pkg := PackageJson.ReadPackageJson(root, fs, parse);
      var r := LintFix(None, root, fs, parse, exec);
      && (PackageJson.HasScript(pkg, "lint:fix") ==> r.issued == [Command("npm run lint:fix", root)])
      && (!PackageJson.HasScript(pkg, "lint:fix") && PackageJson.HasScript(pkg, "lint") ==>
            r.issued == [Command("npm run lint -- --fix", root)])
      && (!PackageJson.HasScript(pkg, "lint:fix") && !PackageJson.HasScript(pkg, "lint") && PackageJson.HasScript(pkg, "format") ==>
            r.issued == [Command("npm run format", root)])
      && (!PackageJson.HasScript(pkg, "lint:fix") && !PackageJson.HasScript(pkg, "lint") && !PackageJson.HasScript(pkg, "format") ==>
            r == Run(NoLintCommand, []))
  {
  }

  const NoTestCommand := ToolResult("No test command found. Provide a command explicitly.", "No test command found")

  /** `runTests(options, rootPath)`: an explicit non-empty command, else `npm run test` when a `test` script exists. */
  function RunTests(command: Option<string>, root: string, fs: FileSystem, parse: string -> Option<Json>, exec: Command -> ExecResult): (r: Run)
    ensures command.Some? && command.value != "" ==> r.issued == [Command(command.value, root)]
    ensures command.None? || command.value == "" ==>
      if PackageJson.HasScript(PackageJson.ReadPackageJson(root, fs, parse), "test") then r.issued == [Command("npm run test", root)]
      else r == Run(NoTestCommand, [])
    ensures r.issued != [] ==> r.result == FromExec(exec(r.issued[0]), "Tests completed successfully", "Tests failed")
  {
    var chosen := if command.Some? && command.value != "" then command
      else if PackageJson.HasScript(PackageJson.ReadPackageJson(root, fs, parse), "test") then Some("npm run test")
      else None;
    if chosen.None? then Run(NoTestCommand, [])
    else
      var c := Command(chosen.value, root);
      Run(FromExec(exec(c), "Tests completed successfully", "Tests failed"), [c])
  }
}

=== FILE: common.dfy ===
/**
  Values shared by every part of the agent model: optional values, the uniform
  tool result, the outcome of a subprocess, and the abstract file system that
  the tool handlers read and write.
 */
module Common {

  datatype Option<T> = None | Some(value: T)

  /** `ToolResult` of src/types/index.ts: text for the model and text for the human. */
  datatype ToolResult = ToolResult(llmResult: string, displayResult: string)

  /** How a tool handler ends: with a result, or by throwing an exception with a message. */
  datatype Outcome = Returned(result: ToolResult) | Threw(message: string)

  /** What `execCommand` reports about one subprocess; the subprocess itself is an oracle. */
  datatype ExecResult = ExecResult(
    stdout: string,
    stderr: string,
    exitCode: Option<int>,
    success: bool,
    error: Option<string>)

  /** A command line issued to `execCommand` together with its working directory. */
  datatype Command = Command(line: string, directory: string)

  /**
    The file system as the handlers see it: file contents by absolute path,
    the set of existing directories, and the paths whose read or write access
    check fails.
   */
  datatype FileSystem = FileSystem(
    files: map<string, string>,
    dirs: set<string>,
    noRead: set<string>,
    noWrite: set<string>)
  {
    /** `fs.existsSync`: a file or a directory of that name exists. */
    predicate Exists(path: string) {
      path in files || path in dirs
    }

    /** `fs.readFileSync` succeeds: the path is a file that passes the read check. */
    predicate CanRead(path: string) {
      path in files && path !in noRead
    }

    function Write(path: string, content: string): (fs': FileSystem)
      ensures fs'.files == files[path := content]
      ensures fs'.dirs == dirs && fs'.noRead == noRead && fs'.noWrite == noWrite
    {
      this.(files := files[path := content])
    }
  }

  /**
    The `LLMresult` every command-running tool builds from a subprocess:
    stdout, then an `STDERR:` block only when stderr is non-empty.
   */
  function CombineOutput(r: ExecResult): (s: string)
    ensures r.stderr == "" ==> s == r.stdout
    ensures r.stderr != "" ==> s == r.stdout + "\nSTDERR:\n" + r.stderr
  {
    r.stdout + (if r.stderr != "" then "\nSTDERR:\n" + r.stderr else "")
  }
}

=== FILE: config.dfy ===
/**
  The `.coolcode.json` configuration of src/core/config.ts: dotted-path
  access into a JSON value, the command-line value parser, the field-wise
  merge of a parsed file over the defaults, and loading with fallback.
  `JSON.parse` is the oracle `parse`, which answers `None` where it throws.
 */
module Config {
  import opened Common
  import opened Text
  import opened Json
  import opened Paths

  /** The parts of a dotted path: `split('.')` without the empty pieces. */
  function PathParts(path: string): (parts: seq<string>)
    ensures forall k :: 0 <= k < |parts| ==> parts[k] != ""
  {
    NonEmpty(Split(path, '.'))
  }

  /** Follows the parts from `cur`; undefined as soon as a null, undefined or primitive value is met. */
  function GetParts(cur: Option<Json>, parts: seq<string>): (r: Option<Json>)
    ensures |parts| == 0 ==> r == cur
    ensures |parts| > 0 && (cur.None? || !IsObject(cur.value)) ==> r.None?
    decreases |parts|
  {
    if |parts| == 0 then cur
    else if cur.None? || !IsObject(cur.value) then None
    else GetParts(Get(cur.value, parts[0]), parts[1..])
  }

  /**
    `getByPath(obj, path)`: a path without parts gives the value itself, one
    part reads that key, and a null, undefined or primitive value has nothing
    below it.
   */
  function GetByPath(obj: Option<Json>, path: string): (r: Option<Json>)
    ensures PathParts(path) == [] ==> r == obj
    ensures |PathParts(path)| == 1 && obj.Some? && IsObject(obj.value) ==> r == Get(obj.value, PathParts(path)[0])
    ensures |PathParts(path)| > 0 && (obj.None? || !IsObject(obj.value)) ==> r.None?
  {
    GetParts(obj, PathParts(path))
  }

  /**
    `current[key] = value` on an object or an array, as `JSON.stringify`
    sees the result; `None` where the assignment throws. An object gains the
    key. An array takes the value at an index, growing with `null` holes
    past its end; its `length` resizes it or throws a `RangeError`; any
    other key is a property stringify drops.
   */
  function Put(cur: Json, key: string, value: Json): (r: Option<Json>)
    requires IsObject(cur)
    ensures r.Some? ==> IsObject(r.value) && r.value.JObj? == cur.JObj?
    ensures cur.JObj? ==> r == Some(JObj(cur.fields[key := value]))
    ensures cur.JArr? ==> (r.None? <==> key == "length" && LengthValue(value).None?)
    ensures cur.JArr? && ArrayIndex(key).Some? ==>
      && r.Some? && Get(r.value, key) == Some(value) && |r.value.items| >= |cur.items|
      && forall j :: 0 <= j < |cur.items| && j != ArrayIndex(key).value ==> r.value.items[j] == cur.items[j]
    ensures cur.JArr? && key == "length" && r.Some? ==> Get(r.value, "length") == Some(JNum(LengthValue(value).value))
    ensures cur.JArr? && key != "length" && ArrayIndex(key).None? ==> r == Some(cur)
  {
    match cur
    case JObj(fields) => Some(JObj(fields[key := value]))
    case JArr(items) =>
      if key == "length" then
        match LengthValue(value)
        case None => None
        case Some(n) => Some(JArr(Resize(items, n)))
      else
        match ArrayIndex(key)
        case Some(i) => Some(JArr(SetIndex(items, i, value)))
        case None => Some(cur)
  }

  /** The intermediate `setByPath` descends into: the existing object, or a fresh `{}` in place of anything else. */
  function Child(cur: Json, key: string): (c: Json)
    requires IsObject(cur)
    ensures IsObject(c)
  {
    var v := Get(cur, key);
    if v.Some? && IsObject(v.value) then v.value else JObj(map[])
  }

  /**
    The writes of `setByPath` below `cur`, innermost first. Only an array's
    `length` can throw, and only along existing structure, before any
    intermediate is created, so a throw leaves the object as it was.
   */
  function SetParts(cur: Json, parts: seq<string>, value: Json): (r: Option<Json>)
    requires IsObject(cur) && |parts| > 0
    ensures r.Some? ==> IsObject(r.value) && r.value.JObj? == cur.JObj?
    ensures r.None? ==> "length" in parts
    decreases |parts|
  {
    if |parts| == 1 then Put(cur, parts[0], value)
    else
      match SetParts(Child(cur, parts[0]), parts[1..], value)
      case None =>
        assert parts == parts[..1] + parts[1..];
        None
      case Some(c) => Put(cur, parts[0], c)
  }

  /** `setByPath(obj, path, value)` on an object: the updated object, or `None` when an assignment throws. */
  function SetByPath(obj: Json, path: string, value: Json): (r: Option<Json>)
    requires IsObject(obj)
    ensures PathParts(path) == [] ==> r == Some(obj)
    ensures r.Some? ==> IsObject(r.value) && r.value.JObj? == obj.JObj?
    ensures r.None? ==> "length" in PathParts(path)
  {
    var parts := PathParts(path);
    if |parts| == 0 then Some(obj) else SetParts(obj, parts, value)
  }

  /** A write lands where it can be read back: any key of an object, an index of an array. */
  predicate Writable(cur: Json, key: string)
    requires IsObject(cur)
  {
    cur.JObj? || ArrayIndex(key).Some?
  }

  predicate PathWritable(cur: Json, parts: seq<string>)
    requires IsObject(cur)
    decreases |parts|
  {
    |parts| == 0 ||
    (Writable(cur, parts[0]) && (|parts| == 1 || PathWritable(Child(cur, parts[0]), parts[1..])))
  }

  lemma PutGet(cur: Json, key: string, value: Json)
    requires IsObject(cur) && Writable(cur, key)
    ensures Put(cur, key, value).Some? && Get(Put(cur, key, value).value, key) == Some(value)
  {
  }

  /** Reading a path right after writing it gives the written value. */
  lemma {:induction false} GetAfterSetParts(cur: Json, parts: seq<string>, value: Json)
    requires IsObject(cur) && |parts| > 0 && PathWritable(cur, parts)
    ensures SetParts(cur, parts, value).Some?
    ensures GetParts(SetParts(cur, parts, value), parts) == Some(value)
    decreases |parts|
  {
    if |parts| == 1 {
      PutGet(cur, parts[0], value);
    } else {
      GetAfterSetParts(Child(cur, parts[0]), parts[1..], value);
      var inner := SetParts(Child(cur, parts[0]), parts[1..], value).value;
      PutGet(cur, parts[0], inner);
    }
  }

  /**
    `getByPath(o, p)` after `setByPath(o, p, v)` is `v`, for a path with at
    least one segment that goes through object keys and array indices,
    those past an array's end included.
   */
  lemma GetAfterSet(obj: Json, path: string, value: Json)
    requires IsObject(obj) && |PathParts(path)| > 0 && PathWritable(obj, PathParts(path))
    ensures SetByPath(obj, path, value).Some?
    ensures GetByPath(SetByPath(obj, path, value), path) == Some(value)
  {
    GetAfterSetParts(obj, PathParts(path), value);
  }

  /** Writing index 0 of an empty array gives a one-element array; index 2 pads with two `null`s. */
  lemma ArrayGrows()
    ensures SetParts(JObj(map["a" := JArr([])]), ["a", "0"], JNum(1)) == Some(JObj(map["a" := JArr([JNum(1)])]))
    ensures SetParts(JObj(map["a" := JArr([])]), ["a", "2"], JNum(1)) == Some(JObj(map["a" := JArr([JNull, JNull, JNum(1)])]))
  {
    var o := JObj(map["a" := JArr([])]);
    assert Child(o, "a") == JArr([]);
    assert AllDigits("0") && DigitsValue("0") == 0 && ArrayIndex("0") == Some(0);
    assert AllDigits("2") && DigitsValue("2") == 2 && ArrayIndex("2") == Some(2);
    assert SetIndex([], 0, JNum(1)) == [JNum(1)];
    assert SetIndex([], 2, JNum(1)) == [JNull, JNull, JNum(1)];
    assert SetParts(JArr([]), ["0"], JNum(1)) == Some(JArr([JNum(1)]));
    assert SetParts(JArr([]), ["2"], JNum(1)) == Some(JArr([JNull, JNull, JNum(1)]));
    assert ["a", "0"][1..] == ["0"] && ["a", "2"][1..] == ["2"];
    assert map["a" := JArr([])]["a" := JArr([JNum(1)])] == map["a" := JArr([JNum(1)])];
    assert map["a" := JArr([])]["a" := JArr([JNull, JNull, JNum(1)])] == map["a" := JArr([JNull, JNull, JNum(1)])];
  }

  /** An array's `length` resizes it for a valid length and throws otherwise, as does descending through it. */
  lemma ArrayLength()
    ensures SetParts(JObj(map["a" := JArr([JNum(7)])]), ["a", "length"], JNum(3))
      == Some(JObj(map["a" := JArr([JNum(7), JNull, JNull])]))
    ensures SetParts(JObj(map["a" := JArr([])]), ["a", "length"], JNum(-1)) == None
    ensures SetParts(JObj(map["a" := JArr([])]), ["a", "length", "b"], JNum(1)) == None
  {
    var a1 := JArr([JNum(7)]);
    assert Child(JObj(map["a" := a1]), "a") == a1;
    assert Resize([JNum(7)], 3) == [JNum(7), JNull, JNull];
    assert SetParts(a1, ["length"], JNum(3)) == Some(JArr([JNum(7), JNull, JNull]));
    assert ["a", "length"][1..] == ["length"];
    assert map["a" := a1]["a" := JArr([JNum(7), JNull, JNull])] == map["a" := JArr([JNum(7), JNull, JNull])];
    assert Child(JObj(map["a" := JArr([])]), "a") == JArr([]);
    assert ["a", "length", "b"][1..] == ["length", "b"];
    assert ["length", "b"][1..] == ["b"];
    assert Child(JArr([]), "length") == JObj(map[]);
  }

  /**
    Writing a path leaves every other top-level key of an object as it was;
    the write can only throw at a `length` below the top level.
   */
  lemma SetKeepsOtherKeys(obj: map<string, Json>, path: string, value: Json, key: string)
    requires |PathParts(path)| > 0 && key != PathParts(path)[0]
    ensures var r := SetByPath(JObj(obj), path, value);
      && (r.None? ==> |PathParts(path)| > 1 && "length" in PathParts(path)[1..])
      && (r.Some? ==> r.value.JObj? && (key in obj <==> key in r.value.fields))
      && (r.Some? && key in obj ==> r.value.fields[key] == obj[key])
  {
    var parts := PathParts(path);
    if |parts| > 1 {
      assert parts == [parts[0]] + parts[1..];
    }
  }

  /** `trimmed.replace(/^'|'$/g, '"')`: a leading and a trailing single quote become double quotes. */
  function SwapOuterQuotes(t: string): (r: string)
    ensures |r| == |t|
    ensures forall k :: 0 < k < |t| - 1 ==> r[k] == t[k]
  {
    var a := if |t| > 0 && t[0] == '\'' then "\"" + t[1..] else t;
    if |t| >= 2 && t[|t| - 1] == '\'' then a[..|a| - 1] + "\"" else a
  }

  /** Whether `parseConfigValue` hands the trimmed text to `JSON.parse`. */
  predicate LooksLikeJson(t: string) {
    t == "true" || t == "false" || t == "null" ||
    IsPrefix("{", t) || IsPrefix("[", t) || IsPrefix("\"", t) || IsPrefix("'", t)
  }

  /**
    `parseConfigValue(raw)`: blank text is `''`; JSON-looking text is parsed
    (the raw text when that fails); an integer in decimal, hexadecimal,
    octal or binary notation is a number; anything else stays the raw,
    untrimmed text.
   */
  function ParseConfigValue(raw: string, parse: string -> Option<Json>): (r: Json)
    ensures IsBlank(raw) ==> r == JStr("")
    ensures !IsBlank(raw) && LooksLikeJson(Trim(raw)) && parse(SwapOuterQuotes(Trim(raw))).None? ==> r == JStr(raw)
    ensures !IsBlank(raw) && LooksLikeJson(Trim(raw)) && parse(SwapOuterQuotes(Trim(raw))).Some? ==>
      r == parse(SwapOuterQuotes(Trim(raw))).value
    ensures !IsBlank(raw) && !LooksLikeJson(Trim(raw)) ==>
      r == (if JsNumber(Trim(raw)).Some? then JNum(JsNumber(Trim(raw)).value) else JStr(raw))
  {
    var t := Trim(raw);
    if t == "" then JStr("")
    else if LooksLikeJson(t) then
      match parse(SwapOuterQuotes(t))
      case Some(v) => v
      case None => JStr(raw)
    else
      match JsNumber(t)
      case Some(n) => JNum(n)
      case None => JStr(raw)
  }

  /** The JSON parser reads the three keyword literals as themselves. */
  predicate ParsesKeywords(parse: string -> Option<Json>) {
    parse("true") == Some(JBool(true)) && parse("false") == Some(JBool(false)) && parse("null") == Some(JNull)
  }

  lemma TrimUnpadded(t: string)
    requires |t| > 0 && !IsSpace(t[0]) && !IsSpace(t[|t| - 1])
    ensures Trim(t) == t
  {
    TrimStartNoSpace(t);
    TrimEndNoSpace(t);
  }

  /** The keywords `true`, `false` and `null` give their JSON values. */
  lemma ParseConfigKeywords(parse: string -> Option<Json>)
    requires ParsesKeywords(parse)
    ensures ParseConfigValue("true", parse) == JBool(true)
    ensures ParseConfigValue("false", parse) == JBool(false)
    ensures ParseConfigValue("null", parse) == JNull
  {
    TrimUnpadded("true");
    TrimUnpadded("false");
    TrimUnpadded("null");
    assert SwapOuterQuotes("true") == "true";
    assert SwapOuterQuotes("false") == "false";
    assert SwapOuterQuotes("null") == "null";
  }

  /** The decimal text of an integer gives that number. */
  lemma ParseConfigNumber(parse: string -> Option<Json>, n: int)
    ensures ParseConfigValue(IntText(n), parse) == JNum(n)
  {
    var t := IntText(n);
    IntTextShape(n);
    TrimUnpadded(t);
    JsNumberText(n);
    assert !LooksLikeJson(t);
  }

  lemma IntTextShape(n: int)
    ensures |IntText(n)| > 0
    ensures !IsSpace(IntText(n)[0]) && !IsSpace(IntText(n)[|IntText(n)| - 1])
    ensures IntText(n)[0] == '-' || IsDigit(IntText(n)[0])
    ensures IsDigit(IntText(n)[|IntText(n)| - 1])
  {
  }

  /** The configuration record, each field the JSON value it holds (`None` where undefined). */
  datatype CoolCodeConfig = CoolCodeConfig(
    model: Option<Json>,
    temperature: Option<Json>,
    maxTokens: Option<Json>,
    fileTreeMaxDepth: Option<Json>,
    scanCache: Option<Json>,
    allowDangerous: Option<Json>,
    confirmEdits: Option<Json>,
    maxContextTokens: Option<Json>,
    blockReadPatterns: Option<Json>)

  const DefaultBlockReadPatterns: seq<string> :=
    [".env", ".env.*", "*.pem", "*.key", "id_rsa", "id_ed25519", ".npmrc"]

  function Strings(xs: seq<string>): (r: seq<Json>)
    ensures |r| == |xs| && forall k :: 0 <= k < |xs| ==> r[k] == JStr(xs[k])
  {
    if |xs| == 0 then [] else [JStr(xs[0])] + Strings(xs[1..])
  }

  /** `DEFAULT_CONFIG`. */
  const DefaultConfig: CoolCodeConfig := CoolCodeConfig(
    Some(JStr("gemini-2.5-flash")), None, None,
    None, Some(JBool(true)), Some(JBool(false)), Some(JBool(false)), Some(JNum(20000)),
    Some(JArr(Strings(DefaultBlockReadPatterns))))

  /** `a ?? b`: the first value unless it is null or undefined. */
  function Nullish(a: Option<Json>, b: Option<Json>): (r: Option<Json>)
    ensures a.Some? && !a.value.JNull? ==> r == a
    ensures (a.None? || a.value.JNull?) ==> r == b
  {
    if a.Some? && !a.value.JNull? then a else b
  }

  /** `overrides?.section?.key`. */
  function Override(overrides: Option<Json>, section: string, key: string): Option<Json> {
    GetOpt(GetOpt(overrides, section), key)
  }

  /**
    A merged field: the override where it is set and not null, else the
    fallback.
   */
  predicate Merged(got: Option<Json>, over: Option<Json>, fallback: Option<Json>) {
    if over.Some? && !over.value.JNull? then got == over else got == fallback
  }

  /**
    `mergeConfig(base, overrides)`: each known field from the override unless
    nullish, else from the base; a null base `temperature` or `maxTokens`
    falls through `?? undefined` to undefined.
   */
  function MergeConfig(base: CoolCodeConfig, overrides: Option<Json>): (c: CoolCodeConfig)
    ensures Merged(c.model, Override(overrides, "llm", "model"), base.model)
    ensures Merged(c.temperature, Override(overrides, "llm", "temperature"),
      if base.temperature == Some(JNull) then None else base.temperature)
    ensures Merged(c.maxTokens, Override(overrides, "llm", "maxTokens"),
      if base.maxTokens == Some(JNull) then None else base.maxTokens)
    ensures Merged(c.fileTreeMaxDepth, Override(overrides, "features", "fileTreeMaxDepth"), base.fileTreeMaxDepth)
    ensures Merged(c.scanCache, Override(overrides, "features", "scanCache"), base.scanCache)
    ensures Merged(c.allowDangerous, Override(overrides, "features", "allowDangerous"), base.allowDangerous)
    ensures Merged(c.confirmEdits, Override(overrides, "features", "confirmEdits"), base.confirmEdits)
    ensures Merged(c.maxContextTokens, Override(overrides, "features", "maxContextTokens"), base.maxContextTokens)
    ensures Merged(c.blockReadPatterns, Override(overrides, "guardrails", "blockReadPatterns"), base.blockReadPatterns)
  {
    CoolCodeConfig(
      Nullish(Override(overrides, "llm", "model"), base.model),
      Nullish(Override(overrides, "llm", "temperature"), Nullish(base.temperature, None)),
      Nullish(Override(overrides, "llm", "maxTokens"), Nullish(base.maxTokens, None)),
      Nullish(Override(overrides, "features", "fileTreeMaxDepth"), base.fileTreeMaxDepth),
      Nullish(Override(overrides, "features", "scanCache"), base.scanCache),
      Nullish(Override(overrides, "features", "allowDangerous"), base.allowDangerous),
      Nullish(Override(overrides, "features", "confirmEdits"), base.confirmEdits),
      Nullish(Override(overrides, "features", "maxContextTokens"), base.maxContextTokens),
      Nullish(Override(overrides, "guardrails", "blockReadPatterns"), base.blockReadPatterns))
  }

  function Field(m: map<string, Json>, key: string, v: Option<Json>): map<string, Json> {
    if v.Some? then m[key := v.value] else m
  }

  /** The configuration written out as the JSON object `saveConfig` stores. */
  function ToJson(c: CoolCodeConfig): Json {
    JObj(map[
      "llm" := JObj(Field(Field(Field(map[], "model", c.model), "temperature", c.temperature), "maxTokens", c.maxTokens)),
      "features" := JObj(Field(Field(Field(Field(Field(map[],
        "fileTreeMaxDepth", c.fileTreeMaxDepth), "scanCache", c.scanCache), "allowDangerous", c.allowDangerous),
        "confirmEdits", c.confirmEdits), "maxContextTokens", c.maxContextTokens)),
      "guardrails" := JObj(Field(map[], "blockReadPatterns", c.blockReadPatterns))])
  }

  predicate NoNulls(c: CoolCodeConfig) {
    (c.model.Some? ==> !c.model.value.JNull?) &&
    (c.temperature.Some? ==> !c.temperature.value.JNull?) &&
    (c.maxTokens.Some? ==> !c.maxTokens.value.JNull?) &&
    (c.fileTreeMaxDepth.Some? ==> !c.fileTreeMaxDepth.value.JNull?) &&
    (c.scanCache.Some? ==> !c.scanCache.value.JNull?) &&
    (c.allowDangerous.Some? ==> !c.allowDangerous.value.JNull?) &&
    (c.confirmEdits.Some? ==> !c.confirmEdits.value.JNull?) &&
    (c.maxContextTokens.Some? ==> !c.maxContextTokens.value.JNull?) &&
    (c.blockReadPatterns.Some? ==> !c.blockReadPatterns.value.JNull?)
  }

  predicate Complete(c: CoolCodeConfig) {
    c.model.Some? && c.temperature.Some? && c.maxTokens.Some? && c.fileTreeMaxDepth.Some? &&
    c.scanCache.Some? && c.allowDangerous.Some? && c.confirmEdits.Some? &&
    c.maxContextTokens.Some? && c.blockReadPatterns.Some?
  }

  /** Merging a saved configuration over any base gives back the saved one when every field is set. */
  lemma MergeSaved(base: CoolCodeConfig, c: CoolCodeConfig)
    requires NoNulls(c) && Complete(c)
    ensures MergeConfig(base, Some(ToJson(c))) == c
  {
  }

  /**
    An override that is absent, or holds no known key, leaves the base
    unchanged, unless the base's `temperature` or `maxTokens` is null.
   */
  lemma MergeNothing(base: CoolCodeConfig)
    ensures var plain := base.temperature != Some(JNull) && base.maxTokens != Some(JNull);
      && (MergeConfig(base, None) == base <==> plain)
      && (MergeConfig(base, Some(JObj(map[]))) == base <==> plain)
      && (MergeConfig(base, Some(JNull)) == base <==> plain)
  {
  }

  /** Merging the same overrides twice is merging them once. */
  lemma MergeIdempotent(base: CoolCodeConfig, overrides: Option<Json>)
    ensures MergeConfig(MergeConfig(base, overrides), overrides) == MergeConfig(base, overrides)
  {
  }

  /** `getConfigPath(root)`. */
  function ConfigPath(root: string): (r: string)
    ensures IsAbsolute(r) && Basename(r) == ".coolcode.json"
  {
    JoinBasename(root, ".coolcode.json");
    Join(root, [".coolcode.json"])
  }

  /** `loadConfig(root)`: the defaults when the file is missing, unreadable or not JSON, else the merge over them. */
  function LoadConfig(root: string, fs: FileSystem, parse: string -> Option<Json>): (c: CoolCodeConfig)
    ensures !fs.CanRead(ConfigPath(root)) ==> c == DefaultConfig
    ensures fs.CanRead(ConfigPath(root)) && parse(fs.files[ConfigPath(root)]).None? ==> c == DefaultConfig
    ensures fs.CanRead(ConfigPath(root)) && parse(fs.files[ConfigPath(root)]).Some? ==>
      c == MergeConfig(DefaultConfig, parse(fs.files[ConfigPath(root)]))
  {
    var path := ConfigPath(root);
    if !fs.Exists(path) || !fs.CanRead(path) then DefaultConfig
    else
      match parse(fs.files[path])
      case None => DefaultConfig
      case Some(v) => MergeConfig(DefaultConfig, Some(v))
  }
}

=== FILE: context_manager.dfy ===
/**
  The conversation state of src/core/contextManager.ts: the message log with
  its token estimates and hard cap, the budgeted window of recent messages
  the prompt includes, the prompt sections, the summary and the pinned files.
  Prompt texts, `JSON.stringify` of the registry and the folder tree are
  given as parameters.
 */
module ContextManager {
  import opened Common
  import opened Text
  import opened Paths

  datatype Role = User | Model

  function RoleText(r: Role): string {
    match r
    case User => "user"
    case Model => "model"
  }

  datatype Message = Message(role: Role, content: string, tokens: int)

  datatype AgentMode = Planning | Agent | Ask

  /** `estimateTokens`: `Math.ceil(length / 4)`. */
  function EstimateTokens(text: string): (t: nat)
    ensures 4 * t >= |text| && 4 * t < |text| + 4
  {
    (|text| + 3) / 4
  }

  /** A message as the manager builds it, carrying the estimate of its own content. */
  function NewMessage(role: Role, content: string): (m: Message)
    ensures m.role == role && m.content == content && m.tokens == EstimateTokens(content)
  {
    Message(role, content, EstimateTokens(content))
  }

  /** `msg.tokens || estimateTokens(msg.content)`. */
  function Cost(m: Message): int {
    if m.tokens != 0 then m.tokens else EstimateTokens(m.content)
  }

  /** The messages the manager builds cost exactly their estimate, which is never negative. */
  lemma CostOfNew(role: Role, content: string)
    ensures Cost(NewMessage(role, content)) == EstimateTokens(content) >= 0
  {
  }

  /** Every message carries the estimate of its content. */
  predicate Estimated(ms: seq<Message>) {
    forall k :: 0 <= k < |ms| ==> ms[k].tokens == EstimateTokens(ms[k].content)
  }

  const HardCap := 100
  const KeepAfterCap := 50

  /** `pruneContext`: beyond 100 messages only the newest 50 are kept. */
  function Prune(ms: seq<Message>): (r: seq<Message>)
    ensures |ms| <= HardCap ==> r == ms
    ensures |ms| > HardCap ==> |r| == KeepAfterCap && IsSuffixSeq(r, ms)
  {
    if |ms| > HardCap then ms[|ms| - KeepAfterCap..] else ms
  }

  /** The state of one context manager. */
  datatype Context = Context(
    systemPrompt: string,
    conversations: seq<Message>,
    rootDir: string,
    cwd: string,
    fileTree: string,
    mode: AgentMode,
    summary: Option<string>,
    maxTokens: int,
    pinned: seq<string>)
  {
    /** What every operation keeps: at most 100 estimated messages and no duplicate pin. */
    ghost predicate Valid() {
      |conversations| <= HardCap && Estimated(conversations) && Distinct(pinned)
    }
  }

  predicate Distinct(xs: seq<string>) {
    forall i, j :: 0 <= i < j < |xs| ==> xs[i] != xs[j]
  }

  /** A new manager for `cwd`: no messages, agent mode, no summary, a budget of 20000 tokens. */
  function Init(systemPrompt: string, cwd: string, fileTree: string): (c: Context)
    ensures c.Valid() && c.conversations == [] && c.maxTokens == 20000 && c.mode == Agent
    ensures c.rootDir == cwd && c.cwd == cwd && c.summary.None? && c.pinned == []
  {
    Context(systemPrompt, [], cwd, cwd, fileTree, Agent, None, 20000, [])
  }

  function Append(c: Context, m: Message): Context {
    c.(conversations := Prune(c.conversations + [m]))
  }

  /** `addUserMessage(query)`. */
  function AddUserMessage(c: Context, query: string): (c': Context)
    ensures c'.conversations == Prune(c.conversations + [NewMessage(User, query)])
    ensures c'.(conversations := c.conversations) == c
  {
    Append(c, NewMessage(User, query))
  }

  /** The text `addResponse` records for a tool's output; `callJson` is `JSON.stringify(toolCall)`. */
  function ResponseText(llmResponse: string, callJson: string): string {
    "Output of " + callJson + ":\n" + llmResponse
  }

  /** `addResponse(LLMresponse, toolCall)`: a model message. */
  function AddResponse(c: Context, llmResponse: string, callJson: string): (c': Context)
    ensures c'.conversations == Prune(c.conversations + [NewMessage(Model, ResponseText(llmResponse, callJson))])
    ensures c'.(conversations := c.conversations) == c
  {
    Append(c, NewMessage(Model, ResponseText(llmResponse, callJson)))
  }

  /** Appending keeps the log within the cap, estimated, and ending with the new message. */
  lemma AppendKeepsValid(c: Context, role: Role, content: string)
    requires c.Valid()
    ensures var c' := Append(c, NewMessage(role, content));
      && c'.Valid()
      && c'.conversations[|c'.conversations| - 1] == NewMessage(role, content)
      && (|c.conversations| < HardCap ==> c'.conversations == c.conversations + [NewMessage(role, content)])
      && (|c.conversations| == HardCap ==> |c'.conversations| == KeepAfterCap)
  {
    var all := c.conversations + [NewMessage(role, content)];
    var c' := Append(c, NewMessage(role, content));
    forall k | 0 <= k < |c'.conversations|
      ensures c'.conversations[k].tokens == EstimateTokens(c'.conversations[k].content)
    {
      if |all| > HardCap {
        assert c'.conversations[k] == all[|all| - KeepAfterCap + k];
      }
    }
  }

  /** A long run of additions from an empty log stays at or below 100 messages. */
  lemma {:induction false} AppendsStayBounded(c: Context, queries: seq<string>)
    requires c.Valid()
    ensures AddAll(c, queries).Valid()
    decreases |queries|
  {
    if |queries| > 0 {
      AppendKeepsValid(c, User, queries[0]);
      AppendsStayBounded(AddUserMessage(c, queries[0]), queries[1..]);
    }
  }

  function AddAll(c: Context, queries: seq<string>): Context
    decreases |queries|
  {
    if |queries| == 0 then c else AddAll(AddUserMessage(c, queries[0]), queries[1..])
  }

  /** The summed cost of a list of messages. */
  function Total(ms: seq<Message>): int {
    if |ms| == 0 then 0 else Total(ms[..|ms| - 1]) + Cost(ms[|ms| - 1])
  }

  lemma TotalAppend(ms: seq<Message>, m: Message)
    ensures Total(ms + [m]) == Total(ms) + Cost(m)
  {
    assert (ms + [m])[..|ms|] == ms;
  }

  lemma {:induction false} TotalNonNegative(ms: seq<Message>)
    requires forall k :: 0 <= k < |ms| ==> ms[k].tokens >= 0
    ensures Total(ms) >= 0
    decreases |ms|
  {
    if |ms| > 0 {
      TotalNonNegative(ms[..|ms| - 1]);
    }
  }

  /**
    How many of the newest messages the walk takes, having already used
    `used` tokens: it stops at the first message that does not fit.
   */
  function Fit(ms: seq<Message>, used: int, max: int): (n: nat)
    ensures n <= |ms|
  {
    if |ms| == 0 then 0
    else
      var cost := Cost(ms[|ms| - 1]);
      if used + cost > max then 0 else 1 + Fit(ms[..|ms| - 1], used + cost, max)
  }

  /** The messages `buildConversationSection` includes, in chronological order. */
  function Window(ms: seq<Message>, max: int): (w: seq<Message>)
    ensures IsSuffixSeq(w, ms)
  {
    ms[|ms| - Fit(ms, 0, max)..]
  }

  /** The suffix the walk takes stays within the budget. */
  lemma {:induction false} FitWithin(ms: seq<Message>, used: int, max: int)
    ensures Fit(ms, used, max) == 0 || used + Total(ms[|ms| - Fit(ms, used, max)..]) <= max
    decreases |ms|
  {
    if |ms| > 0 {
      var last := ms[|ms| - 1];
      var rest := ms[..|ms| - 1];
      var cost := Cost(last);
      if used + cost <= max {
        FitWithin(rest, used + cost, max);
        var n' := Fit(rest, used + cost, max);
        assert Fit(ms, used, max) == n' + 1;
        var suffix := rest[|rest| - n'..];
        assert ms[|ms| - (n' + 1)..] == suffix + [last];
        TotalAppend(suffix, last);
        if n' == 0 {
          assert suffix == [];
        }
      }
    }
  }

  /** The message just older than the suffix the walk takes would exceed the budget. */
  lemma {:induction false} FitMaximal(ms: seq<Message>, used: int, max: int)
    ensures Fit(ms, used, max) == |ms| || used + Total(ms[|ms| - Fit(ms, used, max) - 1..]) > max
    decreases |ms|
  {
    if |ms| > 0 {
      var last := ms[|ms| - 1];
      var rest := ms[..|ms| - 1];
      var cost := Cost(last);
      if used + cost <= max {
        FitMaximal(rest, used + cost, max);
        FitMaximalStep(ms, used, max);
      } else {
        assert ms[|ms| - 1..] == [] + [last];
        TotalAppend([], last);
      }
    }
  }

  lemma FitMaximalStep(ms: seq<Message>, used: int, max: int)
    requires |ms| > 0 && used + Cost(ms[|ms| - 1]) <= max
    requires var rest := ms[..|ms| - 1]; var n' := Fit(rest, used + Cost(ms[|ms| - 1]), max);
      n' == |rest| || used + Cost(ms[|ms| - 1]) + Total(rest[|rest| - n' - 1..]) > max
    ensures Fit(ms, used, max) == |ms| || used + Total(ms[|ms| - Fit(ms, used, max) - 1..]) > max
  {
    var last := ms[|ms| - 1];
    var rest := ms[..|ms| - 1];
    var n' := Fit(rest, used + Cost(last), max);
    if n' < |rest| {
      assert ms[|ms| - (n' + 1) - 1..] == rest[|rest| - n' - 1..] + [last];
      TotalAppend(rest[|rest| - n' - 1..], last);
    }
  }

  /** The window stays within the token budget, and is as long as the budget allows. */
  lemma WindowBudget(ms: seq<Message>, max: int)
    ensures Window(ms, max) == [] || Total(Window(ms, max)) <= max
    ensures |Window(ms, max)| < |ms| ==> Total(ms[|ms| - |Window(ms, max)| - 1..]) > max
  {
    FitWithin(ms, 0, max);
    FitMaximal(ms, 0, max);
  }

  /** A newest message that alone exceeds the budget leaves the window empty. */
  lemma OversizedNewest(ms: seq<Message>, max: int)
    requires |ms| > 0 && Cost(ms[|ms| - 1]) > max
    ensures Window(ms, max) == []
  {
  }

  /** A larger budget never takes fewer messages, when costs are not negative. */
  lemma {:induction false} FitMonotone(ms: seq<Message>, used: int, max1: int, max2: int)
    requires max1 <= max2
    requires forall k :: 0 <= k < |ms| ==> ms[k].tokens >= 0
    ensures Fit(ms, used, max1) <= Fit(ms, used, max2)
    decreases |ms|
  {
    if |ms| > 0 && used + Cost(ms[|ms| - 1]) <= max1 {
      FitMonotone(ms[..|ms| - 1], used + Cost(ms[|ms| - 1]), max1, max2);
    }
  }

  /** `setMaxTokens` to a lower budget never includes more messages. */
  lemma LowerBudgetShrinksWindow(c: Context, max: int)
    requires c.Valid() && max <= c.maxTokens
    ensures |Window(SetMaxTokens(c, max).conversations, max)| <= |Window(c.conversations, c.maxTokens)|
  {
    FitMonotone(c.conversations, 0, max, c.maxTokens);
  }

  /**
    The loop of `buildConversationSection` over the reversed log: each
    message that fits is put in front of those already included.
   */
  method IncludedMessages(ms: seq<Message>, max: int) returns (included: seq<Message>)
    ensures included == Window(ms, max)
  {
    included := [];
    var currentTokens := 0;
    var k := |ms|;
    assert ms[..k] == ms;
    while k > 0
      invariant 0 <= k <= |ms|
      invariant included == ms[k..]
      invariant |included| + Fit(ms[..k], currentTokens, max) == Fit(ms, 0, max)
    {
      var msg := ms[k - 1];
      var msgTokens := Cost(msg);
      if currentTokens + msgTokens > max {
        break;
      }
      assert ms[..k][..k - 1] == ms[..k - 1];
      included := [msg] + included;
      currentTokens := currentTokens + msgTokens;
      k := k - 1;
    }
  }

  /** One `role: content` line per message, oldest first. */
  function RenderMessages(ms: seq<Message>): string {
    if |ms| == 0 then "" else RenderMessages(ms[..|ms| - 1]) + RoleText(ms[|ms| - 1].role) + ": " + ms[|ms| - 1].content + "\n"
  }

  const ConversationHeader := "--- Recent Conversation ---\n"

  /** The summary line, present only for a non-empty summary. */
  function SummaryText(summary: Option<string>): string {
    if summary.Some? && summary.value != "" then "[SUMMARY OF PREVIOUS CONTEXT]: " + summary.value + "\n\n" else ""
  }

  /** `buildConversationSection`: the header, the summary, then the window. */
  function ConversationSection(c: Context): (s: string)
    ensures IsPrefix(ConversationHeader + SummaryText(c.summary), s)
    ensures IsSuffix(RenderMessages(Window(c.conversations, c.maxTokens)), s)
  {
    ConversationHeader + SummaryText(c.summary) + RenderMessages(Window(c.conversations, c.maxTokens))
  }

  /** A set summary appears before every message of the window. */
  lemma SummaryFirst(c: Context, s: string)
    requires s != ""
    ensures var sec := ConversationSection(SetSummary(c, s));
      OccursAt(sec, "[SUMMARY OF PREVIOUS CONTEXT]: " + s, |ConversationHeader|)
      && IsSuffix(RenderMessages(Window(c.conversations, c.maxTokens)), sec)
      && |ConversationHeader| + |"[SUMMARY OF PREVIOUS CONTEXT]: " + s| <= |sec| - |RenderMessages(Window(c.conversations, c.maxTokens))|
  {
    var sec := ConversationSection(SetSummary(c, s));
    assert sec == ConversationHeader + ("[SUMMARY OF PREVIOUS CONTEXT]: " + s) + "\n\n"
      + RenderMessages(Window(c.conversations, c.maxTokens));
  }

  /** The texts the prompt is assembled from; they come from the prompts module and the registry. */
  datatype PromptTexts = PromptTexts(
    modePrompt: AgentMode -> string,
    registryJson: string,
    examples: string,
    toolSelection: string)

  function SystemSection(c: Context, t: PromptTexts): string {
    c.systemPrompt + "\n\n" + t.modePrompt(c.mode)
  }

  const PinnedMarker := "\n--- Pinned Files Context ---"

  /** One pinned file's part of the project section. */
  function PinnedPart(c: Context, fs: FileSystem, p: string): seq<string> {
    if !fs.Exists(p) then []
    else if fs.CanRead(p) then ["File: " + Relative(c.rootDir, c.rootDir, p) + "\n```\n" + fs.files[p] + "\n```"]
    else ["File: " + p + " (Error reading file)"]
  }

  function PinnedParts(c: Context, fs: FileSystem, ps: seq<string>): seq<string> {
    if |ps| == 0 then [] else PinnedPart(c, fs, ps[0]) + PinnedParts(c, fs, ps[1..])
  }

  /** `buildProjectStateSection`: cwd, file tree, then the pinned files that exist. */
  function ProjectSection(c: Context, fs: FileSystem): (s: string)
    ensures IsPrefix("CWD: " + c.cwd + "\n", s)
  {
    var parts := ["CWD: " + c.cwd, "File Tree: " + c.fileTree]
      + (if |c.pinned| > 0 then [PinnedMarker] + PinnedParts(c, fs, c.pinned) else []);
    assert parts == ["CWD: " + c.cwd] + parts[1..];
    JoinCons("CWD: " + c.cwd, parts[1..], "\n");
    JoinWith(parts, "\n")
  }

  /** The pinned paths that exist, in the order they were pinned. */
  function ShownPins(fs: FileSystem, ps: seq<string>): (r: seq<string>)
    ensures forall p :: p in r <==> p in ps && fs.Exists(p)
  {
    if |ps| == 0 then []
    else (if fs.Exists(ps[0]) then [ps[0]] else []) + ShownPins(fs, ps[1..])
  }

  /** Each text on a line of its own, after what precedes it. */
  function AsLines(parts: seq<string>): string {
    if |parts| == 0 then "" else "\n" + parts[0] + AsLines(parts[1..])
  }

  lemma {:induction false} JoinAsLines(x: string, xs: seq<string>)
    ensures JoinWith([x] + xs, "\n") == x + AsLines(xs)
    decreases |xs|
  {
    if |xs| > 0 {
      JoinCons(x, xs, "\n");
      JoinAsLines(xs[0], xs[1..]);
      assert [xs[0]] + xs[1..] == xs;
    }
  }

  /**
    The pinned files' parts, one per pinned path that exists, in pin order:
    a readable file as a fenced block headed by its path relative to the
    root, any other existing path as an `(Error reading file)` line naming
    it in full.
   */
  lemma {:induction false} PinnedPartsShown(c: Context, fs: FileSystem, ps: seq<string>)
    ensures var parts, shown := PinnedParts(c, fs, ps), ShownPins(fs, ps);
      && |parts| == |shown|
      && forall k :: 0 <= k < |parts| ==>
           && (fs.CanRead(shown[k]) ==>
                 parts[k] == "File: " + Relative(c.rootDir, c.rootDir, shown[k]) + "\n```\n" + fs.files[shown[k]] + "\n```")
           && (!fs.CanRead(shown[k]) ==> parts[k] == "File: " + shown[k] + " (Error reading file)")
    decreases |ps|
  {
    if |ps| > 0 {
      PinnedPartsShown(c, fs, ps[1..]);
    }
  }

  /**
    The project section is the `CWD:` line and the `File Tree:` line; when
    files are pinned, a blank line, the pinned-files marker and the pinned
    parts follow, each on a line of its own.
   */
  lemma ProjectSectionShape(c: Context, fs: FileSystem)
    ensures ProjectSection(c, fs) == "CWD: " + c.cwd + "\n" + "File Tree: " + c.fileTree
      + (if |c.pinned| > 0 then "\n" + PinnedMarker + AsLines(PinnedParts(c, fs, c.pinned)) else "")
  {
    var rest := if |c.pinned| > 0 then [PinnedMarker] + PinnedParts(c, fs, c.pinned) else [];
    assert ProjectSection(c, fs) == JoinWith(["CWD: " + c.cwd, "File Tree: " + c.fileTree] + rest, "\n");
    TwoLines("CWD: " + c.cwd, "File Tree: " + c.fileTree, rest);
    if |c.pinned| > 0 {
      AsLinesCons(PinnedMarker, PinnedParts(c, fs, c.pinned));
    }
  }

  lemma TwoLines(a: string, b: string, rest: seq<string>)
    ensures JoinWith([a, b] + rest, "\n") == a + "\n" + b + AsLines(rest)
  {
    var tail := [b] + rest;
    assert [a, b] + rest == [a] + tail;
    JoinAsLines(a, tail);
    assert tail[0] == b && tail[1..] == rest;
  }

  lemma AsLinesCons(x: string, xs: seq<string>)
    ensures AsLines([x] + xs) == "\n" + x + AsLines(xs)
  {
    assert ([x] + xs)[1..] == xs;
  }

  function ToolSection(t: PromptTexts): string {
    "These are your Tools and what they expect:\n" + t.registryJson + " here are some examples:\n" + t.examples
      + " and the response I am expecting is like \n" + t.toolSelection
  }

  /**
    `buildPrompt`: every section is non-empty, so none is filtered out, and
    they are joined by blank lines in the order system, project state, tools,
    conversation.
   */
  function BuildPrompt(c: Context, fs: FileSystem, t: PromptTexts): (r: string)
    ensures r == SystemSection(c, t) + "\n\n" + ProjectSection(c, fs) + "\n\n" + ToolSection(t) + "\n\n" + ConversationSection(c)
  {
    var sys, proj, tools, conv := SystemSection(c, t), ProjectSection(c, fs), ToolSection(t), ConversationSection(c);
    var sections := [sys, proj, tools, conv];
    assert sys != "" && proj != "" && tools != "" && conv != "";
    NonEmptyKeepsAll(sections);
    Join4(sys, proj, tools, conv, "\n\n");
    JoinWith(NonEmpty(sections), "\n\n")
  }

  lemma Join4(a: string, b: string, c: string, d: string, sep: string)
    ensures JoinWith([a, b, c, d], sep) == a + sep + b + sep + c + sep + d
  {
    assert [a, b, c, d] == [a] + [b, c, d];
    JoinCons(a, [b, c, d], sep);
    assert [b, c, d] == [b] + [c, d];
    JoinCons(b, [c, d], sep);
    assert [c, d] == [c] + [d];
    JoinCons(c, [d], sep);
  }

  function SetSummary(c: Context, summary: string): (c': Context)
    ensures c'.summary == Some(summary) && c'.(summary := c.summary) == c
  {
    c.(summary := Some(summary))
  }

  function SetMaxTokens(c: Context, max: int): (c': Context)
    ensures c'.maxTokens == max && c'.(maxTokens := c.maxTokens) == c
  {
    c.(maxTokens := max)
  }

  function SetMode(c: Context, mode: AgentMode): (c': Context)
    ensures c'.mode == mode && c'.(mode := c.mode) == c
  {
    c.(mode := mode)
  }

  function UpdateProjectCwd(c: Context, cwd: string): (c': Context)
    ensures c'.cwd == cwd && c'.rootDir == c.rootDir && c'.(cwd := c.cwd) == c
  {
    c.(cwd := cwd)
  }

  /** `pinnedFiles.add`: a set that remembers insertion order. */
  function Pin(c: Context, p: string): (c': Context)
    ensures p in c'.pinned && (forall q :: q in c'.pinned <==> q in c.pinned || q == p)
    ensures c'.(pinned := c.pinned) == c
  {
    if p in c.pinned then c else c.(pinned := c.pinned + [p])
  }

  /** `pinnedFiles.delete`. */
  function Unpin(c: Context, p: string): (c': Context)
    ensures p !in c'.pinned && (forall q :: q in c'.pinned <==> q in c.pinned && q != p)
    ensures c'.(pinned := c.pinned) == c
  {
    c.(pinned := Remove(c.pinned, p))
  }

  function Remove(xs: seq<string>, p: string): (r: seq<string>)
    ensures forall q :: q in r <==> q in xs && q != p
    ensures p !in xs ==> r == xs
  {
    if |xs| == 0 then []
    else if xs[0] == p then Remove(xs[1..], p)
    else
      assert xs == [xs[0]] + xs[1..];
      [xs[0]] + Remove(xs[1..], p)
  }

  /** Pinning twice is pinning once, and both operations keep the pins distinct. */
  lemma PinIdempotent(c: Context, p: string)
    requires c.Valid()
    ensures Pin(Pin(c, p), p) == Pin(c, p)
    ensures Pin(c, p).Valid()
  {
  }

  /** Unpinning an absent path changes nothing; unpinning a fresh pin undoes it. */
  lemma UnpinUndoesPin(c: Context, p: string)
    requires p !in c.pinned
    ensures Unpin(c, p) == c
    ensures Unpin(Pin(c, p), p) == c
  {
    var xs := c.pinned + [p];
    assert xs[..|c.pinned|] == c.pinned;
    RemoveLast(c.pinned, p);
  }

  lemma {:induction false} RemoveLast(xs: seq<string>, p: string)
    requires p !in xs
    ensures Remove(xs + [p], p) == xs
    decreases |xs|
  {
    if |xs| > 0 {
      assert (xs + [p])[1..] == xs[1..] + [p];
      RemoveLast(xs[1..], p);
    } else {
      assert [p][1..] == [];
    }
  }

  /** `getStats`. */
  datatype Stats = Stats(messageCount: nat, fileTreeChars: nat, totalTokens: int)

  function GetStats(c: Context): (s: Stats)
    ensures s.messageCount == |c.conversations| && s.fileTreeChars == |c.fileTree|
  {
    Stats(|c.conversations|, |c.fileTree|, Total(c.conversations))
  }

  /** Below the cap, a user message adds its estimate to the total. */
  lemma StatsAfterUserMessage(c: Context, query: string)
    requires |c.conversations| < HardCap
    ensures GetStats(AddUserMessage(c, query)).totalTokens == GetStats(c).totalTokens + EstimateTokens(query)
    ensures GetStats(AddUserMessage(c, query)).messageCount == GetStats(c).messageCount + 1
  {
    TotalAppend(c.conversations, NewMessage(User, query));
  }
}

=== FILE: edit.dfy ===
/**
  `editFile` of cli/src/core/tools/editTool.ts: the file checks, then up to
  `expected_replacements` replacements of the leftmost occurrences of
  `oldString`, each search resuming after the text just inserted.
 */
module Edit {
  import opened Common
  import opened Text
  import opened Paths

  /** The options `editFile` receives, with the default number of replacements already filled in. */
  datatype EditOptions = EditOptions(filePath: string, oldString: string, newString: string, expectedReplacements: int)

  /**
    The reference: replace the first occurrence, then continue in the text
    after it, at most `n` times. Inserted text is never searched again.
   */
  function ReplaceN(s: string, pat: string, repl: string, n: int): string
    requires |pat| > 0
    decreases |s|
  {
    if n <= 0 then s
    else match Find(s, pat)
      case None => s
      case Some(i) => s[..i] + repl + ReplaceN(s[i + |pat|..], pat, repl, n - 1)
  }

  /** How many replacements `ReplaceN` makes. */
  function ReplacedCount(s: string, pat: string, n: int): nat
    requires |pat| > 0
    decreases |s|
  {
    if n <= 0 then 0
    else match Find(s, pat)
      case None => 0
      case Some(i) => 1 + ReplacedCount(s[i + |pat|..], pat, n - 1)
  }

  /** The count is the requested number, capped by the non-overlapping occurrences `split` sees. */
  lemma {:induction false} CountIsCapped(s: string, pat: string, n: int)
    requires |pat| > 0
    ensures ReplacedCount(s, pat, n) == if n <= 0 then 0 else if n < CountOcc(s, pat) then n else CountOcc(s, pat)
    decreases |s|
  {
    if n > 0 {
      match Find(s, pat)
      case None =>
      case Some(i) =>
        CountIsCapped(s[i + |pat|..], pat, n - 1);
        SplitStrSome(s, pat, i);
    }
  }

  /** Asking for at least as many replacements as there are occurrences replaces them all, as split and join do. */
  lemma {:induction false} ReplaceAllIsSplitJoin(s: string, pat: string, repl: string, n: int)
    requires |pat| > 0 && n >= CountOcc(s, pat)
    ensures ReplaceN(s, pat, repl, n) == JoinWith(SplitStr(s, pat), repl)
    decreases |s|
  {
    match Find(s, pat)
    case None =>
    case Some(i) =>
      var rest := s[i + |pat|..];
      SplitStrSome(s, pat, i);
      ReplaceAllIsSplitJoin(rest, pat, repl, n - 1);
      JoinCons(s[..i], SplitStr(rest, pat), repl);
  }

  /** `oldString` occurs at `from + j` of `s` exactly when it occurs at `j` of `s[from..]`. */
  lemma OccursShift(s: string, p: string, from: nat, j: int)
    requires from <= |s| && j >= 0
    ensures OccursAt(s, p, from + j) <==> OccursAt(s[from..], p, j)
  {
    if from + j + |p| <= |s| {
      assert s[from..][j..j + |p|] == s[from + j..from + j + |p|];
    }
  }

  /** `indexOf(p, from)` finds what `indexOf(p)` finds in the text from `from` on, shifted. */
  lemma FindFromShift(s: string, p: string, from: nat)
    requires from <= |s|
    ensures FindFrom(s, p, from).None? <==> Find(s[from..], p).None?
    ensures FindFrom(s, p, from).Some? ==> FindFrom(s, p, from).value == from + Find(s[from..], p).value
  {
    FindFromFirst(s, p, from);
    FindFirst(s[from..], p);
    var a := FindFrom(s, p, from);
    var b := Find(s[from..], p);
    if b.Some? {
      OccursShift(s, p, from, b.value);
      if a.Some? {
        OccursShift(s, p, from, a.value - from);
      }
    } else if a.Some? {
      OccursShift(s, p, from, a.value - from);
    }
  }

  /**
    What the loop keeps: the text before `idx` is final, and finishing the
    job on the text after it, with the replacements still allowed, gives
    the reference result and count.
   */
  ghost predicate Progress(content: string, pat: string, repl: string, expected: int, s: string, idx: nat, count: int, left: int)
    requires |pat| > 0
  {
    && idx <= |s|
    && s[..idx] + ReplaceN(s[idx..], pat, repl, left) == ReplaceN(content, pat, repl, expected)
    && count + ReplacedCount(s[idx..], pat, left) == ReplacedCount(content, pat, expected)
  }

  lemma ProgressStart(content: string, pat: string, repl: string, expected: int)
    requires |pat| > 0
    ensures Progress(content, pat, repl, expected, content, 0, 0, expected)
  {
    assert content[0..] == content && content[..0] == "";
  }

  /** One turn of the reference on the unsearched text: the first occurrence is replaced and the search goes on after it. */
  lemma ReplaceStep(rest: string, pat: string, repl: string, n: int, i: nat)
    requires |pat| > 0 && n > 0 && Find(rest, pat) == Some(i)
    ensures ReplaceN(rest, pat, repl, n) == rest[..i] + repl + ReplaceN(rest[i + |pat|..], pat, repl, n - 1)
    ensures ReplacedCount(rest, pat, n) == 1 + ReplacedCount(rest[i + |pat|..], pat, n - 1)
  {
  }

  /** Where the splice leaves the settled prefix and the unsearched rest. */
  lemma SpliceAt(s: string, pat: string, repl: string, idx: nat, f: nat, s': string, idx': nat)
    requires idx <= f && f + |pat| <= |s| && s' == s[..f] + repl + s[f + |pat|..] && idx' == f + |repl|
    ensures idx' <= |s'|
    ensures s'[..idx'] == s[..idx] + s[idx..][..f - idx] + repl
    ensures s'[idx'..] == s[idx..][f - idx + |pat|..]
  {
  }

  /**
    One turn of the loop: the first occurrence at or after `idx` is replaced,
    and the search resumes after the inserted text.
   */
  lemma LoopStep(content: string, pat: string, repl: string, expected: int, s: string, idx: nat, f: nat, s': string, idx': nat, count: int, left: int)
    requires |pat| > 0 && left > 0
    requires Progress(content, pat, repl, expected, s, idx, count, left)
    requires FindFrom(s, pat, idx) == Some(f)
    requires s' == s[..f] + repl + s[f + |pat|..] && idx' == f + |repl|
    ensures Progress(content, pat, repl, expected, s', idx', count + 1, left - 1)
  {
    FindFromShift(s, pat, idx);
    SpliceAt(s, pat, repl, idx, f, s', idx');
    StepText(s[..idx], s[idx..], f - idx, pat, repl, left, s'[..idx'], s'[idx'..]);
    StepCount(s[idx..], f - idx, pat, left, s'[idx'..]);
  }

  /** The settled prefix grows by the text before the occurrence and the replacement. */
  lemma StepText(prefix: string, rest: string, i: nat, pat: string, repl: string, n: int, prefix': string, rest': string)
    requires |pat| > 0 && n > 0 && Find(rest, pat) == Some(i)
    requires prefix' == prefix + rest[..i] + repl && rest' == rest[i + |pat|..]
    ensures prefix' + ReplaceN(rest', pat, repl, n - 1) == prefix + ReplaceN(rest, pat, repl, n)
  {
    ReplaceStep(rest, pat, repl, n, i);
    Regroup(prefix, rest[..i], repl, ReplaceN(rest', pat, repl, n - 1));
  }

  lemma Regroup(a: string, b: string, c: string, d: string)
    ensures a + b + c + d == a + (b + c + d)
  {
  }

  /** The count grows by one. */
  lemma StepCount(rest: string, i: nat, pat: string, n: int, rest': string)
    requires |pat| > 0 && n > 0 && Find(rest, pat) == Some(i)
    requires rest' == rest[i + |pat|..]
    ensures 1 + ReplacedCount(rest', pat, n - 1) == ReplacedCount(rest, pat, n)
  {
    ReplaceStep(rest, pat, "", n, i);
  }

  /** When no replacements are left, or nothing is left to find, the text is the reference result. */
  lemma LoopDone(content: string, pat: string, repl: string, expected: int, s: string, idx: nat, count: int, left: int)
    requires |pat| > 0
    requires Progress(content, pat, repl, expected, s, idx, count, left)
    requires left <= 0 || FindFrom(s, pat, idx).None?
    ensures s == ReplaceN(content, pat, repl, expected)
    ensures count == ReplacedCount(content, pat, expected)
  {
    FindFromShift(s, pat, idx);
    assert s[..idx] + s[idx..] == s;
  }

  /**
    The loop of `editFile`: search from `idx`, splice in `newString`, and
    resume after it, until `expected` replacements or no more occurrences.
   */
  method ReplaceLoop(content: string, pat: string, repl: string, expected: int) returns (newContent: string, count: nat)
    requires |pat| > 0
    ensures newContent == ReplaceN(content, pat, repl, expected)
    ensures count == ReplacedCount(content, pat, expected)
  {
    count := 0;
    newContent := content;
    var idx: nat := 0;
    ghost var left := expected;
    ProgressStart(content, pat, repl, expected);
    while count < expected
      invariant left == expected - count
      invariant Progress(content, pat, repl, expected, newContent, idx, count, left)
      decreases expected - count
    {
      var found := FindFrom(newContent, pat, idx);
      if found.None? {
        break;
      }
      ghost var before, from := newContent, idx;
      newContent := newContent[..found.value] + repl + newContent[found.value + |pat|..];
      idx := found.value + |repl|;
      LoopStep(content, pat, repl, expected, before, from, found.value, newContent, idx, count, left);
      count := count + 1;
      left := left - 1;
    }
    LoopDone(content, pat, repl, expected, newContent, idx, count, left);
  }

  const FixingIssues := "Fixing Issues"

  function Fixing(message: string): ToolResult {
    ToolResult(message, FixingIssues)
  }

  /** The checks before reading: absolute, existing, a file, readable and writable. */
  function ValidateForEditing(p: string, fs: FileSystem): (r: Option<string>)
    ensures r.None? <==> IsAbsolute(p) && p in fs.files && p !in fs.noRead && p !in fs.noWrite
  {
    if !IsAbsolute(p) then Some("File path must be absolute.")
    else if !fs.Exists(p) then Some("File does not exist: " + p)
    else if p !in fs.files then Some("Path is not a file: " + p)
    else if p in fs.noRead || p in fs.noWrite then Some("File is not readable or writable: " + p)
    else None
  }

  /** `editFile(options)`: the result and the file system after it. */
  function EditFile(opts: EditOptions, fs: FileSystem): (r: (ToolResult, FileSystem))
    ensures !IsAbsolute(opts.filePath) ==> r == (Fixing("File path must be absolute."), fs)
    ensures ValidateForEditing(opts.filePath, fs).Some? ==>
      r == (Fixing(ValidateForEditing(opts.filePath, fs).value), fs)
    ensures IsAbsolute(opts.filePath) && !fs.Exists(opts.filePath) ==>
      r == (Fixing("File does not exist: " + opts.filePath), fs)
    ensures (IsAbsolute(opts.filePath) && opts.filePath in fs.files
      && (opts.filePath in fs.noRead || opts.filePath in fs.noWrite)) ==>
      r == (Fixing("File is not readable or writable: " + opts.filePath), fs)
    ensures (ValidateForEditing(opts.filePath, fs).None? && opts.oldString != ""
      && ReplacedCount(fs.files[opts.filePath], opts.oldString, opts.expectedReplacements) > 0) ==>
      var content := fs.files[opts.filePath];
      var newContent := ReplaceN(content, opts.oldString, opts.newString, opts.expectedReplacements);
      var count := ReplacedCount(content, opts.oldString, opts.expectedReplacements);
      && r.1 == fs.Write(opts.filePath, newContent)
      && r.0.llmResult == newContent
      && r.0.displayResult == "Replaced " + IntText(count) + " occurrence(s) of \"" + opts.oldString
        + "\" with \"" + opts.newString + "\" in " + Basename(opts.filePath)
    ensures r.1 != fs ==>
      && ValidateForEditing(opts.filePath, fs).None? && opts.oldString != ""
      && ReplacedCount(fs.files[opts.filePath], opts.oldString, opts.expectedReplacements) > 0
      && r.1 == fs.Write(opts.filePath, r.0.llmResult)
      && r.0.llmResult == ReplaceN(fs.files[opts.filePath], opts.oldString, opts.newString, opts.expectedReplacements)
    ensures ValidateForEditing(opts.filePath, fs).None? && opts.oldString == "" ==>
      r == (Fixing("oldString cannot be empty."), fs)
    ensures (ValidateForEditing(opts.filePath, fs).None? && opts.oldString != ""
      && ReplacedCount(fs.files[opts.filePath], opts.oldString, opts.expectedReplacements) == 0) ==>
      r == (ToolResult("No occurrences of the old string were found.", "No replacements made"), fs)
  {
    var p := opts.filePath;
    match ValidateForEditing(p, fs)
    case Some(err) => (Fixing(err), fs)
    case None =>
      var content := fs.files[p];
      if opts.oldString == "" then (Fixing("oldString cannot be empty."), fs)
      else
        var count := ReplacedCount(content, opts.oldString, opts.expectedReplacements);
        var newContent := ReplaceN(content, opts.oldString, opts.newString, opts.expectedReplacements);
        if count == 0 then (ToolResult("No occurrences of the old string were found.", "No replacements made"), fs)
        else
          (ToolResult(newContent, "Replaced " + IntText(count) + " occurrence(s) of \"" + opts.oldString + "\" with \""
            + opts.newString + "\" in " + Basename(p)), fs.Write(p, newContent))
  }

  /** Only the edited file changes; every other path keeps its content. */
  lemma EditTouchesOnlyTarget(opts: EditOptions, fs: FileSystem, q: string)
    requires q != opts.filePath
    ensures var fs' := EditFile(opts, fs).1;
      (q in fs'.files <==> q in fs.files) && (q in fs.files ==> fs'.files[q] == fs.files[q])
  {
  }

  /** With fewer occurrences than requested, all of them are replaced and the file is still written. */
  lemma FewerThanExpected(opts: EditOptions, fs: FileSystem)
    requires ValidateForEditing(opts.filePath, fs).None? && opts.oldString != ""
    requires 0 < CountOcc(fs.files[opts.filePath], opts.oldString) < opts.expectedReplacements
    ensures EditFile(opts, fs).1 == fs.Write(opts.filePath,
      JoinWith(SplitStr(fs.files[opts.filePath], opts.oldString), opts.newString))
  {
    CountIsCapped(fs.files[opts.filePath], opts.oldString, opts.expectedReplacements);
    ReplaceAllIsSplitJoin(fs.files[opts.filePath], opts.oldString, opts.newString, opts.expectedReplacements);
  }

  /** Text that was just inserted is not searched again: replacing `a` by `aa` twice in `a` makes one replacement. */
  lemma InsertedTextNotRematched()
    ensures ReplaceN("a", "a", "aa", 2) == "aa"
    ensures ReplacedCount("a", "a", 2) == 1
  {
    assert OccursAt("a", "a", 0);
    assert "a"[1..] == "";
  }
}

=== FILE: fence.dfy ===
/**
  Removal of a Markdown code fence around a model's JSON answer, shared by
  the turn loop of src/core/processor.ts and `safeParseJson` of
  src/core/taskPlanner.ts: the two regular-expression replacements
  `/^```[a-zA-Z]*\n?/` and `/```$/`, written out on characters.
 */
module Fence {
  import opened Text

  const Tick := "```"

  /** The longest prefix of ASCII letters removed. */
  function DropLetters(s: string): (r: string)
    ensures IsSuffix(r, s)
    ensures |r| > 0 ==> !IsAsciiLetter(r[0])
    ensures forall k :: 0 <= k < |s| - |r| ==> IsAsciiLetter(s[k])
  {
    if |s| > 0 && IsAsciiLetter(s[0]) then DropLetters(s[1..]) else s
  }

  /** `s.replace(/^```[a-zA-Z]*\n?/, '')` for an `s` that starts with the fence. */
  function DropOpening(s: string): (r: string)
    requires IsPrefix(Tick, s)
    ensures IsSuffix(r, s) && |r| <= |s| - 3
  {
    var rest := DropLetters(s[3..]);
    if |rest| > 0 && rest[0] == '\n' then rest[1..] else rest
  }

  /** `s.replace(/^```json\n?/, '')` for an `s` that starts with "```json". */
  function DropJsonOpening(s: string): (r: string)
    requires IsPrefix(Tick + "json", s)
    ensures IsSuffix(r, s) && |r| <= |s| - 7
  {
    var rest := s[7..];
    if |rest| > 0 && rest[0] == '\n' then rest[1..] else rest
  }

  /** `s.replace(/```$/, '')`. */
  function DropClosing(s: string): (r: string)
    ensures IsPrefix(r, s)
    ensures IsSuffix(Tick, s) ==> |r| == |s| - 3
    ensures !IsSuffix(Tick, s) ==> r == s
  {
    if IsSuffix(Tick, s) then s[..|s| - 3] else s
  }

  /** A fenced block as a model writes it: the fence, a language tag, a newline, the body, the closing fence. */
  function Fenced(lang: string, body: string): string {
    Tick + lang + "\n" + body + Tick
  }

  predicate AllLetters(s: string) {
    forall k :: 0 <= k < |s| ==> IsAsciiLetter(s[k])
  }

  lemma {:induction false} DropLettersPrefix(lang: string, rest: string)
    requires AllLetters(lang) && (|rest| > 0 ==> !IsAsciiLetter(rest[0]))
    ensures DropLetters(lang + rest) == rest
    decreases |lang|
  {
    if |lang| > 0 {
      assert (lang + rest)[1..] == lang[1..] + rest;
      DropLettersPrefix(lang[1..], rest);
    } else {
      assert lang + rest == rest;
    }
  }

  /** Removing both fences of a fenced block gives back its body. */
  lemma UnfenceFenced(lang: string, body: string)
    requires AllLetters(lang)
    ensures IsPrefix(Tick, Fenced(lang, body))
    ensures DropClosing(DropOpening(Fenced(lang, body))) == body
  {
    var f := Fenced(lang, body);
    assert f == Tick + (lang + ("\n" + body + Tick));
    assert f[3..] == lang + ("\n" + body + Tick);
    DropLettersPrefix(lang, "\n" + body + Tick);
    assert ("\n" + body + Tick)[1..] == body + Tick;
    assert DropOpening(f) == body + Tick;
    assert IsSuffix(Tick, body + Tick);
    assert (body + Tick)[..|body + Tick| - 3] == body;
  }

  /** A fenced block is already trimmed: it starts and ends with a backtick. */
  lemma FencedTrimmed(lang: string, body: string)
    ensures Trim(Fenced(lang, body)) == Fenced(lang, body)
  {
    var f := Fenced(lang, body);
    assert f[0] == '`' && f[|f| - 1] == '`';
    TrimStartNoSpace(f);
    TrimEndNoSpace(f);
  }
}

=== FILE: file_ops.dfy ===
/**
  The synchronous `fs` calls the scaffolding tools make (`existsSync`,
  `readFileSync`, `writeFileSync`, `appendFileSync`, `mkdirSync`), each
  either changing the abstract file system or throwing.
 */
module FileOps {
  import opened Common
  import Paths

  /** How a tool ends: with a result, or with an exception thrown by the `fs` call on `path`. */
  datatype End = Done(result: ToolResult) | Raised(path: string)

  /** The end of a tool together with the file system it leaves, including writes made before an exception. */
  datatype Effect = Effect(end: End, fs: FileSystem)

  /**
    `writeFileSync` and `appendFileSync` fail on a directory, on a path that
    fails the write check, and when the directory that would hold the file
    does not exist (ENOENT, or ENOTDIR when a file stands in its place).
   */
  predicate Writable(fs: FileSystem, path: string) {
    path !in fs.dirs && path !in fs.noWrite && Paths.Parent(path) in fs.dirs
  }

  /** `fs.readFileSync(path, 'utf-8')`; `None` when it throws. */
  function ReadText(fs: FileSystem, path: string): (r: Option<string>)
    ensures r.Some? <==> fs.CanRead(path)
    ensures r.Some? ==> r.value == fs.files[path]
  {
    if fs.CanRead(path) then Some(fs.files[path]) else None
  }

  /** `fs.writeFileSync(path, content)`; `None` when it throws. */
  function WriteText(fs: FileSystem, path: string, content: string): (r: Option<FileSystem>)
    ensures r.Some? <==> Writable(fs, path)
    ensures r.Some? ==> r.value == fs.Write(path, content)
  {
    if Writable(fs, path) then Some(fs.Write(path, content)) else None
  }

  /** `fs.appendFileSync(path, content)`: the file is created when absent. */
  function AppendText(fs: FileSystem, path: string, content: string): (r: Option<FileSystem>)
    ensures r.Some? <==> Writable(fs, path)
    ensures r.Some? ==> path in r.value.files && r.value.files[path] == (if path in fs.files then fs.files[path] else "") + content
  {
    WriteText(fs, path, (if path in fs.files then fs.files[path] else "") + content)
  }

  /** `fs.mkdirSync(dir, { recursive: true })`: it throws when a file has the directory's name. */
  function MakeDir(fs: FileSystem, dir: string): (r: Option<FileSystem>)
    ensures r.Some? <==> dir !in fs.files
    ensures r.Some? ==> r.value.files == fs.files && r.value.dirs == fs.dirs + {dir}
  {
    if dir in fs.files then None else Some(fs.(dirs := fs.dirs + {dir}))
  }
}

=== FILE: folder_tree.dfy ===
/**
  `getFolderStructure` of cli/src/core/utils/getFolderStructure.ts: the
  directory tree under a root, filtered by an ignore checker and drawn with
  connectors. The directory listing `readdirSync` would return is given as
  a tree of entries; an unreadable directory is `Unreadable`.
 */
module FolderTree {
  import opened Common
  import opened Text
  import opened Paths

  /** What `readdirSync` gives for a directory: its entries, or an error. */
  datatype Listing = Unreadable | Listed(items: seq<Dirent>)

  /** A directory entry; `contents` is the listing of a directory (ignored for a file). */
  datatype Dirent = Dirent(name: string, isDir: bool, contents: Listing)

  /** `TreeNode`: a file carries no children. */
  datatype TreeNode = TreeNode(name: string, isDirectory: bool, children: seq<TreeNode>)

  /** A falsy checker is replaced by one that ignores nothing. */
  function Checker(c: Option<string -> bool>): (r: string -> bool)
    ensures c.None? ==> forall p :: !r(p)
    ensures c.Some? ==> forall p :: r(p) == c.value(p)
  {
    if c.Some? then c.value else (p: string) => false
  }

  // ----- ordering -----

  /** The comparator of the sort: directories before files, then names in order. */
  predicate Before(aDir: bool, aName: string, bDir: bool, bName: string) {
    (aDir && !bDir) || (aDir == bDir && LexLess(aName, bName))
  }

  /** `a` may stand before `b` in sorted order. */
  predicate InOrder(a: Dirent, b: Dirent) {
    !Before(b.isDir, b.name, a.isDir, a.name)
  }

  predicate Sorted(s: seq<Dirent>) {
    forall i, j :: 0 <= i < j < |s| ==> InOrder(s[i], s[j])
  }

  lemma {:induction false} LexLessAsymmetric(a: string, b: string)
    ensures !(LexLess(a, b) && LexLess(b, a))
    decreases |a|
  {
    if |a| > 0 && |b| > 0 && a[0] == b[0] {
      LexLessAsymmetric(a[1..], b[1..]);
    }
  }

  lemma InOrderTransitive(a: Dirent, b: Dirent, c: Dirent)
    requires InOrder(a, b) && InOrder(b, c)
    ensures InOrder(a, c)
  {
    if a.isDir == b.isDir && b.isDir == c.isDir {
      if a.name != b.name { LexLessTotal(a.name, b.name); }
      if b.name != c.name { LexLessTotal(b.name, c.name); }
      if LexLess(a.name, b.name) && LexLess(b.name, c.name) {
        LexLessTransitive(a.name, b.name, c.name);
        LexLessAsymmetric(a.name, c.name);
      } else if LexLess(a.name, b.name) {
        LexLessAsymmetric(a.name, c.name);
      } else if LexLess(b.name, c.name) {
        LexLessAsymmetric(a.name, c.name);
      } else {
        LexLessIrreflexive(a.name);
      }
    }
  }

  /** Inserts `x` before the first entry it may precede; equal entries keep their order. */
  function Insert(x: Dirent, t: seq<Dirent>): (r: seq<Dirent>)
    ensures multiset(r) == multiset([x] + t)
  {
    if |t| == 0 || InOrder(x, t[0]) then [x] + t
    else
      assert t == [t[0]] + t[1..];
      [t[0]] + Insert(x, t[1..])
  }

  /** `items.sort(...)`, as an insertion sort (the comparator is the one of the source). */
  function SortItems(s: seq<Dirent>): (r: seq<Dirent>)
    ensures multiset(r) == multiset(s)
  {
    if |s| == 0 then []
    else
      assert s == [s[0]] + s[1..];
      Insert(s[0], SortItems(s[1..]))
  }

  lemma {:induction false} InsertSorted(x: Dirent, t: seq<Dirent>)
    requires Sorted(t)
    ensures Sorted(Insert(x, t))
    decreases |t|
  {
    if |t| == 0 {
    } else if InOrder(x, t[0]) {
      forall j | 0 < j < |t| ensures InOrder(x, t[j]) { InOrderTransitive(x, t[0], t[j]); }
      assert forall j :: 0 < j < |[x] + t| ==> ([x] + t)[j] == t[j - 1];
    } else {
      InsertSorted(x, t[1..]);
      var r := Insert(x, t[1..]);
      LexLessAsymmetric(x.name, t[0].name);
      assert InOrder(t[0], x);
      forall y | y in r ensures InOrder(t[0], y) {
        assert y in multiset([x] + t[1..]);
        assert y == x || y in t[1..];
      }
      forall j | 0 < j < |[t[0]] + r| ensures InOrder(t[0], ([t[0]] + r)[j]) {
        assert ([t[0]] + r)[j] == r[j - 1];
      }
    }
  }

  /** Sorting orders the entries and keeps each of them. */
  lemma {:induction false} SortItemsSorted(s: seq<Dirent>)
    ensures Sorted(SortItems(s))
    ensures multiset(SortItems(s)) == multiset(s)
    decreases |s|
  {
    if |s| > 0 {
      SortItemsSorted(s[1..]);
      InsertSorted(s[0], SortItems(s[1..]));
    }
  }

  // ----- building -----

  /** The node for an entry that is kept: a directory carries its own subtree. */
  function NodeOf(d: Dirent, dir: string, baseDir: string, cwd: string, ignored: string -> bool): (n: TreeNode)
    ensures n.name == d.name && n.isDirectory == d.isDir
    decreases d, 0
  {
    TreeNode(d.name, d.isDir, if d.isDir then Build(Join(dir, [d.name]), baseDir, d.contents, cwd, ignored) else [])
  }

  /** The path the checker is asked about: the entry's path relative to the base directory. */
  function CheckedPath(d: Dirent, dir: string, baseDir: string, cwd: string): string {
    Relative(cwd, baseDir, Join(dir, [d.name]))
  }

  /**
    `buildTree(dirPath, gitIgnoreChecker, basePath)`: the sorted entries of the
    listing, without the ignored ones. `basePath` is `""` when not given.
   */
  function Build(dir: string, basePath: string, listing: Listing, cwd: string, ignored: string -> bool): (r: seq<TreeNode>)
    ensures listing.Unreadable? ==> r == []
    decreases listing, 2
  {
    match listing
    case Unreadable => []
    case Listed(items) =>
      var baseDir := if basePath == "" then dir else basePath;
      var sorted := SortItems(items);
      assert forall x :: x in sorted ==> x in items by {
        forall x | x in sorted ensures x in items { assert x in multiset(sorted); }
      }
      BuildItems(sorted, dir, baseDir, cwd, ignored, items)
  }

  /** The loop over the sorted entries of one directory. */
  function BuildItems(sorted: seq<Dirent>, dir: string, baseDir: string, cwd: string, ignored: string -> bool, items: seq<Dirent>): (r: seq<TreeNode>)
    requires forall x :: x in sorted ==> x in items
    ensures |r| <= |sorted|
    ensures |sorted| > 0 && !ignored(CheckedPath(sorted[0], dir, baseDir, cwd)) ==> |r| > 0 && r[0].name == sorted[0].name && r[0].isDirectory == sorted[0].isDir
    decreases items, 1, |sorted|
  {
    if |sorted| == 0 then []
    else
      var d := sorted[0];
      assert d in items;
      var rest := BuildItems(sorted[1..], dir, baseDir, cwd, ignored, items);
      if ignored(CheckedPath(d, dir, baseDir, cwd)) then rest
      else [NodeOf(d, dir, baseDir, cwd, ignored)] + rest
  }

  /** Siblings stand directories first, then by name. */
  predicate NodesInOrder(r: seq<TreeNode>) {
    forall i, j :: 0 <= i < j < |r| ==> !Before(r[j].isDirectory, r[j].name, r[i].isDirectory, r[i].name)
  }

  /** The loop keeps exactly the entries the checker does not ignore, each as its node with its subtree. */
  lemma {:induction false} BuildItemsKeeps(sorted: seq<Dirent>, dir: string, baseDir: string, cwd: string, ignored: string -> bool, items: seq<Dirent>)
    requires forall x :: x in sorted ==> x in items
    ensures forall n :: n in BuildItems(sorted, dir, baseDir, cwd, ignored, items) <==>
      exists d :: d in sorted && !ignored(CheckedPath(d, dir, baseDir, cwd)) && n == NodeOf(d, dir, baseDir, cwd, ignored)
    decreases |sorted|
  {
    if |sorted| > 0 {
      BuildItemsKeeps(sorted[1..], dir, baseDir, cwd, ignored, items);
      assert forall d :: d in sorted <==> d == sorted[0] || d in sorted[1..];
    }
  }

  /** Every node the loop keeps may stand after `y` when every sorted entry may. */
  lemma {:induction false} BuildItemsAfter(y: Dirent, sorted: seq<Dirent>, dir: string, baseDir: string, cwd: string, ignored: string -> bool, items: seq<Dirent>)
    requires forall x :: x in sorted ==> x in items
    requires forall k :: 0 <= k < |sorted| ==> InOrder(y, sorted[k])
    ensures forall n :: n in BuildItems(sorted, dir, baseDir, cwd, ignored, items) ==> !Before(n.isDirectory, n.name, y.isDir, y.name)
    decreases |sorted|
  {
    if |sorted| > 0 {
      BuildItemsAfter(y, sorted[1..], dir, baseDir, cwd, ignored, items);
      var rest := BuildItems(sorted[1..], dir, baseDir, cwd, ignored, items);
      var n0 := NodeOf(sorted[0], dir, baseDir, cwd, ignored);
      var r := BuildItems(sorted, dir, baseDir, cwd, ignored, items);
      assert !Before(n0.isDirectory, n0.name, y.isDir, y.name);
    }
  }

  lemma ConsInOrder(n: TreeNode, rest: seq<TreeNode>)
    requires NodesInOrder(rest)
    requires forall m :: m in rest ==> !Before(m.isDirectory, m.name, n.isDirectory, n.name)
    ensures NodesInOrder([n] + rest)
  {
    var r := [n] + rest;
    forall i, j | 0 <= i < j < |r| ensures !Before(r[j].isDirectory, r[j].name, r[i].isDirectory, r[i].name) {
      assert r[j] == rest[j - 1] && rest[j - 1] in rest;
      if i > 0 { assert r[i] == rest[i - 1]; }
    }
  }

  /** The loop keeps the order of the sorted entries. */
  lemma {:induction false} BuildItemsOrdered(sorted: seq<Dirent>, dir: string, baseDir: string, cwd: string, ignored: string -> bool, items: seq<Dirent>)
    requires forall x :: x in sorted ==> x in items
    requires Sorted(sorted)
    ensures NodesInOrder(BuildItems(sorted, dir, baseDir, cwd, ignored, items))
    decreases |sorted|
  {
    if |sorted| > 0 {
      var rest := BuildItems(sorted[1..], dir, baseDir, cwd, ignored, items);
      BuildItemsOrdered(sorted[1..], dir, baseDir, cwd, ignored, items);
      BuildItemsAfter(sorted[0], sorted[1..], dir, baseDir, cwd, ignored, items);
      var n0 := NodeOf(sorted[0], dir, baseDir, cwd, ignored);
      ConsInOrder(n0, rest);
    }
  }

  /**
    A readable directory yields a node for each entry whose root-relative
    path the checker does not ignore, and nothing for an ignored one (so
    its subtree is left out too); siblings come directories first, then by
    name.
   */
  lemma BuildListed(dir: string, basePath: string, items: seq<Dirent>, cwd: string, ignored: string -> bool)
    ensures var baseDir := if basePath == "" then dir else basePath;
      var r := Build(dir, basePath, Listed(items), cwd, ignored);
      && (forall n :: n in r <==> exists d :: d in items && !ignored(CheckedPath(d, dir, baseDir, cwd)) && n == NodeOf(d, dir, baseDir, cwd, ignored))
      && (forall i, j :: 0 <= i < j < |r| ==> (r[j].isDirectory ==> r[i].isDirectory))
      && (forall i, j :: 0 <= i < j < |r| && r[i].isDirectory == r[j].isDirectory ==> !LexLess(r[j].name, r[i].name))
  {
    var baseDir := if basePath == "" then dir else basePath;
    var sorted := SortItems(items);
    SortItemsSorted(items);
    assert forall x :: x in sorted <==> x in items by {
      forall x ensures x in sorted <==> x in items { assert x in sorted <==> x in multiset(sorted); }
    }
    BuildItemsKeeps(sorted, dir, baseDir, cwd, ignored, items);
    BuildItemsOrdered(sorted, dir, baseDir, cwd, ignored, items);
  }

  // ----- formatting -----

  /** The connectors exactly as the source text spells them (a mis-decoded box drawing). */
  const Corner := "\U{201a}\U{ee}\U{ee}\U{201a}\U{ee}\U{c4}\U{201a}\U{ee}\U{c4}\U{201a}\U{ee}\U{c4}"
  const Tee := "\U{201a}\U{ee}\U{fa}\U{201a}\U{ee}\U{c4}\U{201a}\U{ee}\U{c4}\U{201a}\U{ee}\U{c4}"
  const Spaces := "    "
  const Bar := "\U{201a}\U{ee}\U{c7}   "

  function Connector(isLast: bool): string {
    if isLast then Corner else Tee
  }

  function Padding(isLast: bool): string {
    if isLast then Spaces else Bar
  }

  /** The text of a node's own line. */
  function Label(n: TreeNode): string {
    n.name + (if n.isDirectory then "/" else "")
  }

  /** `formatTree(nodes, rootDir, prefix, isLast)`; `isLast` is passed on but not read. */
  function FormatTree(nodes: seq<TreeNode>, rootDir: string, prefix: string, isLast: bool): (r: string)
    ensures prefix == "" ==> IsPrefix(Basename(rootDir) + "/\n", r)
    ensures |nodes| == 0 ==> r == (if prefix == "" then Basename(rootDir) + "/\n" else "")
    decreases nodes, 1, 0
  {
    (if prefix == "" then Basename(rootDir) + "/\n" else "") + FormatFrom(nodes, 0, rootDir, prefix)
  }

  /** The loop of `formatTree` from index `i`. */
  function FormatFrom(nodes: seq<TreeNode>, i: nat, rootDir: string, prefix: string): string
    requires i <= |nodes|
    decreases nodes, 0, |nodes| - i
  {
    if i == |nodes| then ""
    else
      var node := nodes[i];
      var isLastNode := i == |nodes| - 1;
      var line := prefix + Connector(isLastNode) + Label(node) + "\n";
      var sub := if node.isDirectory && |node.children| > 0
        then FormatTree(node.children, rootDir, prefix + Padding(isLastNode), isLastNode)
        else "";
      line + sub + FormatFrom(nodes, i + 1, rootDir, prefix)
  }

  /** `getFolderStructure({gitIgnoreChecker, rootDir})` over the listing of the root. */
  function GetFolderStructure(checker: Option<string -> bool>, rootDir: string, root: Listing, cwd: string): (r: string)
    ensures IsPrefix(Basename(rootDir) + "/\n", r)
    ensures root.Unreadable? || root.items == [] ==> r == Basename(rootDir) + "/\n"
  {
    FormatTree(Build(rootDir, "", root, cwd, Checker(checker)), rootDir, "", true)
  }

  // ----- the lines drawn -----

  /** Number of lines the nodes take: one each, plus a directory's contents. */
  function Size(nodes: seq<TreeNode>): nat
    decreases nodes
  {
    if |nodes| == 0 then 0
    else 1 + (if nodes[0].isDirectory then Size(nodes[0].children) else 0) + Size(nodes[1..])
  }

  /** The lines of the tree below a header, in drawing order, without line ends. */
  function Lines(nodes: seq<TreeNode>, prefix: string): seq<string>
    decreases nodes, 1, 0
  {
    LinesFrom(nodes, 0, prefix)
  }

  function LinesFrom(nodes: seq<TreeNode>, i: nat, prefix: string): seq<string>
    requires i <= |nodes|
    decreases nodes, 0, |nodes| - i
  {
    if i == |nodes| then [] else Block(nodes, i, prefix) + LinesFrom(nodes, i + 1, prefix)
  }

  /** The lines of node `i`: its own, then those of a directory's contents. */
  function Block(nodes: seq<TreeNode>, i: nat, prefix: string): seq<string>
    requires i < |nodes|
    decreases nodes, 0, 0
  {
    var last := i == |nodes| - 1;
    [prefix + Connector(last) + Label(nodes[i])]
    + (if nodes[i].isDirectory then Lines(nodes[i].children, prefix + Padding(last)) else [])
  }

  /**
    The drawing is the header `basename(root)/` (only at the top, where the
    prefix is empty) followed by the lines, one per node.
   */
  lemma {:induction false} FormatIsLines(nodes: seq<TreeNode>, rootDir: string, prefix: string, isLast: bool)
    ensures FormatTree(nodes, rootDir, prefix, isLast)
         == (if prefix == "" then Basename(rootDir) + "/\n" else "") + EndLines(Lines(nodes, prefix))
    decreases nodes, 1, 0
  {
    FormatFromIsLines(nodes, 0, rootDir, prefix);
  }

  lemma {:induction false} FormatFromIsLines(nodes: seq<TreeNode>, i: nat, rootDir: string, prefix: string)
    requires i <= |nodes|
    ensures FormatFrom(nodes, i, rootDir, prefix) == EndLines(LinesFrom(nodes, i, prefix))
    decreases nodes, 0, |nodes| - i
  {
    if i < |nodes| {
      var last := i == |nodes| - 1;
      var node := nodes[i];
      var head := prefix + Connector(last) + Label(node);
      var sub := if node.isDirectory then Lines(node.children, prefix + Padding(last)) else [];
      var rest := LinesFrom(nodes, i + 1, prefix);
      FormatFromIsLines(nodes, i + 1, rootDir, prefix);
      if node.isDirectory {
        FormatIsLines(node.children, rootDir, prefix + Padding(last), last);
        assert Padding(last) != "";
      }
      assert node.isDirectory && |node.children| == 0 ==> sub == [];
      EndLinesAppend([head] + sub, rest);
      EndLinesAppend([head], sub);
      assert EndLines([head]) == head + "\n";
    }
  }

  /** One line per node, counting directory contents. */
  lemma {:induction false} LinesCount(nodes: seq<TreeNode>, prefix: string)
    ensures |Lines(nodes, prefix)| == Size(nodes)
    decreases nodes, 1, 0
  {
    LinesFromCount(nodes, 0, prefix);
  }

  lemma {:induction false} LinesFromCount(nodes: seq<TreeNode>, i: nat, prefix: string)
    requires i <= |nodes|
    ensures |LinesFrom(nodes, i, prefix)| == Size(nodes[i..])
    decreases nodes, 0, |nodes| - i
  {
    if i < |nodes| {
      LinesFromCount(nodes, i + 1, prefix);
      if nodes[i].isDirectory {
        LinesCount(nodes[i].children, prefix + Padding(i == |nodes| - 1));
      }
      assert nodes[i..][1..] == nodes[i + 1..];
    }
  }

  /** Every line below a prefix starts with it. */
  lemma {:induction false} LinesPrefixed(nodes: seq<TreeNode>, prefix: string)
    ensures forall l :: l in Lines(nodes, prefix) ==> IsPrefix(prefix, l)
    decreases nodes, 1, 0
  {
    LinesFromPrefixed(nodes, 0, prefix);
  }

  lemma {:induction false} LinesFromPrefixed(nodes: seq<TreeNode>, i: nat, prefix: string)
    requires i <= |nodes|
    ensures forall l :: l in LinesFrom(nodes, i, prefix) ==> IsPrefix(prefix, l)
    decreases nodes, 0, |nodes| - i
  {
    if i < |nodes| {
      var last := i == |nodes| - 1;
      LinesFromPrefixed(nodes, i + 1, prefix);
      if nodes[i].isDirectory {
        var p := prefix + Padding(last);
        LinesPrefixed(nodes[i].children, p);
        forall l | l in Lines(nodes[i].children, p) ensures IsPrefix(prefix, l) {
          assert l[..|prefix|] == p[..|prefix|];
        }
      }
    }
  }

  /**
    Node `i` is drawn on the line after those of the nodes before it: the
    prefix, the corner connector for the last sibling and the tee for the
    others, then its name with `/` for a directory; the lines of its
    contents follow, with spaces added to the prefix below the last sibling
    and a bar below the others.
   */
  lemma {:induction false} NodeLine(nodes: seq<TreeNode>, prefix: string, i: nat)
    requires i < |nodes|
    ensures var ls := Lines(nodes, prefix);
      var at := Size(nodes[..i]);
      var last := i == |nodes| - 1;
      && at < |ls|
      && ls[at] == prefix + Connector(last) + Label(nodes[i])
      && (nodes[i].isDirectory ==>
            (at + 1 + Size(nodes[i].children) <= |ls|
             && ls[at + 1..at + 1 + Size(nodes[i].children)] == Lines(nodes[i].children, prefix + Padding(last))))
  {
    LinesFromSplit(nodes, prefix, i);
    var last := i == |nodes| - 1;
    if nodes[i].isDirectory {
      LinesCount(nodes[i].children, prefix + Padding(last));
    }
  }

  /** The lines from node `i` on follow the lines of the nodes before it. */
  lemma {:induction false} LinesFromSplit(nodes: seq<TreeNode>, prefix: string, i: nat)
    requires i <= |nodes|
    ensures Size(nodes[..i]) <= |Lines(nodes, prefix)|
    ensures Lines(nodes, prefix)[Size(nodes[..i])..] == LinesFrom(nodes, i, prefix)
    decreases i
  {
    if i > 0 {
      LinesFromSplit(nodes, prefix, i - 1);
      BlockCount(nodes, i - 1, prefix);
      SizeAppend(nodes[..i - 1], [nodes[i - 1]]);
      assert nodes[..i] == nodes[..i - 1] + [nodes[i - 1]];
      DropFront(Lines(nodes, prefix), Size(nodes[..i - 1]), Block(nodes, i - 1, prefix), LinesFrom(nodes, i, prefix));
    }
  }

  lemma BlockCount(nodes: seq<TreeNode>, i: nat, prefix: string)
    requires i < |nodes|
    ensures |Block(nodes, i, prefix)| == Size([nodes[i]])
  {
    if nodes[i].isDirectory { LinesCount(nodes[i].children, prefix + Padding(i == |nodes| - 1)); }
    assert [nodes[i]][1..] == [];
  }

  lemma DropFront(ls: seq<string>, at: nat, own: seq<string>, tail: seq<string>)
    requires at <= |ls| && ls[at..] == own + tail
    ensures at + |own| <= |ls| && ls[at + |own|..] == tail
  {
    assert ls[at + |own|..] == ls[at..][|own|..];
  }

  lemma {:induction false} SizeAppend(a: seq<TreeNode>, b: seq<TreeNode>)
    ensures Size(a + b) == Size(a) + Size(b)
    decreases |a|
  {
    if |a| > 0 {
      SizeAppend(a[1..], b);
      assert (a + b)[1..] == a[1..] + b;
    } else {
      assert a + b == b;
    }
  }

  /**
    The whole output: `basename(root)/` on the first line, then one line per
    node of the built tree.
   */
  lemma FolderStructureShape(checker: Option<string -> bool>, rootDir: string, root: Listing, cwd: string)
    ensures var tree := Build(rootDir, "", root, cwd, Checker(checker));
      && GetFolderStructure(checker, rootDir, root, cwd) == Basename(rootDir) + "/\n" + EndLines(Lines(tree, ""))
      && |Lines(tree, "")| == Size(tree)
      && (root.Unreadable? ==> GetFolderStructure(checker, rootDir, root, cwd) == Basename(rootDir) + "/\n")
  {
    var tree := Build(rootDir, "", root, cwd, Checker(checker));
    FormatIsLines(tree, rootDir, "", true);
    LinesCount(tree, "");
  }
}

=== FILE: git_ignore.dfy ===
/**
  `createGitIgnoreChecker` of src/core/tools/ignoreGitIgnoreFileTool.ts
  (the copy under cli/ is the same code): the patterns of `.gitignore`,
  their translation into regular-expression source text, and the checker
  that asks whether any of them matches a root-relative path. Matching a
  regular expression is an oracle; the translation is modelled exactly.
 */
module GitIgnore {
  import opened Common
  import opened Text
  import opened Paths

  /** A line is a pattern when, trimmed, it is non-empty and is neither a comment nor a negation. */
  predicate KeptLine(t: string) {
    t != "" && t[0] != '#' && t[0] != '!'
  }

  /** The two `filter` calls over the trimmed lines. */
  function KeepPatterns(lines: seq<string>): (r: seq<string>)
    ensures forall k :: 0 <= k < |r| ==> KeptLine(r[k])
    ensures forall x :: x in r <==> x in lines && KeptLine(x)
    ensures |r| <= |lines|
  {
    if |lines| == 0 then []
    else (if KeptLine(lines[0]) then [lines[0]] else []) + KeepPatterns(lines[1..])
  }

  /** `parseGitIgnorePatterns(content)`. */
  function ParsePatterns(content: string): (r: seq<string>)
    ensures forall k :: 0 <= k < |r| ==> KeptLine(r[k]) && Trim(r[k]) == r[k]
  {
    var lines := TrimAll(Split(content, '\n'));
    forall x | x in lines ensures Trim(x) == x {
      var k :| 0 <= k < |lines| && lines[k] == x;
      TrimIdempotent(Split(content, '\n')[k]);
    }
    KeepPatterns(lines)
  }

  /** Every line that is a pattern once trimmed is among the parsed patterns. */
  lemma EveryPatternLineKept(content: string, k: nat)
    requires k < |Split(content, '\n')| && KeptLine(Trim(Split(content, '\n')[k]))
    ensures Trim(Split(content, '\n')[k]) in ParsePatterns(content)
  {
    var lines := TrimAll(Split(content, '\n'));
    assert lines[k] == Trim(Split(content, '\n')[k]);
  }

  /** The characters escaped with a backslash by `/[.+^${}()|[\]\\]/g`. */
  const Meta := ".+^${}()|[]\\"

  /** A pattern character with no special meaning to the translation. */
  predicate PlainChar(c: char) {
    c != '*' && c != '?' && c !in Meta
  }

  /**
    The chain of `replace` calls in one left-to-right pass: a metacharacter
    is escaped, `**` becomes `.*`, another `*` becomes `[^/]*`, `?` becomes
    `[^/]`, and anything else is kept.
   */
  function Translate(s: string): (r: string)
    ensures (forall k :: 0 <= k < |s| ==> PlainChar(s[k])) ==> r == s
    ensures |r| >= |s|
    decreases |s|
  {
    if |s| == 0 then ""
    else if |s| >= 2 && s[0] == '*' && s[1] == '*' then ".*" + Translate(s[2..])
    else if s[0] == '*' then "[^/]*" + Translate(s[1..])
    else if s[0] == '?' then "[^/]" + Translate(s[1..])
    else if s[0] in Meta then ['\\', s[0]] + Translate(s[1..])
    else [s[0]] + Translate(s[1..])
  }

  /** A trailing `/` is translated to itself, whatever precedes it. */
  lemma {:induction false} TranslateSlashEnd(a: string)
    ensures Translate(a + "/") == Translate(a) + "/"
    decreases |a|
  {
    var s := a + "/";
    if |a| == 0 {
      assert s == "/";
    } else if |a| >= 2 && a[0] == '*' && a[1] == '*' {
      assert s[0] == '*' && s[1] == '*';
      assert s[2..] == a[2..] + "/";
      TranslateSlashEnd(a[2..]);
    } else {
      assert s[0] == a[0] && s[1] == (if |a| >= 2 then a[1] else '/');
      assert s[1..] == a[1..] + "/";
      TranslateSlashEnd(a[1..]);
    }
  }

  /** The text appended to every translated pattern: the name itself or anything below it. */
  const Below := "(/.*)?$"

  /** `createRegexFromGitIgnorePattern(pattern)`, as the source text of the regular expression. */
  function ToRegex(pattern: string): (r: string)
    ensures IsSuffix(Below, r)
    ensures var p := if IsPrefix("/", pattern) then pattern[1..] else pattern;
      && (IsPrefix("/", pattern) || '/' in p ==> IsPrefix("^", r))
      && (!IsPrefix("/", pattern) && '/' !in p ==> r == "(^|/)" + Body(p))
  {
    var absolute := IsPrefix("/", pattern);
    var p := if absolute then pattern[1..] else pattern;
    if absolute || '/' in p then "^" + Body(p) else "(^|/)" + Body(p)
  }

  /** The translated pattern without its anchor: a trailing `/` is dropped, and `(/.*)?$` appended. */
  function Body(p: string): (r: string)
    ensures IsSuffix(Below, r)
    ensures (p == "" || p[|p| - 1] != '/') ==> r == Translate(p) + Below
  {
    var t := Translate(p);
    if |p| > 0 && p[|p| - 1] == '/' then t[..|t| - 1] + Below else t + Below
  }

  /**
    A directory pattern `name/` loses its slash but, since it now contains
    one, is anchored at the root, while `name` matches at any depth.
   */
  lemma TrailingSlash(name: string)
    requires name != "" && name[0] != '/' && '/' !in name
    ensures ToRegex(name + "/") == "^" + (Translate(name) + Below)
    ensures ToRegex(name) == "(^|/)" + (Translate(name) + Below)
  {
    var p := name + "/";
    TranslateSlashEnd(name);
    assert IsPrefix("/", p) == false;
    assert p[|p| - 1] == '/';
    var t := Translate(p);
    assert t[..|t| - 1] == Translate(name);
    assert '/' in p by { assert p[|p| - 1] == '/'; }
    assert !IsPrefix("/", name);
  }

  lemma RootedBody(rest: string)
    ensures ToRegex("/" + rest) == "^" + Body(rest)
  {
    var pattern := "/" + rest;
    assert pattern[1..] == rest;
    assert IsPrefix("/", pattern) by { assert pattern[..1] == "/"; }
  }

  /** A leading `/` is stripped and anchors the pattern at the root. */
  lemma LeadingSlash(rest: string)
    requires rest == "" || rest[|rest| - 1] != '/'
    ensures ToRegex("/" + rest) == "^" + (Translate(rest) + Below)
  {
    RootedBody(rest);
  }

  /** The checker `createGitIgnoreChecker` returns: one that answers false, or the translated patterns. */
  datatype Checker = IgnoreNothing | Regexes(sources: seq<string>)

  function ToRegexAll(ps: seq<string>): (r: seq<string>)
    ensures |r| == |ps| && forall k :: 0 <= k < |ps| ==> r[k] == ToRegex(ps[k])
  {
    if |ps| == 0 then [] else [ToRegex(ps[0])] + ToRegexAll(ps[1..])
  }

  /** `createGitIgnoreChecker(rootDir)`: no file, or one that cannot be read, gives the checker that ignores nothing. */
  function CreateChecker(root: string, fs: FileSystem): (c: Checker)
    ensures !fs.Exists(Join(root, [".gitignore"])) ==> c == IgnoreNothing
    ensures var f := Join(root, [".gitignore"]); c.Regexes? <==> fs.Exists(f) && fs.CanRead(f)
    ensures c.Regexes? ==> var f := Join(root, [".gitignore"]);
      fs.CanRead(f) && c.sources == ToRegexAll(ParsePatterns(fs.files[f]))
  {
    var f := Join(root, [".gitignore"]);
    if !fs.Exists(f) || !fs.CanRead(f) then IgnoreNothing
    else Regexes(ToRegexAll(ParsePatterns(fs.files[f])))
  }

  /** `regexPatterns.some(regex => regex.test(path))`. */
  function AnyMatches(sources: seq<string>, test: (string, string) -> bool, path: string): (r: bool)
    ensures r <==> exists k :: 0 <= k < |sources| && test(sources[k], path)
  {
    if |sources| == 0 then false
    else if test(sources[0], path) then true
    else
      assert forall k :: 1 <= k < |sources| ==> sources[k] == sources[1..][k - 1];
      AnyMatches(sources[1..], test, path)
  }

  /** The checker applied to a path, which is first made relative to the root. */
  function IsIgnored(c: Checker, root: string, test: (string, string) -> bool, filePath: string): (r: bool)
    ensures c.IgnoreNothing? ==> !r
    ensures c.Regexes? ==> (r <==> exists k :: 0 <= k < |c.sources| && test(c.sources[k], Relative(root, root, filePath)))
  {
    match c
    case IgnoreNothing => false
    case Regexes(rs) => AnyMatches(rs, test, Relative(root, root, filePath))
  }

  /**
    With a readable `.gitignore` a path is ignored exactly when the
    expression of one of its patterns matches the path relative to the root;
    with a `.gitignore` that cannot be read, no path is.
   */
  lemma IgnoredByPattern(root: string, fs: FileSystem, test: (string, string) -> bool, filePath: string)
    ensures var f := Join(root, [".gitignore"]);
      fs.CanRead(f) ==>
        var ps := ParsePatterns(fs.files[f]);
        (IsIgnored(CreateChecker(root, fs), root, test, filePath) <==>
          exists k :: 0 <= k < |ps| && test(ToRegex(ps[k]), Relative(root, root, filePath)))
    ensures var f := Join(root, [".gitignore"]);
      fs.Exists(f) && !fs.CanRead(f) ==> !IsIgnored(CreateChecker(root, fs), root, test, filePath)
  {
    var f := Join(root, [".gitignore"]);
    if fs.CanRead(f) {
      var ps := ParsePatterns(fs.files[f]);
      var rs := ToRegexAll(ps);
      var rel := Relative(root, root, filePath);
      if IsIgnored(CreateChecker(root, fs), root, test, filePath) {
        var k :| 0 <= k < |rs| && test(rs[k], rel);
        assert test(ToRegex(ps[k]), rel);
      }
    }
  }

  /** Without a `.gitignore` no path is ignored. */
  lemma NoFileIgnoresNothing(root: string, fs: FileSystem, test: (string, string) -> bool, filePath: string)
    requires !fs.Exists(Join(root, [".gitignore"]))
    ensures !IsIgnored(CreateChecker(root, fs), root, test, filePath)
  {
  }
}

=== FILE: json.dfy ===
/**
  The JavaScript values that travel through the agent as parsed JSON, with
  the few language operations the core applies to them: truthiness,
  `typeof … === 'object'`, the `in` operator, property access and `String(v)`.
  A missing property (`undefined`) is `None` of an `Option<Json>`.
 */
module Json {
  import opened Common
  import opened Text

  datatype Json =
    | JNull
    | JBool(b: bool)
    | JNum(n: int)
    | JStr(s: string)
    | JArr(items: seq<Json>)
    | JObj(fields: map<string, Json>)

  /** JavaScript truthiness of a defined value. */
  predicate Truthy(v: Json) {
    match v
    case JNull => false
    case JBool(b) => b
    case JNum(n) => n != 0
    case JStr(s) => s != ""
    case _ => true
  }

  /** Truthiness of a possibly undefined value. */
  predicate TruthyOpt(v: Option<Json>) {
    v.Some? && Truthy(v.value)
  }

  /** `v !== null && typeof v === 'object'`: arrays count as objects. */
  predicate IsObject(v: Json) {
    v.JArr? || v.JObj?
  }

  /** The largest array length, 2^32 - 1; array indices lie below it. */
  const MaxLength: nat := 0xFFFF_FFFF

  /**
    The canonical array index a property key denotes, if any: "0", "1", …
    without leading zeros, below 2^32 - 1.
   */
  function ArrayIndex(key: string): (r: Option<nat>)
    ensures r.Some? ==> AllDigits(key) && |key| > 0 && r.value < MaxLength
  {
    if |key| > 0 && AllDigits(key) && (|key| == 1 || key[0] != '0') && DigitsValue(key) < MaxLength
    then Some(DigitsValue(key)) else None
  }

  /**
    `items[i] = value` as `JSON.stringify` sees the array afterwards: past
    the end the array grows, and the holes are written as `null`.
   */
  function SetIndex(items: seq<Json>, i: nat, value: Json): (r: seq<Json>)
    ensures |r| == if i < |items| then |items| else i + 1
    ensures r[i] == value
    ensures forall j :: 0 <= j < |r| && j != i ==> r[j] == (if j < |items| then items[j] else JNull)
  {
    if i < |items| then items[i := value] else items + seq(i - |items|, _ => JNull) + [value]
  }

  /** `items.length = n` as `JSON.stringify` sees it: cut to `n`, or grown by holes written as `null`. */
  function Resize(items: seq<Json>, n: nat): (r: seq<Json>)
    ensures |r| == n
    ensures forall j :: 0 <= j < n ==> r[j] == (if j < |items| then items[j] else JNull)
  {
    if n <= |items| then items[..n] else items + seq(n - |items|, _ => JNull)
  }

  /**
    The length `arr.length = v` sets, or `None` where it throws a
    `RangeError`: `Number(v)` must be a whole number below 2^32. `null` is 0
    and booleans are 0 and 1. A string is read by `Number`, blank text being
    0. An array converts through its joined text, so `[]` is 0, one element
    other than a boolean converts as that element, and two or more join
    with a comma, which is no number. A plain object is `NaN`.
   */
  function LengthValue(v: Json): (r: Option<nat>)
    ensures r.Some? ==> r.value < MaxLength + 1
    ensures v.JNum? ==> (r.Some? <==> 0 <= v.n <= MaxLength) && (r.Some? ==> r.value == v.n)
    decreases v
  {
    match v
    case JNull => Some(0)
    case JBool(b) => Some(if b then 1 else 0)
    case JNum(n) => if 0 <= n <= MaxLength then Some(n) else None
    case JStr(s) =>
      var n := if IsBlank(s) then Some(0) else JsNumber(Trim(s));
      if n.Some? && 0 <= n.value <= MaxLength then Some(n.value) else None
    case JArr(items) =>
      if |items| == 0 then Some(0)
      else if |items| == 1 && !items[0].JBool? then LengthValue(items[0])
      else None
    case JObj(_) => None
  }

  /** `key in v` for an object value: own keys of an object; indices and `length` of an array. */
  predicate HasKey(v: Json, key: string)
    requires IsObject(v)
  {
    match v
    case JObj(fields) => key in fields
    case JArr(items) =>
      key == "length" || (ArrayIndex(key).Some? && ArrayIndex(key).value < |items|)
  }

  /** `v[key]` for an object value; inherited members of the prototype are not modelled. */
  function Get(v: Json, key: string): (r: Option<Json>)
    requires IsObject(v)
    ensures r.Some? <==> HasKey(v, key)
    ensures v.JObj? && key in v.fields ==> r == Some(v.fields[key])
  {
    match v
    case JObj(fields) => if key in fields then Some(fields[key]) else None
    case JArr(items) =>
      if key == "length" then Some(JNum(|items|))
      else if ArrayIndex(key).Some? && ArrayIndex(key).value < |items| then Some(items[ArrayIndex(key).value])
      else None
  }

  /** `obj?.key` on a possibly undefined value: undefined unless it is an object. */
  function GetOpt(v: Option<Json>, key: string): (r: Option<Json>)
    ensures r.Some? ==> v.Some? && IsObject(v.value) && HasKey(v.value, key)
  {
    if v.Some? && IsObject(v.value) then Get(v.value, key) else None
  }

  /** A string-valued property of an object. */
  function GetString(v: Json, key: string): (r: Option<string>)
    ensures r.Some? <==> v.JObj? && key in v.fields && v.fields[key].JStr?
    ensures r.Some? ==> v.fields[key] == JStr(r.value)
  {
    if v.JObj? && key in v.fields && v.fields[key].JStr? then Some(v.fields[key].s) else None
  }

  /** `String(v)`, which template literals apply to interpolated values. */
  function JsString(v: Json): (r: string)
    ensures v.JStr? ==> r == v.s
    ensures v.JObj? ==> r == "[object Object]"
    decreases v, 1
  {
    match v
    case JNull => "null"
    case JBool(b) => if b then "true" else "false"
    case JNum(n) => IntText(n)
    case JStr(s) => s
    case JArr(items) => JoinItems(v, items)
    case JObj(_) => "[object Object]"
  }

  /** `Array.prototype.join(',')` on the items of an array: `null` items render as empty text. */
  function JoinItems(parent: Json, items: seq<Json>): string
    requires forall k :: 0 <= k < |items| ==> items[k] < parent
    decreases parent, 0, |items|
  {
    if |items| == 0 then ""
    else
      var head := if items[0].JNull? then "" else JsString(items[0]);
      if |items| == 1 then head else head + "," + JoinItems(parent, items[1..])
  }

  /** `String(v)` of a possibly undefined value. */
  function JsStringOpt(v: Option<Json>): string {
    if v.Some? then JsString(v.value) else "undefined"
  }
}

=== FILE: legacy_context.dfy ===
/**
  The conversation state of the older CLI, cli/src/core/contextManager.ts:
  no token budget, a window of the last ten messages, tool calls attached to
  model messages, and the tool catalogue listed by name after the conversation.
 */
module LegacyContext {
  import opened Common
  import opened Text
  import opened Json

  datatype Role = User | Model

  function RoleText(r: Role): string {
    match r
    case User => "user"
    case Model => "model"
  }

  /** A message; `toolCalls` is the optional `metadata.toolCalls` list. */
  datatype Message = Message(role: Role, content: string, toolCalls: Option<seq<Json>>)

  datatype Context = Context(
    systemPrompt: string,
    conversations: seq<Message>,
    cwd: string,
    fileTree: string,
    currentQuery: string)

  function Init(systemPrompt: string, cwd: string, fileTree: string): (c: Context)
    ensures c.conversations == [] && c.currentQuery == "" && c.cwd == cwd
  {
    Context(systemPrompt, [], cwd, fileTree, "")
  }

  /** `addResponse(message)` calls `push()` with no argument, so nothing is recorded. */
  function AddResponse(c: Context, message: Message): (c': Context)
    ensures c' == c
  {
    c.(conversations := c.conversations + [])
  }

  /** `addUserMessage(query)`: a user message, which also becomes the current query. */
  function AddUserMessage(c: Context, query: string): (c': Context)
    ensures c'.conversations == c.conversations + [Message(User, query, None)]
    ensures c'.currentQuery == query
    ensures c'.(conversations := c.conversations, currentQuery := c.currentQuery) == c
  {
    c.(conversations := c.conversations + [Message(User, query, None)], currentQuery := query)
  }

  /** `updateCurrentQuery(query)` does the same as `addUserMessage`. */
  function UpdateCurrentQuery(c: Context, query: string): (c': Context)
    ensures c' == AddUserMessage(c, query)
  {
    c.(conversations := c.conversations + [Message(User, query, None)], currentQuery := query)
  }

  /** `result.result?.DisplayResult || result.error || ""`, as the text a template renders. */
  function ToolResultText(result: Json): (s: string)
    ensures !TruthyOpt(GetOpt(GetOpt(Some(result), "result"), "DisplayResult")) && !TruthyOpt(GetOpt(Some(result), "error")) ==> s == ""
  {
    var display := GetOpt(GetOpt(Some(result), "result"), "DisplayResult");
    var error := GetOpt(Some(result), "error");
    if TruthyOpt(display) then JsString(display.value)
    else if TruthyOpt(error) then JsString(error.value)
    else ""
  }

  /** `addToolResult(toolCall, result)`: a model message carrying the call. */
  function AddToolResult(c: Context, toolCall: Json, result: Json): (c': Context)
    ensures |c'.conversations| == |c.conversations| + 1
    ensures c'.conversations[..|c.conversations|] == c.conversations
    ensures c'.conversations[|c.conversations|] == Message(Model, ToolResultText(result), Some([toolCall]))
    ensures c'.currentQuery == c.currentQuery
  {
    c.(conversations := c.conversations + [Message(Model, ToolResultText(result), Some([toolCall]))])
  }

  /** A display result that is a non-empty string is the content of the recorded message. */
  lemma DisplayResultRecorded(c: Context, toolCall: Json, llm: Json, display: string, error: Option<Json>)
    requires display != ""
    ensures var result := JObj(map["success" := JBool(true), "result" := JObj(map["LLMresult" := llm, "DisplayResult" := JStr(display)])]);
      AddToolResult(c, toolCall, result).conversations[|c.conversations|].content == display
  {
  }

  const WindowSize := 10

  /** `conversations.slice(-10)`. */
  function Recent(ms: seq<Message>): (r: seq<Message>)
    ensures |r| == if |ms| < WindowSize then |ms| else WindowSize
    ensures IsSuffixSeq(r, ms)
  {
    if |ms| <= WindowSize then ms else ms[|ms| - WindowSize..]
  }

  /** The `Tool: …` lines of one message: its last two tool calls, rendered with `String`. */
  function ToolLines(calls: seq<Json>): (s: string)
    ensures |calls| == 0 ==> s == ""
  {
    var last := LastN(calls, 2);
    ToolLinesOf(last)
  }

  function ToolLinesOf(calls: seq<Json>): string {
    if |calls| == 0 then "" else "Tool: " + JsString(calls[0]) + "\n" + ToolLinesOf(calls[1..])
  }

  function MessageText(m: Message): string {
    RoleText(m.role) + ": " + m.content + "\n" + (if m.toolCalls.Some? then ToolLines(m.toolCalls.value) else "")
  }

  function RenderMessages(ms: seq<Message>): string {
    if |ms| == 0 then "" else MessageText(ms[0]) + RenderMessages(ms[1..])
  }

  const ConversationHeader := "--- Recent Conversation ---\n"

  function ConversationSection(c: Context): (s: string)
    ensures IsPrefix(ConversationHeader, s)
  {
    ConversationHeader + RenderMessages(Recent(c.conversations))
  }

  /** Messages older than the last ten never reach the prompt: the section depends only on the last ten. */
  lemma OlderMessagesIgnored(c: Context, older: seq<Message>)
    requires |c.conversations| >= WindowSize
    ensures ConversationSection(c.(conversations := older + c.conversations)) == ConversationSection(c)
  {
    var all := older + c.conversations;
    assert all[|all| - WindowSize..] == c.conversations[|c.conversations| - WindowSize..];
  }

  /** A message carrying more than two tool calls shows only its last two. */
  lemma ToolLinesLastTwo(a: Json, b: Json, rest: seq<Json>)
    ensures ToolLines(rest + [a, b]) == "Tool: " + JsString(a) + "\n" + "Tool: " + JsString(b) + "\n"
  {
    assert LastN(rest + [a, b], 2) == [a, b];
    assert [a, b][1..] == [b];
    assert [b][1..] == [];
    assert ToolLinesOf([b]) == "Tool: " + JsString(b) + "\n";
  }

  /** The texts the prompt is assembled from. */
  datatype PromptTexts = PromptTexts(toolNames: seq<string>, examples: string, toolSelection: string)

  function ProjectSection(c: Context): string {
    "CWD: " + c.cwd + "\n" + "File Tree: " + c.fileTree
  }

  function ToolSection(t: PromptTexts): string {
    "These are your Tools and what they expect:\n" + JoinWith(t.toolNames, "\n") + " here are some examples:\n"
      + t.examples + " and the response I am expecting is like \n" + t.toolSelection
  }

  /**
    `buildPrompt`: the system prompt (dropped when empty), then project state,
    conversation and tools, joined by blank lines.
   */
  function BuildPrompt(c: Context, t: PromptTexts): (r: string)
    ensures c.systemPrompt != "" ==>
      r == c.systemPrompt + "\n\n" + ProjectSection(c) + "\n\n" + ConversationSection(c) + "\n\n" + ToolSection(t)
    ensures c.systemPrompt == "" ==>
      r == ProjectSection(c) + "\n\n" + ConversationSection(c) + "\n\n" + ToolSection(t)
  {
    var sections := [c.systemPrompt, ProjectSection(c), ConversationSection(c), ToolSection(t)];
    DropEmptyFirst(c.systemPrompt, ProjectSection(c), ConversationSection(c), ToolSection(t));
    JoinWith(NonEmpty(sections), "\n\n")
  }

  /** Only the first of four sections can be empty; the other three are kept in order. */
  lemma DropEmptyFirst(sys: string, proj: string, conv: string, tools: string)
    requires proj != "" && conv != "" && tools != ""
    ensures sys != "" ==> JoinWith(NonEmpty([sys, proj, conv, tools]), "\n\n") == sys + "\n\n" + proj + "\n\n" + conv + "\n\n" + tools
    ensures sys == "" ==> JoinWith(NonEmpty([sys, proj, conv, tools]), "\n\n") == proj + "\n\n" + conv + "\n\n" + tools
  {
    var sections := [sys, proj, conv, tools];
    if sys != "" {
      NonEmptyKeepsAll(sections);
      assert sections == [sys] + [proj, conv, tools];
      JoinCons(sys, [proj, conv, tools], "\n\n");
    } else {
      assert sections[1..] == [proj, conv, tools];
      NonEmptyKeepsAll([proj, conv, tools]);
    }
    assert [proj, conv, tools] == [proj] + [conv, tools];
    JoinCons(proj, [conv, tools], "\n\n");
    assert [conv, tools] == [conv] + [tools];
    JoinCons(conv, [tools], "\n\n");
  }

  function UpdateProjectCwd(c: Context, cwd: string): (c': Context)
    ensures c'.cwd == cwd && c'.(cwd := c.cwd) == c
  {
    c.(cwd := cwd)
  }
}

=== FILE: legacy_grep.dfy ===
/**
  `grepTool` of cli/src/core/tools/grepTool.ts: validate the options, then
  search one file or walk a directory tree, collecting the lines a regular
  expression matches. Matching and compiling regular expressions are
  oracles; the directory tree is a snapshot whose listings are in
  `readdirSync` order.
 */
module LegacyGrep {
  import opened Common
  import opened Json
  import opened Text
  import opened Paths
  import Validator
  import LegacyValidator

  datatype GrepOptions = GrepOptions(pattern: string, path: Option<string>, includeRegex: Option<string>)

  /**
    A directory entry: a file (whose read may throw), a directory (whose
    listing throws unless `listed`; its children count only when listed),
    or anything else.
   */
  datatype Node =
    | FileNode(name: string, content: Option<string>)
    | DirNode(name: string, listed: bool, children: seq<Node>)
    | OtherNode(name: string)

  /** The regular-expression oracles: `new RegExp(p)` throwing with a message, and `new RegExp(p).test(s)`. */
  datatype Regex = Regex(compileError: string -> Option<string>, test: (string, string) -> bool)

  /** What the search needs: the pattern and the optional include filter, both already compiled. */
  datatype Matcher = Matcher(pattern: string, includeRegex: Option<string>, rx: Regex)

  datatype Match = Match(filePath: string, lineNumber: nat, line: string)

  /** `!includePattern || includePattern.test(name)`. */
  predicate Included(m: Matcher, name: string) {
    m.includeRegex.None? || m.rx.test(m.includeRegex.value, name)
  }

  /** `searchFile` on lines already split: the 1-based numbers of the lines the pattern matches, in order. */
  function LineMatches(filePath: string, lines: seq<string>, m: Matcher): (r: seq<Match>)
    ensures forall k :: 0 <= k < |r| ==>
      && r[k].filePath == filePath && 1 <= r[k].lineNumber <= |lines|
      && r[k].line == lines[r[k].lineNumber - 1] && m.rx.test(m.pattern, r[k].line)
    ensures |r| <= |lines|
  {
    if |lines| == 0 then []
    else
      var n := |lines|;
      LineMatches(filePath, lines[..n - 1], m)
        + (if m.rx.test(m.pattern, lines[n - 1]) then [Match(filePath, n, lines[n - 1])] else [])
  }

  predicate Increasing(r: seq<Match>) {
    forall k, j :: 0 <= k < j < |r| ==> r[k].lineNumber < r[j].lineNumber
  }

  /** The line numbers of the matches increase. */
  lemma {:induction false} LineMatchesOrdered(filePath: string, lines: seq<string>, m: Matcher)
    ensures Increasing(LineMatches(filePath, lines, m))
  {
    if |lines| > 0 {
      var init := lines[..|lines| - 1];
      LineMatchesOrdered(filePath, init, m);
      var p := LineMatches(filePath, init, m);
      var r := LineMatches(filePath, lines, m);
      assert forall k :: 0 <= k < |p| ==> p[k].lineNumber <= |init|;
      assert forall k :: 0 <= k < |p| ==> r[k] == p[k];
      assert |r| > |p| ==> |r| == |p| + 1 && r[|p|].lineNumber == |lines|;
      forall k, j | 0 <= k < j < |r| ensures r[k].lineNumber < r[j].lineNumber {
        if j < |p| {
          assert r[k] == p[k] && r[j] == p[j];
          assert p[k].lineNumber < p[j].lineNumber;
        } else {
          assert r[k] == p[k] && p[k].lineNumber <= |init|;
        }
      }
    }
  }

  /** Every line the pattern matches is reported. */
  lemma {:induction false} LineMatchesComplete(filePath: string, lines: seq<string>, m: Matcher, i: nat)
    requires i < |lines| && m.rx.test(m.pattern, lines[i])
    ensures exists k :: 0 <= k < |LineMatches(filePath, lines, m)| && LineMatches(filePath, lines, m)[k] == Match(filePath, i + 1, lines[i])
  {
    var n := |lines|;
    var init := lines[..n - 1];
    var p := LineMatches(filePath, init, m);
    var last := if m.rx.test(m.pattern, lines[n - 1]) then [Match(filePath, n, lines[n - 1])] else [];
    var r := LineMatches(filePath, lines, m);
    assert r == p + last;
    if i < n - 1 {
      LineMatchesComplete(filePath, init, m, i);
      var k :| 0 <= k < |p| && p[k] == Match(filePath, i + 1, init[i]);
      assert init[i] == lines[i];
      assert r[k] == p[k];
    } else {
      assert last == [Match(filePath, n, lines[n - 1])];
      assert r[|p|] == Match(filePath, i + 1, lines[i]);
    }
  }

  /** The search so far: the matches pushed, and the path whose read threw, if any. */
  datatype Scan = Scan(matches: seq<Match>, failed: Option<string>)

  /** An entry that is not a directory can be read, or is skipped by the include filter. */
  predicate LeafReadable(e: Node, m: Matcher) {
    e.FileNode? && Included(m, e.name) ==> e.content.Some?
  }

  /** Every directory below can be listed and every included file below can be read. */
  predicate Readable(entries: seq<Node>, m: Matcher)
    decreases entries
  {
    |entries| == 0 ||
    (&& (if entries[0].DirNode? then entries[0].listed && Readable(entries[0].children, m)
         else LeafReadable(entries[0], m))
     && Readable(entries[1..], m))
  }

  /** An entry that is not a directory: `searchFile` on an included file, nothing for anything else. */
  function VisitLeaf(full: string, e: Node, m: Matcher, acc: seq<Match>): (r: Scan)
    requires !e.DirNode?
    ensures |acc| <= |r.matches| && r.matches[..|acc|] == acc
    ensures r.failed.None? <==> LeafReadable(e, m)
    ensures r.failed.Some? ==> r.failed.value == full
  {
    if e.OtherNode? || !Included(m, e.name) then Scan(acc, None)
    else if e.content.None? then Scan(acc, Some(full))
    else Scan(acc + LineMatches(full, Split(e.content.value, '\n'), m), None)
  }

  /** `walkDir(dir)` over the entries of `dir`, pushing onto `acc`; the first exception ends the walk. */
  function WalkDir(dir: string, entries: seq<Node>, m: Matcher, acc: seq<Match>): (r: Scan)
    ensures |acc| <= |r.matches| && r.matches[..|acc|] == acc
    ensures r.failed.None? <==> Readable(entries, m)
    decreases entries
  {
    if |entries| == 0 then Scan(acc, None)
    else
      var e := entries[0];
      var full := Join(dir, [e.name]);
      var s := if !e.DirNode? then VisitLeaf(full, e, m, acc)
        else if !e.listed then Scan(acc, Some(full))
        else WalkDir(full, e.children, m, acc);
      if s.failed.Some? then s
      else
        var r := WalkDir(dir, entries[1..], m, s.matches);
        assert r.matches[..|acc|] == acc by {
          assert r.matches[..|s.matches|][..|acc|] == r.matches[..|acc|];
        }
        r
  }

  /** An included file the walk reads, with its full path. */
  datatype FileAt = FileAt(path: string, content: string)

  function LeafFiles(full: string, e: Node, m: Matcher): seq<FileAt> {
    if e.FileNode? && Included(m, e.name) && e.content.Some? then [FileAt(full, e.content.value)] else []
  }

  /** The included, readable files below `dir`, in walk order: the reference the walk is compared with. */
  function Files(dir: string, entries: seq<Node>, m: Matcher): seq<FileAt>
    decreases entries
  {
    if |entries| == 0 then []
    else
      var e := entries[0];
      var full := Join(dir, [e.name]);
      var here := if !e.DirNode? then LeafFiles(full, e, m)
        else if e.listed then Files(full, e.children, m) else [];
      here + Files(dir, entries[1..], m)
  }

  /** The matches of each file, file after file. */
  function AllMatches(files: seq<FileAt>, m: Matcher): seq<Match> {
    if |files| == 0 then []
    else LineMatches(files[0].path, Split(files[0].content, '\n'), m) + AllMatches(files[1..], m)
  }

  lemma {:induction false} AllMatchesAppend(a: seq<FileAt>, b: seq<FileAt>, m: Matcher)
    ensures AllMatches(a + b, m) == AllMatches(a, m) + AllMatches(b, m)
  {
    if |a| > 0 {
      assert (a + b)[1..] == a[1..] + b;
      AllMatchesAppend(a[1..], b, m);
    } else {
      assert a + b == b;
    }
  }

  lemma VisitLeafFiles(full: string, e: Node, m: Matcher, acc: seq<Match>)
    requires !e.DirNode? && LeafReadable(e, m)
    ensures VisitLeaf(full, e, m, acc) == Scan(acc + AllMatches(LeafFiles(full, e, m), m), None)
  {
    if LeafFiles(full, e, m) == [] {
      assert acc + [] == acc;
    }
  }

  /** The files the first entry contributes: itself, or those below it. */
  function Here(dir: string, e: Node, m: Matcher): seq<FileAt> {
    var full := Join(dir, [e.name]);
    if !e.DirNode? then LeafFiles(full, e, m) else if e.listed then Files(full, e.children, m) else []
  }

  /** The walk past its first entry, which adds that entry's matches. */
  lemma {:induction false} WalkFirst(dir: string, entries: seq<Node>, m: Matcher, acc: seq<Match>)
    requires |entries| > 0 && Readable(entries, m)
    ensures Readable(entries[1..], m)
    ensures WalkDir(dir, entries, m, acc) == WalkDir(dir, entries[1..], m, acc + AllMatches(Here(dir, entries[0], m), m))
    ensures Files(dir, entries, m) == Here(dir, entries[0], m) + Files(dir, entries[1..], m)
    decreases entries, 0
  {
    var e := entries[0];
    var full := Join(dir, [e.name]);
    if e.DirNode? {
      WalkIsFileOrder(full, e.children, m, acc);
    } else {
      VisitLeafFiles(full, e, m, acc);
    }
  }

  /**
    On a readable tree the walk pushes the matches of the included files in
    depth-first `readdirSync` order, each file's in line order.
   */
  lemma {:induction false} WalkIsFileOrder(dir: string, entries: seq<Node>, m: Matcher, acc: seq<Match>)
    requires Readable(entries, m)
    ensures WalkDir(dir, entries, m, acc) == Scan(acc + AllMatches(Files(dir, entries, m), m), None)
    decreases entries, 1
  {
    if |entries| > 0 {
      var here := Here(dir, entries[0], m);
      var rest := Files(dir, entries[1..], m);
      var mid := acc + AllMatches(here, m);
      WalkFirst(dir, entries, m, acc);
      assert WalkDir(dir, entries[1..], m, mid) == Scan(mid + AllMatches(rest, m), None) by {
        WalkIsFileOrder(dir, entries[1..], m, mid);
      }
      AccAppend(acc, here, rest, m);
    }
  }

  lemma AccAppend(acc: seq<Match>, a: seq<FileAt>, b: seq<FileAt>, m: Matcher)
    ensures acc + AllMatches(a, m) + AllMatches(b, m) == acc + AllMatches(a + b, m)
  {
    AllMatchesAppend(a, b, m);
  }

  /** The options object as the tool receives it: `pattern`, and `path` and `include` when given. */
  function OptionsJson(o: GrepOptions): (v: Json)
    ensures v.JObj? && "tool" !in v.fields
  {
    var base := map["pattern" := JStr(o.pattern)];
    var withPath := if o.path.Some? then base["path" := JStr(o.path.value)] else base;
    JObj(if o.includeRegex.Some? then withPath["include" := JStr(o.includeRegex.value)] else withPath)
  }

  /** `GrepSchema.safeParse(v).success`: the literal tool `grep` and conforming `toolOptions`. */
  predicate GrepSchemaAccepts(v: Json) {
    && v.JObj? && "tool" in v.fields && v.fields["tool"] == JStr("grep")
    && "toolOptions" in v.fields && v.fields["toolOptions"].JObj?
    && Validator.Conforms(v.fields["toolOptions"].fields, LegacyValidator.Schema("grep"))
  }

  function RegexError(pattern: string, message: string): string {
    "Invalid regular expression pattern provided: " + pattern + ". Error: " + message
  }

  /** `validateToolParams(options)` as written: the options object is parsed against the whole-call schema. */
  function ValidateAsWritten(o: GrepOptions, rx: Regex, zodMessage: Json -> string): (r: Option<string>)
  {
    var v := OptionsJson(o);
    if !GrepSchemaAccepts(v) then Some("Invalid grep parameters: " + zodMessage(v))
    else if rx.compileError(o.pattern).Some? then Some(RegexError(o.pattern, rx.compileError(o.pattern).value))
    else None
  }

  /** The options object never has a `tool` key, so validation as written rejects every call. */
  lemma AsWrittenRejectsAll(o: GrepOptions, rx: Regex, zodMessage: Json -> string)
    ensures ValidateAsWritten(o, rx, zodMessage) == Some("Invalid grep parameters: " + zodMessage(OptionsJson(o)))
  {
  }

  /** `validateToolParams` parsing the options against the schema's `toolOptions` part. */
  function Validate(o: GrepOptions, rx: Regex, zodMessage: Json -> string): (r: Option<string>)
    ensures r.None? <==> o.pattern != "" && rx.compileError(o.pattern).None?
    ensures o.pattern == "" ==> r == Some("Invalid grep parameters: " + zodMessage(OptionsJson(o)))
  {
    var v := OptionsJson(o);
    var schema := LegacyValidator.Schema("grep");
    assert o.pattern == "" ==> !Validator.FieldOk(v.fields, schema[0]);
    if !Validator.Conforms(v.fields, schema) then
      Some("Invalid grep parameters: " + zodMessage(v))
    else if rx.compileError(o.pattern).Some? then Some(RegexError(o.pattern, rx.compileError(o.pattern).value))
    else
      assert Validator.FieldOk(v.fields, schema[0]);
      None
  }

  /** The file system as the tool sees it: the working directory, `statSync`, and the text of an exception. */
  datatype Host = Host(cwd: string, stat: string -> Option<Node>, errorText: string -> string)

  function MatchLine(x: Match): string {
    x.filePath + ":" + IntText(x.lineNumber) + ": " + x.line
  }

  function MatchLines(ms: seq<Match>): (r: seq<string>)
    ensures |r| == |ms| && forall k :: 0 <= k < |ms| ==> r[k] == MatchLine(ms[k])
  {
    if |ms| == 0 then [] else [MatchLine(ms[0])] + MatchLines(ms[1..])
  }

  /** The result for the collected matches. */
  function Report(ms: seq<Match>): (r: ToolResult)
    ensures |ms| == 0 <==> r == ToolResult("No matches found.", "No matches found")
  {
    if |ms| == 0 then ToolResult("No matches found.", "No matches found")
    else
      assert ("Found " + IntText(|ms|) + " match(es)")[0] == 'F';
      ToolResult(JoinWith(MatchLines(ms), "\n"), "Found " + IntText(|ms|) + " match(es)")
  }

  /** The directory or file searched: the given path resolved against the working directory, else the working directory. */
  function SearchPath(o: GrepOptions, host: Host): (r: string)
    ensures o.path.None? || o.path.value == "" ==> r == host.cwd
    ensures o.path.Some? && o.path.value != "" ==> IsAbsolute(r)
    ensures o.path.Some? && IsAbsolute(o.path.value) ==> r == Resolve("/", o.path.value)
  {
    if o.path.Some? && o.path.value != "" then Resolve(host.cwd, o.path.value) else host.cwd
  }

  /** A non-empty include filter and the pattern both compile. */
  predicate Compiles(o: GrepOptions, rx: Regex) {
    && (o.includeRegex.Some? && o.includeRegex.value != "" ==> rx.compileError(o.includeRegex.value).None?)
    && rx.compileError(o.pattern).None?
  }

  /** The search after validation; compiling the include filter, then the pattern, throws out of the tool. */
  function Search(o: GrepOptions, host: Host, rx: Regex): (r: Outcome)
    ensures r.Threw? <==> !Compiles(o, rx)
    ensures Compiles(o, rx) && host.stat(SearchPath(o, host)).None? ==>
      r == Returned(ToolResult("Error reading path: " + host.errorText(SearchPath(o, host)), "Error while searching"))
    ensures Compiles(o, rx) && host.stat(SearchPath(o, host)).Some? && host.stat(SearchPath(o, host)).value.OtherNode? ==>
      r == Returned(ToolResult("Provided path is neither a file nor a directory.", "Invalid path"))
    ensures r.Returned? && r.result.displayResult == "No matches found" ==> r.result.llmResult == "No matches found."
  {
    var includeRx := if o.includeRegex.Some? && o.includeRegex.value != "" then o.includeRegex else None;
    if includeRx.Some? && rx.compileError(includeRx.value).Some? then Threw(rx.compileError(includeRx.value).value)
    else if rx.compileError(o.pattern).Some? then Threw(rx.compileError(o.pattern).value)
    else
      var m := Matcher(o.pattern, includeRx, rx);
      var searchPath := SearchPath(o, host);
      match host.stat(searchPath)
      case None => Returned(ToolResult("Error reading path: " + host.errorText(searchPath), "Error while searching"))
      case Some(FileNode(_, content)) =>
        if !Included(m, Basename(searchPath)) then Returned(Report([]))
        else if content.None? then Returned(ToolResult("Error reading path: " + host.errorText(searchPath), "Error while searching"))
        else Returned(Report(LineMatches(searchPath, Split(content.value, '\n'), m)))
      case Some(DirNode(_, listed, children)) =>
        var s := if !listed then Scan([], Some(searchPath)) else WalkDir(searchPath, children, m, []);
        if s.failed.Some? then Returned(ToolResult("Error reading path: " + host.errorText(s.failed.value), "Error while searching"))
        else Returned(Report(s.matches))
      case Some(OtherNode(_)) => Returned(ToolResult("Provided path is neither a file nor a directory.", "Invalid path"))
  }

  const ValidationDisplay := "Fixing Errors while finding files"

  /** `grepTool(options)` as written. */
  function GrepToolAsWritten(o: GrepOptions, host: Host, rx: Regex, zodMessage: Json -> string): (r: Outcome)
    ensures ValidateAsWritten(o, rx, zodMessage).Some? ==> r == Returned(ToolResult(ValidateAsWritten(o, rx, zodMessage).value, ValidationDisplay))
    ensures ValidateAsWritten(o, rx, zodMessage).None? ==> r == Search(o, host, rx)
  {
    var v := ValidateAsWritten(o, rx, zodMessage);
    if v.Some? then Returned(ToolResult(v.value, ValidationDisplay)) else Search(o, host, rx)
  }

  /** As written, every call ends at validation: no path is searched and the file system is irrelevant. */
  lemma GrepNeverSearches(o: GrepOptions, host: Host, rx: Regex, zodMessage: Json -> string)
    ensures GrepToolAsWritten(o, host, rx, zodMessage)
      == Returned(ToolResult("Invalid grep parameters: " + zodMessage(OptionsJson(o)), ValidationDisplay))
  {
    AsWrittenRejectsAll(o, rx, zodMessage);
  }

  /** `grepTool(options)` with the options validated against their own schema. */
  function GrepTool(o: GrepOptions, host: Host, rx: Regex, zodMessage: Json -> string): (r: Outcome)
    ensures o.pattern == "" ==> r == Returned(ToolResult("Invalid grep parameters: " + zodMessage(OptionsJson(o)), ValidationDisplay))
    ensures o.pattern != "" && rx.compileError(o.pattern).None? ==> r == Search(o, host, rx)
  {
    var v := Validate(o, rx, zodMessage);
    if v.Some? then Returned(ToolResult(v.value, ValidationDisplay)) else Search(o, host, rx)
  }

  /**
    Searching a readable directory reports the matching lines of the
    included files in walk order, as `path:line: text` joined by newlines.
   */
  lemma DirectorySearch(o: GrepOptions, host: Host, rx: Regex, zodMessage: Json -> string, name: string, entries: seq<Node>)
    requires o.pattern != "" && rx.compileError(o.pattern).None? && o.includeRegex.None?
    requires host.stat(SearchPath(o, host)) == Some(DirNode(name, true, entries))
    requires Readable(entries, Matcher(o.pattern, None, rx))
    ensures var ms := AllMatches(Files(SearchPath(o, host), entries, Matcher(o.pattern, None, rx)), Matcher(o.pattern, None, rx));
      GrepTool(o, host, rx, zodMessage) == Returned(Report(ms))
  {
    WalkIsFileOrder(SearchPath(o, host), entries, Matcher(o.pattern, None, rx), []);
  }

  /** A file path is searched only when its base name passes the include filter. */
  lemma FileSearch(o: GrepOptions, host: Host, rx: Regex, zodMessage: Json -> string, name: string, content: string)
    requires o.pattern != "" && rx.compileError(o.pattern).None?
    requires o.includeRegex.Some? && o.includeRegex.value != "" && rx.compileError(o.includeRegex.value).None?
    requires host.stat(SearchPath(o, host)) == Some(FileNode(name, Some(content)))
    ensures var p := SearchPath(o, host);
      GrepTool(o, host, rx, zodMessage) == Returned(
        if rx.test(o.includeRegex.value, Basename(p)) then Report(LineMatches(p, Split(content, '\n'), Matcher(o.pattern, o.includeRegex, rx)))
        else ToolResult("No matches found.", "No matches found"))
  {
  }
}

=== FILE: legacy_read_file.dfy ===
/**
  The `read_file` handler of the older CLI, cli/src/core/tools/readFileTool.ts:
  no guardrail, the same file checks, and lines taken from a plain split of
  the content at `\n` with the end bound checked against the line count.
 */
module LegacyReadFile {
  import opened Common
  import opened Text
  import opened Paths
  import ReadFile

  /** `content.split("\n")` followed by `slice(startLine - 1, endLine)`. */
  function SliceLines(content: string, startLine: int, endLine: int): (r: seq<string>)
    requires 1 <= startLine <= endLine <= |Split(content, '\n')|
    ensures |r| == endLine - startLine + 1
    ensures forall k :: 0 <= k < |r| ==> r[k] == Split(content, '\n')[startLine - 1 + k]
  {
    Split(content, '\n')[startLine - 1..endLine]
  }

  /** `readFile(options, rootPath)` of the older CLI. */
  function Read(opts: ReadFile.ReadOptions, root: string, fs: FileSystem): (r: ToolResult)
    ensures ReadFile.ValidateForReading(opts.absolutePath, fs).Some? ==>
      r == ReadFile.Fixing(ReadFile.ValidateForReading(opts.absolutePath, fs).value)
    ensures ReadFile.ValidateForReading(opts.absolutePath, fs).None? && ReadFile.BothFalsy(opts.startLine, opts.endLine) ==>
      r.llmResult == fs.files[opts.absolutePath]
    ensures r.displayResult != ReadFile.FixingIssues && !ReadFile.BothFalsy(opts.startLine, opts.endLine) ==>
      var lines := Split(fs.files[opts.absolutePath], '\n');
      && opts.startLine.Some? && opts.endLine.Some?
      && 1 <= opts.startLine.value <= opts.endLine.value <= |lines|
      && r.llmResult == JoinWith(lines[opts.startLine.value - 1..opts.endLine.value], "\n")
    ensures (ReadFile.ValidateForReading(opts.absolutePath, fs).None? && !ReadFile.BothFalsy(opts.startLine, opts.endLine)
      && ReadFile.CheckRange(opts.startLine, opts.endLine).Range?
      && |Split(fs.files[opts.absolutePath], '\n')| < opts.endLine.value) ==>
      r == ReadFile.Fixing("File only has " + IntText(|Split(fs.files[opts.absolutePath], '\n')|)
        + " lines, but endLine is " + IntText(opts.endLine.value) + ".")
    ensures (ReadFile.ValidateForReading(opts.absolutePath, fs).None? && !ReadFile.BothFalsy(opts.startLine, opts.endLine)
      && ReadFile.CheckRange(opts.startLine, opts.endLine).RangeError?) ==>
      r == ReadFile.Fixing(ReadFile.CheckRange(opts.startLine, opts.endLine).message)
    ensures (ReadFile.ValidateForReading(opts.absolutePath, fs).None? && !ReadFile.BothFalsy(opts.startLine, opts.endLine)
      && ReadFile.CheckRange(opts.startLine, opts.endLine).Range?
      && opts.endLine.value <= |Split(fs.files[opts.absolutePath], '\n')|) ==>
      var s, e := opts.startLine.value, opts.endLine.value;
      r == ToolResult(JoinWith(Split(fs.files[opts.absolutePath], '\n')[s - 1..e], "\n"),
        "Reading lines " + IntText(s) + "-" + IntText(e) + " from " + Relative(root, root, opts.absolutePath))
  {
    var p := opts.absolutePath;
    match ReadFile.ValidateForReading(p, fs)
    case Some(err) => ReadFile.Fixing(err)
    case None =>
      var content := fs.files[p];
      if ReadFile.BothFalsy(opts.startLine, opts.endLine) then
        ToolResult(content, "Reading " + Relative(root, root, p))
      else
        var lines := Split(content, '\n');
        match ReadFile.CheckRange(opts.startLine, opts.endLine)
        case RangeError(msg) => ReadFile.Fixing(msg)
        case Range(s, e) =>
          if |lines| < e then
            ReadFile.Fixing("File only has " + IntText(|lines|) + " lines, but endLine is " + IntText(e) + ".")
          else
            ToolResult(JoinWith(SliceLines(content, s, e), "\n"),
              "Reading lines " + IntText(s) + "-" + IntText(e) + " from " + Relative(root, root, p))
  }

  /** Reading every line by range gives back exactly the whole content. */
  lemma ReadAllLines(opts: ReadFile.ReadOptions, root: string, fs: FileSystem)
    requires ReadFile.ValidateForReading(opts.absolutePath, fs).None?
    requires opts.startLine == Some(1) && opts.endLine == Some(|Split(fs.files[opts.absolutePath], '\n')|)
    ensures Read(opts, root, fs).llmResult == fs.files[opts.absolutePath]
  {
    var c := fs.files[opts.absolutePath];
    JoinSplitStr(c, "\n");
    assert SliceLines(c, 1, |Split(c, '\n')|) == Split(c, '\n');
  }

  /** Two adjacent ranges read one after the other give the combined range, separated by a newline. */
  lemma ReadAdjacent(content: string, s: int, m: int, e: int)
    requires 1 <= s <= m && m < e <= |Split(content, '\n')|
    ensures JoinWith(SliceLines(content, s, m), "\n") + "\n" + JoinWith(SliceLines(content, m + 1, e), "\n")
      == JoinWith(SliceLines(content, s, e), "\n")
  {
    var a := SliceLines(content, s, m);
    var b := SliceLines(content, m + 1, e);
    assert a + b == SliceLines(content, s, e);
    JoinWithAppend(a, b, "\n");
  }
}

=== FILE: legacy_registry.dfy ===
/**
  The tool catalogue of cli/src/core/tools/tool-registery.ts: six entries,
  of which the older dispatcher runs four. Its `read_file` entry requires a
  key, `absolute_path`, that it does not declare; `AsWrittenTable` keeps it
  as written and `Table` is the catalogue with that entry corrected.
 */
module LegacyRegistry {
  import opened Common
  import opened Json
  import Registry
  import Validator
  import LegacyValidator

  const EditEntry := Registry.Entry("edit_file",
    [Registry.S("filePath"), Registry.S("oldString"), Registry.S("newString"),
     Registry.OptionDecl("expected_replacements", Registry.TNumber, Some(1))],
    ["filePath", "oldString", "newString"])
  const ShellEntry := Registry.Entry("shell_command",
    [Registry.S("command"), Registry.S("description"), Registry.S("directory")], ["command"])
  const GlobEntry := Registry.Entry("glob", [Registry.S("pattern")], ["pattern"])
  const GrepEntry := Registry.Entry("grep", [Registry.S("pattern"), Registry.S("path"), Registry.S("include")], ["pattern"])
  const NewFileEntry := Registry.Entry("new_file", [Registry.S("filePath"), Registry.S("Content")], ["filePath", "Content"])

  /** `read_file` as written: the third option is spelt `EndLine`, and the required key is `absolute_path`. */
  const AsWrittenReadEntry := Registry.Entry("read_file",
    [Registry.S("absolutePath"), Registry.N("startLine"), Registry.N("EndLine")], ["absolute_path"])

  /** `read_file` requiring the key it declares and the dispatcher's schema demands. */
  const ReadEntry := Registry.Entry("read_file",
    [Registry.S("absolutePath"), Registry.N("startLine"), Registry.N("EndLine")], ["absolutePath"])

  const AsWrittenTable: seq<Registry.Entry> := [EditEntry, AsWrittenReadEntry, ShellEntry, GlobEntry, GrepEntry, NewFileEntry]

  /** The catalogue in source order, with the `read_file` entry corrected. */
  const Table: seq<Registry.Entry> := [EditEntry, ReadEntry, ShellEntry, GlobEntry, GrepEntry, NewFileEntry]

  /** The as-written `read_file` entry requires a key it does not declare, so the catalogue is not well formed. */
  lemma AsWrittenReadUndeclared()
    ensures AsWrittenTable[1].name == "read_file"
    ensures "absolute_path" in AsWrittenTable[1].required
    ensures "absolute_path" !in Registry.Keys(AsWrittenTable[1].options)
    ensures !(forall k :: 0 <= k < |AsWrittenTable| ==> Registry.RequiredDeclared(AsWrittenTable[k]))
  {
    var e := AsWrittenTable[1];
    assert e == AsWrittenReadEntry;
    var keys := Registry.Keys(e.options);
    assert "absolute_path"[8] != keys[0][8];
    assert "absolute_path"[1] != keys[1][1] && "absolute_path"[0] != keys[2][0];
    assert "absolute_path" !in keys;
    assert "absolute_path" in e.required;
    assert !Registry.RequiredDeclared(e);
  }

  /** The corrected catalogue: distinct names, every required key declared, and `read_file` requiring what its schema requires. */
  lemma TableWellFormed()
    ensures |Table| == 6
    ensures forall i, j :: 0 <= i < j < |Table| ==> Table[i].name != Table[j].name
    ensures forall k :: 0 <= k < |Table| ==> Registry.RequiredDeclared(Table[k])
    ensures Table[1].required == Registry.SchemaRequired(LegacyValidator.Schema("read_file"))
  {
    var sc := LegacyValidator.Schema("read_file");
    assert Registry.SchemaRequired(sc[2..]) == [] by {
      assert sc[2..][1..] == [];
    }
    assert Registry.SchemaRequired(sc[1..]) == [] by {
      assert sc[1..][1..] == sc[2..];
    }
    assert Registry.Keys(ReadEntry.options)[0] == "absolutePath";
  }

  /** The entry at `k` agrees with the older dispatcher's schema except for the spelling of one key of `read_file`. */
  predicate SchemaKeysAgree(e: Registry.Entry) {
    Registry.Keys(e.options) == Registry.SchemaKeys(LegacyValidator.Schema(e.name))
  }

  /**
    Edit, shell and glob declare exactly their schema's keys; `read_file`
    declares `EndLine` where its schema reads `endLine`, so an end line sent
    as the catalogue describes it is dropped by the parse.
   */
  lemma CatalogueAgainstSchemas()
    ensures SchemaKeysAgree(Table[0]) && SchemaKeysAgree(Table[2]) && SchemaKeysAgree(Table[3])
    ensures !SchemaKeysAgree(Table[1])
    ensures Registry.Keys(Table[1].options)[2] == "EndLine"
    ensures Registry.SchemaKeys(LegacyValidator.Schema("read_file"))[2] == "endLine"
  {
    assert Registry.SchemaKeys([]) == [];
    var sc := LegacyValidator.Schema("read_file");
    assert Registry.SchemaKeys(sc)[2] == Registry.SchemaKeys(sc[1..])[1] == Registry.SchemaKeys(sc[2..])[0];
  }

  /** `grep` and `new_file` are advertised, but the older dispatcher has no case for them. */
  lemma AdvertisedUndispatched()
    ensures forall k :: 0 <= k < 4 ==> Table[k].name in LegacyValidator.ToolNames
    ensures Table[4].name !in LegacyValidator.ToolNames && Table[5].name !in LegacyValidator.ToolNames
  {
  }

  /** `new_file` declares its content under `Content`, with a capital letter. */
  lemma NewFileContentKey()
    ensures Table[5].name == "new_file" && Registry.Keys(Table[5].options) == ["filePath", "Content"]
    ensures "content" !in Registry.Keys(Table[5].options)
  {
    assert Registry.Keys(Table[5].options) == ["filePath", "Content"];
  }

  /** `edit_file.expected_replacements` declares a minimum of 1, which the older schema does not enforce. */
  lemma EditMinimumNotEnforced()
    ensures Registry.OptionDecl("expected_replacements", Registry.TNumber, Some(1)) in Table[0].options
    ensures Validator.FieldSpec("expected_replacements", Validator.Num, true) in LegacyValidator.Schema("edit_file")
  {
    assert Table[0].options[3] == Registry.OptionDecl("expected_replacements", Registry.TNumber, Some(1));
    assert LegacyValidator.Schema("edit_file")[3] == Validator.FieldSpec("expected_replacements", Validator.Num, true);
  }
}

=== FILE: legacy_validator.dfy ===
/**
  `validateAndRunToolCall` of cli/src/core/tools/toolValidator.ts, the older
  dispatcher: four tools, `read_file` options under the key `parameters`,
  an unrefined number for `expected_replacements`, and synchronous read and
  edit handlers that act on the file system directly.
 */
module LegacyValidator {
  import opened Common
  import opened Json
  import Validator
  import ReadFile
  import LegacyReadFile
  import Edit

  /** The tools the `switch` has a case for, in the order of its error message. */
  const ToolNames: seq<string> := ["read_file", "edit_file", "shell_command", "glob"]

  /** The key under which each schema expects the options. */
  function OptionsKey(tool: string): string {
    if tool == "read_file" then "parameters" else "toolOptions"
  }

  /** The options object of each schema, including `GrepSchema`, which no case uses. */
  function Schema(tool: string): seq<Validator.FieldSpec> {
    match tool
    case "read_file" => [Validator.FieldSpec("absolutePath", Validator.Str(1), false),
                         Validator.FieldSpec("startLine", Validator.Int(1), true),
                         Validator.FieldSpec("endLine", Validator.Int(1), true)]
    case "edit_file" => [Validator.FieldSpec("filePath", Validator.Str(1), false),
                         Validator.FieldSpec("oldString", Validator.Str(0), false),
                         Validator.FieldSpec("newString", Validator.Str(0), false),
                         Validator.FieldSpec("expected_replacements", Validator.Num, true)]
    case "shell_command" => [Validator.FieldSpec("command", Validator.Str(1), false),
                             Validator.FieldSpec("description", Validator.Str(0), true),
                             Validator.FieldSpec("directory", Validator.Str(0), true)]
    case "glob" => [Validator.FieldSpec("pattern", Validator.Str(1), false)]
    case "grep" => [Validator.FieldSpec("pattern", Validator.Str(1), false),
                    Validator.FieldSpec("path", Validator.Str(0), true),
                    Validator.FieldSpec("include", Validator.Str(0), true)]
    case _ => []
  }

  /** The schema constraints on a typed call of one of the four tools. */
  predicate ValidCall(c: Validator.ToolCall) {
    match c
    case ReadFileCall(p, s, e) => p != "" && (s.Some? ==> s.value >= 1) && (e.Some? ==> e.value >= 1)
    case EditFileCall(p, _, _, _) => p != ""
    case ShellCall(cmd, _, _) => cmd != ""
    case GlobCall(p) => p != ""
    case GrepCall(_, _, _) => false
    case NewFileCall(_, _) => false
  }

  /** `XSchema.safeParse(data)`: the literal `tool`, then the options under the schema's key. */
  function SafeParse(tool: string, data: Json): (r: Option<Validator.ToolCall>)
    requires tool in ToolNames
    ensures r.Some? ==> Validator.ToolName(r.value) == tool && ValidCall(r.value)
    ensures r.Some? <==>
      && data.JObj? && "tool" in data.fields && data.fields["tool"] == JStr(tool)
      && OptionsKey(tool) in data.fields && data.fields[OptionsKey(tool)].JObj?
      && Validator.Conforms(data.fields[OptionsKey(tool)].fields, Schema(tool))
  {
    var key := OptionsKey(tool);
    if data.JObj? && "tool" in data.fields && data.fields["tool"] == JStr(tool)
      && key in data.fields && data.fields[key].JObj?
      && Validator.Conforms(data.fields[key].fields, Schema(tool))
    then
      var opts := data.fields[key].fields;
      ConformingIsValid(tool, opts);
      Some(Validator.Extract(tool, opts))
    else None
  }

  lemma ConformingIsValid(tool: string, opts: map<string, Json>)
    requires tool in ToolNames && Validator.Conforms(opts, Schema(tool))
    ensures ValidCall(Validator.Extract(tool, opts)) && Validator.ToolName(Validator.Extract(tool, opts)) == tool
  {
    var s := Schema(tool);
    assert Validator.FieldOk(opts, s[0]);
    if tool == "read_file" {
      assert Validator.FieldOk(opts, s[1]) && Validator.FieldOk(opts, s[2]);
    }
  }

  /** The payload the model would send for a typed call. */
  function Encode(c: Validator.ToolCall): Json {
    var name := Validator.ToolName(c);
    JObj(map["tool" := JStr(name), OptionsKey(name) := JObj(Validator.EncodeOptions(c))])
  }

  /** Every valid call of the four tools survives encoding and parsing unchanged. */
  lemma ParseEncode(c: Validator.ToolCall)
    requires ValidCall(c)
    ensures Validator.ToolName(c) in ToolNames
    ensures SafeParse(Validator.ToolName(c), Encode(c)) == Some(c)
  {
    match c
    case ReadFileCall(_, _, _) => ParseEncodeRead(c);
    case EditFileCall(_, _, _, _) => ParseEncodeEdit(c);
    case ShellCall(_, _, _) => ParseEncodeShell(c);
    case GlobCall(_) =>
  }

  lemma ParseEncodeRead(c: Validator.ToolCall)
    requires ValidCall(c) && c.ReadFileCall?
    ensures SafeParse("read_file", Encode(c)) == Some(c)
  {
    var opts := Validator.EncodeOptions(c);
    var sc := Schema("read_file");
    assert Validator.FieldOk(opts, sc[0]) && Validator.FieldOk(opts, sc[1]) && Validator.FieldOk(opts, sc[2]);
  }

  lemma ParseEncodeEdit(c: Validator.ToolCall)
    requires ValidCall(c) && c.EditFileCall?
    ensures SafeParse("edit_file", Encode(c)) == Some(c)
  {
    var opts := Validator.EncodeOptions(c);
    var sc := Schema("edit_file");
    assert Validator.FieldOk(opts, sc[0]) && Validator.FieldOk(opts, sc[1]);
    assert Validator.FieldOk(opts, sc[2]) && Validator.FieldOk(opts, sc[3]);
  }

  lemma ParseEncodeShell(c: Validator.ToolCall)
    requires ValidCall(c) && c.ShellCall?
    ensures SafeParse("shell_command", Encode(c)) == Some(c)
  {
    var opts := Validator.EncodeOptions(c);
    var sc := Schema("shell_command");
    assert Validator.FieldOk(opts, sc[0]) && Validator.FieldOk(opts, sc[1]) && Validator.FieldOk(opts, sc[2]);
  }

  /** The outcome of a call: the error, or the parsed data and the handler's result. */
  datatype RunResult =
    | Failure(error: string)
    | Success(data: Validator.ToolCall, result: ToolResult)

  function UnknownToolError(tool: Json): string {
    "Unknown tool: " + JsString(tool) + ". Supported tools: read_file, edit_file, shell_command, glob"
  }

  /** The glob case words its schema error differently from the others. */
  function SchemaError(tool: string, zodMessage: string): string {
    if tool == "glob" then "Invalid glob parameters: " + zodMessage
    else "Invalid " + tool + " toolOptions: " + zodMessage
  }

  /** The handlers that are not modelled: the shell subprocess and `globFiles`. */
  datatype Handlers = Handlers(exec: Validator.ShellOptions -> ExecResult, glob: string -> Outcome)

  /** The handler of a parsed call, with the file system it leaves behind. */
  function RunCall(c: Validator.ToolCall, root: string, fs: FileSystem, h: Handlers): (r: (RunResult, FileSystem))
    requires ValidCall(c)
    ensures r.0.Success? ==> r.0.data == c
    ensures r.0.Failure? <==> c.GlobCall? && h.glob(c.pattern).Threw?
    ensures r.0.Failure? ==> r.0.error == Validator.CaughtError(h.glob(c.pattern).message) && r.0.error != Validator.FormatError
    ensures !c.EditFileCall? ==> r.1 == fs
  {
    match c
    case ReadFileCall(p, s, e) =>
      (Success(c, LegacyReadFile.Read(ReadFile.ReadOptions(p, s, e), root, fs)), fs)
    case EditFileCall(p, o, n, k) =>
      var (res, fs') := Edit.EditFile(Edit.EditOptions(p, o, n, if k.Some? then k.value else 1), fs);
      (Success(c, res), fs')
    case ShellCall(cmd, d, dir) => (Success(c, Validator.ShellResult(h.exec(Validator.ShellOptions(cmd, d, dir)))), fs)
    case GlobCall(p) =>
      match h.glob(p)
      case Returned(res) => (Success(c, res), fs)
      case Threw(m) =>
        assert Validator.CaughtError(m)[0] == 'F' && Validator.FormatError[0] == 'I';
        (Failure(Validator.CaughtError(m)), fs)
  }

  /**
    `validateAndRunToolCall(jsonData, config, rootPath)`: the result and the
    file system after it. `zodMessage(data)` is the text of a failed parse.
   */
  function Run(data: Json, root: string, fs: FileSystem, h: Handlers, zodMessage: Json -> string): (r: (RunResult, FileSystem))
    ensures !Validator.WellShaped(data) <==> r.0 == Failure(Validator.FormatError)
    ensures !Validator.WellShaped(data) ==> r.1 == fs
    ensures r.0.Success? ==> ValidCall(r.0.data) && data.JObj? && data.fields["tool"] == JStr(Validator.ToolName(r.0.data))
    ensures r.1 != fs ==> r.0.Success? && r.0.data.EditFileCall?
  {
    if !Validator.WellShaped(data) then (Failure(Validator.FormatError), fs)
    else
      var tool := data.fields["tool"];
      if tool.JStr? && tool.s in ToolNames then
        match SafeParse(tool.s, data)
        case None =>
          SchemaErrorNotFormat(tool.s, zodMessage(data));
          (Failure(SchemaError(tool.s, zodMessage(data))), fs)
        case Some(c) =>
          var r := RunCall(c, root, fs, h);
          r
      else
        assert UnknownToolError(tool)[0] == 'U' && Validator.FormatError[0] == 'I';
        (Failure(UnknownToolError(tool)), fs)
  }

  lemma SchemaErrorNotFormat(tool: string, zodMessage: string)
    requires tool in ToolNames
    ensures SchemaError(tool, zodMessage) != Validator.FormatError
  {
    assert Validator.FormatError[8] == 't';
    if tool == "glob" {
      assert SchemaError(tool, zodMessage)[8] == 'g';
    } else {
      assert SchemaError(tool, zodMessage)[8] == tool[0];
    }
  }

  /** A `read_file` payload that carries its options under `toolOptions` only is rejected. */
  lemma ReadNeedsParameters(opts: map<string, Json>, root: string, fs: FileSystem, h: Handlers, zodMessage: Json -> string)
    ensures var data := JObj(map["tool" := JStr("read_file"), "toolOptions" := JObj(opts)]);
      Run(data, root, fs, h, zodMessage) == (Failure("Invalid read_file toolOptions: " + zodMessage(data)), fs)
  {
    var data := JObj(map["tool" := JStr("read_file"), "toolOptions" := JObj(opts)]);
    ToolOptionsOnly(opts);
    assert "read_file" in ToolNames;
    RunRejects(data, "read_file", root, fs, h, zodMessage);
    ReadSchemaError(zodMessage(data));
  }

  lemma ReadSchemaError(m: string)
    ensures SchemaError("read_file", m) == "Invalid read_file toolOptions: " + m
  {
    assert "Invalid " + "read_file" + " toolOptions: " == "Invalid read_file toolOptions: ";
  }

  /** A well-shaped payload naming a known tool whose options do not parse fails with that tool's schema error. */
  lemma RunRejects(data: Json, tool: string, root: string, fs: FileSystem, h: Handlers, zodMessage: Json -> string)
    requires Validator.WellShaped(data) && data.fields["tool"] == JStr(tool) && tool in ToolNames
    requires SafeParse(tool, data) == None
    ensures Run(data, root, fs, h, zodMessage) == (Failure(SchemaError(tool, zodMessage(data))), fs)
  {
  }

  lemma ToolOptionsOnly(opts: map<string, Json>)
    ensures var data := JObj(map["tool" := JStr("read_file"), "toolOptions" := JObj(opts)]);
      Validator.WellShaped(data) && data.fields["tool"] == JStr("read_file") && SafeParse("read_file", data) == None
  {
    var data := JObj(map["tool" := JStr("read_file"), "toolOptions" := JObj(opts)]);
    assert "parameters" !in data.fields;
  }

  /** Line bounds of `read_file`, when present, must be at least 1. */
  lemma ReadBoundsPositive(p: string, s: Option<int>, e: Option<int>)
    ensures var c := Validator.ReadFileCall(p, s, e);
      SafeParse("read_file", Encode(c)).Some? <==> p != "" && (s.Some? ==> s.value >= 1) && (e.Some? ==> e.value >= 1)
  {
    var c := Validator.ReadFileCall(p, s, e);
    var opts := Validator.EncodeOptions(c);
    var sc := Schema("read_file");
    if ValidCall(c) {
      ParseEncode(c);
    } else if p == "" {
      assert !Validator.FieldOk(opts, sc[0]);
    } else if s.Some? && s.value < 1 {
      assert !Validator.FieldOk(opts, sc[1]);
    } else {
      assert !Validator.FieldOk(opts, sc[2]);
    }
  }

  /**
    An edit reaches `editFile` with `expected_replacements` or 1 when it is
    absent; any number is accepted, zero and negative ones included.
   */
  lemma EditDefaultsToOne(c: Validator.ToolCall, root: string, fs: FileSystem, h: Handlers, zodMessage: Json -> string)
    requires c.EditFileCall? && c.filePath != ""
    ensures var (res, fs') := Edit.EditFile(Edit.EditOptions(c.filePath, c.oldString, c.newString,
        if c.expectedReplacements.Some? then c.expectedReplacements.value else 1), fs);
      Run(Encode(c), root, fs, h, zodMessage) == (Success(c, res), fs')
  {
    ParseEncode(c);
  }

  /** A payload the schema rejects leaves the file system alone and runs no handler. */
  lemma SchemaMismatchSkipsHandlers(data: Json, root: string, fs: FileSystem, h1: Handlers, h2: Handlers, zodMessage: Json -> string)
    requires data.JObj? && "tool" in data.fields && data.fields["tool"].JStr?
    requires data.fields["tool"].s in ToolNames && SafeParse(data.fields["tool"].s, data).None?
    ensures Run(data, root, fs, h1, zodMessage) == Run(data, root, fs, h2, zodMessage)
      == (Failure(SchemaError(data.fields["tool"].s, zodMessage(data))), fs)
  {
  }

  /** Shell output is wrapped exactly as in the newer dispatcher. */
  lemma ShellOutput(c: Validator.ToolCall, root: string, fs: FileSystem, h: Handlers, zodMessage: Json -> string)
    requires c.ShellCall? && c.command != ""
    ensures Run(Encode(c), root, fs, h, zodMessage) ==
      (Success(c, Validator.ShellResult(h.exec(Validator.ShellOptions(c.command, c.description, c.directory)))), fs)
  {
    RunEncoded(c, root, fs, h, zodMessage);
  }

  /** An encoded valid call gets past the shape and schema checks and reaches its handler. */
  lemma RunEncoded(c: Validator.ToolCall, root: string, fs: FileSystem, h: Handlers, zodMessage: Json -> string)
    requires ValidCall(c)
    ensures Run(Encode(c), root, fs, h, zodMessage) == RunCall(c, root, fs, h)
  {
    ParseEncode(c);
    var data := Encode(c);
    assert Validator.WellShaped(data) && data.fields["tool"] == JStr(Validator.ToolName(c));
  }

  /** `grep` has a schema but no case: it is answered with the unknown-tool error, which lists four tools. */
  lemma GrepIsUnknown(rest: map<string, Json>, root: string, fs: FileSystem, h: Handlers, zodMessage: Json -> string)
    ensures Run(JObj(rest["tool" := JStr("grep")]), root, fs, h, zodMessage) ==
      (Failure("Unknown tool: " + "grep" + ". Supported tools: read_file, edit_file, shell_command, glob"), fs)
  {
    var data := JObj(rest["tool" := JStr("grep")]);
    assert data.fields["tool"] == JStr("grep");
    assert Validator.WellShaped(data);
    assert "grep" != "read_file" && "grep" != "edit_file" && "grep" != "shell_command" && "grep" != "glob";
  }

  /** A `globFiles` exception is caught and reported. */
  lemma GlobExceptionCaught(c: Validator.ToolCall, root: string, fs: FileSystem, h: Handlers, zodMessage: Json -> string, m: string)
    requires c.GlobCall? && c.pattern != "" && h.glob(c.pattern) == Threw(m)
    ensures Run(Encode(c), root, fs, h, zodMessage) == (Failure("Failed to parse tool call: " + m), fs)
  {
    ParseEncode(c);
  }
}

=== FILE: navigation.dfy ===
/**
  The navigation and player state of the music app page
  (Spotify-clone/src/app/page.tsx): a browser-style back/forward history of
  pages, the view shown, and the player controls. Each handler is a
  transition from the state it was rendered with to the next state.
 */
module Navigation {
  import opened Common
  import opened Text

  datatype View = Home | Search | Library | Playlist

  datatype RepeatMode = Off | All | One

  datatype Track = Track(id: string, title: string, artist: string, album: string, albumArt: string, duration: int)

  datatype State = State(
    sidebarVisible: bool,
    view: View,
    searchQuery: string,
    isPlaying: bool,
    currentTime: int,
    volume: int,
    isShuffled: bool,
    repeatMode: RepeatMode,
    isLiked: bool,
    history: seq<string>,
    index: int,
    currentTrack: Option<Track>)

  /** The state on first render: the home page, alone in the history. */
  const Initial := State(true, Home, "", false, 0, 80, false, Off, false, ["home"], 0, None)

  const PlaylistPrefix := "playlist-"

  /** The view a history entry shows: `home`, `search`, `library` by name, `playlist-…` by prefix. */
  function ViewOf(page: string): Option<View> {
    if page == "home" then Some(Home)
    else if page == "search" then Some(Search)
    else if page == "library" then Some(Library)
    else if IsPrefix(PlaylistPrefix, page) then Some(Playlist)
    else None
  }

  /** The history entry for a view (`playlistId` for a playlist). */
  function PageOf(v: View, playlistId: string): string {
    match v
    case Home => "home"
    case Search => "search"
    case Library => "library"
    case Playlist => PlaylistPrefix + playlistId
  }

  /** Every page the app records maps back to its view. */
  lemma PageOfViewOf(v: View, playlistId: string)
    ensures ViewOf(PageOf(v, playlistId)) == Some(v)
  {
    if v == Playlist {
      var p := PageOf(v, playlistId);
      assert p[..|PlaylistPrefix|] == PlaylistPrefix;
      assert p[0] == 'p';
    }
  }

  /**
    The states the handlers keep: the index lies within the history, every
    entry is a page with a view, and the view shown is that of the current
    entry.
   */
  predicate Valid(s: State) {
    && 0 <= s.index < |s.history|
    && (forall k :: 0 <= k < |s.history| ==> ViewOf(s.history[k]).Some?)
    && ViewOf(s.history[s.index]) == Some(s.view)
  }

  lemma InitialValid()
    ensures Valid(Initial)
  {
  }

  // ----- history -----

  /** `canGoBack`. */
  predicate CanGoBack(s: State) {
    s.index > 0
  }

  /** `canGoForward`. */
  predicate CanGoForward(s: State) {
    s.index < |s.history| - 1
  }

  /** `addToHistory(page)`: drops the entries after the current one, appends the page and moves to it. */
  function AddToHistory(s: State, page: string): (r: State)
    ensures r.history == JsTake(s.history, s.index + 1) + [page]
    ensures r.index == |r.history| - 1
  {
    var newHistory := JsTake(s.history, s.index + 1) + [page];
    s.(history := newHistory, index := |newHistory| - 1)
  }

  /** `handleHomeClick`, `handleSearchClick`, `handleLibraryToggle` and `handlePlaylistClick(playlistId)`. */
  function Visit(s: State, v: View, playlistId: string): (r: State)
    ensures 0 <= r.index == |r.history| - 1
    ensures r.view == v && ViewOf(r.history[r.index]) == Some(v)
    ensures !CanGoForward(r) && |r.history| <= |s.history| + 1
    ensures r.(view := s.view, history := s.history, index := s.index) == s
  {
    PageOfViewOf(v, playlistId);
    AddToHistory(s.(view := v), PageOf(v, playlistId))
  }

  /**
    Visiting a page keeps the history up to the current entry, appends the
    page, and leaves nothing to go forward to; a valid state stays valid,
    and only the view and the history change.
   */
  lemma VisitTruncates(s: State, v: View, playlistId: string)
    requires Valid(s)
    ensures var r := Visit(s, v, playlistId);
      && Valid(r)
      && r.view == v
      && r.history == s.history[..s.index + 1] + [PageOf(v, playlistId)]
      && r.history[r.index] == PageOf(v, playlistId)
      && !CanGoForward(r) && CanGoBack(r)
      && r.(view := s.view, history := s.history, index := s.index) == s
  {
    var r := Visit(s, v, playlistId);
    PageOfViewOf(v, playlistId);
    assert forall k :: 0 <= k < s.index + 1 ==> r.history[k] == s.history[k];
  }

  /** The view a history entry selects, the current view when it selects none. */
  function Select(current: View, page: string): View {
    match ViewOf(page)
    case Some(v) => v
    case None => current
  }

  /** `handleBack`: one entry back, when there is one. */
  function Back(s: State): (r: State)
    ensures r.history == s.history && r.(index := s.index, view := s.view) == s
    ensures CanGoBack(s) ==> r.index == s.index - 1
    ensures CanGoBack(s) && s.index <= |s.history| ==>
      var page := s.history[s.index - 1];
      (ViewOf(page).Some? ==> Some(r.view) == ViewOf(page)) && (ViewOf(page).None? ==> r.view == s.view)
    ensures !CanGoBack(s) ==> r == s
  {
    if s.index > 0 then
      s.(index := s.index - 1,
         view := if s.index - 1 < |s.history| then Select(s.view, s.history[s.index - 1]) else s.view)
    else s
  }

  /** `handleForward`: one entry forward, when there is one. */
  function Forward(s: State): (r: State)
    ensures r.history == s.history && r.(index := s.index, view := s.view) == s
    ensures CanGoForward(s) ==> r.index == s.index + 1
    ensures CanGoForward(s) && 0 <= s.index + 1 ==>
      var page := s.history[s.index + 1];
      (ViewOf(page).Some? ==> Some(r.view) == ViewOf(page)) && (ViewOf(page).None? ==> r.view == s.view)
    ensures !CanGoForward(s) ==> r == s
  {
    if s.index < |s.history| - 1 then
      s.(index := s.index + 1,
         view := if 0 <= s.index + 1 then Select(s.view, s.history[s.index + 1]) else s.view)
    else s
  }

  /**
    Back moves exactly when `canGoBack`, to the previous entry and its view,
    and keeps the history; a valid state stays valid.
   */
  lemma BackMoves(s: State)
    requires Valid(s)
    ensures var r := Back(s);
      && Valid(r)
      && r.history == s.history
      && (CanGoBack(s) ==> r.index == s.index - 1 && ViewOf(s.history[s.index - 1]) == Some(r.view))
      && (!CanGoBack(s) ==> r == s)
  {
  }

  /**
    Forward moves exactly when `canGoForward`, to the next entry and its
    view, and keeps the history; a valid state stays valid.
   */
  lemma ForwardMoves(s: State)
    requires Valid(s)
    ensures var r := Forward(s);
      && Valid(r)
      && r.history == s.history
      && (CanGoForward(s) ==> r.index == s.index + 1 && ViewOf(s.history[s.index + 1]) == Some(r.view))
      && (!CanGoForward(s) ==> r == s)
  {
  }

  /** Going back and then forward returns to the same state, and so does forward then back. */
  lemma BackForwardRoundTrip(s: State)
    requires Valid(s)
    ensures CanGoBack(s) ==> CanGoForward(Back(s)) && Forward(Back(s)) == s
    ensures CanGoForward(s) ==> CanGoBack(Forward(s)) && Back(Forward(s)) == s
  {
  }

  // ----- player -----

  /** `handlePlayTrack(track)`: the track becomes current and plays from the start. */
  function PlayTrack(s: State, t: Track): (r: State)
    ensures r.currentTrack == Some(t) && r.isPlaying && r.currentTime == 0
    ensures r.(currentTrack := s.currentTrack, isPlaying := s.isPlaying, currentTime := s.currentTime) == s
  {
    s.(currentTrack := Some(t), isPlaying := true, currentTime := 0)
  }

  /** `handleNext` and `handlePrevious`: only the position resets (no queue is kept). */
  function Restart(s: State): (r: State)
    ensures r.currentTime == 0 && r.(currentTime := s.currentTime) == s
  {
    s.(currentTime := 0)
  }

  /** `handlePlayPause`. */
  function PlayPause(s: State): (r: State)
    ensures r.isPlaying != s.isPlaying && r.(isPlaying := s.isPlaying) == s
  {
    s.(isPlaying := !s.isPlaying)
  }

  /** `handleShuffle`. */
  function Shuffle(s: State): (r: State)
    ensures r.isShuffled != s.isShuffled && r.(isShuffled := s.isShuffled) == s
  {
    s.(isShuffled := !s.isShuffled)
  }

  /** `handleToggleLike`. */
  function ToggleLike(s: State): (r: State)
    ensures r.isLiked != s.isLiked && r.(isLiked := s.isLiked) == s
  {
    s.(isLiked := !s.isLiked)
  }

  /** `handleSeek`, `handleVolumeChange` and `handleSearchChange`: the value is taken as given. */
  function Seek(s: State, time: int): (r: State)
    ensures r.currentTime == time && r.(currentTime := s.currentTime) == s
  {
    s.(currentTime := time)
  }

  function SetVolume(s: State, volume: int): (r: State)
    ensures r.volume == volume && r.(volume := s.volume) == s
  {
    s.(volume := volume)
  }

  function SetSearch(s: State, query: string): (r: State)
    ensures r.searchQuery == query && r.(searchQuery := s.searchQuery) == s
  {
    s.(searchQuery := query)
  }

  /** The sidebar's toggle. */
  function ToggleSidebar(s: State): (r: State)
    ensures r.sidebarVisible != s.sidebarVisible && r.(sidebarVisible := s.sidebarVisible) == s
  {
    s.(sidebarVisible := !s.sidebarVisible)
  }

  /** Each toggle undoes itself and touches only its own flag. */
  lemma TogglesInvolutive(s: State)
    ensures PlayPause(PlayPause(s)) == s && PlayPause(s).isPlaying != s.isPlaying
    ensures Shuffle(Shuffle(s)) == s && Shuffle(s).isShuffled != s.isShuffled
    ensures ToggleLike(ToggleLike(s)) == s && ToggleLike(s).isLiked != s.isLiked
    ensures ToggleSidebar(ToggleSidebar(s)) == s && ToggleSidebar(s).sidebarVisible != s.sidebarVisible
    ensures PlayPause(s).(isPlaying := s.isPlaying) == s
  {
  }

  /** The player controls leave the navigation alone, so a valid state stays valid. */
  lemma PlayerKeepsNavigation(s: State, t: Track, time: int, volume: int, query: string)
    requires Valid(s)
    ensures Valid(PlayTrack(s, t)) && Valid(Restart(s)) && Valid(PlayPause(s)) && Valid(Shuffle(s))
    ensures Valid(ToggleLike(s)) && Valid(Seek(s, time)) && Valid(SetVolume(s, volume)) && Valid(SetSearch(s, query))
    ensures Valid(Repeat(s)) && Valid(ToggleSidebar(s))
  {
    SameNavigation(s, PlayTrack(s, t));
    SameNavigation(s, Restart(s));
    SameNavigation(s, PlayPause(s));
    SameNavigation(s, Shuffle(s));
    SameNavigation(s, ToggleLike(s));
    SameNavigation(s, Seek(s, time));
    SameNavigation(s, SetVolume(s, volume));
    SameNavigation(s, SetSearch(s, query));
    SameNavigation(s, Repeat(s));
    SameNavigation(s, ToggleSidebar(s));
  }

  /** Validity depends only on the history, the position in it and the view. */
  lemma SameNavigation(s: State, r: State)
    requires Valid(s) && r.history == s.history && r.index == s.index && r.view == s.view
    ensures Valid(r)
  {
  }

  // ----- repeat -----

  const Modes: seq<RepeatMode> := [Off, All, One]

  /** `modes.indexOf(mode)`. */
  function IndexOf(modes: seq<RepeatMode>, m: RepeatMode): (i: int)
    ensures -1 <= i < |modes|
    ensures i >= 0 ==> modes[i] == m && m !in modes[..i]
    ensures i == -1 ==> m !in modes
  {
    if |modes| == 0 then -1
    else if modes[0] == m then 0
    else
      var i := IndexOf(modes[1..], m);
      assert i >= 0 ==> modes[..i + 1] == [modes[0]] + modes[1..][..i];
      if i < 0 then -1 else i + 1
  }

  /** `handleRepeat`: the mode after the current one in the list, wrapping around. */
  function NextRepeat(m: RepeatMode): RepeatMode {
    var i := IndexOf(Modes, m);
    Modes[(i + 1) % |Modes|]
  }

  function Repeat(s: State): (r: State)
    ensures r.repeatMode != s.repeatMode && r.(repeatMode := s.repeatMode) == s
    ensures s.repeatMode == One ==> r.repeatMode == Off
  {
    RepeatCycles(s.repeatMode);
    s.(repeatMode := NextRepeat(s.repeatMode))
  }

  /** Repeat goes off, all, one and back to off: every mode moves, and three presses come back. */
  lemma RepeatCycles(m: RepeatMode)
    ensures NextRepeat(Off) == All && NextRepeat(All) == One && NextRepeat(One) == Off
    ensures NextRepeat(m) != m
    ensures NextRepeat(NextRepeat(NextRepeat(m))) == m
  {
    assert IndexOf(Modes, Off) == 0;
    assert IndexOf(Modes, All) == 1;
    assert IndexOf(Modes, One) == 2;
  }
}

=== FILE: package_json.dfy ===
/**
  `readPackageJson` and `writePackageJson` of src/core/tools/toolUtils.ts,
  the script lookups the lint and test tools make, and `addScript` of
  src/core/tools/addScriptTool.ts. `JSON.parse` and `JSON.stringify` are
  oracles.
 */
module PackageJson {
  import opened Common
  import opened Json
  import opened Paths
  import opened FileOps

  function PackagePath(root: string): string {
    Join(root, ["package.json"])
  }

  /** `readPackageJson(rootPath)`: `None` stands for the `null` it returns when the file is missing, unreadable or unparsable. */
  function ReadPackageJson(root: string, fs: FileSystem, parse: string -> Option<Json>): (r: Option<Json>)
    ensures !fs.Exists(PackagePath(root)) ==> r.None?
    ensures r.Some? ==> fs.CanRead(PackagePath(root)) && r == parse(fs.files[PackagePath(root)])
    ensures fs.CanRead(PackagePath(root)) ==> r == parse(fs.files[PackagePath(root)])
  {
    var p := PackagePath(root);
    if !fs.Exists(p) then None
    else match ReadText(fs, p)
      case None => None
      case Some(text) => parse(text)
  }

  /** `pkg?.scripts?.[name]`: undefined unless each step meets an object with that key. */
  function ScriptOf(pkg: Option<Json>, name: string): (r: Option<Json>)
    ensures r.Some? ==> pkg.Some? && IsObject(pkg.value) && HasKey(pkg.value, "scripts")
  {
    GetOpt(GetOpt(pkg, "scripts"), name)
  }

  /** A script entry that JavaScript treats as present: a truthy value. */
  predicate HasScript(pkg: Option<Json>, name: string) {
    TruthyOpt(ScriptOf(pkg, name))
  }

  /** `HasScript` for the object form package.json takes in practice. */
  lemma HasScriptOfObject(fields: map<string, Json>, scripts: map<string, Json>, name: string)
    requires "scripts" in fields && fields["scripts"] == JObj(scripts)
    ensures HasScript(Some(JObj(fields)), name) <==> name in scripts && Truthy(scripts[name])
  {
  }

  datatype AddScriptOptions = AddScriptOptions(name: string, command: string, overwrite: bool)

  const ScriptRequired := ToolResult("name and command are required.", "Fixing Issues")
  const PackageMissing := ToolResult("package.json not found or invalid.", "Fixing Issues")

  function ScriptExists(name: string): ToolResult {
    ToolResult("Script \"" + name + "\" already exists.", "Fixing Issues")
  }

  function ScriptAdded(name: string): ToolResult {
    ToolResult("Added script \"" + name + "\".", "Script added")
  }

  /** The package after `pkg.scripts = pkg.scripts || {}` and `pkg.scripts[name] = command`. */
  function WithScript(fields: map<string, Json>, scripts: map<string, Json>, name: string, command: string): (pkg: Json)
    ensures pkg.JObj? && "scripts" in pkg.fields && pkg.fields["scripts"].JObj?
    ensures pkg.fields["scripts"].fields == scripts[name := JStr(command)]
    ensures forall k :: k in fields && k != "scripts" ==> k in pkg.fields && pkg.fields[k] == fields[k]
    ensures pkg.fields.Keys == fields.Keys + {"scripts"}
  {
    JObj(fields["scripts" := JObj(scripts[name := JStr(command)])])
  }

  /** `s[key]` on a string: a one-character string at an index, the length, and nothing else (inherited members are not modelled). */
  function StringProp(s: string, key: string): (r: Option<Json>)
    ensures r.Some? <==> key == "length" || (ArrayIndex(key).Some? && ArrayIndex(key).value < |s|)
  {
    if key == "length" then Some(JNum(|s|))
    else if ArrayIndex(key).Some? && ArrayIndex(key).value < |s| then Some(JStr([s[ArrayIndex(key).value]]))
    else None
  }

  /** `scripts[name]`, whatever value `scripts` holds. */
  function Lookup(scripts: Json, name: string): Option<Json> {
    if IsObject(scripts) then Get(scripts, name)
    else if scripts.JStr? then StringProp(scripts.s, name)
    else None
  }

  /**
    `scripts[name] = command`, as `JSON.stringify` sees `scripts` afterwards;
    `None` when the assignment throws. An object gains the key. An array
    takes the command at an index, padded with holes that stringify as
    `null`; assigning its `length` resizes it when the command reads as a
    valid length and throws otherwise, and any other key is a property
    stringify drops. Assigning a property of a primitive throws in strict
    mode.
   */
  function AssignScript(scripts: Json, name: string, command: string): (r: Option<Json>)
    ensures scripts.JObj? ==> r == Some(JObj(scripts.fields[name := JStr(command)]))
    ensures !IsObject(scripts) ==> r.None?
    ensures scripts.JArr? && name != "length" && ArrayIndex(name).None? ==> r == Some(scripts)
    ensures scripts.JArr? && ArrayIndex(name).Some? ==>
      r.Some? && r.value.JArr? && Get(r.value, name) == Some(JStr(command))
    ensures scripts.JArr? && name == "length" ==>
      && (r.Some? <==> LengthValue(JStr(command)).Some?)
      && (r.Some? ==> r.value.JArr? && Get(r.value, "length") == Some(JNum(LengthValue(JStr(command)).value)))
  {
    match scripts
    case JObj(fields) => Some(JObj(fields[name := JStr(command)]))
    case JArr(items) =>
      if name == "length" then
        match LengthValue(JStr(command))
        case None => None
        case Some(n) => Some(JArr(Resize(items, n)))
      else if ArrayIndex(name).None? then Some(scripts)
      else Some(JArr(SetIndex(items, ArrayIndex(name).value, JStr(command))))
    case _ => None
  }

  /** The assignment and write that end `addScript` once the duplicate check has passed. */
  function StoreScript(o: AddScriptOptions, p: string, fs: FileSystem, pkg: Json, scripts: Json, stringify: Json -> string): (r: Effect)
    ensures r.fs != fs ==>
      && r.end == Done(ScriptAdded(o.name))
      && r.fs.files.Keys == fs.files.Keys + {p}
      && forall q :: q in fs.files && q != p ==> r.fs.files[q] == fs.files[q]
    ensures pkg.JArr? && scripts.JObj? ==>
      r == if Writable(fs, p) then Effect(Done(ScriptAdded(o.name)), fs.Write(p, stringify(pkg))) else Effect(Raised(p), fs)
  {
    match AssignScript(scripts, o.name, o.command)
    case None => Effect(Raised(p), fs)
    case Some(scripts') =>
      var pkg' := if pkg.JObj? then JObj(pkg.fields["scripts" := scripts']) else pkg;
      match WriteText(fs, p, stringify(pkg'))
      case None => Effect(Raised(p), fs)
      case Some(fs') => Effect(Done(ScriptAdded(o.name)), fs')
  }

  /**
    `addScript(options, rootPath)`. `pkg.scripts = …` on a truthy primitive
    throws in strict mode, modelled as an exception at package.json. On an
    array the assignment is accepted but `scripts` is not an index, so
    `JSON.stringify` drops it and the array is written back as it was.
   */
  function AddScript(o: AddScriptOptions, root: string, fs: FileSystem, parse: string -> Option<Json>, stringify: Json -> string): (r: Effect)
    ensures o.name == "" || o.command == "" ==> r == Effect(Done(ScriptRequired), fs)
    ensures r.fs != fs ==> r.end == Done(ScriptAdded(o.name))
    ensures r.fs != fs ==>
      && r.fs.files.Keys == fs.files.Keys + {PackagePath(root)}
      && forall q :: q in fs.files && q != PackagePath(root) ==> r.fs.files[q] == fs.files[q]
    ensures (o.name != "" && o.command != "" && ReadPackageJson(root, fs, parse).Some?
      && Truthy(ReadPackageJson(root, fs, parse).value) && !IsObject(ReadPackageJson(root, fs, parse).value)) ==>
      r == Effect(Raised(PackagePath(root)), fs)
    ensures (o.name != "" && o.command != "" && ReadPackageJson(root, fs, parse).Some?
      && ReadPackageJson(root, fs, parse).value.JArr?) ==>
      r == if Writable(fs, PackagePath(root))
           then Effect(Done(ScriptAdded(o.name)), fs.Write(PackagePath(root), stringify(ReadPackageJson(root, fs, parse).value)))
           else Effect(Raised(PackagePath(root)), fs)
  {
    if o.name == "" || o.command == "" then Effect(Done(ScriptRequired), fs)
    else
      var p := PackagePath(root);
      var pkg := ReadPackageJson(root, fs, parse);
      if pkg.None? || !Truthy(pkg.value) then Effect(Done(PackageMissing), fs)
      else if !IsObject(pkg.value) then Effect(Raised(p), fs)
      else
        var existing := Get(pkg.value, "scripts");
        var scripts := if TruthyOpt(existing) then existing.value else JObj(map[]);
        if TruthyOpt(Lookup(scripts, o.name)) && !o.overwrite then
          Effect(Done(ScriptExists(o.name)), fs)
        else StoreScript(o, p, fs, pkg.value, scripts, stringify)
  }

  /**
    A `scripts` array is looked up and assigned by index: a script name that
    is not an index nor `length` is added as a property `JSON.stringify`
    drops, so package.json is rewritten with the same package and success
    is reported.
   */
  lemma ArrayScriptsDropped(o: AddScriptOptions, root: string, fs: FileSystem, parse: string -> Option<Json>, stringify: Json -> string,
                            fields: map<string, Json>, items: seq<Json>)
    requires o.name != "" && o.command != "" && o.name != "length" && ArrayIndex(o.name).None?
    requires ReadPackageJson(root, fs, parse) == Some(JObj(fields))
    requires "scripts" in fields && fields["scripts"] == JArr(items)
    requires Writable(fs, PackagePath(root))
    ensures AddScript(o, root, fs, parse, stringify)
      == Effect(Done(ScriptAdded(o.name)), fs.Write(PackagePath(root), stringify(JObj(fields))))
  {
    var p := PackagePath(root);
    assert Get(JObj(fields), "scripts") == Some(JArr(items));
    assert Lookup(JArr(items), o.name).None?;
    assert AssignScript(JArr(items), o.name, o.command) == Some(JArr(items));
    assert fields["scripts" := JArr(items)] == fields;
    assert WriteText(fs, p, stringify(JObj(fields))) == Some(fs.Write(p, stringify(JObj(fields))));
  }

  /**
    On an object package.json the script is added, or refused as a
    duplicate exactly when a truthy entry exists and `overwrite` is off; an
    added script reads back with every other script unchanged, provided
    stringify and parse round-trip.
   */
  lemma AddScriptReadsBack(o: AddScriptOptions, root: string, fs: FileSystem, parse: string -> Option<Json>, stringify: Json -> string,
                           fields: map<string, Json>, scripts: map<string, Json>)
    requires o.name != "" && o.command != ""
    requires ReadPackageJson(root, fs, parse) == Some(JObj(fields))
    requires "scripts" in fields && fields["scripts"] == JObj(scripts)
    requires Writable(fs, PackagePath(root))
    requires parse(stringify(WithScript(fields, scripts, o.name, o.command))) == Some(WithScript(fields, scripts, o.name, o.command))
    ensures var r := AddScript(o, root, fs, parse, stringify);
      && (r.end == Done(ScriptExists(o.name)) <==> o.name in scripts && Truthy(scripts[o.name]) && !o.overwrite)
      && (r.end != Done(ScriptExists(o.name)) ==>
            && r.end == Done(ScriptAdded(o.name))
            && ScriptOf(ReadPackageJson(root, r.fs, parse), o.name) == Some(JStr(o.command))
            && forall k :: k in scripts && k != o.name ==> ScriptOf(ReadPackageJson(root, r.fs, parse), k) == Some(scripts[k]))
  {
    var p := PackagePath(root);
    assert ScriptExists(o.name) != ScriptAdded(o.name) by {
      assert ScriptExists(o.name).displayResult[0] == 'F';
      assert ScriptAdded(o.name).displayResult[0] == 'S';
    }
    var r := AddScript(o, root, fs, parse, stringify);
    ObjectScriptStep(o, root, fs, parse, stringify, fields, scripts);
    if !(o.name in scripts && Truthy(scripts[o.name]) && !o.overwrite) {
      var pkg' := WithScript(fields, scripts, o.name, o.command);
      assert r.fs == fs.Write(p, stringify(pkg'));
      assert r.fs.CanRead(p) by { assert p in fs.files || p in r.fs.files; }
      assert ReadPackageJson(root, r.fs, parse) == Some(pkg');
    }
  }

  /** The two outcomes of `addScript` on an object package.json with an object `scripts`. */
  lemma ObjectScriptStep(o: AddScriptOptions, root: string, fs: FileSystem, parse: string -> Option<Json>, stringify: Json -> string,
                         fields: map<string, Json>, scripts: map<string, Json>)
    requires o.name != "" && o.command != ""
    requires ReadPackageJson(root, fs, parse) == Some(JObj(fields))
    requires "scripts" in fields && fields["scripts"] == JObj(scripts)
    requires Writable(fs, PackagePath(root))
    ensures AddScript(o, root, fs, parse, stringify)
      == if o.name in scripts && Truthy(scripts[o.name]) && !o.overwrite
         then Effect(Done(ScriptExists(o.name)), fs)
         else Effect(Done(ScriptAdded(o.name)), fs.Write(PackagePath(root), stringify(WithScript(fields, scripts, o.name, o.command))))
  {
    var p := PackagePath(root);
    assert Truthy(JObj(scripts));
    assert Get(JObj(fields), "scripts") == Some(JObj(scripts));
    assert Lookup(JObj(scripts), o.name) == Get(JObj(scripts), o.name);
    if !(o.name in scripts && Truthy(scripts[o.name]) && !o.overwrite) {
      var pkg' := WithScript(fields, scripts, o.name, o.command);
      assert AssignScript(JObj(scripts), o.name, o.command) == Some(JObj(scripts[o.name := JStr(o.command)]));
      assert StoreScript(o, p, fs, JObj(fields), JObj(scripts), stringify) == Effect(Done(ScriptAdded(o.name)), fs.Write(p, stringify(pkg')));
    }
  }

  /** A script whose value is falsy (an empty command, say) is replaced even without `overwrite`. */
  lemma FalsyScriptReplaced(o: AddScriptOptions, root: string, fs: FileSystem, parse: string -> Option<Json>, stringify: Json -> string,
                            fields: map<string, Json>, scripts: map<string, Json>)
    requires o.name != "" && o.command != "" && !o.overwrite
    requires ReadPackageJson(root, fs, parse) == Some(JObj(fields))
    requires "scripts" in fields && fields["scripts"] == JObj(scripts)
    requires o.name in scripts && scripts[o.name] == JStr("")
    requires Writable(fs, PackagePath(root))
    ensures AddScript(o, root, fs, parse, stringify).end == Done(ScriptAdded(o.name))
  {
  }

  /** `addScript` when package.json is missing or parses to `null`. */
  lemma MissingPackage(o: AddScriptOptions, root: string, fs: FileSystem, parse: string -> Option<Json>, stringify: Json -> string)
    requires o.name != "" && o.command != ""
    requires !fs.Exists(PackagePath(root)) || ReadPackageJson(root, fs, parse) == Some(JNull)
    ensures AddScript(o, root, fs, parse, stringify) == Effect(Done(PackageMissing), fs)
  {
  }
}

=== FILE: paths.dfy ===
/**
  The POSIX behaviour of Node's `path` module that the tools use:
  `isAbsolute`, `resolve`, `join`, `relative`, `basename` and `extname`.
  A path is resolved to its list of segments, with `.` dropped and `..`
  removing the previous segment (never climbing above `/`).
 */
module Paths {
  import opened Common
  import opened Text

  const Sep: char := '/'

  predicate IsAbsolute(p: string) {
    |p| > 0 && p[0] == Sep
  }

  /** A segment of a resolved path: non-empty, free of `/`, and neither `.` nor `..`. */
  predicate CleanSegment(s: string) {
    s != "" && s != "." && s != ".." && Sep !in s
  }

  predicate Clean(segs: seq<string>) {
    forall k :: 0 <= k < |segs| ==> CleanSegment(segs[k])
  }

  /** Applies the pieces of a path, left to right, to a resolved segment list. */
  function Walk(stack: seq<string>, pieces: seq<string>): (r: seq<string>)
    requires Clean(stack)
    requires forall k :: 0 <= k < |pieces| ==> Sep !in pieces[k]
    ensures Clean(r)
    decreases |pieces|
  {
    if |pieces| == 0 then stack
    else
      var p := pieces[0];
      var next :=
        if p == "" || p == "." then stack
        else if p == ".." then (if |stack| > 0 then stack[..|stack| - 1] else stack)
        else stack + [p];
      Walk(next, pieces[1..])
  }

  lemma SplitPiecesSlashFree(p: string)
    ensures forall k :: 0 <= k < |Split(p, Sep)| ==> Sep !in Split(p, Sep)[k]
  {
    SplitCharFree(p, Sep);
  }

  /** The segments `path.resolve(base, p)` arrives at; `base` is the working directory. */
  function Segments(base: string, p: string): (r: seq<string>)
    ensures Clean(r)
  {
    SplitPiecesSlashFree(p);
    SplitPiecesSlashFree(base);
    if IsAbsolute(p) then Walk([], Split(p, Sep))
    else Walk(Walk([], Split(base, Sep)), Split(p, Sep))
  }

  /** The text of a resolved path. */
  function Render(segs: seq<string>): string {
    [Sep] + JoinWith(segs, [Sep])
  }

  /** `path.resolve(base, p)`: an absolute path without `.`/`..` segments or a trailing `/`. */
  function Resolve(base: string, p: string): (r: string)
    ensures IsAbsolute(r)
  {
    Render(Segments(base, p))
  }

  /**
    `path.join(root, parts…)` for an absolute first part: the non-empty
    arguments joined at `/` and normalized, keeping a trailing `/` when the
    joined text ends with one.
   */
  function Join(root: string, parts: seq<string>): (r: string)
    ensures IsAbsolute(r)
  {
    var joined := root + Concat(Prefixed(parts));
    var n := Resolve("/", joined);
    if EndsWithSep(joined) && n != "/" then n + [Sep] else n
  }

  predicate EndsWithSep(s: string) {
    |s| > 0 && s[|s| - 1] == Sep
  }

  /** Each non-empty part with a `/` in front; `path.join` skips empty arguments. */
  function Prefixed(parts: seq<string>): seq<string> {
    if |parts| == 0 then []
    else if parts[0] == "" then Prefixed(parts[1..])
    else [[Sep] + parts[0]] + Prefixed(parts[1..])
  }

  /** The joined parts end with the last part when it is not empty. */
  lemma {:induction false} PrefixedEnds(parts: seq<string>)
    requires |parts| > 0 && parts[|parts| - 1] != ""
    ensures IsSuffix(parts[|parts| - 1], Concat(Prefixed(parts)))
    decreases |parts|
  {
    var last := parts[|parts| - 1];
    if |parts| == 1 {
      assert Prefixed(parts) == [[Sep] + last];
      assert Concat(Prefixed(parts)) == [Sep] + last;
    } else {
      PrefixedEnds(parts[1..]);
      var rest := Concat(Prefixed(parts[1..]));
      assert parts[1..][|parts| - 2] == last;
      if parts[0] != "" {
        assert Concat(Prefixed(parts)) == [Sep] + parts[0] + rest;
      }
    }
  }

  /**
    With a non-empty last part, `path.join` keeps a trailing `/` exactly
    when that part ends with one, and only when the normalized path is not
    `/` itself.
   */
  lemma JoinLastPart(root: string, parts: seq<string>)
    requires |parts| > 0 && parts[|parts| - 1] != ""
    ensures var n := Resolve("/", root + Concat(Prefixed(parts)));
      Join(root, parts) == if EndsWithSep(parts[|parts| - 1]) && n != "/" then n + [Sep] else n
  {
    var last := parts[|parts| - 1];
    var joined := root + Concat(Prefixed(parts));
    assert EndsWithSep(joined) == EndsWithSep(last) by {
      PrefixedEnds(parts);
      assert joined[|joined| - 1] == last[|last| - 1];
    }
  }

  lemma {:induction false} WalkClean(stack: seq<string>, segs: seq<string>)
    requires Clean(stack) && Clean(segs)
    ensures Walk(stack, segs) == stack + segs
    decreases |segs|
  {
    if |segs| > 0 {
      WalkClean(stack + [segs[0]], segs[1..]);
      assert stack + [segs[0]] + segs[1..] == stack + segs;
    }
  }

  /** The pieces the text of a resolved path splits into at `/`. */
  function RenderPieces(segs: seq<string>): seq<string> {
    if segs == [] then ["", ""] else [""] + segs
  }

  lemma RenderPiecesJoin(segs: seq<string>)
    requires Clean(segs)
    ensures JoinWith(RenderPieces(segs), [Sep]) == Render(segs)
    ensures forall k :: 0 <= k < |RenderPieces(segs)| ==> Sep !in RenderPieces(segs)[k]
    ensures Walk([], RenderPieces(segs)) == segs
  {
    var xs := RenderPieces(segs);
    if segs != [] {
      JoinCons("", segs, [Sep]);
      forall k | 0 <= k < |xs|
        ensures Sep !in xs[k]
      {
        if k > 0 { assert xs[k] == segs[k - 1]; }
      }
      WalkClean([], segs);
      assert xs[1..] == segs;
    } else {
      assert xs[1..] == [""];
      assert [""][1..] == [];
      assert JoinWith(xs, [Sep]) == "" + [Sep] + JoinWith([""], [Sep]);
      assert Walk([], xs) == Walk([], [""]) == Walk([], []);
    }
  }

  lemma SplitRender(segs: seq<string>)
    requires Clean(segs)
    ensures Split(Render(segs), Sep) == RenderPieces(segs)
  {
    RenderPiecesJoin(segs);
    SplitJoin(RenderPieces(segs), Sep);
  }

  /** Resolving a resolved path changes nothing. */
  lemma ResolveIdempotent(base: string, p: string)
    ensures Resolve(base, Resolve(base, p)) == Resolve(base, p)
  {
    var segs := Segments(base, p);
    SplitRender(segs);
    RenderPiecesJoin(segs);
    assert IsAbsolute(Render(segs));
    assert Segments(base, Render(segs)) == Walk([], Split(Render(segs), Sep));
  }

  /** The number of leading segments two resolved paths share. */
  function CommonLength(a: seq<string>, b: seq<string>): (n: nat)
    ensures n <= |a| && n <= |b| && a[..n] == b[..n]
    ensures n < |a| && n < |b| ==> a[n] != b[n]
    decreases |a|
  {
    if |a| == 0 || |b| == 0 || a[0] != b[0] then 0
    else
      var n := CommonLength(a[1..], b[1..]);
      assert a[1..][..n] == b[1..][..n];
      assert a[..n + 1] == [a[0]] + a[1..][..n];
      assert b[..n + 1] == [b[0]] + b[1..][..n];
      n + 1
  }

  function Ups(n: nat): (r: seq<string>)
    ensures |r| == n && forall k :: 0 <= k < n ==> r[k] == ".."
  {
    if n == 0 then [] else Ups(n - 1) + [".."]
  }

  /** The pieces `path.relative` joins: a `..` for each segment of `from` past the shared prefix, then the rest of `to`. */
  function RelativePieces(from: seq<string>, to: seq<string>): seq<string> {
    var n := CommonLength(from, to);
    Ups(|from| - n) + to[n..]
  }

  /** `path.relative(from, to)`, both resolved against the working directory `base`. */
  function Relative(base: string, from: string, to: string): string {
    JoinWith(RelativePieces(Segments(base, from), Segments(base, to)), [Sep])
  }

  lemma {:induction false} WalkUps(stack: seq<string>, n: nat)
    requires Clean(stack) && n <= |stack|
    ensures Walk(stack, Ups(n)) == stack[..|stack| - n]
    decreases n
  {
    if n > 0 {
      var u := Ups(n);
      assert u == [".."] + Ups(n - 1) by {
        UpsCons(n);
      }
      WalkUps(stack[..|stack| - 1], n - 1);
      assert stack[..|stack| - 1][..|stack| - 1 - (n - 1)] == stack[..|stack| - n];
    }
  }

  lemma UpsCons(n: nat)
    requires n > 0
    ensures Ups(n) == [".."] + Ups(n - 1)
  {
  }

  lemma {:induction false} WalkAppend(stack: seq<string>, a: seq<string>, b: seq<string>)
    requires Clean(stack)
    requires forall k :: 0 <= k < |a| ==> Sep !in a[k]
    requires forall k :: 0 <= k < |b| ==> Sep !in b[k]
    ensures Walk(stack, a + b) == Walk(Walk(stack, a), b)
    decreases |a|
  {
    if |a| > 0 {
      assert (a + b)[0] == a[0];
      assert (a + b)[1..] == a[1..] + b;
      var p := a[0];
      var next :=
        if p == "" || p == "." then stack
        else if p == ".." then (if |stack| > 0 then stack[..|stack| - 1] else stack)
        else stack + [p];
      WalkAppend(next, a[1..], b);
    } else {
      assert a + b == b;
    }
  }

  /** Appending `/` and relative pieces to a resolved path walks those pieces from it. */
  lemma ResolveAppended(base: string, f: seq<string>, tail: seq<string>)
    requires Clean(f) && |tail| >= 1
    requires forall k :: 0 <= k < |tail| ==> Sep !in tail[k]
    ensures Segments(base, Render(f) + [Sep] + JoinWith(tail, [Sep])) == Walk(f, tail)
  {
    RenderPiecesJoin(f);
    var all := RenderPieces(f) + tail;
    var q := Render(f) + [Sep] + JoinWith(tail, [Sep]);
    JoinWithAppend(RenderPieces(f), tail, [Sep]);
    forall k | 0 <= k < |all|
      ensures Sep !in all[k]
    {
      if k >= |RenderPieces(f)| { assert all[k] == tail[k - |RenderPieces(f)|]; }
    }
    SplitJoin(all, Sep);
    assert IsAbsolute(q);
    WalkAppend([], RenderPieces(f), tail);
  }

  /** The pieces of `path.relative`'s text: an empty result still splits into one empty piece. */
  function RelativeTail(f: seq<string>, t: seq<string>): seq<string> {
    var pieces := RelativePieces(f, t);
    if pieces == [] then [""] else pieces
  }

  /** Walking the relative pieces from `f` arrives at `t`. */
  lemma WalkRelative(f: seq<string>, t: seq<string>)
    requires Clean(f) && Clean(t)
    ensures forall k :: 0 <= k < |RelativeTail(f, t)| ==> Sep !in RelativeTail(f, t)[k]
    ensures Walk(f, RelativeTail(f, t)) == t
  {
    var n := CommonLength(f, t);
    SuffixClean(t, n);
    RelativeTailFree(f, t);
    if RelativePieces(f, t) == [] {
      assert f[..n] == f && t[..n] == t;
      assert [""][1..] == [];
    } else {
      WalkUpsThenDown(f, t, n);
    }
  }

  lemma SuffixClean(t: seq<string>, n: nat)
    requires Clean(t) && n <= |t|
    ensures Clean(t[n..])
  {
    forall k | 0 <= k < |t[n..]|
      ensures CleanSegment(t[n..][k])
    {
      assert t[n..][k] == t[n + k];
    }
  }

  lemma RelativeTailFree(f: seq<string>, t: seq<string>)
    requires Clean(f) && Clean(t)
    ensures forall k :: 0 <= k < |RelativeTail(f, t)| ==> Sep !in RelativeTail(f, t)[k]
  {
    var n := CommonLength(f, t);
    SuffixClean(t, n);
    var r := RelativeTail(f, t);
    forall k | 0 <= k < |r|
      ensures Sep !in r[k]
    {
      if RelativePieces(f, t) != [] && k >= |f| - n {
        assert r[k] == t[n..][k - (|f| - n)];
      }
    }
  }

  /** Going up past the shared prefix and down the rest of `t` arrives at `t`. */
  lemma WalkUpsThenDown(f: seq<string>, t: seq<string>, n: nat)
    requires Clean(f) && Clean(t) && n == CommonLength(f, t)
    ensures forall k :: 0 <= k < |t[n..]| ==> Sep !in t[n..][k]
    ensures Walk(f, Ups(|f| - n) + t[n..]) == t
  {
    SuffixClean(t, n);
    PiecesFree(Ups(|f| - n), t[n..]);
    WalkAppend(f, Ups(|f| - n), t[n..]);
    WalkUpsTo(f, n);
    WalkDownTo(f, t, n);
  }

  /** Going up `|f| - n` levels from `f` leaves its first `n` segments. */
  lemma WalkUpsTo(f: seq<string>, n: nat)
    requires Clean(f) && n <= |f|
    ensures Walk(f, Ups(|f| - n)) == f[..n]
  {
    WalkUps(f, |f| - n);
    assert f[..|f| - (|f| - n)] == f[..n];
  }

  /** From the shared prefix, the rest of `t` leads to `t`. */
  lemma WalkDownTo(f: seq<string>, t: seq<string>, n: nat)
    requires Clean(f) && Clean(t) && n == CommonLength(f, t)
    ensures Clean(f[..n]) && Clean(t[n..])
    ensures Walk(f[..n], t[n..]) == t
  {
    PrefixClean(f, n);
    SuffixClean(t, n);
    WalkClean(f[..n], t[n..]);
    assert f[..n] + t[n..] == t;
  }

  lemma PrefixClean(f: seq<string>, n: nat)
    requires Clean(f) && n <= |f|
    ensures Clean(f[..n])
  {
    forall k | 0 <= k < n
      ensures CleanSegment(f[..n][k])
    {
      assert f[..n][k] == f[k];
    }
  }

  /** `..` pieces followed by clean segments hold no separator. */
  lemma PiecesFree(u: seq<string>, d: seq<string>)
    requires forall k :: 0 <= k < |u| ==> u[k] == ".."
    requires Clean(d)
    ensures forall k :: 0 <= k < |u + d| ==> Sep !in (u + d)[k]
  {
    forall k | 0 <= k < |u + d|
      ensures Sep !in (u + d)[k]
    {
      if k < |u| {
        assert (u + d)[k] == "..";
      } else {
        assert (u + d)[k] == d[k - |u|];
      }
    }
  }

  /** Resolving the relative path against its starting point leads back to the target. */
  lemma RelativeResolves(base: string, from: string, to: string)
    requires IsAbsolute(from) && IsAbsolute(to)
    ensures Resolve(base, Resolve(base, from) + [Sep] + Relative(base, from, to)) == Resolve(base, to)
  {
    var f := Segments(base, from);
    var t := Segments(base, to);
    WalkRelative(f, t);
    assert JoinWith(RelativeTail(f, t), [Sep]) == Relative(base, from, to);
    ResolveAppended(base, f, RelativeTail(f, t));
  }

  /** `path.dirname(path.resolve(p))`: the directory holding a path, `/` for `/` itself. */
  function Parent(p: string): (r: string)
    ensures IsAbsolute(r)
  {
    var segs := Segments("/", p);
    Render(if |segs| == 0 then [] else segs[..|segs| - 1])
  }

  /** The text after the last `/`, trailing separators ignored (`path.basename`). */
  function Basename(p: string): (r: string)
    ensures Sep !in r
  {
    var t := TrimTrailingSeps(p);
    LastPiece(t)
  }

  function TrimTrailingSeps(p: string): string {
    if |p| > 1 && p[|p| - 1] == Sep then TrimTrailingSeps(p[..|p| - 1]) else p
  }

  function LastPiece(p: string): (r: string)
    ensures Sep !in r
    ensures IsSuffix(r, p)
  {
    if |p| == 0 then ""
    else if p[|p| - 1] == Sep then ""
    else LastPiece(p[..|p| - 1]) + [p[|p| - 1]]
  }

  /** The basename of `dir/name` is `name`. */
  lemma BasenameOf(dir: string, name: string)
    requires name != "" && Sep !in name
    ensures Basename(dir + [Sep] + name) == name
  {
    var p := dir + [Sep] + name;
    assert p[|p| - 1] == name[|name| - 1];
    LastPieceAfterSep(dir, name);
  }

  lemma {:induction false} LastPieceAfterSep(dir: string, name: string)
    requires Sep !in name
    ensures LastPiece(dir + [Sep] + name) == name
    decreases |name|
  {
    var p := dir + [Sep] + name;
    if |name| > 0 {
      assert p[..|p| - 1] == dir + [Sep] + name[..|name| - 1];
      LastPieceAfterSep(dir, name[..|name| - 1]);
      assert name == name[..|name| - 1] + [name[|name| - 1]];
    } else {
      assert p == dir + [Sep];
    }
  }

  /** Joining a directory and a plain file name gives a path whose base name is that name. */
  lemma JoinBasename(root: string, name: string)
    requires CleanSegment(name)
    ensures Basename(Join(root, [name])) == name
  {
    var p := root + [Sep] + name;
    assert Prefixed([name]) == [[Sep] + name];
    assert Concat(Prefixed([name])) == [Sep] + name;
    assert root + Concat(Prefixed([name])) == p;
    SplitLastPiece(root, name);
    SplitPiecesSlashFree(root);
    SplitPiecesSlashFree("/");
    var start := if IsAbsolute(p) then [] else Walk([], Split("/", Sep));
    var t := Walk(start, Split(root, Sep));
    WalkSnoc(start, Split(root, Sep), name);
    assert Segments("/", p) == t + [name];
    if t == [] {
      assert Render(t + [name]) == "" + [Sep] + name;
      BasenameOf("", name);
    } else {
      JoinWithAppend(t, [name], [Sep]);
      assert Render(t + [name]) == Render(t) + [Sep] + name;
      BasenameOf(Render(t), name);
    }
  }

  /** Splitting at `/` after appending `/name` adds `name` as the last piece. */
  lemma SplitLastPiece(a: string, name: string)
    requires Sep !in name
    ensures Split(a + [Sep] + name, Sep) == Split(a, Sep) + [name]
  {
    var xs := Split(a, Sep) + [name];
    JoinSplitStr(a, [Sep]);
    JoinWithAppend(Split(a, Sep), [name], [Sep]);
    SplitCharFree(a, Sep);
    assert forall k :: 0 <= k < |xs| ==> Sep !in xs[k];
    SplitJoin(xs, Sep);
  }

  /** Walking pieces and then one clean segment ends with that segment. */
  lemma {:induction false} WalkSnoc(stack: seq<string>, pieces: seq<string>, name: string)
    requires Clean(stack) && CleanSegment(name)
    requires forall k :: 0 <= k < |pieces| ==> Sep !in pieces[k]
    ensures Walk(stack, pieces + [name]) == Walk(stack, pieces) + [name]
    decreases |pieces|
  {
    if |pieces| == 0 {
      assert pieces + [name] == [name];
    } else {
      var p := pieces[0];
      var next :=
        if p == "" || p == "." then stack
        else if p == ".." then (if |stack| > 0 then stack[..|stack| - 1] else stack)
        else stack + [p];
      assert (pieces + [name])[1..] == pieces[1..] + [name];
      WalkSnoc(next, pieces[1..], name);
    }
  }

  /** The position of the last `.` in a string. */
  function LastDot(s: string): (r: Option<nat>)
    ensures r.Some? ==> r.value < |s| && s[r.value] == '.'
    ensures r.Some? ==> forall k :: r.value < k < |s| ==> s[k] != '.'
    ensures r.None? ==> forall k :: 0 <= k < |s| ==> s[k] != '.'
  {
    if |s| == 0 then None
    else if s[|s| - 1] == '.' then Some(|s| - 1)
    else LastDot(s[..|s| - 1])
  }

  /** `path.extname`: from the last `.` of the basename, unless that dot starts the name or the name is `..`. */
  function Extname(p: string): (r: string)
    ensures r != "" ==> r[0] == '.' && IsSuffix(r, Basename(p))
    ensures r != "" ==> |r| < |Basename(p)|
  {
    var b := Basename(p);
    match LastDot(b)
    case None => ""
    case Some(i) => if i == 0 || b == ".." then "" else b[i..]
  }
}

=== FILE: processor.dfy ===
/**
  The turn loop of src/core/processor.ts: `processQuery` records the query,
  then repeatedly builds the prompt, asks the model, strips a code fence,
  parses the answer and either stops or dispatches the batch of tool calls
  one at a time, recording each call's result in the context.

  The model, `JSON.parse`, `JSON.stringify` and the dispatcher are oracles
  of `Env`. The dispatcher sees the file system as the earlier calls left
  it and returns the file system after its own call, so each prompt is built
  from the files as they are at that point. The unbounded `while (true)` is
  bounded by `fuel`. Spinner text and console logging are left out.
 */
module Processor {
  import opened Common
  import opened Text
  import opened Json
  import Fence
  import CM = ContextManager
  import Validator
  import ReadFile

  /** How one call through the dispatcher ends: a resolved result, whose `LLMresult` may be undefined, or an exception. */
  datatype Dispatched = Resolved(llmResult: Option<string>) | Rejected(message: string)

  /**
    One call through the dispatcher: how it ends, the file system it leaves,
    writes before an exception included, and whether it leaves behind a
    promise that rejects with no handler, which ends the Node process.
   */
  datatype Call = Call(result: Dispatched, fs: FileSystem, unhandled: bool)

  datatype Env = Env(
    texts: CM.PromptTexts,
    llm: string -> string,
    parse: string -> Option<Json>,   // `JSON.parse`; `None` when it throws
    stringify: Json -> string,
    dispatch: (Json, FileSystem) -> Call)

  /**
    The dispatcher of src/core/tools/toolValidator.ts as the loop sees it: it
    never throws. `handlers(fs)` are the handlers working on the file system
    `fs`, and `writes(item, fs)` is the file system a call that passed
    validation leaves; a call that fails validation writes nothing.
   */
  function ValidatorDispatch(handlers: FileSystem -> Validator.Handlers, zodMessage: Json -> string,
                             writes: (Json, FileSystem) -> FileSystem): (Json, FileSystem) -> Call {
    (item: Json, fs: FileSystem) =>
      var r := Validator.Run(item, handlers(fs), zodMessage);
      Call(Resolved(Validator.LlmResultOf(r)), if r.Success? then writes(item, fs) else fs, Validator.LeavesRejection(r))
  }

  /** The cleaned text handed to `JSON.parse`: trimmed, with a leading fence line and trailing fence removed. */
  function CleanResponse(response: string): (r: string)
    ensures !IsPrefix(Fence.Tick, Trim(response)) ==> r == Trim(response)
  {
    StripJsonFence(StripFence(Trim(response)))
  }

  /** The first cleaning step: any fence line with its language tag. */
  function StripFence(c: string): (r: string)
    ensures !IsPrefix(Fence.Tick, c) ==> r == c
  {
    if IsPrefix(Fence.Tick, c) then Trim(Fence.DropClosing(Fence.DropOpening(c))) else c
  }

  /** The second cleaning step: a `json` fence line left after the first. */
  function StripJsonFence(c: string): (r: string)
    ensures !IsPrefix(Fence.Tick, c) ==> r == c
  {
    if IsPrefix(Fence.Tick + "json", c) then
      assert IsPrefix(Fence.Tick, c) by { assert c[..3] == c[..7][..3]; }
      Trim(Fence.DropClosing(Fence.DropJsonOpening(c)))
    else c
  }

  /** A fenced answer is parsed as its trimmed body. */
  lemma CleanFenced(lang: string, body: string)
    requires Fence.AllLetters(lang) && !IsPrefix(Fence.Tick + "json", Trim(body))
    ensures CleanResponse(Fence.Fenced(lang, body)) == Trim(body)
  {
    Fence.FencedTrimmed(lang, body);
    Fence.UnfenceFenced(lang, body);
  }

  /** `isFinalMessage`: `None` when `'text' in null` throws. */
  function IsFinalMessage(v: Json): (r: Option<bool>)
    ensures r.None? <==> v.JNull?
    ensures r == Some(true) <==> v.JObj? && "text" in v.fields
  {
    match v
    case JNull => None
    case JObj(fields) => Some("text" in fields)
    case _ => Some(false)
  }

  /** What `for (const toolCall of toolCalls)` iterates over: the characters of a string, one string each. */
  function Chars(s: string): (r: seq<Json>)
    ensures |r| == |s| && forall k :: 0 <= k < |s| ==> r[k] == JStr([s[k]])
  {
    if |s| == 0 then [] else [JStr([s[0]])] + Chars(s[1..])
  }

  /** How the loop reads one answer. */
  datatype Reading =
    | Final(text: Json)     // an object with `text`: the loop ends
    | Unparsed              // `JSON.parse` or `isFinalMessage` threw: the loop ends
    | NotIterable           // `for … of` over a non-iterable value throws outside the `try`
    | Batch(items: seq<Json>)

  function Iterate(v: Json): (r: Reading)
    ensures r.Final? == false && r.Unparsed? == false
    ensures r.Batch? <==> v.JArr? || v.JStr?
  {
    match v
    case JArr(items) => Batch(items)
    case JStr(s) => Batch(Chars(s))
    case _ => NotIterable
  }

  /** The `try` block of one iteration, and the check of the iterated value after it. */
  function Interpret(response: string, parse: string -> Option<Json>): (r: Reading)
    ensures var p := parse(CleanResponse(response));
      && (r.Final? <==> p.Some? && p.value.JObj? && "text" in p.value.fields)
      && (r.Final? ==> r.text == p.value.fields["text"])
      && (p.None? || p == Some(JNull) ==> r.Unparsed?)
      && (p.Some? && p.value.JArr? ==> r == Batch(p.value.items))
      && (p.Some? && p.value.JStr? ==> r == if parse(p.value.s).None? then Unparsed else Iterate(parse(p.value.s).value))
  {
    match parse(CleanResponse(response))
    case None => Unparsed
    case Some(v) =>
      match IsFinalMessage(v)
      case None => Unparsed
      case Some(final) =>
        if final then Final(v.fields["text"])
        else if v.JStr? then
          match parse(v.s)
          case None => Unparsed
          case Some(w) => Iterate(w)
        else Iterate(v)
  }

  /** A twice-encoded object with `text` is not final: the second parse is iterated, and an object is not iterable. */
  lemma ReparsedTextIsNotFinal(response: string, parse: string -> Option<Json>, s: string, fields: map<string, Json>)
    requires parse(CleanResponse(response)) == Some(JStr(s)) && parse(s) == Some(JObj(fields))
    ensures Interpret(response, parse) == NotIterable
  {
  }

  const Undefined := "undefined"

  /** The text `addResponse` receives: `result.result?.LLMresult`, printed `undefined` when absent. */
  function LlmText(v: Option<string>): string {
    if v.Some? then v.value else Undefined
  }

  /** The message one batch entry adds to the log, on the file system `fs`: none for a skipped entry or an exception. */
  function Record(item: Json, fs: FileSystem, env: Env): (r: seq<CM.Message>)
    ensures |r| <= 1 && forall k :: 0 <= k < |r| ==> r[k].role == CM.Model
    ensures r != [] <==> Validator.WellShaped(item) && env.dispatch(item, fs).result.Resolved?
  {
    if Validator.WellShaped(item) && env.dispatch(item, fs).result.Resolved? then
      [CM.NewMessage(CM.Model, CM.ResponseText(LlmText(env.dispatch(item, fs).result.llmResult), env.stringify(item)))]
    else []
  }

  /** The file system after one batch entry: a skipped entry touches nothing. */
  function After(item: Json, fs: FileSystem, env: Env): FileSystem {
    if Validator.WellShaped(item) then env.dispatch(item, fs).fs else fs
  }

  /** The messages a batch adds, in batch order, each call seeing the files the calls before it left. */
  function BatchMessages(items: seq<Json>, fs: FileSystem, env: Env): (r: seq<CM.Message>)
    ensures |r| <= |items| && forall k :: 0 <= k < |r| ==> r[k].role == CM.Model
  {
    if |items| == 0 then [] else Record(items[0], fs, env) + BatchMessages(items[1..], After(items[0], fs, env), env)
  }

  /** Some dispatched entry of the batch leaves a rejection nobody handles. */
  predicate BatchDies(items: seq<Json>, fs: FileSystem, env: Env)
    decreases |items|
  {
    |items| > 0 &&
    ((Validator.WellShaped(items[0]) && env.dispatch(items[0], fs).unhandled) || BatchDies(items[1..], After(items[0], fs, env), env))
  }

  /** The file system after a batch. */
  function AfterBatch(items: seq<Json>, fs: FileSystem, env: Env): FileSystem {
    if |items| == 0 then fs else AfterBatch(items[1..], After(items[0], fs, env), env)
  }

  /** The log after appending `ms` one by one, pruning after each as `pruneContext` does. */
  function Log(xs: seq<CM.Message>, ms: seq<CM.Message>): seq<CM.Message>
    decreases |ms|
  {
    if |ms| == 0 then xs else Log(CM.Prune(xs + [ms[0]]), ms[1..])
  }

  lemma LogCons(xs: seq<CM.Message>, m: CM.Message, ms: seq<CM.Message>)
    ensures Log(xs, [m] + ms) == Log(CM.Prune(xs + [m]), ms)
  {
    assert ([m] + ms)[1..] == ms;
  }

  /** Appending two lists is appending one after the other. */
  lemma {:induction false} LogConcat(xs: seq<CM.Message>, a: seq<CM.Message>, b: seq<CM.Message>)
    ensures Log(xs, a + b) == Log(Log(xs, a), b)
    decreases |a|
  {
    if |a| == 0 {
      assert a + b == b;
    } else {
      assert (a + b)[0] == a[0] && (a + b)[1..] == a[1..] + b;
      LogConcat(CM.Prune(xs + [a[0]]), a[1..], b);
    }
  }

  /** Below the cap, the log is the old log followed by the new messages. */
  lemma {:induction false} LogBelowCap(xs: seq<CM.Message>, ms: seq<CM.Message>)
    requires |xs| + |ms| <= CM.HardCap
    ensures Log(xs, ms) == xs + ms
    decreases |ms|
  {
    if |ms| > 0 {
      LogBelowCap(xs + [ms[0]], ms[1..]);
      assert xs + [ms[0]] + ms[1..] == xs + ms;
    }
  }

  /** The context and the file system between two prompts. */
  datatype Turn = Turn(ctx: CM.Context, fs: FileSystem)

  /** The `for … of` loop over a batch: each entry with a `tool` key is dispatched and its result recorded. */
  function RunBatch(c: CM.Context, items: seq<Json>, fs: FileSystem, env: Env): (t: Turn)
    ensures t.ctx.conversations == Log(c.conversations, BatchMessages(items, fs, env))
    ensures t.ctx.(conversations := c.conversations) == c
    ensures t.fs == AfterBatch(items, fs, env)
    decreases |items|
  {
    if |items| == 0 then Turn(c, fs)
    else
      var item := items[0];
      var next :=
        if !Validator.WellShaped(item) then c
        else match env.dispatch(item, fs).result
          case Rejected(_) => c
          case Resolved(v) => CM.AddResponse(c, LlmText(v), env.stringify(item));
      var fs' := After(item, fs, env);
      var t := RunBatch(next, items[1..], fs', env);
      assert t.ctx.conversations == Log(c.conversations, BatchMessages(items, fs, env)) by {
        if Record(item, fs, env) != [] {
          LogCons(c.conversations, Record(item, fs, env)[0], BatchMessages(items[1..], fs', env));
          assert Record(item, fs, env) == [Record(item, fs, env)[0]];
        } else {
          assert next == c;
          assert BatchMessages(items, fs, env) == BatchMessages(items[1..], fs', env);
        }
      }
      t
  }

  /** Two batches in a row: the second starts on the files the first left. */
  lemma {:induction false} BatchConcat(a: seq<Json>, b: seq<Json>, fs: FileSystem, env: Env)
    ensures BatchMessages(a + b, fs, env) == BatchMessages(a, fs, env) + BatchMessages(b, AfterBatch(a, fs, env), env)
    ensures AfterBatch(a + b, fs, env) == AfterBatch(b, AfterBatch(a, fs, env), env)
    decreases |a|
  {
    if |a| > 0 {
      assert (a + b)[0] == a[0] && (a + b)[1..] == a[1..] + b;
      BatchConcat(a[1..], b, After(a[0], fs, env), env);
    } else {
      assert a + b == b;
    }
  }

  /**
    An exception in one call is caught: the batch records what the entries
    before and after it record, the later ones on the files the failed call left.
   */
  lemma RejectedCallSkipped(items: seq<Json>, k: nat, fs: FileSystem, env: Env)
    requires k < |items| && env.dispatch(items[k], AfterBatch(items[..k], fs, env)).result.Rejected?
    ensures BatchMessages(items, fs, env)
      == BatchMessages(items[..k], fs, env) + BatchMessages(items[k + 1..], AfterBatch(items[..k + 1], fs, env), env)
  {
    var a, b := items[..k], items[k + 1..];
    var tail := [items[k]] + b;
    assert items == a + tail;
    BatchConcat(a, tail, fs, env);
    var fsk := AfterBatch(a, fs, env);
    assert tail[0] == items[k] && tail[1..] == b;
    assert Record(items[k], fsk, env) == [];
    assert BatchMessages(tail, fsk, env) == BatchMessages(b, After(items[k], fsk, env), env);
    assert items[..k + 1] == a + [items[k]];
    BatchConcat(a, [items[k]], fs, env);
    assert [items[k]][1..] == [];
  }

  /** Entries that are not objects with a `tool` key are skipped: nothing is recorded and no file changes. */
  lemma {:induction false} ShapelessSkipped(items: seq<Json>, fs: FileSystem, env: Env)
    requires forall k :: 0 <= k < |items| ==> !Validator.WellShaped(items[k])
    ensures BatchMessages(items, fs, env) == [] && AfterBatch(items, fs, env) == fs
    decreases |items|
  {
    if |items| > 0 {
      ShapelessSkipped(items[1..], fs, env);
    }
  }

  /** Iterating a string visits one-character strings, none of which is dispatched. */
  lemma StringBatchRecordsNothing(s: string, fs: FileSystem, env: Env)
    ensures BatchMessages(Chars(s), fs, env) == [] && AfterBatch(Chars(s), fs, env) == fs
  {
    var items := Chars(s);
    forall k | 0 <= k < |items| ensures !Validator.WellShaped(items[k]) {
      assert items[k] == JStr([s[k]]);
    }
    ShapelessSkipped(items, fs, env);
  }

  /**
    With the dispatcher of src/core/tools/toolValidator.ts a call that fails
    validation records `undefined`, not the error, after the call's JSON.
   */
  lemma FailureRecordsUndefined(item: Json, fs: FileSystem, h: FileSystem -> Validator.Handlers, zodMessage: Json -> string,
                                 writes: (Json, FileSystem) -> FileSystem, env: Env)
    requires env.dispatch == ValidatorDispatch(h, zodMessage, writes)
    requires Validator.WellShaped(item) && Validator.Run(item, h(fs), zodMessage).Failure?
    ensures Record(item, fs, env) == [CM.NewMessage(CM.Model, "Output of " + env.stringify(item) + ":\n" + "undefined")]
    ensures After(item, fs, env) == fs
  {
    var r := Validator.Run(item, h(fs), zodMessage);
    assert Validator.LlmResultOf(r) == None && !Validator.LeavesRejection(r);
    assert env.dispatch(item, fs) == Call(Resolved(None), fs, false);
  }

  /** With that dispatcher every entry with a `tool` key adds exactly one message. */
  lemma {:induction false} ValidatorRecordsEveryCall(items: seq<Json>, fs: FileSystem, h: FileSystem -> Validator.Handlers,
                                                     zodMessage: Json -> string, writes: (Json, FileSystem) -> FileSystem, env: Env)
    requires env.dispatch == ValidatorDispatch(h, zodMessage, writes)
    ensures |BatchMessages(items, fs, env)| == |ShapedEntries(items)|
    decreases |items|
  {
    if |items| > 0 {
      assert env.dispatch(items[0], fs).result.Resolved?;
      ValidatorRecordsEveryCall(items[1..], After(items[0], fs, env), h, zodMessage, writes, env);
    }
  }

  function ShapedEntries(items: seq<Json>): (r: seq<Json>)
    ensures forall k :: 0 <= k < |r| ==> Validator.WellShaped(r[k])
  {
    if |items| == 0 then []
    else (if Validator.WellShaped(items[0]) then [items[0]] else []) + ShapedEntries(items[1..])
  }

  /** How a query ends. */
  datatype End =
    | Answered(text: Json)  // a final message
    | Completed             // an unparsable answer: "Response completed!"
    | Crashed               // `processQuery` rejects with a TypeError
    | OutOfFuel

  /** The context and file system after a query, how it ended, the messages it recorded and the prompts it sent. */
  datatype QueryResult = QueryResult(ctx: CM.Context, fs: FileSystem, end: End, recorded: seq<CM.Message>, prompts: seq<string>)

  /** The `while (true)` loop: each prompt is built from the context and the files as the previous batch left them. */
  function Loop(c: CM.Context, fs: FileSystem, env: Env, fuel: nat): (r: QueryResult)
    ensures r.ctx.(conversations := c.conversations) == c
    ensures r.ctx.conversations == Log(c.conversations, r.recorded)
    ensures forall k :: 0 <= k < |r.recorded| ==> r.recorded[k].role == CM.Model
    ensures |r.prompts| <= fuel && (r.end.OutOfFuel? ==> |r.prompts| == fuel)
    ensures fuel > 0 ==> r.prompts != [] && r.prompts[0] == CM.BuildPrompt(c, fs, env.texts)
    ensures r.recorded == [] ==> r.ctx == c
    decreases fuel, 1
  {
    if fuel == 0 then QueryResult(c, fs, OutOfFuel, [], [])
    else
      var prompt := CM.BuildPrompt(c, fs, env.texts);
      match Interpret(env.llm(prompt), env.parse)
      case Final(t) => QueryResult(c, fs, Answered(t), [], [prompt])
      case Unparsed => QueryResult(c, fs, Completed, [], [prompt])
      case NotIterable => QueryResult(c, fs, Crashed, [], [prompt])
      case Batch(items) => BatchStep(c, fs, env, fuel, items)
  }

  /**
    One turn of the loop after the model answered with a batch: the batch
    is run, and unless it left a rejection nobody handles, which ends the
    query as `Crashed`, the loop goes on from the context and files it left.
   */
  function BatchStep(c: CM.Context, fs: FileSystem, env: Env, fuel: nat, items: seq<Json>): (r: QueryResult)
    requires fuel > 0
    ensures r.ctx.(conversations := c.conversations) == c
    ensures r.ctx.conversations == Log(c.conversations, r.recorded)
    ensures forall k :: 0 <= k < |r.recorded| ==> r.recorded[k].role == CM.Model
    ensures |r.prompts| <= fuel && (r.end.OutOfFuel? ==> |r.prompts| == fuel)
    ensures r.prompts != [] && r.prompts[0] == CM.BuildPrompt(c, fs, env.texts)
    ensures r.recorded == [] ==> r.ctx == c
    decreases fuel, 0
  {
    var prompt := CM.BuildPrompt(c, fs, env.texts);
    var ms := BatchMessages(items, fs, env);
    var t := RunBatch(c, items, fs, env);
    if BatchDies(items, fs, env) then QueryResult(t.ctx, t.fs, Crashed, ms, [prompt])
    else
      var rest := Loop(t.ctx, t.fs, env, fuel - 1);
      ChainBatch(c, ms, t.ctx, rest);
      QueryResult(rest.ctx, rest.fs, rest.end, ms + rest.recorded, [prompt] + rest.prompts)
  }

  /** A batch's messages followed by the rest of the loop's keep the context's other fields and log in order. */
  lemma ChainBatch(c: CM.Context, ms: seq<CM.Message>, mid: CM.Context, rest: QueryResult)
    requires mid.conversations == Log(c.conversations, ms)
    requires mid.(conversations := c.conversations) == c
    requires rest.ctx.(conversations := mid.conversations) == mid
    requires rest.ctx.conversations == Log(mid.conversations, rest.recorded)
    requires forall k :: 0 <= k < |ms| ==> ms[k].role == CM.Model
    requires forall k :: 0 <= k < |rest.recorded| ==> rest.recorded[k].role == CM.Model
    ensures rest.ctx.(conversations := c.conversations) == c
    ensures rest.ctx.conversations == Log(c.conversations, ms + rest.recorded)
    ensures forall k :: 0 <= k < |ms + rest.recorded| ==> (ms + rest.recorded)[k].role == CM.Model
  {
    LogConcat(c.conversations, ms, rest.recorded);
  }

  /**
    The prompt after a batch is built from the file system the batch left:
    a pinned file that a tool call rewrote is shown with its new content.
    A batch that leaves an unhandled rejection sends no further prompt.
   */
  lemma NextPromptSeesWrites(c: CM.Context, fs: FileSystem, env: Env, fuel: nat, items: seq<Json>)
    requires fuel > 1 && Interpret(env.llm(CM.BuildPrompt(c, fs, env.texts)), env.parse) == Batch(items)
    ensures var prompts := Loop(c, fs, env, fuel).prompts;
      && (BatchDies(items, fs, env) ==> |prompts| == 1)
      && (!BatchDies(items, fs, env) ==>
            |prompts| > 1 && prompts[1] == CM.BuildPrompt(RunBatch(c, items, fs, env).ctx, AfterBatch(items, fs, env), env.texts))
  {
    LoopBatch(c, fs, env, fuel, items);
    if !BatchDies(items, fs, env) {
      SecondPrompt(c, fs, env, fuel, items);
    }
  }

  /** The turn after a batch that leaves no unhandled rejection starts from the context and files the batch left. */
  lemma SecondPrompt(c: CM.Context, fs: FileSystem, env: Env, fuel: nat, items: seq<Json>)
    requires fuel > 1 && !BatchDies(items, fs, env)
    ensures var t := RunBatch(c, items, fs, env);
      var prompts := BatchStep(c, fs, env, fuel, items).prompts;
      |prompts| > 1 && prompts[1] == CM.BuildPrompt(t.ctx, AfterBatch(items, fs, env), env.texts)
  {
    var t := RunBatch(c, items, fs, env);
    var rest := Loop(t.ctx, t.fs, env, fuel - 1);
    assert BatchStep(c, fs, env, fuel, items).prompts == [CM.BuildPrompt(c, fs, env.texts)] + rest.prompts;
  }

  /**
    After a batch the loop goes on from the context and files the batch
    left, unless the batch left a rejection nobody handles: then the query
    ends as `Crashed` with no further prompt.
   */
  lemma LoopBatch(c: CM.Context, fs: FileSystem, env: Env, fuel: nat, items: seq<Json>)
    requires fuel > 0 && Interpret(env.llm(CM.BuildPrompt(c, fs, env.texts)), env.parse) == Batch(items)
    ensures var r := Loop(c, fs, env, fuel);
      && (BatchDies(items, fs, env) ==> r.end == Crashed && r.prompts == [CM.BuildPrompt(c, fs, env.texts)])
      && (!BatchDies(items, fs, env) ==>
            var t := RunBatch(c, items, fs, env);
            r.prompts == [CM.BuildPrompt(c, fs, env.texts)] + Loop(t.ctx, t.fs, env, fuel - 1).prompts)
  {
    assert Loop(c, fs, env, fuel) == BatchStep(c, fs, env, fuel, items);
  }

  /**
    With the dispatcher of src/core/tools/toolValidator.ts, a `read_file`
    entry whose read handler throws leaves a rejection nobody handles, so
    the batch it is in ends the query.
   */
  lemma ReadRejectionDies(c: Validator.ToolCall, fs: FileSystem, h: FileSystem -> Validator.Handlers, zodMessage: Json -> string,
                          writes: (Json, FileSystem) -> FileSystem, env: Env)
    requires env.dispatch == ValidatorDispatch(h, zodMessage, writes)
    requires c.ReadFileCall? && Validator.ValidCall(c)
    requires c.startLine.None? || c.endLine.None? || c.startLine.value <= c.endLine.value
    requires h(fs).read(c.absolutePath, c.startLine, c.endLine).Threw?
    ensures BatchDies([Validator.Encode(c)], fs, env)
  {
    Validator.ReadResultUndefined(c, h(fs), zodMessage);
    Validator.ParseEncode(c);
    assert Validator.WellShaped(Validator.Encode(c));
    assert env.dispatch(Validator.Encode(c), fs).unhandled;
  }

  /**
    A configured blocklist the guardrail cannot walk (`[".env", 1]` for a
    file not named `.env`, or `5`) makes the read handler's promise reject,
    and the batch holding that read ends the query.
   */
  lemma BadBlocklistDies(c: Validator.ToolCall, fs: FileSystem, h: FileSystem -> Validator.Handlers, zodMessage: Json -> string,
                         writes: (Json, FileSystem) -> FileSystem, env: Env, root: string, patterns: Option<Json>)
    requires env.dispatch == ValidatorDispatch(h, zodMessage, writes)
    requires c.ReadFileCall? && Validator.ValidCall(c)
    requires c.startLine.None? || c.endLine.None? || c.startLine.value <= c.endLine.value
    requires h(fs).read(c.absolutePath, c.startLine, c.endLine)
      == ReadFile.Read(ReadFile.ReadOptions(c.absolutePath, c.startLine, c.endLine), root, fs, patterns)
    requires ReadFile.Guardrail(patterns, c.absolutePath) == ReadFile.Fails
    ensures BatchDies([Validator.Encode(c)], fs, env)
  {
    ReadRejectionDies(c, fs, h, zodMessage, writes, env);
  }

  /**
    `processQuery(query)`: the query is the first message recorded and the
    only user message among them; every later one is a tool result.
   */
  function ProcessQuery(c: CM.Context, query: string, fs: FileSystem, env: Env, fuel: nat): (r: QueryResult)
    ensures r.recorded != [] && r.recorded[0] == CM.NewMessage(CM.User, query)
    ensures forall k :: 1 <= k < |r.recorded| ==> r.recorded[k].role == CM.Model
    ensures r.ctx.conversations == Log(c.conversations, r.recorded)
    ensures r.ctx.(conversations := c.conversations) == c
  {
    var m := CM.NewMessage(CM.User, query);
    var r := Loop(CM.AddUserMessage(c, query), fs, env, fuel);
    LogCons(c.conversations, m, r.recorded);
    QueryResult(r.ctx, r.fs, r.end, [m] + r.recorded, r.prompts)
  }

  /** The first prompt is built after the query is recorded: the query is the newest message it shows. */
  lemma QueryBeforeFirstPrompt(c: CM.Context, query: string, fs: FileSystem, env: Env, fuel: nat)
    requires c.Valid() && fuel > 0
    ensures var c1 := CM.AddUserMessage(c, query);
      && ProcessQuery(c, query, fs, env, fuel).prompts[0] == CM.BuildPrompt(c1, fs, env.texts)
      && c1.conversations[|c1.conversations| - 1] == CM.NewMessage(CM.User, query)
  {
    CM.AppendKeepsValid(c, CM.User, query);
  }

  /** A final or unparsable first answer ends the query with only the query recorded, no tool run and no file changed. */
  lemma StopRunsNoTool(c: CM.Context, query: string, fs: FileSystem, env: Env, fuel: nat)
    requires fuel > 0
    requires var c1 := CM.AddUserMessage(c, query);
      !Interpret(env.llm(CM.BuildPrompt(c1, fs, env.texts)), env.parse).Batch?
    ensures var r := ProcessQuery(c, query, fs, env, fuel);
      && r.recorded == [CM.NewMessage(CM.User, query)]
      && r.ctx == CM.AddUserMessage(c, query)
      && r.fs == fs
      && |r.prompts| == 1
  {
  }

  /** While the log stays below the cap, a query's messages are appended in order to the old log. */
  lemma QueryAppends(c: CM.Context, query: string, fs: FileSystem, env: Env, fuel: nat)
    requires |c.conversations| + |ProcessQuery(c, query, fs, env, fuel).recorded| <= CM.HardCap
    ensures var r := ProcessQuery(c, query, fs, env, fuel);
      r.ctx.conversations == c.conversations + r.recorded
  {
    var r := ProcessQuery(c, query, fs, env, fuel);
    LogBelowCap(c.conversations, r.recorded);
  }
}

=== FILE: prompt_session.dfy ===
/**
  The input normalisation of `createPromptSession` in src/ui/prompt.ts:
  `confirm`, `ask`, `onInput`, the completer and the history file. The
  terminal is not modelled: the line read (or `None` at end of input) is a
  parameter, and the history file is its text. Appending to the file may
  fail, which the session ignores; `ok` says whether it succeeded.
 */
module PromptSession {
  import opened Common
  import opened Text
  import Paths

  const MaxHistory := 200

  /** `options.historyFile || DEFAULT_HISTORY_FILE`; `""` stands for an absent option. */
  function HistoryFile(given: string, home: string): (r: string)
    ensures given != "" ==> r == given
    ensures given == "" ==> r == Paths.Join(home, [".coolcode_history"])
  {
    if given != "" then given else Paths.Join(home, [".coolcode_history"])
  }

  // ----- confirm -----

  function Suffix(defaultValue: bool): string {
    if defaultValue then " [Y/n]" else " [y/N]"
  }

  /** The question `confirm` asks. */
  function ConfirmQuestion(message: string, defaultValue: bool): string {
    message + Suffix(defaultValue) + " "
  }

  /**
    `confirm(message, defaultValue)` given the answer read, `None` at end of
    input: false at end of input, the default for a blank answer, and
    otherwise true exactly for `y` or `yes` in any letter case, surrounded by
    any white space.
   */
  function Confirm(answer: Option<string>, defaultValue: bool): (r: bool)
    ensures answer.None? ==> !r
    ensures answer.Some? && IsBlank(answer.value) ==> r == defaultValue
    ensures answer.Some? && !IsBlank(answer.value) ==> (r <==> IsYes(Trim(answer.value)))
  {
    match answer
    case None => false
    case Some(a) =>
      var normalized := Lower(Trim(a));
      LowerYes(Trim(a));
      if normalized == "" then defaultValue else normalized == "y" || normalized == "yes"
  }

  /** `y` or `yes` in any mix of letter case. */
  predicate IsYes(t: string) {
    || (|t| == 1 && t[0] in "yY")
    || (|t| == 3 && t[0] in "yY" && t[1] in "eE" && t[2] in "sS")
  }

  lemma LowerIs(c: char, lower: char, upper: char)
    requires 'a' <= lower <= 'z' && upper as int == lower as int - 32
    ensures ToLower(c) == lower <==> c == lower || c == upper
  {
  }

  lemma LowerYes(t: string)
    ensures Lower(t) == "y" || Lower(t) == "yes" <==> IsYes(t)
  {
    var l := Lower(t);
    if |t| == 1 {
      LowerIs(t[0], 'y', 'Y');
      assert l == "y" <==> l[0] == 'y';
    } else if |t| == 3 {
      LowerIs(t[0], 'y', 'Y');
      LowerIs(t[1], 'e', 'E');
      LowerIs(t[2], 's', 'S');
      assert l == "yes" <==> l[0] == 'y' && l[1] == 'e' && l[2] == 's';
    }
  }

  /** The question ends in `[Y/n] ` exactly when the default is yes, and in `[y/N] ` otherwise. */
  lemma ConfirmShowsDefault(message: string, defaultValue: bool)
    ensures IsSuffix(" [Y/n] ", ConfirmQuestion(message, defaultValue)) <==> defaultValue
    ensures IsSuffix(" [y/N] ", ConfirmQuestion(message, defaultValue)) <==> !defaultValue
  {
    var q := ConfirmQuestion(message, defaultValue);
    assert q[|q| - 7..] == Suffix(defaultValue) + " ";
    assert " [Y/n] "[2] != " [y/N] "[2];
  }

  // ----- the history file -----

  /** `appendHistory(filePath, line)`: the line and a newline go at the end; a failed write is ignored. */
  function AppendHistory(file: string, line: string, ok: bool): (r: string)
    ensures ok ==> |r| == |file| + |line| + 1 && r[..|file|] == file && r[|file|..|file| + |line|] == line && r[|r| - 1] == '\n'
    ensures !ok ==> r == file
  {
    if ok then file + line + "\n" else file
  }

  /**
    `loadHistory`: the non-blank lines of the file, trimmed, the last 200 of
    them, newest first. A missing or unreadable file (`None`) leaves the
    history empty. The result holds at most 200 entries, each a history line.
   */
  function LoadHistory(content: Option<string>): (r: seq<string>)
    ensures content.None? ==> r == []
    ensures |r| <= MaxHistory
    ensures forall x :: x in r ==> HistoryLine(x)
  {
    if content.None? then []
    else
      var pieces := Split(content.value, '\n');
      SplitCharFree(content.value, '\n');
      var lines := NonEmpty(TrimAll(pieces));
      CleanPieces(pieces);
      var last := LastN(lines, MaxHistory);
      assert forall x :: x in last ==> x in lines;
      ReverseKeeps(last);
      Reverse(last)
  }

  /** The trimmed non-empty pieces of a split on newlines are history lines. */
  lemma CleanPieces(pieces: seq<string>)
    requires forall k :: 0 <= k < |pieces| ==> '\n' !in pieces[k]
    ensures forall x :: x in NonEmpty(TrimAll(pieces)) ==> HistoryLine(x)
  {
    TrimmedLinesClean(pieces);
    NonEmptyKeeps(TrimAll(pieces));
  }

  lemma ReverseKeeps(xs: seq<string>)
    ensures forall x :: x in Reverse(xs) ==> x in xs
  {
    forall x | x in Reverse(xs) ensures x in xs {
      var k :| 0 <= k < |xs| && Reverse(xs)[k] == x;
      assert xs[|xs| - 1 - k] == x;
    }
  }

  /** A history line: non-empty, already trimmed, on one line. */
  predicate HistoryLine(l: string) {
    l != "" && Trim(l) == l && '\n' !in l
  }

  lemma TrimWithin(s: string, c: char)
    requires c in Trim(s)
    ensures c in s
  {
    var a := TrimStart(s);
    var i :| 0 <= i < |Trim(s)| && Trim(s)[i] == c;
    assert Trim(s) == a[..|Trim(s)|];
    assert s[|s| - |a|..] == a;
    assert s[|s| - |a| + i] == c;
  }

  lemma TrimmedLinesClean(pieces: seq<string>)
    requires forall k :: 0 <= k < |pieces| ==> '\n' !in pieces[k]
    ensures forall x :: x in TrimAll(pieces) ==> Trim(x) == x && '\n' !in x
  {
    forall k | 0 <= k < |pieces| ensures Trim(Trim(pieces[k])) == Trim(pieces[k]) && '\n' !in Trim(pieces[k]) {
      TrimIdempotent(pieces[k]);
      if '\n' in Trim(pieces[k]) { TrimWithin(pieces[k], '\n'); }
    }
  }

  /** Dropping empty strings keeps only entries of the list. */
  lemma {:induction false} NonEmptyKeeps(xs: seq<string>)
    ensures forall x :: x in NonEmpty(xs) ==> x in xs
    decreases |xs|
  {
    if |xs| > 0 {
      NonEmptyKeeps(xs[1..]);
    }
  }

  lemma {:induction false} EndLinesJoin(lines: seq<string>)
    ensures EndLines(lines) == JoinWith(lines + [""], "\n")
    decreases |lines|
  {
    if |lines| > 0 {
      EndLinesJoin(lines[1..]);
      JoinCons(lines[0], lines[1..] + [""], "\n");
      assert lines + [""] == [lines[0]] + (lines[1..] + [""]);
    }
  }

  lemma {:induction false} NonEmptyDropsLast(xs: seq<string>)
    requires forall k :: 0 <= k < |xs| ==> xs[k] != ""
    ensures NonEmpty(xs + [""]) == xs
    decreases |xs|
  {
    if |xs| == 0 {
      assert xs + [""] == [""];
    } else {
      NonEmptyDropsLast(xs[1..]);
      assert (xs + [""])[1..] == xs[1..] + [""];
      assert xs == [xs[0]] + xs[1..];
    }
  }

  lemma TrimAllKeeps(xs: seq<string>)
    requires forall k :: 0 <= k < |xs| ==> Trim(xs[k]) == xs[k]
    ensures TrimAll(xs) == xs
  {
  }

  /**
    A file written one history line at a time reads back as those lines,
    the newest first, at most 200 of them.
   */
  lemma HistoryRoundTrip(lines: seq<string>)
    requires forall k :: 0 <= k < |lines| ==> HistoryLine(lines[k])
    ensures LoadHistory(Some(EndLines(lines))) == Reverse(LastN(lines, MaxHistory))
  {
    CleanLinesKept(lines);
    LoadHistoryOf(EndLines(lines), lines);
  }

  /** The history loaded from a file is the last lines kept after trimming and dropping blanks, newest first. */
  lemma LoadHistoryOf(content: string, lines: seq<string>)
    requires NonEmpty(TrimAll(Split(content, '\n'))) == lines
    ensures LoadHistory(Some(content)) == Reverse(LastN(lines, MaxHistory))
  {
  }

  /** Written history lines survive the split, trim and blank-dropping of loading unchanged. */
  lemma CleanLinesKept(lines: seq<string>)
    requires forall k :: 0 <= k < |lines| ==> HistoryLine(lines[k])
    ensures NonEmpty(TrimAll(Split(EndLines(lines), '\n'))) == lines
  {
    SplitEndLines(lines);
    TrimmedWithEnd(lines);
    NonEmptyDropsLast(lines);
  }

  /** Trimming leaves history lines, and the empty piece after them, as they are. */
  lemma TrimmedWithEnd(lines: seq<string>)
    requires forall k :: 0 <= k < |lines| ==> HistoryLine(lines[k])
    ensures TrimAll(lines + [""]) == lines + [""]
  {
    TrimAllKeeps(lines);
    TrimAllSnoc(lines, "");
    TrimEmpty();
  }

  lemma TrimEmpty()
    ensures Trim("") == ""
  {
    assert |Trim("")| <= 0;
  }

  lemma TrimAllSnoc(xs: seq<string>, x: string)
    ensures TrimAll(xs + [x]) == TrimAll(xs) + [Trim(x)]
  {
  }



  /** A file of lines splits into those lines and the empty piece after the last newline. */
  lemma SplitEndLines(lines: seq<string>)
    requires forall k :: 0 <= k < |lines| ==> '\n' !in lines[k]
    ensures Split(EndLines(lines), '\n') == lines + [""]
  {
    EndLinesJoin(lines);
    SplitJoin(lines + [""], '\n');
  }

  /** The first entry of the loaded history is the last line written. */
  lemma NewestFirst(xs: seq<string>)
    requires |xs| > 0
    ensures Reverse(LastN(xs, MaxHistory))[0] == xs[|xs| - 1]
  {
  }

  // ----- ask and onInput -----

  /** `ask()` given the line read (`None` at end of input): the answer and the history file after it. */
  function Ask(value: Option<string>, file: string, ok: bool): (r: (Option<string>, string))
    ensures value.None? <==> r.0.None?
    ensures value.Some? ==> r.0 == Some(Trim(value.value))
    ensures r.0.Some? ==> Trim(r.0.value) == r.0.value
    ensures IsPrefix(file, r.1)
    ensures r.1 != file ==> r.0.Some? && r.0.value != ""
  {
    match value
    case None => (None, file)
    case Some(v) =>
      var trimmed := Trim(v);
      TrimIdempotent(v);
      (Some(trimmed), if |trimmed| > 0 then AppendHistory(file, trimmed, ok) else file)
  }

  /**
    A non-blank answer (a terminal line holds no newline) is written to the
    history file as one more history line; with `HistoryRoundTrip` and
    `NewestFirst`, reloading the file puts it first.
   */
  lemma AskAppendsLine(v: string, lines: seq<string>)
    requires !IsBlank(v) && '\n' !in v
    ensures HistoryLine(Trim(v))
    ensures Ask(Some(v), EndLines(lines), true).1 == EndLines(lines + [Trim(v)])
  {
    var t := Trim(v);
    TrimIdempotent(v);
    if '\n' in t { TrimWithin(v, '\n'); }
    var file := EndLines(lines);
    assert Ask(Some(v), file, true).1 == file + t + "\n";
    EndLinesAppend(lines, [t]);
    assert EndLines([t]) == t + "\n";
    assert file + t + "\n" == file + (t + "\n");
  }

  /** The `line` listener of `onInput`: the line passed to the callback, if any, and the history file after it. */
  function OnLine(line: string, file: string, ok: bool): (r: (Option<string>, string))
    ensures r.0.Some? <==> !IsBlank(line)
    ensures r.0.Some? ==> r.0.value == Trim(line)
    ensures r.0.Some? ==> r.0.value != "" && Trim(r.0.value) == r.0.value
    ensures r.0.None? ==> r.1 == file
  {
    var trimmed := Trim(line);
    TrimIdempotent(line);
    if |trimmed| > 0 then (Some(trimmed), AppendHistory(file, trimmed, ok)) else (None, file)
  }

  /** `onInput` forwards exactly the non-blank answers `ask` would return, and records them the same way. */
  lemma OnLineIsAsk(line: string, file: string, ok: bool)
    ensures OnLine(line, file, ok).1 == Ask(Some(line), file, ok).1
    ensures !IsBlank(line) ==> OnLine(line, file, ok).0 == Ask(Some(line), file, ok).0
  {
  }

  // ----- completion -----

  /** `completions.filter(c => c.startsWith(line))`. */
  function WithPrefix(cs: seq<string>, line: string): (r: seq<string>)
    ensures forall c :: c in r <==> c in cs && IsPrefix(line, c)
    ensures IsSubsequence(r, cs)
  {
    if |cs| == 0 then []
    else
      var rest := WithPrefix(cs[1..], line);
      assert forall c :: c in cs <==> c == cs[0] || c in cs[1..];
      if IsPrefix(line, cs[0]) then [cs[0]] + rest
      else
        assert |rest| > 0 ==> rest[0] in rest;
        rest
  }

  /**
    The completer: path completion (`completePath`, whose directory reading
    is not modelled, given as `pathHits`) when it applies, otherwise the
    completions starting with the line, or all of them when none does.
   */
  function Complete(line: string, completions: Option<seq<string>>, pathHits: Option<(seq<string>, string)>): (r: (seq<string>, string))
    ensures pathHits.Some? ==> r == pathHits.value
    ensures pathHits.None? ==> r.1 == line
    ensures pathHits.None? ==> var cs := if completions.Some? then completions.value else [];
      && ((exists c :: c in cs && IsPrefix(line, c)) ==> (forall c :: c in r.0 <==> c in cs && IsPrefix(line, c)) && IsSubsequence(r.0, cs))
      && ((forall c :: c in cs ==> !IsPrefix(line, c)) ==> r.0 == cs)
  {
    if pathHits.Some? then pathHits.value
    else
      var cs := if completions.Some? then completions.value else [];
      var hits := WithPrefix(cs, line);
      assert |hits| > 0 ==> hits[0] in hits;
      (if |hits| > 0 then hits else cs, line)
  }
}

=== FILE: ranking.dfy ===
/**
  The stable sort by a numeric key, largest first, that JavaScript's
  `Array.prototype.sort` performs with a comparator `(a, b) => b.k - a.k`:
  `listRecentFiles` orders files by modification time with it, and
  `detectLanguages` orders languages by file count.
 */
module Ranking {
  /** An item with the key it is ranked by. */
  datatype Keyed<T> = Keyed(item: T, key: int)

  /** Largest key first. */
  predicate Descending<T>(s: seq<Keyed<T>>) {
    forall i, j :: 0 <= i < j < |s| ==> s[i].key >= s[j].key
  }

  /** The entries with key `k`, in order: a stable sort keeps this sequence as it is. */
  function WithKey<T>(s: seq<Keyed<T>>, k: int): (r: seq<Keyed<T>>)
    ensures |r| <= |s|
  {
    if |s| == 0 then [] else (if s[0].key == k then [s[0]] else []) + WithKey(s[1..], k)
  }

  /** Puts `x` before the first entry whose key is not larger. */
  function Insert<T>(x: Keyed<T>, s: seq<Keyed<T>>): (r: seq<Keyed<T>>)
    ensures |r| == |s| + 1
  {
    if |s| == 0 || s[0].key <= x.key then [x] + s else [s[0]] + Insert(x, s[1..])
  }

  /** The stable sort, largest key first, as insertion from the back. */
  function SortDescending<T>(s: seq<Keyed<T>>): (r: seq<Keyed<T>>)
    ensures |r| == |s|
  {
    if |s| == 0 then [] else Insert(s[0], SortDescending(s[1..]))
  }

  /** Every entry of `Insert(x, s)` is `x` or an entry of `s`. */
  lemma {:induction false} InsertMember<T>(x: Keyed<T>, s: seq<Keyed<T>>, j: nat)
    requires j < |s| + 1
    ensures Insert(x, s)[j] == x || Insert(x, s)[j] in s
    decreases |s|
  {
    if |s| > 0 && s[0].key > x.key && j > 0 {
      InsertMember(x, s[1..], j - 1);
    }
  }

  lemma {:induction false} InsertDescending<T>(x: Keyed<T>, s: seq<Keyed<T>>)
    requires Descending(s)
    ensures Descending(Insert(x, s))
    decreases |s|
  {
    if |s| > 0 && s[0].key > x.key {
      InsertDescending(x, s[1..]);
      var r := Insert(x, s);
      assert r == [s[0]] + Insert(x, s[1..]);
      forall j | 0 < j < |r| ensures r[0].key >= r[j].key {
        assert r[j] == Insert(x, s[1..])[j - 1];
        InsertMember(x, s[1..], j - 1);
      }
    }
  }

  lemma {:induction false} InsertPermutes<T>(x: Keyed<T>, s: seq<Keyed<T>>)
    ensures multiset(Insert(x, s)) == multiset(s) + multiset{x}
    decreases |s|
  {
    if |s| > 0 && s[0].key > x.key {
      InsertPermutes(x, s[1..]);
      assert s == [s[0]] + s[1..];
    }
  }

  /** `x` lands ahead of every entry with its own key: ties keep their order. */
  lemma {:induction false} InsertStable<T>(x: Keyed<T>, s: seq<Keyed<T>>, k: int)
    ensures WithKey(Insert(x, s), k) == (if x.key == k then [x] else []) + WithKey(s, k)
    decreases |s|
  {
    if |s| > 0 && s[0].key > x.key {
      InsertStable(x, s[1..], k);
      var r := Insert(x, s);
      assert r[1..] == Insert(x, s[1..]);
    } else {
      assert ([x] + s)[1..] == s;
    }
  }

  /** The sort is largest first, a permutation, and stable. */
  lemma {:induction false} SortDescendingCorrect<T>(s: seq<Keyed<T>>)
    ensures Descending(SortDescending(s))
    ensures multiset(SortDescending(s)) == multiset(s)
    ensures forall k :: WithKey(SortDescending(s), k) == WithKey(s, k)
    decreases |s|
  {
    if |s| > 0 {
      SortDescendingCorrect(s[1..]);
      InsertDescending(s[0], SortDescending(s[1..]));
      InsertPermutes(s[0], SortDescending(s[1..]));
      assert s == [s[0]] + s[1..];
      forall k ensures WithKey(SortDescending(s), k) == WithKey(s, k) {
        InsertStable(s[0], SortDescending(s[1..]), k);
      }
    }
  }

  /** The items, keys dropped. */
  function Items<T>(s: seq<Keyed<T>>): (r: seq<T>)
    ensures |r| == |s| && forall k :: 0 <= k < |s| ==> r[k] == s[k].item
  {
    if |s| == 0 then [] else [s[0].item] + Items(s[1..])
  }
}

=== FILE: read_file.dfy ===
/**
  The `read_file` handler of src/core/tools/readFileTool.ts: the guardrail
  blocklist from the configuration, the file checks, the line-range checks
  and the selection of lines as `readline` delivers them.
 */
module ReadFile {
  import opened Common
  import opened Text
  import opened Json
  import opened Paths
  import Config

  /** The options a `read_file` call carries after validation. */
  datatype ReadOptions = ReadOptions(absolutePath: string, startLine: Option<int>, endLine: Option<int>)

  const FixingIssues := "Fixing Issues"

  function BlockedMessage(base: string): string {
    "Reading blocked for \"" + base + "\" by guardrails."
  }

  /** Whether a single pattern blocks a basename: equal, a `.x.*` prefix pattern, or a `*.ext` suffix pattern. */
  predicate PatternBlocks(pattern: string, base: string) {
    pattern == base
    || (IsPrefix(".", pattern) && IsSuffix(".*", pattern) && IsPrefix(pattern[..|pattern| - 2], base))
    || (IsPrefix("*.", pattern) && IsSuffix(pattern[1..], base))
  }

  /** How the blocklist check ends. */
  datatype Guard = Allowed | Blocked | Fails

  /** The check over a list of patterns: the first entry that is not a string makes `startsWith` throw. */
  function CheckPatterns(patterns: seq<Json>, base: string): (g: Guard)
    ensures g == Blocked ==> exists k :: 0 <= k < |patterns| && patterns[k].JStr? && PatternBlocks(patterns[k].s, base)
    ensures g == Fails ==> exists k :: 0 <= k < |patterns| && !patterns[k].JStr?
    ensures (forall k :: 0 <= k < |patterns| ==> patterns[k].JStr? && !PatternBlocks(patterns[k].s, base)) <==> g == Allowed
  {
    if |patterns| == 0 then Allowed
    else if !patterns[0].JStr? then Fails
    else if PatternBlocks(patterns[0].s, base) then Blocked
    else
      var g := CheckPatterns(patterns[1..], base);
      assert forall k :: 1 <= k < |patterns| ==> patterns[1..][k - 1] == patterns[k];
      g
  }

  /** The characters of a string, each as a one-character pattern (`for … of` over a string). */
  function CharPatterns(s: string): (r: seq<Json>)
    ensures |r| == |s| && forall k :: 0 <= k < |s| ==> r[k] == JStr([s[k]])
  {
    if |s| == 0 then [] else [JStr([s[0]])] + CharPatterns(s[1..])
  }

  /**
    `isBlockedPath`: the configured `blockReadPatterns || []`, checked against
    the basename. A value whose `length` is 0 allows every read before the
    walk starts; an object qualifies through a `length` key holding 0. An
    array is walked entry by entry, a string character by character, and
    any other truthy value is not iterable and throws.
   */
  function Guardrail(patterns: Option<Json>, p: string): Guard {
    var base := Basename(p);
    if !TruthyOpt(patterns) then Allowed
    else match patterns.value
      case JArr(items) => CheckPatterns(items, base)
      case JStr(s) => CheckPatterns(CharPatterns(s), base)
      case JObj(fields) => if "length" in fields && fields["length"] == JNum(0) then Allowed else Fails
      case _ => Fails
  }

  /**
    The guardrail throws exactly for a truthy blocklist that is neither a
    list nor a string nor an object with `length` 0, or for a list or string
    whose walk reaches an entry that is not a string before any pattern
    blocks.
   */
  lemma GuardrailFails(patterns: Option<Json>, p: string)
    ensures Guardrail(patterns, p) == Fails <==>
      && TruthyOpt(patterns)
      && match patterns.value
         case JArr(items) => CheckPatterns(items, Basename(p)) == Fails
         case JStr(_) => false
         case JObj(fields) => "length" !in fields || fields["length"] != JNum(0)
         case _ => true
  {
    if TruthyOpt(patterns) && patterns.value.JStr? {
      var cs := CharPatterns(patterns.value.s);
      CheckStrings(cs, Basename(p));
    }
  }

  /** An object blocklist whose `length` is 0 allows every read; one without throws on the walk. */
  lemma ObjectBlocklist(fields: map<string, Json>, p: string)
    ensures "length" in fields && fields["length"] == JNum(0) ==> Guardrail(Some(JObj(fields)), p) == Allowed
    ensures ("length" !in fields || fields["length"] != JNum(0)) ==> Guardrail(Some(JObj(fields)), p) == Fails
  {
    assert TruthyOpt(Some(JObj(fields)));
  }

  /**
    A list whose first pattern does not block the file and whose second is
    not a string throws, as does a truthy number.
   */
  lemma UnwalkableBlocklists(first: string, second: Json, n: int, p: string)
    requires !PatternBlocks(first, Basename(p)) && !second.JStr? && n != 0
    ensures Guardrail(Some(JArr([JStr(first), second])), p) == Fails
    ensures Guardrail(Some(JNum(n)), p) == Fails
  {
    var base := Basename(p);
    assert [JStr(first), second][1..] == [second];
    assert CheckPatterns([second], base) == Fails;
    assert CheckPatterns([JStr(first), second], base) == CheckPatterns([second], base);
  }

  /** An empty blocklist never blocks. */
  lemma EmptyBlocklistAllows(p: string)
    ensures Guardrail(Some(JArr([])), p) == Allowed
    ensures Guardrail(None, p) == Allowed
  {
  }

  /** Over a list of strings the check never throws, and blocks exactly when some pattern blocks. */
  lemma {:induction false} CheckStrings(patterns: seq<Json>, base: string)
    requires forall k :: 0 <= k < |patterns| ==> patterns[k].JStr?
    ensures CheckPatterns(patterns, base) != Fails
    ensures CheckPatterns(patterns, base) == Blocked <==>
      exists k :: 0 <= k < |patterns| && PatternBlocks(patterns[k].s, base)
    decreases |patterns|
  {
    if |patterns| > 0 && !PatternBlocks(patterns[0].s, base) {
      CheckStrings(patterns[1..], base);
      if exists k :: 0 <= k < |patterns| && PatternBlocks(patterns[k].s, base) {
        var k :| 0 <= k < |patterns| && PatternBlocks(patterns[k].s, base);
        assert patterns[1..][k - 1] == patterns[k];
      }
    }
  }

  /** A pattern list of strings blocks a file whose basename one of them blocks. */
  lemma DefaultBlocks(dir: string, name: string, k: nat)
    requires name != "" && Sep !in name
    requires k < |Config.DefaultBlockReadPatterns| && PatternBlocks(Config.DefaultBlockReadPatterns[k], name)
    ensures Guardrail(Config.DefaultConfig.blockReadPatterns, dir + [Sep] + name) == Blocked
  {
    var pats := Config.Strings(Config.DefaultBlockReadPatterns);
    assert Config.DefaultConfig.blockReadPatterns == Some(JArr(pats));
    assert pats[k].s == Config.DefaultBlockReadPatterns[k];
    ArrayBlocks(pats, dir, name, k);
  }

  /** An array of string patterns blocks a file whose basename one of them blocks. */
  lemma ArrayBlocks(pats: seq<Json>, dir: string, name: string, k: nat)
    requires name != "" && Sep !in name
    requires forall j :: 0 <= j < |pats| ==> pats[j].JStr?
    requires k < |pats| && PatternBlocks(pats[k].s, name)
    ensures Guardrail(Some(JArr(pats)), dir + [Sep] + name) == Blocked
  {
    BasenameOf(dir, name);
    CheckStrings(pats, name);
  }

  /** The default list blocks `.env` by equality. */
  lemma DefaultBlocksEnv()
    ensures Guardrail(Config.DefaultConfig.blockReadPatterns, "/p/.env") == Blocked
  {
    assert "/p" + [Sep] + ".env" == "/p/.env";
    DefaultBlocks("/p", ".env", 0);
  }

  /** The default list blocks `.env.local` by the prefix pattern `.env.*`. */
  lemma DefaultBlocksEnvLocal()
    ensures Guardrail(Config.DefaultConfig.blockReadPatterns, "/p/.env.local") == Blocked
  {
    assert "/p" + [Sep] + ".env.local" == "/p/.env.local";
    assert IsPrefix(".env", ".env.local");
    DefaultBlocks("/p", ".env.local", 1);
  }

  /** The default list blocks `key.pem` by the suffix pattern `*.pem`. */
  lemma DefaultBlocksPem()
    ensures Guardrail(Config.DefaultConfig.blockReadPatterns, "/p/key.pem") == Blocked
  {
    assert "/p" + [Sep] + "key.pem" == "/p/key.pem";
    assert IsSuffix(".pem", "key.pem");
    DefaultBlocks("/p", "key.pem", 2);
  }

  /** `validateFileForReading`: absolute, existing, a file, readable, in that order. */
  function ValidateForReading(p: string, fs: FileSystem): (r: Option<string>)
    ensures r.None? <==> IsAbsolute(p) && fs.CanRead(p)
    ensures !IsAbsolute(p) ==> r == Some("File path must be absolute")
    ensures IsAbsolute(p) && !fs.Exists(p) ==> r == Some("File does not exist: " + p)
  {
    if !IsAbsolute(p) then Some("File path must be absolute")
    else if !fs.Exists(p) then Some("File does not exist: " + p)
    else if p !in fs.files then Some("Path is not a file: " + p)
    else if p in fs.noRead then Some("File is not readable: " + p)
    else None
  }

  /**
    The text with each line end `readline` recognises, `\r\n`, a lone `\r`
    or `\n`, written as `\n`.
   */
  function NormalizeEol(c: string): (n: string)
    ensures '\r' !in n
    ensures |n| <= |c|
    ensures '\r' !in c ==> n == c
    decreases |c|
  {
    if c == "" then ""
    else if c[0] == '\r' then "\n" + NormalizeEol(if |c| > 1 && c[1] == '\n' then c[2..] else c[1..])
    else
      assert '\r' !in c ==> '\r' !in c[1..] by {
        assert forall x :: x in c[1..] ==> x in c;
      }
      [c[0]] + NormalizeEol(c[1..])
  }

  /** Characters missing from a text are missing from every piece `split` makes of it. */
  lemma {:induction false} SplitStrKeepsAbsent(s: string, p: string, d: char)
    requires |p| > 0
    ensures d !in s ==> forall k :: 0 <= k < |SplitStr(s, p)| ==> d !in SplitStr(s, p)[k]
    decreases |s|
  {
    if d in s { return; }
    match Find(s, p)
    case None =>
    case Some(i) =>
      assert forall x :: x in s[..i] ==> x in s;
      assert forall x :: x in s[i + |p|..] ==> x in s;
      SplitStrKeepsAbsent(s[i + |p|..], p, d);
  }

  /** The text cut at every `\n`, with no empty last line after a final `\n`. */
  function LinesOf(t: string): (lines: seq<string>)
    ensures forall k :: 0 <= k < |lines| ==> '\n' !in lines[k]
    ensures '\r' !in t ==> forall k :: 0 <= k < |lines| ==> '\r' !in lines[k]
  {
    SplitCharFree(t, '\n');
    SplitStrKeepsAbsent(t, "\n", '\r');
    if t == "" then []
    else
      var parts := Split(t, '\n');
      if parts[|parts| - 1] == "" then parts[..|parts| - 1] else parts
  }

  /**
    The lines `readline` yields: the text cut at every `\r\n`, lone `\r` and
    `\n`, with no empty last line after a final line end.
   */
  function ReadlineLines(c: string): (lines: seq<string>)
    ensures forall k :: 0 <= k < |lines| ==> '\n' !in lines[k] && '\r' !in lines[k]
  {
    LinesOf(NormalizeEol(c))
  }

  /** Joining the lines of a text with `\n` gives it back, up to a final `\n`. */
  lemma LinesOfJoin(t: string)
    ensures t != "" && t[|t| - 1] == '\n' ==> JoinWith(LinesOf(t), "\n") + "\n" == t
    ensures (t == "" || t[|t| - 1] != '\n') ==> JoinWith(LinesOf(t), "\n") == t
  {
    if t != "" {
      var parts := Split(t, '\n');
      JoinSplitStr(t, "\n");
      if parts[|parts| - 1] == "" {
        if |parts| > 1 {
          JoinWithAppend(parts[..|parts| - 1], [""], "\n");
          assert parts == parts[..|parts| - 1] + [""];
        }
      } else {
        LastPieceEnd(t, parts);
      }
    }
  }

  /**
    Joining the lines with `\n` gives the content back with its line ends
    written as `\n`, up to a final line end; for content without `\r`,
    the content itself.
   */
  lemma ReadlineLinesJoin(c: string)
    ensures var t := NormalizeEol(c);
      t != "" && t[|t| - 1] == '\n' ==> JoinWith(ReadlineLines(c), "\n") + "\n" == t
    ensures var t := NormalizeEol(c);
      (t == "" || t[|t| - 1] != '\n') ==> JoinWith(ReadlineLines(c), "\n") == t
  {
    LinesOfJoin(NormalizeEol(c));
  }

  /** A character other than `\r` is kept as it is. */
  lemma NormalizeKeeps(x: char, rest: string)
    requires x != '\r'
    ensures NormalizeEol([x] + rest) == [x] + NormalizeEol(rest)
  {
    assert ([x] + rest)[1..] == rest;
  }

  /** `\r\n` becomes one `\n`. */
  lemma NormalizeCrLf(rest: string)
    ensures NormalizeEol("\r\n" + rest) == "\n" + NormalizeEol(rest)
  {
    assert ("\r\n" + rest)[2..] == rest;
  }

  /** A `\r` not followed by `\n` becomes a `\n`. */
  lemma NormalizeLoneCr(rest: string)
    requires rest == "" || rest[0] != '\n'
    ensures NormalizeEol("\r" + rest) == "\n" + NormalizeEol(rest)
  {
    assert ("\r" + rest)[1..] == rest;
  }

  /** When the last piece of a split is not empty, the text does not end with the separator. */
  lemma LastPieceEnd(c: string, parts: seq<string>)
    requires parts == Split(c, '\n') && parts[|parts| - 1] != "" && c != ""
    ensures c[|c| - 1] != '\n'
  {
    JoinSplitStr(c, "\n");
    JoinLastPiece(parts, "\n");
    var last := parts[|parts| - 1];
    SplitCharFree(c, '\n');
    assert c[|c| - 1] == last[|last| - 1];
  }

  lemma {:induction false} JoinLastPiece(parts: seq<string>, sep: string)
    requires |parts| >= 1
    ensures IsSuffix(parts[|parts| - 1], JoinWith(parts, sep))
    decreases |parts|
  {
    if |parts| > 1 {
      JoinLastPiece(parts[1..], sep);
    }
  }

  /** The selected lines `startLine..endLine` (1-based, inclusive), stopping at the end of the file. */
  function SelectLines(lines: seq<string>, startLine: int, endLine: int): (r: seq<string>)
    requires 1 <= startLine <= |lines| && startLine <= endLine
    ensures |r| == (if endLine <= |lines| then endLine else |lines|) - startLine + 1
    ensures forall k :: 0 <= k < |r| ==> r[k] == lines[startLine - 1 + k]
  {
    lines[startLine - 1..if endLine <= |lines| then endLine else |lines|]
  }

  /** Two adjacent ranges read back to back give the combined range. */
  lemma SelectAdjacent(lines: seq<string>, s: int, m: int, e: int)
    requires 1 <= s <= m && m < e && m + 1 <= |lines|
    ensures JoinWith(SelectLines(lines, s, m), "\n") + "\n" + JoinWith(SelectLines(lines, m + 1, e), "\n")
      == JoinWith(SelectLines(lines, s, e), "\n")
  {
    var a := SelectLines(lines, s, m);
    var b := SelectLines(lines, m + 1, e);
    assert a + b == SelectLines(lines, s, e);
    JoinWithAppend(a, b, "\n");
  }

  /** The whole range of lines reads back the content, up to a final newline. */
  lemma SelectAll(c: string)
    requires |ReadlineLines(c)| > 0
    ensures JoinWith(SelectLines(ReadlineLines(c), 1, |ReadlineLines(c)|), "\n") == NormalizeEol(c) ||
      JoinWith(SelectLines(ReadlineLines(c), 1, |ReadlineLines(c)|), "\n") + "\n" == NormalizeEol(c)
  {
    ReadlineLinesJoin(c);
    assert SelectLines(ReadlineLines(c), 1, |ReadlineLines(c)|) == ReadlineLines(c);
  }

  function Fixing(message: string): ToolResult {
    ToolResult(message, FixingIssues)
  }

  /** `!startLine && !endLine`: both bounds absent or zero. */
  predicate BothFalsy(startLine: Option<int>, endLine: Option<int>) {
    (startLine.None? || startLine.value == 0) && (endLine.None? || endLine.value == 0)
  }

  /** How the range checks end: the error text, or the two valid bounds. */
  datatype RangeCheck = RangeError(message: string) | Range(startLine: int, endLine: int)

  /** The checks on the bounds once at least one is non-zero, in the source's order. */
  function CheckRange(startLine: Option<int>, endLine: Option<int>): (r: RangeCheck)
    ensures r.Range? <==> startLine.Some? && endLine.Some? && 1 <= startLine.value <= endLine.value
    ensures r.Range? ==> r.startLine == startLine.value && r.endLine == endLine.value
  {
    if startLine.None? || endLine.None? then RangeError("Both startLine and endLine must be provided.")
    else if startLine.value < 1 || endLine.value < 1 then RangeError("startLine and endLine must be greater than 0.")
    else if endLine.value < startLine.value then RangeError("endLine must be greater than or equal to startLine.")
    else Range(startLine.value, endLine.value)
  }

  /** A read that passes the guardrail and the file checks and asks for a range of lines. */
  predicate RangedRead(opts: ReadOptions, fs: FileSystem, patterns: Option<Json>) {
    && Guardrail(patterns, opts.absolutePath) == Allowed
    && ValidateForReading(opts.absolutePath, fs).None?
    && !BothFalsy(opts.startLine, opts.endLine)
  }

  /**
    `readFile(options, root)`. `patterns` is the `blockReadPatterns` value of
    the configuration `loadConfig(root)` returns.
   */
  function Read(opts: ReadOptions, root: string, fs: FileSystem, patterns: Option<Json>): (o: Outcome)
    ensures Guardrail(patterns, opts.absolutePath) == Fails <==> o.Threw?
    ensures Guardrail(patterns, opts.absolutePath) == Blocked ==>
      o == Returned(Fixing(BlockedMessage(Basename(opts.absolutePath))))
    ensures Guardrail(patterns, opts.absolutePath) == Allowed && ValidateForReading(opts.absolutePath, fs).Some? ==>
      o == Returned(Fixing(ValidateForReading(opts.absolutePath, fs).value))
    ensures (Guardrail(patterns, opts.absolutePath) == Allowed && ValidateForReading(opts.absolutePath, fs).None?
      && BothFalsy(opts.startLine, opts.endLine)) ==>
      o == Returned(ToolResult(fs.files[opts.absolutePath], "Reading " + Relative(root, root, opts.absolutePath)))
    ensures RangedRead(opts, fs, patterns) && CheckRange(opts.startLine, opts.endLine).RangeError? ==>
      o == Returned(Fixing(CheckRange(opts.startLine, opts.endLine).message))
    ensures RangedRead(opts, fs, patterns) && CheckRange(opts.startLine, opts.endLine).Range? ==>
      var lines := ReadlineLines(fs.files[opts.absolutePath]);
      var s, e := opts.startLine.value, opts.endLine.value;
      && (|lines| < s ==>
        o == Returned(Fixing("File only has " + IntText(|lines|) + " lines, but startLine is " + IntText(s) + ".")))
      && (s <= |lines| ==>
        o == Returned(ToolResult(JoinWith(SelectLines(lines, s, e), "\n"),
          "Reading lines " + IntText(s) + "-" + IntText(e) + " from " + Relative(root, root, opts.absolutePath))))
    ensures o.Returned? && o.result.displayResult != FixingIssues && !BothFalsy(opts.startLine, opts.endLine) ==>
      var lines := ReadlineLines(fs.files[opts.absolutePath]);
      && opts.startLine.Some? && opts.endLine.Some?
      && 1 <= opts.startLine.value <= opts.endLine.value
      && opts.startLine.value <= |lines|
      && o.result.llmResult == JoinWith(SelectLines(lines, opts.startLine.value, opts.endLine.value), "\n")
  {
    var p := opts.absolutePath;
    match Guardrail(patterns, p)
    case Fails => Threw("pattern.startsWith is not a function")
    case Blocked => Returned(Fixing(BlockedMessage(Basename(p))))
    case Allowed =>
      match ValidateForReading(p, fs)
      case Some(err) => Returned(Fixing(err))
      case None =>
        var content := fs.files[p];
        if BothFalsy(opts.startLine, opts.endLine) then
          Returned(ToolResult(content, "Reading " + Relative(root, root, p)))
        else
          match CheckRange(opts.startLine, opts.endLine)
          case RangeError(msg) => Returned(Fixing(msg))
          case Range(s, e) =>
            var lines := ReadlineLines(content);
            if |lines| < s then
              Returned(Fixing("File only has " + IntText(|lines|) + " lines, but startLine is " + IntText(s) + "."))
            else
              Returned(ToolResult(JoinWith(SelectLines(lines, s, e), "\n"),
                "Reading lines " + IntText(s) + "-" + IntText(e) + " from " + Relative(root, root, p)))
  }

  /** A blocked path is refused before the file system is consulted: the answer does not depend on it. */
  lemma GuardBeforeValidation(opts: ReadOptions, root: string, fs1: FileSystem, fs2: FileSystem, patterns: Option<Json>)
    requires Guardrail(patterns, opts.absolutePath) == Blocked
    ensures Read(opts, root, fs1, patterns) == Read(opts, root, fs2, patterns)
  {
  }
}

=== FILE: recent_files.dfy ===
/**
  `listRecentFiles` of src/core/tools/listRecentFilesTool.ts: the files a
  glob selects, those whose `stat` succeeds, newest first, cut to a limit.
  `globSync`, `statSync` and `JSON.stringify` (with the date formatting)
  are oracles; modification times are whole milliseconds.
 */
module RecentFiles {
  import opened Common
  import opened Text
  import opened Paths
  import ToolUtils
  import ReplaceInFiles
  import opened Ranking

  datatype RecentOptions = RecentOptions(limit: Option<int>, includeGlob: Option<string>, exclude: Option<string>)

  /** A file with its modification time. */
  type Stamped = Keyed<string>

  datatype Oracles = Oracles(
    glob: (string, seq<string>) -> seq<string>,
    stat: string -> Option<int>,
    stringify: seq<Stamped> -> string)

  const DefaultLimit := 20

  /** The files whose `stat` succeeds, with their times, in the order given. */
  function Stamp(paths: seq<string>, stat: string -> Option<int>): (r: seq<Stamped>)
    ensures forall k :: 0 <= k < |r| ==> r[k].item in paths && stat(r[k].item) == Some(r[k].key)
    ensures forall p :: p in paths && stat(p).Some? ==> Keyed(p, stat(p).value) in r
    ensures |r| <= |paths|
  {
    if |paths| == 0 then []
    else
      var rest := Stamp(paths[1..], stat);
      assert forall p :: p in paths[1..] ==> p in paths;
      match stat(paths[0])
      case None => rest
      case Some(t) => [Keyed(paths[0], t)] + rest
  }

  /** A stamped file relative to the root. */
  function RelativeTo(root: string, s: seq<Stamped>): (r: seq<Stamped>)
    ensures |r| == |s|
    ensures forall k :: 0 <= k < |s| ==> r[k] == Keyed(ToolUtils.ToRelative(s[k].item, root), s[k].key)
  {
    if |s| == 0 then [] else [Keyed(ToolUtils.ToRelative(s[0].item, root), s[0].key)] + RelativeTo(root, s[1..])
  }

  function JoinAll(root: string, rels: seq<string>): (r: seq<string>)
    ensures |r| == |rels| && forall k :: 0 <= k < |rels| ==> r[k] == Join(root, [rels[k]])
  {
    if |rels| == 0 then [] else [Join(root, [rels[0]])] + JoinAll(root, rels[1..])
  }

  /** The files found and stamped, newest first, before the limit is applied. */
  function Candidates(o: RecentOptions, root: string, or: Oracles): seq<Stamped> {
    var includeGlob := if o.includeGlob.Some? then o.includeGlob.value else ReplaceInFiles.DefaultInclude;
    var files := JoinAll(root, or.glob(includeGlob, ReplaceInFiles.IgnoreList(o.exclude)));
    SortDescending(Stamp(files, or.stat))
  }

  function Limit(o: RecentOptions): int {
    if o.limit.Some? then o.limit.value else DefaultLimit
  }

  /** How many entries `slice(0, limit)` keeps of `total`: a negative limit drops that many from the end. */
  function Kept(total: nat, limit: int): nat {
    if limit >= 0 then (if total <= limit then total else limit)
    else if total + limit >= 0 then total + limit else 0
  }

  /**
    `listRecentFiles(options, rootPath)`: the result and the list it reports.
    The list holds at most `limit` entries (20 by default), newest first,
    each the corresponding candidate made relative to the root; when no
    more than `limit` files are found, all of them are listed.
   */
  function ListRecentFiles(o: RecentOptions, root: string, or: Oracles): (r: (ToolResult, seq<Stamped>))
    ensures var c := Candidates(o, root, or);
      var listed := r.1;
      && |listed| == Kept(|c|, Limit(o))
      && (Limit(o) >= 0 ==> |listed| <= Limit(o))
      && (0 <= |c| <= Limit(o) ==> |listed| == |c|)
      && Descending(listed)
      && (forall k :: 0 <= k < |listed| ==> listed[k] == Keyed(ToolUtils.ToRelative(c[k].item, root), c[k].key))
      && r.0.displayResult == "Found " + IntText(|listed|) + " recent files"
      && r.0.llmResult == or.stringify(listed)
  {
    var listed := Listed(o, root, or);
    (ToolResult(or.stringify(listed), "Found " + IntText(|listed|) + " recent files"), listed)
  }

  /** The list `listRecentFiles` reports: the first `limit` candidates, relative to the root. */
  function Listed(o: RecentOptions, root: string, or: Oracles): (listed: seq<Stamped>)
    ensures var c := Candidates(o, root, or);
      && |listed| == Kept(|c|, Limit(o))
      && (Limit(o) >= 0 ==> |listed| <= Limit(o))
      && (0 <= |c| <= Limit(o) ==> |listed| == |c|)
      && Descending(listed)
      && (forall k :: 0 <= k < |listed| ==> listed[k] == Keyed(ToolUtils.ToRelative(c[k].item, root), c[k].key))
  {
    var includeGlob := if o.includeGlob.Some? then o.includeGlob.value else ReplaceInFiles.DefaultInclude;
    var files := JoinAll(root, or.glob(includeGlob, ReplaceInFiles.IgnoreList(o.exclude)));
    SortDescendingCorrect(Stamp(files, or.stat));
    RelativeTo(root, JsTake(Candidates(o, root, or), Limit(o)))
  }

  /**
    The candidates are exactly the stamped files, each once per appearance
    in the glob's output, and files with equal times keep the glob's order.
   */
  lemma CandidatesAreStamped(o: RecentOptions, root: string, or: Oracles, files: seq<string>)
    requires files == JoinAll(root, or.glob(if o.includeGlob.Some? then o.includeGlob.value else ReplaceInFiles.DefaultInclude,
                                            ReplaceInFiles.IgnoreList(o.exclude)))
    ensures multiset(Candidates(o, root, or)) == multiset(Stamp(files, or.stat))
    ensures forall s :: s in Candidates(o, root, or) <==> s.item in files && or.stat(s.item) == Some(s.key)
    ensures forall t :: WithKey(Candidates(o, root, or), t) == WithKey(Stamp(files, or.stat), t)
  {
    var st := Stamp(files, or.stat);
    SortDescendingCorrect(st);
    forall s ensures s in Candidates(o, root, or) <==> s.item in files && or.stat(s.item) == Some(s.key) {
      assert s in Candidates(o, root, or) <==> s in multiset(st);
    }
  }
}

=== FILE: registry.dfy ===
/**
  The tool catalogue of src/core/tools/tool-registery.ts as a constant table
  (names, declared option keys and types, minimums, required keys; the
  descriptions are prose for the model and are left out), and how it lines
  up with the schemas of the dispatcher.
 */
module Registry {
  import opened Common
  import opened Text
  import opened Json
  import Validator

  datatype OptType = TString | TNumber | TBoolean | TArray

  datatype OptionDecl = OptionDecl(key: string, ty: OptType, minimum: Option<int>)

  datatype Entry = Entry(name: string, options: seq<OptionDecl>, required: seq<string>)

  function S(key: string): OptionDecl { OptionDecl(key, TString, None) }
  function N(key: string): OptionDecl { OptionDecl(key, TNumber, None) }
  function B(key: string): OptionDecl { OptionDecl(key, TBoolean, None) }
  function A(key: string): OptionDecl { OptionDecl(key, TArray, None) }

  const EditEntry := Entry("edit_file",
    [S("filePath"), S("oldString"), S("newString"), OptionDecl("expected_replacements", TNumber, Some(1))],
    ["filePath", "oldString", "newString"])
  const ReadEntry := Entry("read_file", [S("absolutePath"), N("startLine"), N("endLine")], ["absolutePath"])
  const ShellEntry := Entry("shell_command", [S("command"), S("description"), S("directory")], ["command"])
  const GlobEntry := Entry("glob", [S("pattern")], ["pattern"])
  const GrepEntry := Entry("grep", [S("pattern"), S("path"), S("include")], ["pattern"])
  const NewFileEntry := Entry("new_file", [S("filePath"), S("content")], ["filePath", "content"])

  /** The six entries the dispatcher has a case for. */
  const Dispatched: seq<Entry> := [EditEntry, ReadEntry, ShellEntry, GlobEntry, GrepEntry, NewFileEntry]

  /** The fifteen entries advertised to the model with no dispatcher case. */
  const Undispatched: seq<Entry> := [
    Entry("list_recent_files", [N("limit"), S("include"), S("exclude")], []),
    Entry("project_summary", [], []),
    Entry("open_file_at", [S("absolutePath"), N("startLine"), N("endLine")], ["absolutePath"]),
    Entry("run_tests", [S("command")], []),
    Entry("lint_fix", [S("command")], []),
    Entry("format_file", [S("absolutePath")], ["absolutePath"]),
    Entry("git_status", [], []),
    Entry("git_diff", [S("filePath"), B("staged")], []),
    Entry("git_commit", [S("message"), B("all"), A("files")], ["message"]),
    Entry("find_symbol", [S("pattern"), S("include"), S("path")], ["pattern"]),
    Entry("replace_in_files", [S("pattern"), S("replacement"), S("include"), S("exclude"), B("useRegex"), B("dryRun")],
      ["pattern", "replacement"]),
    Entry("rename_file", [S("fromPath"), S("toPath"), B("overwrite")], ["fromPath", "toPath"]),
    Entry("new_module", [S("moduleName"), S("baseDir"), B("exportFromRootIndex")], ["moduleName"]),
    Entry("add_script", [S("name"), S("command"), B("overwrite")], ["name", "command"]),
    Entry("generate_readme_section", [S("title"), A("bullets"), S("content")], ["title"])
  ]

  /** The catalogue in source order. */
  const Table: seq<Entry> := Dispatched + Undispatched

  function Keys(options: seq<OptionDecl>): (r: seq<string>)
    ensures |r| == |options| && forall k :: 0 <= k < |r| ==> r[k] == options[k].key
  {
    if |options| == 0 then [] else [options[0].key] + Keys(options[1..])
  }

  /** Every required key is a declared option. */
  predicate RequiredDeclared(e: Entry) {
    forall r :: r in e.required ==> r in Keys(e.options)
  }

  /** The table has 21 entries, with pairwise distinct names, each requiring only declared keys. */
  lemma TableWellFormed()
    ensures |Table| == 21
    ensures forall i, j :: 0 <= i < j < |Table| ==> Table[i].name != Table[j].name
    ensures forall k :: 0 <= k < |Table| ==> RequiredDeclared(Table[k])
    ensures forall k :: 0 <= k < |Table| && Table[k].options == [] ==> Table[k].required == []
  {
    DispatchedWellFormed();
    UndispatchedWellFormed();
    UndispatchedNamesApart();
    forall k | 0 <= k < |Table|
      ensures Table[k] == if k < 6 then Dispatched[k] else Undispatched[k - 6]
    {
    }
    forall i, j | 0 <= i < j < |Table|
      ensures Table[i].name != Table[j].name
    {
      if i < 6 && j >= 6 {
        DispatchedNamed(i);
        EntryUndispatched(j);
      }
    }
  }

  /** The entry at `k` of the table is the `k`-th dispatched entry, or one of the rest. */
  lemma TableAt(k: nat)
    requires k < |Table|
    ensures k < 6 ==> Table[k] == Dispatched[k]
    ensures k >= 6 ==> Table[k] == Undispatched[k - 6]
  {
  }

  lemma DispatchedNamed(k: nat)
    requires k < 6
    ensures Table[k].name == Validator.ToolNames[if k == 0 then 1 else if k == 1 then 0 else k]
  {
  }

  lemma DispatchedWellFormed()
    ensures forall i, j :: 0 <= i < j < |Dispatched| ==> Dispatched[i].name != Dispatched[j].name
    ensures forall k :: 0 <= k < |Dispatched| ==> RequiredDeclared(Dispatched[k]) && Dispatched[k].options != []
  {
  }

  lemma UndispatchedWellFormed()
    ensures forall k :: 0 <= k < |Undispatched| ==> RequiredDeclared(Undispatched[k])
    ensures forall k :: 0 <= k < |Undispatched| && Undispatched[k].options == [] ==> Undispatched[k].required == []
  {
  }

  lemma UndispatchedNamesApart()
    ensures forall i, j :: 0 <= i < j < |Undispatched| ==> Undispatched[i].name != Undispatched[j].name
  {
  }

  /** The entry of a given name. */
  function Lookup(name: string): (r: Option<Entry>)
    ensures r.Some? ==> r.value in Table && r.value.name == name
    ensures r.None? ==> forall k :: 0 <= k < |Table| ==> Table[k].name != name
  {
    LookupIn(Table, name)
  }

  function LookupIn(t: seq<Entry>, name: string): (r: Option<Entry>)
    ensures r.Some? ==> r.value in t && r.value.name == name
    ensures r.None? ==> forall k :: 0 <= k < |t| ==> t[k].name != name
  {
    if |t| == 0 then None else if t[0].name == name then Some(t[0]) else LookupIn(t[1..], name)
  }

  /** `edit_file.expected_replacements` declares a minimum of 1. */
  lemma EditMinimum()
    ensures Lookup("edit_file").Some?
    ensures OptionDecl("expected_replacements", TNumber, Some(1)) in Lookup("edit_file").value.options
  {
  }

  /** The keys a schema demands, in order. */
  function SchemaRequired(schema: seq<Validator.FieldSpec>): seq<string> {
    if |schema| == 0 then []
    else (if schema[0].optional then [] else [schema[0].key]) + SchemaRequired(schema[1..])
  }

  function SchemaKeys(schema: seq<Validator.FieldSpec>): (r: seq<string>)
    ensures |r| == |schema|
  {
    if |schema| == 0 then [] else [schema[0].key] + SchemaKeys(schema[1..])
  }

  /** The entry at `k`, among the first six, agrees with the dispatcher's schema for its name. */
  predicate MatchesSchema(e: Entry) {
    && e.name in Validator.ToolNames
    && Keys(e.options) == SchemaKeys(Validator.Schema(e.name))
    && e.required == SchemaRequired(Validator.Schema(e.name))
  }

  /**
    The first six entries are the six tools the dispatcher knows, and each
    declares exactly its schema's keys and requires exactly the schema's
    non-optional fields; the other fifteen, `git_commit` among them, have no
    dispatcher case.
   */
  lemma RegistryMatchesSchemas()
    ensures forall k :: 0 <= k < 6 ==> MatchesSchema(Table[k])
    ensures forall k :: 6 <= k < |Table| ==> Table[k].name !in Validator.ToolNames
    ensures Table[14].name == "git_commit"
  {
    DispatchedMatch();
    forall k | 0 <= k < 6 ensures MatchesSchema(Table[k]) {
      TableAt(k);
    }
    forall k | 6 <= k < |Table| ensures Table[k].name !in Validator.ToolNames {
      EntryUndispatched(k);
    }
    TableAt(14);
  }

  lemma EntryUndispatched(k: nat)
    requires 6 <= k < |Table|
    ensures Table[k].name !in Validator.ToolNames
  {
    TableAt(k);
    UndispatchedUnknown();
  }

  lemma UndispatchedUnknown()
    ensures forall k :: 0 <= k < |Undispatched| ==> Undispatched[k].name !in Validator.ToolNames
  {
  }

  lemma DispatchedMatch()
    ensures forall k :: 0 <= k < |Dispatched| ==> MatchesSchema(Dispatched[k])
  {
    forall k | 0 <= k < |Dispatched|
      ensures MatchesSchema(Dispatched[k])
    {
      if k == 0 { EditMatches(); }
      else if k == 1 { ReadMatches(); }
      else if k == 2 { ShellMatches(); }
      else if k == 3 { GlobMatches(); }
      else if k == 4 { GrepMatches(); }
      else { NewFileMatches(); }
    }
  }

  lemma EditMatches() ensures MatchesSchema(EditEntry) { assert SchemaKeys([]) == [] && SchemaRequired([]) == []; }
  lemma ReadMatches() ensures MatchesSchema(ReadEntry) { assert SchemaKeys([]) == [] && SchemaRequired([]) == []; }
  lemma ShellMatches() ensures MatchesSchema(ShellEntry) { assert SchemaKeys([]) == [] && SchemaRequired([]) == []; }
  lemma GlobMatches() ensures MatchesSchema(GlobEntry) { assert SchemaKeys([]) == [] && SchemaRequired([]) == []; }
  lemma GrepMatches() ensures MatchesSchema(GrepEntry) { assert SchemaKeys([]) == [] && SchemaRequired([]) == []; }
  lemma NewFileMatches() ensures MatchesSchema(NewFileEntry) { assert SchemaKeys([]) == [] && SchemaRequired([]) == []; }

  /** A call to an advertised but undispatched tool is answered with the unknown-tool error. */
  lemma UndispatchedIsUnknown(k: nat, rest: map<string, Json>, h: Validator.Handlers, zodMessage: Json -> string)
    requires 6 <= k < |Table|
    ensures Validator.Run(JObj(rest["tool" := JStr(Table[k].name)]), h, zodMessage) ==
      Validator.Failure("Unknown tool: " + Table[k].name + ". Supported tools: read_file, edit_file, shell_command, glob, grep, new_file")
  {
    RegistryMatchesSchemas();
    Validator.UnknownTool(Table[k].name, rest, h, zodMessage);
  }
}

=== FILE: replace_in_files.dfy ===
/**
  `replaceInFiles` of src/core/tools/replaceInFilesTool.ts: a literal (or
  regular-expression) search and replace over the files a glob selects,
  reporting per-file counts and writing the files only when the call is not
  a dry run. `globSync`, the regular-expression engine (whether a pattern
  compiles, and the replacement it makes) and `JSON.stringify` are oracles.
 */
module ReplaceInFiles {
  import opened Common
  import opened Text
  import opened Paths
  import Edit

  datatype ReplaceOptions = ReplaceOptions(
    pattern: string,
    replacement: string,
    includeGlob: Option<string>,
    exclude: Option<string>,
    useRegex: Option<bool>,
    dryRun: Option<bool>)

  /** One listed file: its path relative to the root and its number of replacements. */
  datatype FileCount = FileCount(file: string, replacements: nat)

  /** The object the tool reports, before `JSON.stringify`. */
  datatype Summary = Summary(dryRun: bool, filesChanged: nat, totalReplacements: nat, files: seq<FileCount>)

  /**
    The oracles: `globSync(include, {ignore})` giving root-relative paths,
    whether `new RegExp(p, 'g')` accepts a pattern rather than throwing a
    `SyntaxError`, and `content.replace(regex, r)` with its count.
   */
  datatype Oracles = Oracles(
    glob: (string, seq<string>) -> seq<string>,
    compiles: string -> bool,
    regexReplace: (string, string, string) -> (string, nat),
    stringify: Summary -> string)

  const PatternRequired := ToolResult("pattern is required.", "Fixing Issues")

  const BaseIgnore: seq<string> := ["**/node_modules/**", "**/.git/**", "**/dist/**", "**/build/**"]

  const DefaultInclude := "**/*"

  const ListLimit := 50

  /** The ignore globs: the four build and VCS directories, then `exclude` when it is a non-empty string. */
  function IgnoreList(exclude: Option<string>): (r: seq<string>)
    ensures |r| == if exclude.Some? && exclude.value != "" then 5 else 4
    ensures r[..4] == BaseIgnore
    ensures |r| == 5 ==> r[4] == exclude.value
  {
    if exclude.Some? && exclude.value != "" then BaseIgnore + [exclude.value] else BaseIgnore
  }

  /** `options.dryRun !== false`. */
  predicate IsDryRun(dryRun: Option<bool>) {
    dryRun != Some(false)
  }

  /** Whether `new RegExp(options.pattern, 'g')`, built only in regular-expression mode, would throw. */
  predicate BadRegex(opts: ReplaceOptions, o: Oracles) {
    opts.useRegex == Some(true) && !o.compiles(opts.pattern)
  }

  /** One file's new content and count: split and join for a literal pattern. */
  function Rewrite(content: string, opts: ReplaceOptions, o: Oracles): (r: (string, nat))
    requires opts.pattern != ""
  {
    if opts.useRegex == Some(true) then
      o.regexReplace(opts.pattern, opts.replacement, content)
    else
      var parts := SplitStr(content, opts.pattern);
      if |parts| > 1 then (JoinWith(parts, opts.replacement), |parts| - 1) else (content, 0)
  }

  /**
    In literal mode the count is the number of non-overlapping occurrences
    and the new content is the edit tool's leftmost replacement of all of
    them.
   */
  lemma LiteralRewrite(content: string, opts: ReplaceOptions, o: Oracles)
    requires opts.pattern != "" && opts.useRegex != Some(true)
    ensures var n := CountOcc(content, opts.pattern);
      Rewrite(content, opts, o) == (Edit.ReplaceN(content, opts.pattern, opts.replacement, n), n)
  {
    var n := CountOcc(content, opts.pattern);
    Edit.ReplaceAllIsSplitJoin(content, opts.pattern, opts.replacement, n);
    if n == 0 {
      assert SplitStr(content, opts.pattern) == [content];
    }
  }

  /** What ends the scan by throwing: a write to a path, or the construction of the regular expression. */
  datatype Thrown = WriteError(path: string) | RegexError

  /** The scan so far: listed files, the running total, the file system, and what threw. */
  datatype ScanState = ScanState(results: seq<FileCount>, total: nat, fs: FileSystem, failed: Option<Thrown>)

  function SumCounts(rs: seq<FileCount>): nat {
    if |rs| == 0 then 0 else SumCounts(rs[..|rs| - 1]) + rs[|rs| - 1].replacements
  }

  lemma SumCountsAppend(rs: seq<FileCount>, x: FileCount)
    ensures SumCounts(rs + [x]) == SumCounts(rs) + x.replacements
  {
    assert (rs + [x])[..|rs|] == rs;
  }

  /** The scan either keeps its results or lists one more file with a positive count added to the total. */
  ghost predicate Grows(st: ScanState, st': ScanState) {
    || (st'.results == st.results && st'.total == st.total)
    || (&& |st'.results| == |st.results| + 1 && st'.results[..|st.results|] == st.results
        && st'.results[|st.results|].replacements > 0
        && st'.total == st.total + st'.results[|st.results|].replacements)
  }

  /** The file system changes at `path` at most, and only its file map. */
  ghost predicate TouchesOnly(fs: FileSystem, fs': FileSystem, path: string) {
    && fs'.dirs == fs.dirs && fs'.noRead == fs.noRead && fs'.noWrite == fs.noWrite
    && (forall q :: q != path ==> (q in fs'.files <==> q in fs.files))
    && (forall q :: q != path && q in fs.files ==> fs'.files[q] == fs.files[q])
  }

  /** The file system changes only at `paths`, and only its file map. */
  ghost predicate KeepsOutside(fs: FileSystem, fs': FileSystem, paths: seq<string>) {
    && fs'.dirs == fs.dirs && fs'.noRead == fs.noRead && fs'.noWrite == fs.noWrite
    && (forall q :: q !in paths ==> (q in fs'.files <==> q in fs.files))
    && (forall q :: q !in paths && q in fs.files ==> fs'.files[q] == fs.files[q])
  }

  lemma KeepsOutsideStep(fs: FileSystem, mid: FileSystem, fs': FileSystem, init: seq<string>, last: string)
    requires KeepsOutside(fs, mid, init) && TouchesOnly(mid, fs', last)
    ensures KeepsOutside(fs, fs', init + [last])
  {
    forall q | q !in init + [last]
      ensures q in fs'.files <==> q in fs.files
      ensures q in fs.files ==> fs'.files[q] == fs.files[q]
    {
      assert q !in init && q != last;
    }
  }

  /** One iteration of the `for … of` loop over the selected files. */
  function Step(st: ScanState, path: string, root: string, opts: ReplaceOptions, o: Oracles): (st': ScanState)
    requires opts.pattern != ""
    ensures st.failed.Some? ==> st' == st
    ensures Grows(st, st')
    ensures TouchesOnly(st.fs, st'.fs, path)
    ensures IsDryRun(opts.dryRun) ==> st'.fs == st.fs
    ensures IsDryRun(opts.dryRun) && !BadRegex(opts, o) ==> st'.failed == st.failed
    ensures st'.failed != st.failed ==>
      || (st'.failed == Some(WriteError(path)) && path in st.fs.noWrite)
      || (st'.failed == Some(RegexError) && BadRegex(opts, o) && st.fs.CanRead(path) && st' == st.(failed := Some(RegexError)))
  {
    if st.failed.Some? || !st.fs.CanRead(path) then st
    else if BadRegex(opts, o) then st.(failed := Some(RegexError))
    else
      var (replaced, count) := Rewrite(st.fs.files[path], opts, o);
      if count == 0 then st
      else
        var results := st.results + [FileCount(Relative(root, root, path), count)];
        if IsDryRun(opts.dryRun) then ScanState(results, st.total + count, st.fs, None)
        else if path in st.fs.noWrite then ScanState(results, st.total + count, st.fs, Some(WriteError(path)))
        else ScanState(results, st.total + count, st.fs.Write(path, replaced), None)
  }

  /**
    What the loop keeps: the total is the sum of the listed counts, each
    positive and at most one per file; a dry run changes nothing; the file
    system changes only at the visited files; a failed write names one of
    them; a regular expression that does not compile is the only other way
    to throw, and it throws before anything is listed.
   */
  ghost predicate ScanInv(fs: FileSystem, paths: seq<string>, opts: ReplaceOptions, o: Oracles, st: ScanState) {
    && st.total == SumCounts(st.results)
    && |st.results| <= |paths|
    && (forall k :: 0 <= k < |st.results| ==> st.results[k].replacements > 0)
    && (IsDryRun(opts.dryRun) ==> st.fs == fs)
    && (IsDryRun(opts.dryRun) && !BadRegex(opts, o) ==> st.failed.None?)
    && KeepsOutside(fs, st.fs, paths)
    && (st.failed.Some? && st.failed.value.WriteError? ==> st.failed.value.path in paths && st.failed.value.path in fs.noWrite)
    && (st.failed == Some(RegexError) ==> BadRegex(opts, o))
    && (BadRegex(opts, o) ==> st.results == [] && st.fs == fs)
  }

  /** One more iteration keeps the loop's invariant. */
  lemma ScanStep(fs: FileSystem, init: seq<string>, last: string, root: string, opts: ReplaceOptions, o: Oracles, st: ScanState)
    requires opts.pattern != ""
    requires ScanInv(fs, init, opts, o, st)
    ensures ScanInv(fs, init + [last], opts, o, Step(st, last, root, opts, o))
  {
    var st' := Step(st, last, root, opts, o);
    if st'.failed != st.failed && st'.failed == Some(RegexError) {
      assert st' == st.(failed := Some(RegexError));
    } else if st'.results != st.results {
      SumCountsAppend(st.results, st'.results[|st.results|]);
      assert st'.results == st.results + [st'.results[|st.results|]];
    }
    KeepsOutsideStep(fs, st.fs, st'.fs, init, last);
  }

  /** The loop over `paths`, in order. */
  function Scan(paths: seq<string>, root: string, opts: ReplaceOptions, o: Oracles, fs: FileSystem): (st: ScanState)
    requires opts.pattern != ""
    ensures ScanInv(fs, paths, opts, o, st)
    decreases |paths|
  {
    if |paths| == 0 then ScanState([], 0, fs, None)
    else
      var init := paths[..|paths| - 1];
      var last := paths[|paths| - 1];
      var st := Scan(init, root, opts, o, fs);
      ScanStep(fs, init, last, root, opts, o, st);
      assert paths == init + [last];
      Step(st, last, root, opts, o)
  }

  /** What the tool reports, in which the display text counts replacements and files. */
  function Display(dryRun: bool, total: nat, files: nat): string {
    if dryRun then "Dry run complete: " + IntText(total) + " replacements in " + IntText(files) + " files"
    else "Replaced " + IntText(total) + " occurrences in " + IntText(files) + " files"
  }

  /** The paths the glob selects, joined onto the root. */
  function Selected(rels: seq<string>, root: string): (r: seq<string>)
    ensures |r| == |rels| && forall k :: 0 <= k < |r| ==> r[k] == Join(root, [rels[k]])
  {
    if |rels| == 0 then [] else [Join(root, [rels[0]])] + Selected(rels[1..], root)
  }

  /** How a call ends: the tool result, or an exception thrown by a write or by `new RegExp`. */
  datatype Replaced = Reported(result: ToolResult, summary: Option<Summary>) | WriteThrew(path: string) | RegexThrew

  /** `replaceInFiles(options, rootPath)`, with the file system after it. */
  function ReplaceInFiles(opts: ReplaceOptions, root: string, o: Oracles, fs: FileSystem): (r: (Replaced, FileSystem))
    ensures opts.pattern == "" ==> r == (Reported(PatternRequired, None), fs)
    ensures IsDryRun(opts.dryRun) ==> r.1 == fs
    ensures BadRegex(opts, o) ==> r.1 == fs
    ensures r.0.RegexThrew? ==> BadRegex(opts, o)
    ensures r.0.Reported? && r.0.summary.Some? ==> var s := r.0.summary.value;
      && s.dryRun == IsDryRun(opts.dryRun)
      && |s.files| <= ListLimit && |s.files| <= s.filesChanged
      && (s.filesChanged <= ListLimit ==> |s.files| == s.filesChanged)
      && (forall k :: 0 <= k < |s.files| ==> s.files[k].replacements > 0)
  {
    if opts.pattern == "" then (Reported(PatternRequired, None), fs)
    else
      var includeGlob := if opts.includeGlob.Some? then opts.includeGlob.value else DefaultInclude;
      var paths := Selected(o.glob(includeGlob, IgnoreList(opts.exclude)), root);
      var dryRun := IsDryRun(opts.dryRun);
      var st := Scan(paths, root, opts, o, fs);
      match st.failed
      case Some(RegexError) => (RegexThrew, st.fs)
      case Some(WriteError(p)) => (WriteThrew(p), st.fs)
      case None =>
        var s := Summary(dryRun, |st.results|, st.total, JsTake(st.results, ListLimit));
        (Reported(ToolResult(o.stringify(s), Display(dryRun, st.total, |st.results|)), Some(s)), st.fs)
  }

  /**
    The summary counts every listed file, lists at most 50 of them in scan
    order, and its total is the sum of the per-file counts.
   */
  lemma SummaryCounts(opts: ReplaceOptions, root: string, o: Oracles, fs: FileSystem)
    requires opts.pattern != ""
    ensures var includeGlob := if opts.includeGlob.Some? then opts.includeGlob.value else DefaultInclude;
      var st := Scan(Selected(o.glob(includeGlob, IgnoreList(opts.exclude)), root), root, opts, o, fs);
      var r := ReplaceInFiles(opts, root, o, fs);
      st.failed.None? ==>
        && r.0.Reported? && r.0.summary.Some?
        && r.0.summary.value.filesChanged == |st.results|
        && r.0.summary.value.totalReplacements == SumCounts(st.results)
        && IsPrefixSeq(r.0.summary.value.files, st.results)
  {
  }

  predicate IsPrefixSeq<T(==)>(a: seq<T>, b: seq<T>) {
    |a| <= |b| && b[..|a|] == a
  }

  /**
    One readable file: with a pattern that compiles, it is listed exactly
    when it has a replacement, and it is rewritten with the new content
    exactly when, in addition, the call is not a dry run; with a regular
    expression that does not compile the scan throws there.
   */
  lemma StepOnFile(st: ScanState, path: string, root: string, opts: ReplaceOptions, o: Oracles)
    requires opts.pattern != "" && st.failed.None? && st.fs.CanRead(path) && path !in st.fs.noWrite
    ensures var (replaced, count) := Rewrite(st.fs.files[path], opts, o);
      var st' := Step(st, path, root, opts, o);
      && (BadRegex(opts, o) ==> st' == st.(failed := Some(RegexError)))
      && (!BadRegex(opts, o) && count == 0 ==> st' == st)
      && (!BadRegex(opts, o) && count > 0 ==> st'.results == st.results + [FileCount(Relative(root, root, path), count)])
      && (!BadRegex(opts, o) && count > 0 && !IsDryRun(opts.dryRun) ==> st'.fs.files == st.fs.files[path := replaced])
      && (IsDryRun(opts.dryRun) ==> st'.fs == st.fs)
  {
  }

  /**
    With a pattern `new RegExp` rejects, the scan throws at the first file
    it can read, before listing or writing anything, and runs to the end
    unchanged when it can read none.
   */
  lemma {:induction false} ScanBadRegex(paths: seq<string>, root: string, opts: ReplaceOptions, o: Oracles, fs: FileSystem)
    requires opts.pattern != "" && BadRegex(opts, o)
    ensures Scan(paths, root, opts, o, fs) ==
      if SomeReadable(fs, paths) then ScanState([], 0, fs, Some(RegexError)) else ScanState([], 0, fs, None)
    decreases |paths|
  {
    if |paths| > 0 {
      var init := paths[..|paths| - 1];
      var last := paths[|paths| - 1];
      ScanBadRegex(init, root, opts, o, fs);
      SomeReadableSnoc(fs, init, last);
      assert paths == init + [last];
    }
  }

  ghost predicate SomeReadable(fs: FileSystem, paths: seq<string>) {
    exists k :: 0 <= k < |paths| && fs.CanRead(paths[k])
  }

  lemma SomeReadableSnoc(fs: FileSystem, init: seq<string>, last: string)
    ensures SomeReadable(fs, init + [last]) <==> SomeReadable(fs, init) || fs.CanRead(last)
  {
    var paths := init + [last];
    if SomeReadable(fs, init) {
      var k :| 0 <= k < |init| && fs.CanRead(init[k]);
      assert paths[k] == init[k];
    }
    if fs.CanRead(last) {
      assert paths[|init|] == last;
    }
    if SomeReadable(fs, paths) {
      var k :| 0 <= k < |paths| && fs.CanRead(paths[k]);
      if k < |init| {
        assert init[k] == paths[k];
      }
    }
  }

  /**
    In regular-expression mode, a pattern that does not compile throws
    out of the call as soon as one selected file is readable; nothing is
    written either way.
   */
  lemma BadRegexThrows(opts: ReplaceOptions, root: string, o: Oracles, fs: FileSystem)
    requires opts.pattern != "" && BadRegex(opts, o)
    ensures var includeGlob := if opts.includeGlob.Some? then opts.includeGlob.value else DefaultInclude;
      var paths := Selected(o.glob(includeGlob, IgnoreList(opts.exclude)), root);
      var r := ReplaceInFiles(opts, root, o, fs);
      && r.1 == fs
      && (r.0.RegexThrew? <==> exists k :: 0 <= k < |paths| && fs.CanRead(paths[k]))
  {
    var includeGlob := if opts.includeGlob.Some? then opts.includeGlob.value else DefaultInclude;
    var paths := Selected(o.glob(includeGlob, IgnoreList(opts.exclude)), root);
    ScanBadRegex(paths, root, opts, o, fs);
  }
}

=== FILE: scaffold.dfy ===
/**
  The tools that create or move files: `newModule`
  (src/core/tools/newModuleTool.ts), `generateReadmeSection`
  (src/core/tools/generateReadmeSectionTool.ts) and `renameFile`
  (src/core/tools/renameFileTool.ts). Each returns how it ended and the
  file system it leaves.
 */
module Scaffold {
  import opened Common
  import opened Text
  import opened Paths
  import opened FileOps
  import ToolUtils

  const FixingIssues := "Fixing Issues"

  /** `s.includes(t)` holds of anything that contains a part containing `t`. */
  lemma ContainsWithin(a: string, h: string, b: string, t: string)
    requires Contains(h, t)
    ensures Contains(a + h + b, t)
  {
    var i :| 0 <= i <= |h| && OccursAt(h, t, i);
    assert (a + h + b)[|a| + i..|a| + i + |t|] == h[i..i + |t|];
    assert OccursAt(a + h + b, t, |a| + i);
  }

  /** A string contains its own trimmed form. */
  lemma ContainsTrim(s: string)
    ensures Contains(s, Trim(s))
  {
    var u := TrimStart(s);
    var t := TrimEnd(u);
    var i := |s| - |u|;
    assert s[i..] == u;
    assert u[..|t|] == t;
    assert s[i..i + |t|] == t;
    assert OccursAt(s, t, i);
  }

  // ----- newModule -----

  /** `baseDir` absent is `None`; an empty string is kept, since `??` only replaces a missing value. */
  datatype ModuleOptions = ModuleOptions(moduleName: string, baseDir: Option<string>, exportFromRootIndex: bool)

  function BaseDir(o: ModuleOptions): string {
    if o.baseDir.Some? then o.baseDir.value else "src"
  }

  /** `moduleDir`, as reported: `path.join` keeps the trailing `/` of a module name like `utils/`. */
  function ModuleDir(o: ModuleOptions, root: string): string {
    Join(root, [BaseDir(o), o.moduleName])
  }

  function ModuleFile(o: ModuleOptions, root: string): string {
    Join(ModuleDir(o, root), [o.moduleName + ".ts"])
  }

  function IndexFile(o: ModuleOptions, root: string): string {
    Join(ModuleDir(o, root), ["index.ts"])
  }

  function RootIndex(o: ModuleOptions, root: string): string {
    Join(root, [BaseDir(o), "index.ts"])
  }

  function ExportLine(name: string): string {
    "export * from './" + name + "';\n"
  }

  /** `toPascalCase(name) || 'NewModule'`: a non-empty identifier. */
  function ExportName(name: string): (r: string)
    ensures r != "" && forall k :: 0 <= k < |r| ==> IsAlnum(r[k])
    ensures ToolUtils.PascalCase(name) != "" ==> r == ToolUtils.PascalCase(name)
  {
    var p := ToolUtils.PascalCase(name);
    if p != "" then p else "NewModule"
  }

  function Template(exportName: string): string {
    "export const " + exportName + " = () => {\n  // TODO: implement\n};\n"
  }

  const ModuleNameRequired := ToolResult("moduleName is required.", FixingIssues)

  function ModuleCreated(dir: string): ToolResult {
    ToolResult("Created " + dir, "Module created")
  }

  /** `if (!fs.existsSync(p)) fs.writeFileSync(p, content)`; `None` when the write throws. */
  function WriteIfAbsent(fs: FileSystem, path: string, content: string): (r: Option<FileSystem>)
    ensures fs.Exists(path) ==> r == Some(fs)
    ensures r.Some? ==> r.value.Exists(path) && r.value.dirs == fs.dirs && r.value.noRead == fs.noRead && r.value.noWrite == fs.noWrite
    ensures r.Some? ==> fs.files.Keys <= r.value.files.Keys
    ensures r.Some? ==> forall q :: q in fs.files ==> r.value.files[q] == fs.files[q]
    ensures r.Some? && !fs.Exists(path) ==> r.value.files == fs.files[path := content]
  {
    if fs.Exists(path) then Some(fs) else WriteText(fs, path, content)
  }

  /**
    The `exportFromRootIndex` step: read the root index and append the
    export line unless it is already included, or create the index holding
    just that line. `None` when an `fs` call throws.
   */
  function EnsureExportLine(fs: FileSystem, index: string, line: string): (r: Option<FileSystem>)
    ensures r.Some? ==> index in r.value.files && Contains(r.value.files[index], line)
    ensures r.Some? && index in fs.files ==> IsPrefix(fs.files[index], r.value.files[index])
    ensures !fs.Exists(index) && r.Some? ==> r.value.files[index] == line
    ensures r.Some? ==> r.value.dirs == fs.dirs && r.value.noRead == fs.noRead && r.value.noWrite == fs.noWrite
    ensures r.Some? ==> r.value.files.Keys == fs.files.Keys + {index}
    ensures r.Some? ==> forall q :: q in fs.files && q != index ==> r.value.files[q] == fs.files[q]
  {
    if fs.Exists(index) then
      match ReadText(fs, index)
      case None => None
      case Some(content) =>
        if Contains(content, line) then Some(fs)
        else
          assert OccursAt(line, line, 0);
          ContainsWithin(content, line, "", line);
          assert content + line + "" == content + line;
          AppendText(fs, index, line)
    else
      assert OccursAt(line, line, 0);
      WriteText(fs, index, line)
  }

  /**
    The four paths `newModule` touches, and the module directory as the
    result reports it; `mkdirSync` creates `dir`, the reported path without
    any trailing `/`.
   */
  datatype ModulePaths = ModulePaths(dir: string, moduleFile: string, indexFile: string, rootIndex: string, shown: string)

  function PathsOf(o: ModuleOptions, root: string): ModulePaths {
    ModulePaths(Resolve("/", ModuleDir(o, root)), ModuleFile(o, root), IndexFile(o, root), RootIndex(o, root), ModuleDir(o, root))
  }

  /** The `fs` calls of `newModule` once the name is known to be non-blank. */
  function Create(name: string, exportFromRootIndex: bool, ps: ModulePaths, fs: FileSystem): (r: Effect)
    ensures r.end.Done? ==>
      && r.end.result == ModuleCreated(ps.shown)
      && ps.dir in r.fs.dirs && ps.dir !in r.fs.files
      && r.fs.Exists(ps.moduleFile) && r.fs.Exists(ps.indexFile)
      && (exportFromRootIndex ==> ps.rootIndex in r.fs.files && Contains(r.fs.files[ps.rootIndex], ExportLine(name)))
    ensures r.fs.noRead == fs.noRead && r.fs.noWrite == fs.noWrite
  {
    match MakeDir(fs, ps.dir)
    case None => Effect(Raised(ps.dir), fs)
    case Some(fs1) =>
      match WriteIfAbsent(fs1, ps.moduleFile, Template(ExportName(name)))
      case None => Effect(Raised(ps.moduleFile), fs1)
      case Some(fs2) =>
        match WriteIfAbsent(fs2, ps.indexFile, ExportLine(name))
        case None => Effect(Raised(ps.indexFile), fs2)
        case Some(fs3) =>
          if !exportFromRootIndex then Effect(Done(ModuleCreated(ps.shown)), fs3)
          else
            match EnsureExportLine(fs3, ps.rootIndex, ExportLine(name))
            case None => Effect(Raised(ps.rootIndex), fs3)
            case Some(fs4) => Effect(Done(ModuleCreated(ps.shown)), fs4)
  }

  /** `newModule(options, rootPath)`. */
  function NewModule(o: ModuleOptions, root: string, fs: FileSystem): (r: Effect)
    ensures IsBlank(o.moduleName) <==> r == Effect(Done(ModuleNameRequired), fs)
    ensures !IsBlank(o.moduleName) && r.end.Done? ==> r.end.result == ModuleCreated(ModuleDir(o, root))
  {
    if IsBlank(o.moduleName) then Effect(Done(ModuleNameRequired), fs)
    else
      var r := Create(o.moduleName, o.exportFromRootIndex, PathsOf(o, root), fs);
      assert r != Effect(Done(ModuleNameRequired), fs) by {
        if r.end.Done? {
          assert r.end.result.displayResult[0] == 'M' && ModuleNameRequired.displayResult[0] == 'F';
        }
      }
      r
  }

  /**
    A module name ending in `/` is reported with that `/` after the
    normalized module directory, unless the directory normalizes to the
    file system root; any other non-empty name is reported normalized.
   */
  lemma NewModuleShownPath(o: ModuleOptions, root: string, fs: FileSystem)
    requires !IsBlank(o.moduleName)
    requires NewModule(o, root, fs).end.Done?
    ensures var n := Resolve("/", root + Concat(Prefixed([BaseDir(o), o.moduleName])));
      && (EndsWithSep(o.moduleName) ==>
            NewModule(o, root, fs).end.result == ModuleCreated(if n == "/" then n else n + [Sep]))
      && (!EndsWithSep(o.moduleName) ==> NewModule(o, root, fs).end.result == ModuleCreated(n))
  {
    JoinLastPart(root, [BaseDir(o), o.moduleName]);
  }

  /**
    Files that existed keep their content, except the root index, which can
    only grow by an appended line.
   */
  lemma CreateKeepsFiles(name: string, exportFromRootIndex: bool, ps: ModulePaths, fs: FileSystem, p: string)
    requires p in fs.files
    ensures var r := Create(name, exportFromRootIndex, ps, fs);
      && p in r.fs.files
      && (p != ps.rootIndex || !exportFromRootIndex ==> r.fs.files[p] == fs.files[p])
      && IsPrefix(fs.files[p], r.fs.files[p])
  {
    assert IsPrefix(fs.files[p], fs.files[p]);
  }

  lemma NewModuleKeepsFiles(o: ModuleOptions, root: string, fs: FileSystem, p: string)
    requires p in fs.files
    ensures var r := NewModule(o, root, fs);
      && p in r.fs.files
      && (p != RootIndex(o, root) || !o.exportFromRootIndex ==> r.fs.files[p] == fs.files[p])
      && IsPrefix(fs.files[p], r.fs.files[p])
  {
    assert IsPrefix(fs.files[p], fs.files[p]);
    if !IsBlank(o.moduleName) {
      CreateKeepsFiles(o.moduleName, o.exportFromRootIndex, PathsOf(o, root), fs, p);
    }
  }

  /** A module created from scratch gets the template, and the index its export line. */
  lemma CreateContents(name: string, ps: ModulePaths, fs: FileSystem)
    requires !fs.Exists(ps.moduleFile) && !fs.Exists(ps.indexFile)
    requires ps.moduleFile != ps.indexFile && ps.dir != ps.moduleFile && ps.dir != ps.indexFile
    requires Create(name, false, ps, fs).end.Done?
    ensures var r := Create(name, false, ps, fs);
      && ps.moduleFile in r.fs.files && r.fs.files[ps.moduleFile] == Template(ExportName(name))
      && ps.indexFile in r.fs.files && r.fs.files[ps.indexFile] == ExportLine(name)
  {
  }

  lemma NewModuleContents(o: ModuleOptions, root: string, fs: FileSystem, ps: ModulePaths)
    requires !IsBlank(o.moduleName) && !o.exportFromRootIndex && ps == PathsOf(o, root)
    requires !fs.Exists(ps.moduleFile) && !fs.Exists(ps.indexFile)
    requires ps.moduleFile != ps.indexFile && ps.dir != ps.moduleFile && ps.dir != ps.indexFile
    requires NewModule(o, root, fs).end.Done?
    ensures var r := NewModule(o, root, fs);
      && ps.moduleFile in r.fs.files && r.fs.files[ps.moduleFile] == Template(ExportName(o.moduleName))
      && ps.indexFile in r.fs.files && r.fs.files[ps.indexFile] == ExportLine(o.moduleName)
  {
    assert NewModule(o, root, fs) == Create(o.moduleName, false, ps, fs);
    CreateContents(o.moduleName, ps, fs);
  }

  /** Once `Create` has succeeded, running it again changes nothing. */
  lemma CreateIdempotent(name: string, exportFromRootIndex: bool, ps: ModulePaths, fs: FileSystem)
    requires Create(name, exportFromRootIndex, ps, fs).end.Done?
    requires exportFromRootIndex ==> ps.rootIndex !in fs.noRead
    ensures var r := Create(name, exportFromRootIndex, ps, fs);
      Create(name, exportFromRootIndex, ps, r.fs) == r
  {
    var r := Create(name, exportFromRootIndex, ps, fs);
    assert MakeDir(r.fs, ps.dir) == Some(r.fs) by {
      assert r.fs.(dirs := r.fs.dirs + {ps.dir}) == r.fs;
    }
    assert WriteIfAbsent(r.fs, ps.moduleFile, Template(ExportName(name))) == Some(r.fs);
    assert WriteIfAbsent(r.fs, ps.indexFile, ExportLine(name)) == Some(r.fs);
    if exportFromRootIndex {
      assert EnsureExportLine(r.fs, ps.rootIndex, ExportLine(name)) == Some(r.fs);
    }
  }

  /** Running `newModule` again after it succeeded changes nothing and reports the same result. */
  lemma NewModuleIdempotent(o: ModuleOptions, root: string, fs: FileSystem)
    requires NewModule(o, root, fs).end.Done?
    requires o.exportFromRootIndex ==> RootIndex(o, root) !in fs.noRead
    ensures NewModule(o, root, NewModule(o, root, fs).fs) == NewModule(o, root, fs)
  {
    if !IsBlank(o.moduleName) {
      CreateIdempotent(o.moduleName, o.exportFromRootIndex, PathsOf(o, root), fs);
    }
  }

  // ----- generateReadmeSection -----

  /** `bullets` absent and `bullets: []` behave alike. */
  datatype ReadmeOptions = ReadmeOptions(title: string, bullets: seq<string>, content: Option<string>)

  function Heading(title: string): string {
    "## " + title + "\n"
  }

  function Bulleted(bullets: seq<string>): (r: seq<string>)
    ensures |r| == |bullets| && forall k :: 0 <= k < |bullets| ==> r[k] == "- " + bullets[k]
  {
    if |bullets| == 0 then [] else ["- " + bullets[0]] + Bulleted(bullets[1..])
  }

  const TodoBody := "- TODO: add details\n"

  /** The section body: trimmed content, else the bullets one per line, else a placeholder; always ending in a newline. */
  function SectionBody(o: ReadmeOptions): (r: string)
    ensures |r| > 0 && r[|r| - 1] == '\n'
    ensures o.content.Some? && !IsBlank(o.content.value) ==> r == Trim(o.content.value) + "\n"
    ensures (o.content.None? || IsBlank(o.content.value)) && |o.bullets| > 0 ==> r == JoinWith(Bulleted(o.bullets), "\n") + "\n"
    ensures (o.content.None? || IsBlank(o.content.value)) && |o.bullets| == 0 ==> r == TodoBody
  {
    if o.content.Some? && !IsBlank(o.content.value) then Trim(o.content.value) + "\n"
    else if |o.bullets| > 0 then JoinWith(Bulleted(o.bullets), "\n") + "\n"
    else TodoBody
  }

  /** The text appended: a blank line, the heading line, a blank line and the body; it contains the trimmed heading. */
  function Section(o: ReadmeOptions): (r: string)
    ensures IsPrefix("\n## " + o.title + "\n\n", r)
    ensures IsSuffix(SectionBody(o), r)
    ensures Contains(r, Trim(Heading(o.title)))
  {
    var h := Heading(o.title);
    ContainsTrim(h);
    ContainsWithin("\n", h, "\n" + SectionBody(o), Trim(h));
    Framed(o.title, SectionBody(o));
    "\n" + h + ("\n" + SectionBody(o))
  }

  /** A heading line framed by newlines starts with the heading and blank line and ends with the body. */
  lemma Framed(title: string, body: string)
    ensures IsPrefix("\n## " + title + "\n\n", "\n" + Heading(title) + ("\n" + body))
    ensures IsSuffix(body, "\n" + Heading(title) + ("\n" + body))
  {
    var s := "\n" + Heading(title) + ("\n" + body);
    assert s == ("\n## " + title + "\n\n") + body;
  }

  function ReadmePath(root: string): string {
    Join(root, ["README.md"])
  }

  const TitleRequired := ToolResult("title is required.", FixingIssues)

  function SectionExists(title: string): ToolResult {
    ToolResult("README already contains section \"" + title + "\".", FixingIssues)
  }

  function SectionAdded(title: string): ToolResult {
    ToolResult("Added section \"" + title + "\" to README.md", "README updated")
  }

  /** `generateReadmeSection(options, rootPath)`. */
  function ReadmeSection(o: ReadmeOptions, root: string, fs: FileSystem): (r: Effect)
    ensures IsBlank(o.title) ==> r == Effect(Done(TitleRequired), fs)
    ensures !IsBlank(o.title) && fs.CanRead(ReadmePath(root)) ==>
      (Contains(fs.files[ReadmePath(root)], Trim(Heading(o.title))) <==> r == Effect(Done(SectionExists(o.title)), fs))
    ensures r.end == Done(SectionAdded(o.title)) ==>
      && ReadmePath(root) in r.fs.files
      && r.fs.files[ReadmePath(root)] ==
           (if ReadmePath(root) in fs.files then fs.files[ReadmePath(root)] else "# " + Basename(root) + "\n") + Section(o)
      && r.fs.files.Keys == fs.files.Keys + {ReadmePath(root)}
      && forall q :: q in fs.files && q != ReadmePath(root) ==> r.fs.files[q] == fs.files[q]
    ensures r.fs.dirs == fs.dirs && r.fs.noRead == fs.noRead && r.fs.noWrite == fs.noWrite
    ensures !IsBlank(o.title) && fs.Exists(ReadmePath(root)) && !fs.CanRead(ReadmePath(root)) ==>
      r == Effect(Raised(ReadmePath(root)), fs)
    ensures (!IsBlank(o.title) && (!fs.Exists(ReadmePath(root))
      || (fs.CanRead(ReadmePath(root)) && !Contains(fs.files[ReadmePath(root)], Trim(Heading(o.title)))))) ==>
      r.end == (if Writable(fs, ReadmePath(root)) then Done(SectionAdded(o.title)) else Raised(ReadmePath(root)))
  {
    if IsBlank(o.title) then Effect(Done(TitleRequired), fs)
    else
      var path := ReadmePath(root);
      ExistsNotAdded(o.title);
      if fs.Exists(path) then
        match ReadText(fs, path)
        case None => Effect(Raised(path), fs)
        case Some(content) =>
          if Contains(content, Trim(Heading(o.title))) then Effect(Done(SectionExists(o.title)), fs)
          else
            WriteFrame(fs, path, content + Section(o));
            match AppendText(fs, path, Section(o))
            case None => Effect(Raised(path), fs)
            case Some(fs') => Effect(Done(SectionAdded(o.title)), fs')
      else
        WriteFrame(fs, path, "# " + Basename(root) + "\n" + Section(o));
        match WriteText(fs, path, "# " + Basename(root) + "\n" + Section(o))
        case None => Effect(Raised(path), fs)
        case Some(fs') => Effect(Done(SectionAdded(o.title)), fs')
  }

  /** A write sets one file and leaves every other file, and the directories, as they were. */
  lemma WriteFrame(fs: FileSystem, path: string, content: string)
    ensures var w := fs.Write(path, content);
      && path in w.files && w.files[path] == content
      && w.files.Keys == fs.files.Keys + {path}
      && (forall q :: q in fs.files && q != path ==> w.files[q] == fs.files[q])
      && w.dirs == fs.dirs && w.noRead == fs.noRead && w.noWrite == fs.noWrite
  {
  }

  lemma ExistsNotAdded(title: string)
    ensures SectionExists(title) != SectionAdded(title)
  {
    assert SectionExists(title).displayResult[0] == 'F';
  }

  /** The text a successful call leaves contains the trimmed heading. */
  lemma SectionHasHeading(before: string, o: ReadmeOptions)
    ensures Contains(before + Section(o), Trim(Heading(o.title)))
  {
    var r := Section(o);
    ContainsWithin(before, r, "", Trim(Heading(o.title)));
    assert before + r + "" == before + r;
  }

  /** After a section is added, the same title is refused and the README left as it is. */
  lemma ReadmeSectionOnce(o: ReadmeOptions, o2: ReadmeOptions, root: string, fs: FileSystem)
    requires ReadmeSection(o, root, fs).end == Done(SectionAdded(o.title))
    requires o2.title == o.title && ReadmePath(root) !in fs.noRead
    ensures var fs' := ReadmeSection(o, root, fs).fs;
      ReadmeSection(o2, root, fs') == Effect(Done(SectionExists(o.title)), fs')
  {
    var path := ReadmePath(root);
    var before := if path in fs.files then fs.files[path] else "# " + Basename(root) + "\n";
    SectionHasHeading(before, o);
    assert !IsBlank(o.title) by {
      assert TitleRequired.displayResult[0] == 'F' && SectionAdded(o.title).displayResult[0] == 'R';
    }
  }

  // ----- renameFile -----

  datatype RenameOptions = RenameOptions(fromPath: string, toPath: string, overwrite: bool)

  /**
    `fs.renameSync(from, to)` of an existing path: a file moves and replaces
    a file at the target. A directory at either end, a path that fails the
    write check, or a target whose directory does not exist makes it throw
    (`None`).
   */
  function Move(fs: FileSystem, from: string, to: string): (r: Option<FileSystem>)
    requires fs.Exists(from)
    ensures r.Some? <==> (from !in fs.dirs && to !in fs.dirs && from !in fs.noWrite && to !in fs.noWrite
      && Parent(to) in fs.dirs)
    ensures r.Some? ==> to in r.value.files && r.value.files[to] == fs.files[from]
    ensures r.Some? && from != to ==> from !in r.value.files && !r.value.Exists(from)
    ensures r.Some? ==> forall q :: q != from && q != to ==> (q in r.value.files <==> q in fs.files)
    ensures r.Some? ==> forall q :: q in fs.files && q != from && q != to ==> r.value.files[q] == fs.files[q]
    ensures r.Some? ==> r.value.dirs == fs.dirs && r.value.noRead == fs.noRead && r.value.noWrite == fs.noWrite
  {
    if from in fs.dirs || to in fs.dirs || from in fs.noWrite || to in fs.noWrite || Parent(to) !in fs.dirs then None
    else if from == to then Some(fs)
    else Some(fs.(files := (fs.files - {from})[to := fs.files[from]]))
  }

  function SourceMissing(from: string): ToolResult {
    ToolResult("Source file does not exist: " + from, FixingIssues)
  }

  function TargetExists(to: string): ToolResult {
    ToolResult("Target already exists: " + to, FixingIssues)
  }

  function Renamed(from: string, to: string): ToolResult {
    ToolResult("Renamed " + from + " to " + to, "File renamed")
  }

  predicate BothWithinRoot(o: RenameOptions, root: string) {
    ToolUtils.EnsureWithinRoot(o.fromPath, root).None? && ToolUtils.EnsureWithinRoot(o.toPath, root).None?
  }

  /** `renameFile(options, rootPath)`: both paths are checked against the root, source first, before either is looked at. */
  function RenameFile(o: RenameOptions, root: string, fs: FileSystem): (r: Effect)
    ensures ToolUtils.EnsureWithinRoot(o.fromPath, root).Some? ==>
      r == Effect(Done(ToolResult(ToolUtils.EnsureWithinRoot(o.fromPath, root).value, FixingIssues)), fs)
    ensures ToolUtils.EnsureWithinRoot(o.fromPath, root).None? && ToolUtils.EnsureWithinRoot(o.toPath, root).Some? ==>
      r == Effect(Done(ToolResult(ToolUtils.EnsureWithinRoot(o.toPath, root).value, FixingIssues)), fs)
    ensures r.fs != fs ==> r.end == Done(Renamed(o.fromPath, o.toPath)) && fs.Exists(o.fromPath)
    ensures BothWithinRoot(o, root) && !fs.Exists(o.fromPath) ==> r == Effect(Done(SourceMissing(o.fromPath)), fs)
    ensures BothWithinRoot(o, root) && fs.Exists(o.fromPath) && fs.Exists(o.toPath) && !o.overwrite ==>
      r == Effect(Done(TargetExists(o.toPath)), fs)
    ensures BothWithinRoot(o, root) && fs.Exists(o.fromPath) && (o.overwrite || !fs.Exists(o.toPath)) ==>
      r.end == (if Move(fs, o.fromPath, o.toPath).Some? then Done(Renamed(o.fromPath, o.toPath)) else Raised(o.fromPath))
    ensures r.end == Done(Renamed(o.fromPath, o.toPath)) ==>
      && ToolUtils.EnsureWithinRoot(o.fromPath, root).None? && ToolUtils.EnsureWithinRoot(o.toPath, root).None?
      && o.fromPath in fs.files && (o.overwrite || !fs.Exists(o.toPath))
      && o.toPath in r.fs.files && r.fs.files[o.toPath] == fs.files[o.fromPath]
      && (o.fromPath != o.toPath ==> !r.fs.Exists(o.fromPath))
  {
    assert FixingIssues[2] == 'x' && Renamed(o.fromPath, o.toPath).displayResult[2] == 'l';
    match ToolUtils.EnsureWithinRoot(o.fromPath, root)
    case Some(message) => Effect(Done(ToolResult(message, FixingIssues)), fs)
    case None =>
      match ToolUtils.EnsureWithinRoot(o.toPath, root)
      case Some(message) => Effect(Done(ToolResult(message, FixingIssues)), fs)
      case None =>
        if !fs.Exists(o.fromPath) then Effect(Done(SourceMissing(o.fromPath)), fs)
        else if fs.Exists(o.toPath) && !o.overwrite then Effect(Done(TargetExists(o.toPath)), fs)
        else match Move(fs, o.fromPath, o.toPath)
          case None => Effect(Raised(o.fromPath), fs)
          case Some(fs') => Effect(Done(Renamed(o.fromPath, o.toPath)), fs')
  }

  /** Renaming back undoes a rename onto a free name. */
  lemma RenameRoundTrip(from: string, to: string, root: string, fs: FileSystem)
    requires from != to && !fs.Exists(to) && Parent(from) in fs.dirs
    requires RenameFile(RenameOptions(from, to, false), root, fs).end == Done(Renamed(from, to))
    ensures var fs' := RenameFile(RenameOptions(from, to, false), root, fs).fs;
      RenameFile(RenameOptions(to, from, false), root, fs') == Effect(Done(Renamed(to, from)), fs)
  {
    var fs' := RenameFile(RenameOptions(from, to, false), root, fs).fs;
    var back := RenameFile(RenameOptions(to, from, false), root, fs');
    assert back.fs.files == fs.files;
  }
}

=== FILE: scan_project.dfy ===
/**
  `scanProject` of src/core/utils/scanProject.ts: the entry points that
  exist, the scripts and frameworks package.json declares, the languages
  of the files below the root ranked by count, and the configuration flags.
  The directory tree `walkFiles` reads is given as a value; the clock that
  stamps the scan is a parameter.
 */
module ScanProject {
  import opened Common
  import opened Json
  import opened Text
  import opened Paths
  import opened Ranking
  import PackageJson

  const CommonEntrypoints: seq<string> := [
    "src/index.ts", "src/index.js", "src/main.ts", "src/main.js", "src/app.ts", "src/app.js",
    "src/server.ts", "src/server.js", "index.ts", "index.js", "app.ts", "app.js", "server.ts", "server.js"]

  /** `FRAMEWORK_MAP`: each framework with the dependency names that reveal it. */
  const FrameworkMap: map<string, seq<string>> := map[
    "NextJS" := ["next"],
    "React" := ["react", "react-dom"],
    "Vue" := ["vue"],
    "Svelte" := ["svelte"],
    "Express" := ["express"],
    "Fastify" := ["fastify"],
    "NestJS" := ["@nestjs/core"],
    "Prisma" := ["prisma", "@prisma/client"],
    "Tailwind" := ["tailwindcss"],
    "Vite" := ["vite"]]

  /** `EXTENSION_LANGUAGE_MAP`. */
  const LanguageMap: map<string, string> := map[
    ".ts" := "TypeScript", ".tsx" := "TypeScript (TSX)", ".js" := "JavaScript", ".jsx" := "JavaScript (JSX)",
    ".py" := "Python", ".go" := "Go", ".rs" := "Rust", ".java" := "Java", ".rb" := "Ruby", ".php" := "PHP",
    ".cs" := "C#", ".cpp" := "C++", ".c" := "C", ".h" := "C/C++ Header", ".md" := "Markdown",
    ".json" := "JSON", ".yml" := "YAML", ".yaml" := "YAML", ".sh" := "Shell", ".sql" := "SQL",
    ".html" := "HTML", ".css" := "CSS"]

  // ----- entry points -----

  /** The candidates that exist below the root, in list order. */
  function Existing(candidates: seq<string>, root: string, fs: FileSystem): (r: seq<string>)
    ensures forall x :: x in r <==> x in candidates && fs.Exists(Join(root, [x]))
    ensures IsSubsequence(r, candidates)
  {
    if |candidates| == 0 then []
    else
      var rest := Existing(candidates[1..], root, fs);
      assert forall x :: x in candidates <==> x == candidates[0] || x in candidates[1..];
      if fs.Exists(Join(root, [candidates[0]])) then [candidates[0]] + rest
      else
        assert |rest| > 0 ==> rest[0] in rest;
        rest
  }

  // ----- package.json -----

  /** `Object.keys(v)` as a set: an object's own keys, or the indices of an array or a string. */
  function KeySet(v: Json): set<string> {
    match v
    case JObj(fields) => fields.Keys
    case JArr(items) => set i | 0 <= i < |items| :: NatText(i)
    case JStr(s) => set i | 0 <= i < |s| :: NatText(i)
    case _ => {}
  }

  /** `Object.keys(x || {})`. */
  function KeysOr(x: Option<Json>): set<string> {
    if TruthyOpt(x) then KeySet(x.value) else {}
  }

  /** What the `try` block reads: the script names and the dependency names. */
  datatype Manifest = Manifest(scripts: set<string>, deps: set<string>)

  /**
    The `try` block over what `readPackageJson` would give: a missing,
    unreadable or unparsable file, or one holding `null` (whose `.scripts`
    throws), leaves both empty.
   */
  function ReadManifest(pkg: Option<Json>): (m: Manifest)
    ensures pkg.None? || pkg == Some(JNull) ==> m == Manifest({}, {})
    ensures pkg.Some? && pkg.value.JObj? ==>
      m.deps == KeysOr(GetOpt(pkg, "dependencies")) + KeysOr(GetOpt(pkg, "devDependencies"))
  {
    if pkg.None? || pkg.value.JNull? then Manifest({}, {})
    else Manifest(KeysOr(GetOpt(pkg, "scripts")),
                  KeysOr(GetOpt(pkg, "dependencies")) + KeysOr(GetOpt(pkg, "devDependencies")))
  }

  /** Script names of an object package.json are the keys of its `scripts` object. */
  lemma ManifestScripts(fields: map<string, Json>, scripts: map<string, Json>)
    requires "scripts" in fields && fields["scripts"] == JObj(scripts)
    ensures ReadManifest(Some(JObj(fields))).scripts == scripts.Keys
  {
  }

  // ----- frameworks -----

  /** Each element before the next. */
  predicate Ascending(s: seq<string>) {
    forall i :: 0 <= i < |s| - 1 ==> LexLess(s[i], s[i + 1])
  }

  lemma {:induction false} AscendingFirst(s: seq<string>, j: nat)
    requires Ascending(s) && 0 < j < |s|
    ensures LexLess(s[0], s[j])
    decreases j
  {
    if j > 1 {
      AscendingFirst(s, j - 1);
      LexLessTransitive(s[0], s[j - 1], s[j]);
    }
  }

  /** The framework names in sorted order. */
  const SortedFrameworks: seq<string> :=
    ["Express", "Fastify", "NestJS", "NextJS", "Prisma", "React", "Svelte", "Tailwind", "Vite", "Vue"]

  lemma SortedFrameworksSorted()
    ensures Ascending(SortedFrameworks)
    ensures forall x :: x in SortedFrameworks <==> x in FrameworkMap
  {
    var s := SortedFrameworks;
    assert LexLess(s[2], s[3]) by {
      assert s[2][1..] == "estJS" && s[3][1..] == "extJS";
      assert LexLess("stJS", "xtJS");
    }
    assert LexLess(s[8], s[9]) by {
      assert LexLess("ite", "ue");
    }
  }

  /** `FRAMEWORK_MAP` has no entry for Astro. */
  lemma NoAstro()
    ensures "Astro" !in FrameworkMap
  {
    assert forall x :: x in FrameworkMap ==> x[0] != 'A';
  }

  /** No dependency makes Astro a detected framework; only its config file reveals it. */
  lemma AstroNeverDetected(deps: set<string>)
    ensures "Astro" !in DetectFrameworks(deps)
  {
    NoAstro();
  }

  /** A framework is detected when one of its keywords is a dependency. */
  predicate Detected(name: string, deps: set<string>)
    requires name in FrameworkMap
  {
    exists k :: k in FrameworkMap[name] && k in deps
  }

  function KeepDetected(names: seq<string>, deps: set<string>): (r: seq<string>)
    requires forall x :: x in names ==> x in FrameworkMap
    ensures forall x :: x in r <==> x in names && Detected(x, deps)
  {
    if |names| == 0 then []
    else
      assert forall x :: x in names <==> x == names[0] || x in names[1..];
      (if Detected(names[0], deps) then [names[0]] else []) + KeepDetected(names[1..], deps)
  }

  /** Filtering a sorted list keeps it sorted. */
  lemma {:induction false} KeepDetectedAscending(names: seq<string>, deps: set<string>)
    requires forall x :: x in names ==> x in FrameworkMap
    requires Ascending(names)
    ensures Ascending(KeepDetected(names, deps))
    decreases |names|
  {
    if |names| > 0 {
      var rest := KeepDetected(names[1..], deps);
      assert Ascending(names[1..]);
      KeepDetectedAscending(names[1..], deps);
      if Detected(names[0], deps) && |rest| > 0 {
        assert rest[0] in names[1..];
        var j :| 1 <= j < |names| && names[j] == rest[0];
        AscendingFirst(names, j);
        assert KeepDetected(names, deps) == [names[0]] + rest;
      }
    }
  }

  /** `detectFrameworks(deps)`: the detected names, sorted, each once. */
  function DetectFrameworks(deps: set<string>): (r: seq<string>)
    ensures forall x :: x in r <==> x in FrameworkMap && Detected(x, deps)
    ensures Ascending(r)
  {
    SortedFrameworksSorted();
    KeepDetectedAscending(SortedFrameworks, deps);
    KeepDetected(SortedFrameworks, deps)
  }

  /** Sorted strictly, the names are pairwise distinct. */
  lemma AscendingDistinct(s: seq<string>, i: nat, j: nat)
    requires Ascending(s) && i < j < |s|
    ensures s[i] != s[j]
  {
    AscendingFirst(s[i..], j - i);
    LexLessIrreflexive(s[i]);
  }

  // ----- languages -----

  /** What `readdirSync(dir, { withFileTypes: true })` shows; an unlisted directory is one whose listing throws. */
  datatype Entry = FileEntry(name: string) | DirEntry(name: string, listed: bool, children: seq<Entry>)

  predicate Skipped(name: string) {
    name == "node_modules" || name == ".git"
  }

  /** `walkFiles(dir, onFile)`: the paths handed to `onFile`, in order. */
  function WalkFiles(dir: string, entries: seq<Entry>): (r: seq<string>)
    decreases entries
  {
    if |entries| == 0 then []
    else
      var e := entries[0];
      var full := Join(dir, [e.name]);
      var here := if !e.DirEntry? then [full]
        else if Skipped(e.name) || !e.listed then []
        else WalkFiles(full, e.children);
      here + WalkFiles(dir, entries[1..])
  }

  /** What a skipped directory holds never reaches the walk. */
  lemma {:induction false} SkippedUnread(dir: string, entries: seq<Entry>, k: nat, listed: bool, children: seq<Entry>)
    requires k < |entries| && entries[k].DirEntry? && Skipped(entries[k].name)
    ensures WalkFiles(dir, entries[k := DirEntry(entries[k].name, listed, children)]) == WalkFiles(dir, entries)
    decreases k
  {
    var entries' := entries[k := DirEntry(entries[k].name, listed, children)];
    if k > 0 {
      assert entries'[1..] == entries[1..][k - 1 := DirEntry(entries[k].name, listed, children)];
      SkippedUnread(dir, entries[1..], k - 1, listed, children);
    } else {
      assert entries'[1..] == entries[1..];
    }
  }

  /** The language `EXTENSION_LANGUAGE_MAP` gives a file, if any. */
  function LanguageOf(file: string): Option<string> {
    var ext := Extname(file);
    if ext in LanguageMap then Some(LanguageMap[ext]) else None
  }

  /** The language of each file with a known extension, in walk order. */
  function Languages(files: seq<string>): (r: seq<string>)
    ensures forall x :: x in r <==> exists f :: f in files && LanguageOf(f) == Some(x)
  {
    if |files| == 0 then []
    else
      var rest := Languages(files[1..]);
      assert forall f :: f in files <==> f == files[0] || f in files[1..];
      match LanguageOf(files[0])
      case None => rest
      case Some(l) => [l] + rest
  }

  function Count(ls: seq<string>, l: string): nat {
    if |ls| == 0 then 0 else (if ls[0] == l then 1 else 0) + Count(ls[1..], l)
  }

  /** The distinct entries of `ls` in order of first appearance, after those in `seen`: the key order of `counts`. */
  function FirstSeen(seen: seq<string>, ls: seq<string>): (r: seq<string>)
    requires forall i, j :: 0 <= i < j < |seen| ==> seen[i] != seen[j]
    ensures forall i, j :: 0 <= i < j < |r| ==> r[i] != r[j]
    ensures forall x :: x in r <==> x in seen || x in ls
    ensures |seen| <= |r| && r[..|seen|] == seen
    decreases |ls|
  {
    if |ls| == 0 then seen
    else
      assert forall x :: x in ls <==> x == ls[0] || x in ls[1..];
      var next := if ls[0] in seen then seen else seen + [ls[0]];
      var r := FirstSeen(next, ls[1..]);
      assert r[..|seen|] == r[..|next|][..|seen|];
      r
  }

  /** Each language with its file count. */
  function Tally(names: seq<string>, ls: seq<string>): (r: seq<Keyed<string>>)
    ensures |r| == |names| && forall k :: 0 <= k < |names| ==> r[k] == Keyed(names[k], Count(ls, names[k]))
  {
    if |names| == 0 then [] else [Keyed(names[0], Count(ls, names[0]))] + Tally(names[1..], ls)
  }

  /** `detectLanguages(rootDir)` over the files the walk found. */
  function DetectLanguages(files: seq<string>): seq<string> {
    Rank(Languages(files))
  }

  /** Two positions holding the same value put it twice in the multiset. */
  lemma TwoPositions<T>(s: seq<T>, i: nat, j: nat)
    requires i < j < |s| && s[i] == s[j]
    ensures multiset(s)[s[i]] >= 2
  {
    assert s == s[..j] + [s[j]] + s[j + 1..];
    assert s[..j][i] == s[i];
    assert s[i] in multiset(s[..j]);
  }

  /** The tally of distinct names holds each pair once. */
  lemma {:induction false} TallyOnce(names: seq<string>, ls: seq<string>, x: Keyed<string>)
    requires forall i, j :: 0 <= i < j < |names| ==> names[i] != names[j]
    ensures multiset(Tally(names, ls))[x] <= 1
    decreases |names|
  {
    if |names| > 0 {
      var t := Tally(names, ls);
      assert t == [t[0]] + Tally(names[1..], ls);
      TallyOnce(names[1..], ls, x);
      assert forall k :: 0 <= k < |names| - 1 ==> Tally(names[1..], ls)[k].item == names[k + 1] != names[0];
      assert x == t[0] ==> x !in Tally(names[1..], ls);
    }
  }

  /** Every entry of the sorted tally is a first-seen language with its count. */
  lemma SortedTallyEntries(names: seq<string>, ls: seq<string>, s: seq<Keyed<string>>)
    requires multiset(s) == multiset(Tally(names, ls))
    ensures forall k :: 0 <= k < |s| ==> s[k] == Keyed(s[k].item, Count(ls, s[k].item)) && s[k].item in names
  {
    var t := Tally(names, ls);
    forall k | 0 <= k < |s| ensures s[k] == Keyed(s[k].item, Count(ls, s[k].item)) && s[k].item in names {
      assert s[k] in multiset(t);
      var m :| 0 <= m < |t| && t[m] == s[k];
    }
  }

  /** Every first-seen language appears in the sorted tally. */
  lemma SortedTallyComplete(names: seq<string>, ls: seq<string>, s: seq<Keyed<string>>, x: string)
    requires multiset(s) == multiset(Tally(names, ls))
    requires x in names
    ensures x in Items(s)
  {
    var t := Tally(names, ls);
    var k :| 0 <= k < |names| && names[k] == x;
    assert t[k] in multiset(s);
    var m :| 0 <= m < |s| && s[m] == t[k];
    assert Items(s)[m] == x;
  }

  /** The sorted tally of distinct names names each language once. */
  lemma SortedTallyDistinct(names: seq<string>, ls: seq<string>, s: seq<Keyed<string>>, i: nat, j: nat)
    requires forall i, j :: 0 <= i < j < |names| ==> names[i] != names[j]
    requires multiset(s) == multiset(Tally(names, ls))
    requires i < j < |s|
    ensures Items(s)[i] != Items(s)[j]
  {
    SortedTallyEntries(names, ls, s);
    if s[i].item == s[j].item {
      TwoPositions(s, i, j);
      TallyOnce(names, ls, s[i]);
    }
  }

  /** Ranking a sequence of names: each once, by decreasing count, ties in order of first appearance. */
  function Rank(ls: seq<string>): seq<string> {
    Items(SortDescending(Tally(FirstSeen([], ls), ls)))
  }

  /** The sorted tally names exactly the first-seen languages. */
  lemma SortedTallyMembers(names: seq<string>, ls: seq<string>, s: seq<Keyed<string>>)
    requires multiset(s) == multiset(Tally(names, ls))
    ensures forall x :: x in Items(s) <==> x in names
  {
    SortedTallyEntries(names, ls, s);
    forall x | x in names ensures x in Items(s) {
      SortedTallyComplete(names, ls, s, x);
    }
  }

  lemma RankMembers(ls: seq<string>)
    ensures forall x :: x in Rank(ls) <==> x in ls
  {
    var names := FirstSeen([], ls);
    var t := Tally(names, ls);
    SortDescendingCorrect(t);
    SortedTallyMembers(names, ls, SortDescending(t));
  }

  lemma RankOrder(ls: seq<string>)
    ensures var r := Rank(ls);
      && (forall i, j :: 0 <= i < j < |r| ==> r[i] != r[j])
      && (forall i, j :: 0 <= i < j < |r| ==> Count(ls, r[i]) >= Count(ls, r[j]))
  {
    var names := FirstSeen([], ls);
    var s := SortDescending(Tally(names, ls));
    SortDescendingCorrect(Tally(names, ls));
    SortedTallyEntries(names, ls, s);
    var r := Rank(ls);
    forall i, j | 0 <= i < j < |r| ensures r[i] != r[j] {
      SortedTallyDistinct(names, ls, s, i, j);
    }
  }

  /**
    The languages reported are those of the files with a known extension,
    each once, in decreasing order of file count; languages with equal
    counts keep the order in which they were first met.
   */
  lemma LanguagesRanked(files: seq<string>)
    ensures var r := DetectLanguages(files);
      var ls := Languages(files);
      && (forall x :: x in r <==> exists f :: f in files && LanguageOf(f) == Some(x))
      && (forall i, j :: 0 <= i < j < |r| ==> r[i] != r[j])
      && (forall i, j :: 0 <= i < j < |r| ==> Count(ls, r[i]) >= Count(ls, r[j]))
      && (forall c :: WithKey(SortDescending(Tally(FirstSeen([], ls), ls)), c) == WithKey(Tally(FirstSeen([], ls), ls), c))
  {
    var ls := Languages(files);
    assert DetectLanguages(files) == Rank(ls);
    RankMembers(ls);
    RankOrder(ls);
    SortDescendingCorrect(Tally(FirstSeen([], ls), ls));
  }

  // ----- the scan -----

  /** The scan result; the timestamp is the clock reading passed in. */
  datatype ProjectScan = ProjectScan(
    rootDir: string,
    timestamp: string,
    entrypoints: seq<string>,
    frameworks: seq<string>,
    scripts: set<string>,
    languages: seq<string>,
    hasTsConfig: bool,
    hasReadme: bool,
    isNextJS: bool,
    isAstro: bool)

  /** `fs.existsSync(path.join(root, name))`. */
  predicate Has(root: string, fs: FileSystem, name: string) {
    fs.Exists(Join(root, [name]))
  }

  /**
    `r` lists the languages met among `files`, each once, in non-increasing
    order of how many files are written in it.
   */
  ghost predicate Ranked(files: seq<string>, r: seq<string>) {
    && (forall x :: x in r <==> exists f :: f in files && LanguageOf(f) == Some(x))
    && (forall i, j :: 0 <= i < j < |r| ==> r[i] != r[j])
    && (forall i, j :: 0 <= i < j < |r| ==> Count(Languages(files), r[i]) >= Count(Languages(files), r[j]))
  }

  /** The languages of the files below the root; none when the root cannot be listed. */
  function RootLanguages(root: string, tree: Option<seq<Entry>>): (r: seq<string>)
    ensures tree.None? ==> r == []
    ensures tree.Some? ==> Ranked(WalkFiles(root, tree.value), r)
  {
    if tree.Some? then
      LanguagesRanked(WalkFiles(root, tree.value));
      DetectLanguages(WalkFiles(root, tree.value))
    else []
  }

  /** `scanProject(rootDir)`: `tree` is the root's listing (`None` when it cannot be read). */
  function Scan(root: string, fs: FileSystem, parse: string -> Option<Json>, tree: Option<seq<Entry>>, now: string): (r: ProjectScan)
    ensures r.entrypoints == Existing(CommonEntrypoints, root, fs)
    ensures var m := ReadManifest(PackageJson.ReadPackageJson(root, fs, parse));
      r.scripts == m.scripts && r.frameworks == DetectFrameworks(m.deps)
    ensures r.isNextJS <==> "NextJS" in r.frameworks || Has(root, fs, "next.config.js") || Has(root, fs, "next.config.mjs")
    ensures r.isAstro <==> Has(root, fs, "astro.config.mjs")
    ensures tree.None? ==> r.languages == []
    ensures tree.Some? ==> Ranked(WalkFiles(root, tree.value), r.languages)
    ensures r.hasTsConfig == Has(root, fs, "tsconfig.json") && r.hasReadme == Has(root, fs, "README.md")
    ensures r.rootDir == root && r.timestamp == now
  {
    var m := ReadManifest(PackageJson.ReadPackageJson(root, fs, parse));
    var frameworks := DetectFrameworks(m.deps);
    AstroNeverDetected(m.deps);
    var languages := RootLanguages(root, tree);
    ProjectScan(
      root, now,
      Existing(CommonEntrypoints, root, fs),
      frameworks,
      m.scripts,
      languages,
      Has(root, fs, "tsconfig.json"),
      Has(root, fs, "README.md"),
      "NextJS" in frameworks || Has(root, fs, "next.config.js") || Has(root, fs, "next.config.mjs"),
      "Astro" in frameworks || Has(root, fs, "astro.config.mjs"))
  }

  /** A framework is reported exactly when package.json lists one of its keywords among its dependencies. */
  lemma FrameworksFromDependencies(root: string, fs: FileSystem, parse: string -> Option<Json>, tree: Option<seq<Entry>>, now: string,
                                   fields: map<string, Json>, name: string)
    requires PackageJson.ReadPackageJson(root, fs, parse) == Some(JObj(fields))
    ensures var deps := KeysOr(GetOpt(Some(JObj(fields)), "dependencies")) + KeysOr(GetOpt(Some(JObj(fields)), "devDependencies"));
      name in Scan(root, fs, parse, tree, now).frameworks <==> name in FrameworkMap && Detected(name, deps)
  {
  }

  /** Without a readable, parsable package.json there are no scripts and no frameworks. */
  lemma NoManifest(root: string, fs: FileSystem, parse: string -> Option<Json>)
    requires !fs.Exists(PackageJson.PackagePath(root)) || PackageJson.ReadPackageJson(root, fs, parse) == Some(JNull)
    ensures ReadManifest(PackageJson.ReadPackageJson(root, fs, parse)) == Manifest({}, {})
    ensures DetectFrameworks({}) == []
  {
    var r := DetectFrameworks({});
    assert forall k :: 0 <= k < |r| ==> r[k] in r;
  }
}

=== FILE: task_planner.dfy ===
/**
  `createTaskPlan` of src/core/taskPlanner.ts: one model call, a lenient
  parse of its answer, and the check that the result looks like a plan.
  The model and `JSON.parse` are oracles; the instruction text of the prompt
  is a parameter.
 */
module TaskPlanner {
  import opened Common
  import opened Text
  import opened Json
  import Fence

  /** `safeParseJson`: trim, strip a fence (without trimming again), parse; `None` when parsing throws. */
  function SafeParseJson(raw: string, parse: string -> Option<Json>): (r: Option<Json>)
    ensures !IsPrefix(Fence.Tick, Trim(raw)) ==> r == parse(Trim(raw))
  {
    var cleaned := Trim(raw);
    if IsPrefix(Fence.Tick, cleaned) then parse(Fence.DropClosing(Fence.DropOpening(cleaned)))
    else parse(cleaned)
  }

  /** A fenced answer is parsed as its body, untrimmed. */
  lemma SafeParseFenced(lang: string, body: string, parse: string -> Option<Json>)
    requires Fence.AllLetters(lang)
    ensures SafeParseJson(Fence.Fenced(lang, body), parse) == parse(body)
  {
    Fence.FencedTrimmed(lang, body);
    Fence.UnfenceFenced(lang, body);
  }

  /** `v.key` read off any value: only objects have the plan's keys (arrays and primitives give `undefined`). */
  function Property(v: Json, key: string): (r: Option<Json>)
    requires key == "goal" || key == "steps"
    ensures r.Some? ==> v.JObj? && key in v.fields && r.value == v.fields[key]
  {
    if IsObject(v) then Get(v, key) else None
  }

  /** A parsed value the planner accepts: an object with a non-empty goal and an array of steps. */
  predicate IsPlan(v: Json) {
    && v.JObj?
    && "goal" in v.fields && Truthy(v.fields["goal"])
    && "steps" in v.fields && v.fields["steps"].JArr?
  }

  /** The prompt: the fixed instructions, then the goal on the last line. */
  function TaskPrompt(instructions: string, goal: string): (p: string)
    ensures IsSuffix("Goal: " + goal + "\n", p)
  {
    instructions + "Goal: " + goal + "\n"
  }

  /** `createTaskPlan(goal)`: the parsed plan, unchanged, or `None` for `null`. */
  function CreateTaskPlan(goal: string, instructions: string, llm: string -> string, parse: string -> Option<Json>): (r: Option<Json>)
    ensures var parsed := SafeParseJson(llm(TaskPrompt(instructions, goal)), parse);
      r == if parsed.Some? && IsPlan(parsed.value) then parsed else None
  {
    var parsed := SafeParseJson(llm(TaskPrompt(instructions, goal)), parse);
    if parsed.None? || !Truthy(parsed.value) then None
    else
      var g, steps := Property(parsed.value, "goal"), Property(parsed.value, "steps");
      if g.None? || !Truthy(g.value) || steps.None? || !steps.value.JArr? then None
      else parsed
  }

  /** An answer that does not parse, or parses to something other than a plan, gives no plan. */
  lemma RejectedAnswers(goal: string, instructions: string, llm: string -> string, parse: string -> Option<Json>, fields: map<string, Json>)
    ensures var parsed := SafeParseJson(llm(TaskPrompt(instructions, goal)), parse);
      && (parsed.None? ==> CreateTaskPlan(goal, instructions, llm, parse).None?)
      && (parsed == Some(JObj(fields)) && ("goal" !in fields || fields["goal"] == JStr("")) ==> CreateTaskPlan(goal, instructions, llm, parse).None?)
      && (parsed == Some(JObj(fields)) && "steps" in fields && fields["steps"].JObj? ==> CreateTaskPlan(goal, instructions, llm, parse).None?)
  {
  }
}

=== FILE: text.dfy ===
/**
  String operations of the JavaScript runtime that the agent relies on,
  over strings as sequences of characters: prefix and substring tests,
  `indexOf`, `split` / `join`, `trim`, ASCII case mapping and decimal
  numbers.
 */
module Text {
  import opened Common

  predicate IsPrefix(p: string, s: string) {
    |p| <= |s| && s[..|p|] == p
  }

  predicate IsSuffix(p: string, s: string) {
    |p| <= |s| && s[|s| - |p|..] == p
  }

  /** `p` occurs in `s` starting at position `i`. */
  predicate OccursAt(s: string, p: string, i: int) {
    0 <= i && i + |p| <= |s| && s[i..i + |p|] == p
  }

  /** `s.includes(t)`. */
  predicate Contains(s: string, t: string) {
    exists i :: 0 <= i <= |s| && OccursAt(s, t, i)
  }

  lemma ContainsConcat(a: string, t: string, b: string)
    ensures Contains(a + t + b, t)
  {
    assert OccursAt(a + t + b, t, |a|);
  }

  /** `s.indexOf(p, from)`: the first position at or after `from` at which `p` occurs. */
  function FindFrom(s: string, p: string, from: nat): (r: Option<nat>)
    ensures r.Some? ==> from <= r.value && OccursAt(s, p, r.value)
    decreases |s| - from
  {
    if from + |p| > |s| then None
    else if OccursAt(s, p, from) then Some(from)
    else FindFrom(s, p, from + 1)
  }

  /** `indexOf` finds the first occurrence at or after `from`, and finds none only when there is none. */
  lemma {:induction false} FindFromFirst(s: string, p: string, from: nat)
    ensures var r := FindFrom(s, p, from);
      (r.Some? ==> forall j :: from <= j < r.value ==> !OccursAt(s, p, j))
      && (r.None? ==> forall j :: from <= j ==> !OccursAt(s, p, j))
    decreases |s| - from
  {
    if from + |p| <= |s| && !OccursAt(s, p, from) {
      FindFromFirst(s, p, from + 1);
    }
  }

  /** `s.indexOf(p)`. */
  function Find(s: string, p: string): (r: Option<nat>)
    ensures r.Some? ==> OccursAt(s, p, r.value)
  {
    FindFrom(s, p, 0)
  }

  /** `indexOf` finds the leftmost occurrence, and returns -1 exactly when there is none. */
  lemma FindFirst(s: string, p: string)
    ensures var r := Find(s, p);
      (r.Some? ==> forall j :: 0 <= j < r.value ==> !OccursAt(s, p, j))
      && (r.None? <==> !Contains(s, p))
  {
    FindFromFirst(s, p, 0);
  }

  /** `s.split(p)` for a non-empty separator: the pieces between leftmost non-overlapping occurrences. */
  function SplitStr(s: string, p: string): (parts: seq<string>)
    requires |p| > 0
    ensures |parts| >= 1
    decreases |s|
  {
    match Find(s, p)
    case None => [s]
    case Some(i) => [s[..i]] + SplitStr(s[i + |p|..], p)
  }

  /** `parts.join(sep)`. */
  function JoinWith(parts: seq<string>, sep: string): string
    decreases |parts|
  {
    if |parts| == 0 then ""
    else if |parts| == 1 then parts[0]
    else parts[0] + sep + JoinWith(parts[1..], sep)
  }

  /** `s.split(c)` for a one-character separator. */
  function Split(s: string, c: char): (parts: seq<string>)
    ensures |parts| >= 1
  {
    SplitStr(s, [c])
  }

  /** The number of non-overlapping occurrences `split` separates on. */
  function CountOcc(s: string, p: string): nat
    requires |p| > 0
  {
    |SplitStr(s, p)| - 1
  }

  lemma JoinCons(x: string, xs: seq<string>, sep: string)
    requires |xs| >= 1
    ensures JoinWith([x] + xs, sep) == x + sep + JoinWith(xs, sep)
  {
    assert ([x] + xs)[1..] == xs;
  }

  lemma {:induction false} JoinWithAppend(a: seq<string>, b: seq<string>, sep: string)
    requires |a| >= 1 && |b| >= 1
    ensures JoinWith(a + b, sep) == JoinWith(a, sep) + sep + JoinWith(b, sep)
    decreases |a|
  {
    if |a| == 1 {
      JoinCons(a[0], b, sep);
      assert a + b == [a[0]] + b;
    } else {
      JoinWithAppend(a[1..], b, sep);
      assert (a + b)[1..] == a[1..] + b;
    }
  }

  /** Splitting and joining again with the same separator gives back the string. */
  lemma {:induction false} JoinSplitStr(s: string, p: string)
    requires |p| > 0
    ensures JoinWith(SplitStr(s, p), p) == s
    decreases |s|
  {
    match Find(s, p)
    case None =>
    case Some(i) =>
      var rest := s[i + |p|..];
      JoinSplitStr(rest, p);
      SplitStrSome(s, p, i);
      JoinCons(s[..i], SplitStr(rest, p), p);
      AroundOccurrence(s, p, i);
  }

  /** Where `indexOf` finds the separator, `split` cuts off the text before it. */
  lemma SplitStrSome(s: string, p: string, i: nat)
    requires |p| > 0 && Find(s, p) == Some(i)
    ensures i + |p| <= |s|
    ensures SplitStr(s, p) == [s[..i]] + SplitStr(s[i + |p|..], p)
  {
  }

  lemma AroundOccurrence(s: string, p: string, i: nat)
    requires OccursAt(s, p, i)
    ensures s == s[..i] + p + s[i + |p|..]
  {
    assert s == s[..i] + s[i..i + |p|] + s[i + |p|..];
  }

  /** No piece of a split contains the separator. */
  lemma {:induction false} SplitStrPiecesFree(s: string, p: string)
    requires |p| > 0
    ensures forall k :: 0 <= k < |SplitStr(s, p)| ==> !Contains(SplitStr(s, p)[k], p)
    decreases |s|
  {
    FindFirst(s, p);
    match Find(s, p)
    case None =>
    case Some(i) =>
      SplitStrPiecesFree(s[i + |p|..], p);
      if Contains(s[..i], p) {
        var j :| 0 <= j <= i && OccursAt(s[..i], p, j);
        assert s[j..j + |p|] == s[..i][j..j + |p|];
        assert OccursAt(s, p, j);
      }
  }

  /** No piece of a split at one character holds that character. */
  lemma SplitCharFree(s: string, c: char)
    ensures forall k :: 0 <= k < |Split(s, c)| ==> c !in Split(s, c)[k]
  {
    SplitStrPiecesFree(s, [c]);
    forall k | 0 <= k < |Split(s, c)|
      ensures c !in Split(s, c)[k]
    {
      var piece := Split(s, c)[k];
      if c in piece {
        var i :| 0 <= i < |piece| && piece[i] == c;
        assert OccursAt(piece, [c], i);
      }
    }
  }

  /** Joining pieces that do not contain `c` and splitting on `c` gives back the pieces. */
  lemma {:induction false} SplitJoin(xs: seq<string>, c: char)
    requires |xs| >= 1
    requires forall k :: 0 <= k < |xs| ==> c !in xs[k]
    ensures Split(JoinWith(xs, [c]), c) == xs
    decreases |xs|
  {
    var x := xs[0];
    if |xs| == 1 {
      NoCharNotFound(x, c);
    } else {
      var rest := JoinWith(xs[1..], [c]);
      var s := x + [c] + rest;
      assert JoinWith(xs, [c]) == s;
      FindFirstChar(x, c, rest);
      assert s[|x| + 1..] == rest;
      assert s[..|x|] == x;
      SplitJoin(xs[1..], c);
      assert xs == [x] + xs[1..];
    }
  }

  lemma NoCharNotFound(x: string, c: char)
    requires c !in x
    ensures Find(x, [c]) == None
  {
    forall j | 0 <= j < |x|
      ensures !OccursAt(x, [c], j)
    {
      assert x[j..j + 1] == [x[j]];
    }
    FindFirst(x, [c]);
  }

  lemma FindFirstChar(x: string, c: char, rest: string)
    requires c !in x
    ensures Find(x + [c] + rest, [c]) == Some(|x|)
  {
    var s := x + [c] + rest;
    assert OccursAt(s, [c], |x|);
    FindFirst(s, [c]);
    forall j | 0 <= j < |x|
      ensures !OccursAt(s, [c], j)
    {
      assert s[j..j + 1] == [x[j]];
    }
  }

  /** Characters `String.prototype.trim` removes: ECMAScript WhiteSpace and LineTerminator. */
  predicate IsSpace(c: char) {
    || c == ' ' || c == '\t' || c == '\n' || c == '\r'
    || c == '\U{000B}' || c == '\U{000C}' || c == '\U{00A0}' || c == '\U{FEFF}'
    || c == '\U{1680}' || ('\U{2000}' <= c <= '\U{200A}')
    || c == '\U{2028}' || c == '\U{2029}' || c == '\U{202F}' || c == '\U{205F}'
    || c == '\U{3000}'
  }

  function TrimStart(s: string): (r: string)
    ensures IsSuffix(r, s)
    ensures |r| > 0 ==> !IsSpace(r[0])
    ensures forall k :: 0 <= k < |s| - |r| ==> IsSpace(s[k])
  {
    if |s| > 0 && IsSpace(s[0]) then TrimStart(s[1..]) else s
  }

  function TrimEnd(s: string): (r: string)
    ensures IsPrefix(r, s)
    ensures |r| > 0 ==> !IsSpace(r[|r| - 1])
    ensures forall k :: |r| <= k < |s| ==> IsSpace(s[k])
  {
    if |s| > 0 && IsSpace(s[|s| - 1]) then TrimEnd(s[..|s| - 1]) else s
  }

  /** `s.trim()`. */
  function Trim(s: string): (r: string)
    ensures |r| > 0 ==> !IsSpace(r[0]) && !IsSpace(r[|r| - 1])
    ensures |r| <= |s|
  {
    TrimEnd(TrimStart(s))
  }

  /** A string is blank when trimming leaves nothing (`s.trim() === ''`). */
  predicate IsBlank(s: string) {
    Trim(s) == ""
  }

  lemma TrimEndNoSpace(s: string)
    requires |s| > 0 && !IsSpace(s[|s| - 1])
    ensures TrimEnd(s) == s
  {
  }

  lemma TrimStartNoSpace(s: string)
    requires |s| > 0 && !IsSpace(s[0])
    ensures TrimStart(s) == s
  {
  }

  /** Trimming twice is trimming once. */
  lemma TrimIdempotent(s: string)
    ensures Trim(Trim(s)) == Trim(s)
  {
    var r := Trim(s);
    if |r| > 0 {
      TrimStartNoSpace(r);
      TrimEndNoSpace(r);
    }
  }

  predicate IsAsciiLetter(c: char) {
    ('a' <= c <= 'z') || ('A' <= c <= 'Z')
  }

  predicate IsDigit(c: char) {
    '0' <= c <= '9'
  }

  predicate IsAlnum(c: char) {
    IsAsciiLetter(c) || IsDigit(c)
  }

  function ToUpper(c: char): char {
    if 'a' <= c <= 'z' then (c as int - 32) as char else c
  }

  function ToLower(c: char): char {
    if 'A' <= c <= 'Z' then (c as int + 32) as char else c
  }

  /** `s.toLowerCase()` on ASCII letters. */
  function Lower(s: string): (r: string)
    ensures |r| == |s|
    ensures forall k :: 0 <= k < |s| ==> r[k] == ToLower(s[k])
  {
    if |s| == 0 then "" else [ToLower(s[0])] + Lower(s[1..])
  }

  function DigitChar(d: nat): char
    requires d < 10
  {
    ('0' as int + d) as char
  }

  function DigitValue(c: char): nat
    requires IsDigit(c)
  {
    c as int - '0' as int
  }

  /** The decimal digits of a natural number, as `String(n)` writes them. */
  function NatText(n: nat): (r: string)
    ensures |r| > 0 && forall k :: 0 <= k < |r| ==> IsDigit(r[k])
    ensures r[0] == '0' ==> n == 0
    decreases n
  {
    if n < 10 then [DigitChar(n)] else NatText(n / 10) + [DigitChar(n % 10)]
  }

  /** `String(n)` for an integer. */
  function IntText(n: int): string {
    if n < 0 then "-" + NatText(-n) else NatText(n)
  }

  predicate AllDigits(s: string) {
    forall k :: 0 <= k < |s| ==> IsDigit(s[k])
  }

  /** The value of a string of decimal digits, read left to right. */
  function DigitsValue(s: string): nat
    requires AllDigits(s)
    decreases |s|
  {
    if |s| == 0 then 0 else DigitsValue(s[..|s| - 1]) * 10 + DigitValue(s[|s| - 1])
  }

  /**
    `Number(s)` restricted to integers written in decimal: an optional sign
    followed by at least one digit.
   */
  function ParseInt(s: string): Option<int> {
    if |s| > 0 && (s[0] == '-' || s[0] == '+') then
      var digits := s[1..];
      if |digits| > 0 && AllDigits(digits) then
        var v: int := DigitsValue(digits);
        Some(if s[0] == '-' then -v else v)
      else None
    else if |s| > 0 && AllDigits(s) then Some(DigitsValue(s))
    else None
  }

  /** The base a `0x`, `0o` or `0b` prefix letter selects, in either case. */
  function RadixOf(c: char): Option<nat> {
    if c == 'x' || c == 'X' then Some(16)
    else if c == 'o' || c == 'O' then Some(8)
    else if c == 'b' || c == 'B' then Some(2)
    else None
  }

  /** The value of one digit in bases up to 16, letters in either case. */
  function HexDigitValue(c: char): Option<nat> {
    if IsDigit(c) then Some(DigitValue(c))
    else if 'a' <= c <= 'f' then Some(c as int - 'a' as int + 10)
    else if 'A' <= c <= 'F' then Some(c as int - 'A' as int + 10)
    else None
  }

  predicate AllRadixDigits(s: string, radix: nat) {
    forall k :: 0 <= k < |s| ==> HexDigitValue(s[k]).Some? && HexDigitValue(s[k]).value < radix
  }

  /** The value of a string of digits in the given base, read left to right. */
  function RadixValue(s: string, radix: nat): nat
    requires AllRadixDigits(s, radix)
    decreases |s|
  {
    if |s| == 0 then 0 else RadixValue(s[..|s| - 1], radix) * radix + HexDigitValue(s[|s| - 1]).value
  }

  /**
    `Number(s)` on trimmed, non-empty text, where it gives an integer the
    model can hold: a signed decimal integer, or an unsigned `0x`, `0o` or
    `0b` literal. Text with a fraction or an exponent is not read.
   */
  function JsNumber(s: string): (r: Option<int>)
    ensures AllDigits(s) && |s| > 0 ==> r == Some(DigitsValue(s))
  {
    if |s| > 2 && s[0] == '0' && RadixOf(s[1]).Some? then
      var digits := s[2..];
      if AllRadixDigits(digits, RadixOf(s[1]).value) then Some(RadixValue(digits, RadixOf(s[1]).value)) else None
    else ParseInt(s)
  }

  /** `Number` reads hexadecimal, octal and binary literals. */
  lemma RadixLiterals()
    ensures JsNumber("0x10") == Some(16) && JsNumber("0XfF") == Some(255)
    ensures JsNumber("0o17") == Some(15) && JsNumber("0b11") == Some(3)
    ensures JsNumber("0x") == None && JsNumber("-0x10") == None && JsNumber("0b12") == None
  {
    HexLiterals();
    OctalBinaryLiterals();
    RejectedLiterals();
  }

  lemma HexLiterals()
    ensures JsNumber("0x10") == Some(16) && JsNumber("0XfF") == Some(255)
  {
    assert "0x10"[2..] == "10" && "10"[..1] == "1" && "1"[..0] == "";
    assert RadixValue("1", 16) == 1;
    assert RadixValue("10", 16) == 16;
    assert "0XfF"[2..] == "fF" && "fF"[..1] == "f" && "f"[..0] == "";
    assert RadixValue("f", 16) == 15;
    assert RadixValue("fF", 16) == 255;
  }

  lemma OctalBinaryLiterals()
    ensures JsNumber("0o17") == Some(15) && JsNumber("0b11") == Some(3)
  {
    assert "0o17"[2..] == "17" && "17"[..1] == "1" && "1"[..0] == "";
    assert RadixValue("1", 8) == 1;
    assert RadixValue("17", 8) == 15;
    assert "0b11"[2..] == "11" && "11"[..1] == "1";
    assert RadixValue("1", 2) == 1;
    assert RadixValue("11", 2) == 3;
  }

  lemma RejectedLiterals()
    ensures JsNumber("0x") == None && JsNumber("-0x10") == None && JsNumber("0b12") == None
  {
    assert !AllRadixDigits("0b12"[2..], 2) by { assert "0b12"[2..][1] == '2'; }
    assert !AllDigits("-0x10"[1..]) by { assert "-0x10"[1..][1] == 'x'; }
  }

  /** The decimal text of an integer is read back as that integer. */
  lemma JsNumberText(n: int)
    ensures JsNumber(IntText(n)) == Some(n)
  {
    ParseIntText(n);
    var t := IntText(n);
    if n >= 0 && |t| > 2 {
      assert IsDigit(t[1]);
    }
  }

  lemma {:induction false} DigitsValueNatText(n: nat)
    ensures DigitsValue(NatText(n)) == n
    decreases n
  {
    if n >= 10 {
      DigitsValueNatText(n / 10);
      var t := NatText(n);
      assert t[..|t| - 1] == NatText(n / 10);
    }
  }

  /** Reading back the decimal text of an integer gives the integer. */
  lemma ParseIntText(n: int)
    ensures ParseInt(IntText(n)) == Some(n)
  {
    if n < 0 {
      DigitsValueNatText(-n);
      assert IntText(n)[1..] == NatText(-n);
    } else {
      DigitsValueNatText(n);
    }
  }

  /** `Array.prototype.slice(0, n)` on a sequence: a negative count counts from the end. */
  function JsTake<T>(xs: seq<T>, n: int): (r: seq<T>)
    ensures n >= 0 ==> r == xs[..if n <= |xs| then n else |xs|]
    ensures n < 0 ==> r == xs[..if |xs| + n >= 0 then |xs| + n else 0]
  {
    if n >= 0 then (if n <= |xs| then xs[..n] else xs)
    else (if |xs| + n >= 0 then xs[..|xs| + n] else [])
  }

  /** `xs.slice(-n)` for a positive count: the last `n` elements. */
  function LastN<T(==)>(xs: seq<T>, n: nat): (r: seq<T>)
    requires n > 0
    ensures |r| == if |xs| < n then |xs| else n
    ensures IsSuffixSeq(r, xs)
  {
    if |xs| <= n then xs else xs[|xs| - n..]
  }

  predicate IsSuffixSeq<T(==)>(r: seq<T>, xs: seq<T>) {
    |r| <= |xs| && xs[|xs| - |r|..] == r
  }

  function Reverse<T>(xs: seq<T>): (r: seq<T>)
    ensures |r| == |xs|
    ensures forall k :: 0 <= k < |xs| ==> r[k] == xs[|xs| - 1 - k]
  {
    if |xs| == 0 then [] else Reverse(xs[1..]) + [xs[0]]
  }

  /** `xs.filter(Boolean)` on strings: drops the empty ones, keeping order. */
  function NonEmpty(xs: seq<string>): (r: seq<string>)
    ensures forall k :: 0 <= k < |r| ==> r[k] != ""
    ensures |r| <= |xs|
  {
    if |xs| == 0 then []
    else if xs[0] == "" then NonEmpty(xs[1..])
    else [xs[0]] + NonEmpty(xs[1..])
  }
  /** Filtering out empty strings keeps a list with none. */
  lemma {:induction false} NonEmptyKeepsAll(xs: seq<string>)
    requires forall k :: 0 <= k < |xs| ==> xs[k] != ""
    ensures NonEmpty(xs) == xs
    decreases |xs|
  {
    if |xs| > 0 {
      NonEmptyKeepsAll(xs[1..]);
      assert xs == [xs[0]] + xs[1..];
    }
  }


  /** `xs.map(s => s.trim())`. */
  function TrimAll(xs: seq<string>): (r: seq<string>)
    ensures |r| == |xs|
    ensures forall k :: 0 <= k < |xs| ==> r[k] == Trim(xs[k])
  {
    if |xs| == 0 then [] else [Trim(xs[0])] + TrimAll(xs[1..])
  }

  /** Concatenation of a sequence of strings (`join('')`). */
  function Concat(xs: seq<string>): string {
    if |xs| == 0 then "" else xs[0] + Concat(xs[1..])
  }

  /** Lexicographic order on strings by character code (the default `Array.prototype.sort`). */
  predicate LexLess(a: string, b: string)
    decreases |a|
  {
    if |a| == 0 then |b| > 0
    else if |b| == 0 then false
    else if a[0] != b[0] then a[0] < b[0]
    else LexLess(a[1..], b[1..])
  }

  lemma {:induction false} LexLessTransitive(a: string, b: string, c: string)
    requires LexLess(a, b) && LexLess(b, c)
    ensures LexLess(a, c)
    decreases |a|
  {
    if |a| > 0 && a[0] == b[0] && b[0] == c[0] {
      LexLessTransitive(a[1..], b[1..], c[1..]);
    }
  }

  lemma {:induction false} LexLessIrreflexive(a: string)
    ensures !LexLess(a, a)
    decreases |a|
  {
    if |a| > 0 {
      LexLessIrreflexive(a[1..]);
    }
  }

  /** Two different strings are ordered one way or the other. */
  lemma {:induction false} LexLessTotal(a: string, b: string)
    requires a != b
    ensures LexLess(a, b) || LexLess(b, a)
    decreases |a|
  {
    if |a| > 0 && |b| > 0 && a[0] == b[0] {
      assert a == [a[0]] + a[1..] && b == [b[0]] + b[1..];
      LexLessTotal(a[1..], b[1..]);
    }
  }

  /** `a` is `b` with some elements left out, the rest in order. */
  predicate IsSubsequence(a: seq<string>, b: seq<string>)
    decreases |b|
  {
    |a| == 0 || (|b| > 0 && if a[0] == b[0] then IsSubsequence(a[1..], b[1..]) else IsSubsequence(a, b[1..]))
  }

  /** The lines, each ended by a newline (a file of lines). */
  function EndLines(lines: seq<string>): string {
    if |lines| == 0 then "" else lines[0] + "\n" + EndLines(lines[1..])
  }

  lemma {:induction false} EndLinesAppend(a: seq<string>, b: seq<string>)
    ensures EndLines(a + b) == EndLines(a) + EndLines(b)
    decreases |a|
  {
    if |a| > 0 {
      EndLinesAppend(a[1..], b);
      assert (a + b)[1..] == a[1..] + b;
      assert (a[0] + "\n") + (EndLines(a[1..]) + EndLines(b)) == (a[0] + "\n" + EndLines(a[1..])) + EndLines(b);
    } else {
      assert a + b == b;
    }
  }
}

=== FILE: tool_utils.dfy ===
/**
  The helpers of src/core/tools/toolUtils.ts shared by the tool handlers:
  the within-root path check, single-quote escaping for shell commands and
  the PascalCase export name.
 */
module ToolUtils {
  import opened Common
  import opened Text
  import opened Paths

  const MustBeAbsolute := "File path must be absolute"

  /**
    `ensureAbsoluteWithinRoot`: `None` when the path is accepted, otherwise the
    error text. Relative paths are resolved against the working directory,
    which the CLI sets to the project root.
   */
  function EnsureWithinRoot(p: string, root: string): (r: Option<string>)
    ensures !IsAbsolute(p) ==> r == Some(MustBeAbsolute)
    ensures IsAbsolute(p) && r.Some? ==> r.value == "Path must be within project root: " + Resolve(root, root)
  {
    if !IsAbsolute(p) then Some(MustBeAbsolute)
    else if !IsPrefix(Resolve(root, root) + [Sep], Resolve(root, p)) then
      Some("Path must be within project root: " + Resolve(root, root))
    else None
  }

  /** `toRelativePath(filePath, root)`. */
  function ToRelative(p: string, root: string): string {
    Relative(root, root, p)
  }

  lemma {:induction false} SplitAfterJoin(xs: seq<string>, c: char, tail: string)
    requires |xs| >= 1
    requires forall k :: 0 <= k < |xs| ==> c !in xs[k]
    ensures Split(JoinWith(xs, [c]) + [c] + tail, c) == xs + Split(tail, c)
    decreases |xs|
  {
    var x := xs[0];
    if |xs| == 1 {
      FindFirstChar(x, c, tail);
      var s := x + [c] + tail;
      assert s[..|x|] == x && s[|x| + 1..] == tail;
    } else {
      var rest := JoinWith(xs[1..], [c]) + [c] + tail;
      var s := x + [c] + rest;
      assert JoinWith(xs, [c]) + [c] + tail == s;
      FindFirstChar(x, c, rest);
      assert s[..|x|] == x && s[|x| + 1..] == rest;
      SplitAfterJoin(xs[1..], c, tail);
      assert xs == [x] + xs[1..];
    }
  }

  /** Text prefix of a rendered path followed by `/` means a proper segment prefix. */
  lemma RenderPrefixSegments(rs: seq<string>, ps: seq<string>)
    requires Clean(rs) && Clean(ps)
    requires IsPrefix(Render(rs) + [Sep], Render(ps))
    ensures |rs| > 0 && rs < ps
  {
    RenderPiecesJoin(rs);
    SplitRender(ps);
    var tail := Render(ps)[|Render(rs)| + 1..];
    assert Render(ps) == JoinWith(RenderPieces(rs), [Sep]) + [Sep] + tail;
    SplitAfterJoin(RenderPieces(rs), Sep, tail);
    var t := Split(tail, Sep);
    assert RenderPieces(ps) == RenderPieces(rs) + t;
    if rs == [] {
      assert false;
    }
    assert ps == RenderPieces(ps)[1..];
    assert ps == rs + t;
  }

  /** A proper segment prefix shows up as a text prefix followed by `/`. */
  lemma SegmentsPrefixRender(rs: seq<string>, ps: seq<string>)
    requires Clean(rs) && Clean(ps)
    requires |rs| > 0 && rs < ps
    ensures IsPrefix(Render(rs) + [Sep], Render(ps))
  {
    var rest := ps[|rs|..];
    assert ps == rs + rest;
    JoinWithAppend(rs, rest, [Sep]);
    assert Render(ps) == Render(rs) + [Sep] + JoinWith(rest, [Sep]);
  }

  /**
    A path passes the check exactly when it is absolute and its resolved
    segments extend the root's by at least one segment; a root that resolves
    to `/` therefore admits no path at all.
   */
  lemma WithinRootIff(p: string, root: string)
    ensures EnsureWithinRoot(p, root) == None <==>
      IsAbsolute(p) && |Segments(root, root)| > 0 && Segments(root, root) < Segments(root, p)
  {
    var rs := Segments(root, root);
    var ps := Segments(root, p);
    assert Resolve(root, root) == Render(rs) && Resolve(root, p) == Render(ps);
    if IsAbsolute(p) && IsPrefix(Render(rs) + [Sep], Render(ps)) {
      RenderPrefixSegments(rs, ps);
    }
    if IsAbsolute(p) && |rs| > 0 && rs < ps {
      SegmentsPrefixRender(rs, ps);
    }
  }

  /** A path inside the root is named relative to it by the segments below the root: never by `..`. */
  lemma WithinRootRelative(p: string, root: string)
    requires EnsureWithinRoot(p, root) == None
    ensures Segments(root, root) < Segments(root, p) &&
      ToRelative(p, root) == JoinWith(Segments(root, p)[|Segments(root, root)|..], [Sep])
    ensures Segments(root, root) < Segments(root, p) &&
      forall k :: |Segments(root, root)| <= k < |Segments(root, p)| ==> Segments(root, p)[k] != ".."
  {
    WithinRootIff(p, root);
    var rs := Segments(root, root);
    var ps := Segments(root, p);
    assert ToRelative(p, root) == JoinWith(RelativePieces(rs, ps), [Sep]);
    RelativeBelow(rs, ps);
  }

  lemma RelativeBelow(rs: seq<string>, ps: seq<string>)
    requires Clean(ps) && rs < ps
    ensures RelativePieces(rs, ps) == ps[|rs|..]
  {
    CommonLengthPrefix(rs, ps);
  }

  lemma {:induction false} CommonLengthPrefix(a: seq<string>, b: seq<string>)
    requires a <= b
    ensures CommonLength(a, b) == |a|
    decreases |a|
  {
    if |a| > 0 {
      CommonLengthPrefix(a[1..], b[1..]);
    }
  }

  /** `shellEscapeSingleQuotes`: every `'` becomes `'"'"'`. */
  function ShellEscape(s: string): (r: string)
    ensures '\'' !in s ==> r == s
    ensures |r| >= |s|
  {
    if |s| == 0 then ""
    else (if s[0] == '\'' then "'\"'\"'" else [s[0]]) + ShellEscape(s[1..])
  }

  /**
    How a POSIX shell reads one word built from quoted and bare pieces:
    single quotes keep everything up to the next `'`, double quotes keep
    everything up to the next `"` (no `$`, backquote or backslash inside is
    considered), and a bare character stands for itself.
   */
  function ShellWord(s: string): Option<string>
    decreases |s|
  {
    if |s| == 0 then Some("")
    else if s[0] == '\'' || s[0] == '"' then
      match Find(s[1..], [s[0]])
      case None => None
      case Some(i) =>
        match ShellWord(s[1..][i + 1..])
        case None => None
        case Some(w) => Some(s[1..][..i] + w)
    else
      match ShellWord(s[1..])
      case None => None
      case Some(w) => Some([s[0]] + w)
  }

  /** The quoted piece `'…'` read back from the front of a word ending at the next `'`. */
  lemma SingleQuotedPiece(body: string, rest: string)
    requires '\'' !in body
    ensures ShellWord("'" + body + "'" + rest) ==
      match ShellWord(rest) case None => None case Some(w) => Some(body + w)
  {
    var s := "'" + body + "'" + rest;
    assert s[1..] == body + ['\''] + rest;
    FindFirstChar(body, '\'', rest);
    assert s[1..][..|body|] == body;
    assert s[1..][|body| + 1..] == rest;
  }

  /** The double-quoted `"'"` at the front of a word reads as one `'`. */
  lemma DoubleQuotedQuote(tail: string)
    ensures ShellWord("\"'\"" + tail) ==
      match ShellWord(tail) case None => None case Some(w) => Some("'" + w)
  {
    var dq := "\"'\"" + tail;
    assert dq[1..] == "'" + "\"" + tail;
    FindFirstChar("'", '"', tail);
    assert dq[1..][..1] == "'";
    assert dq[1..][2..] == tail;
  }

  lemma {:induction false} ShellEscapeRoundTrip'(s: string)
    ensures ShellWord("'" + ShellEscape(s) + "'") == Some(s)
    decreases |s|
  {
    var p := PlainPrefix(s);
    var n := |p|;
    assert s[..n] == p;
    if n == |s| {
      assert p == s;
      EscapePlainRoundTrip(s);
    } else {
      var rest := s[n + 1..];
      assert s == p + "'" + rest;
      ShellEscapeRoundTrip'(rest);
      EscapeQuoteRoundTrip(p, rest);
    }
  }

  /** Text without a single quote reads back from its quoted form. */
  lemma EscapePlainRoundTrip(s: string)
    requires '\'' !in s
    ensures ShellWord("'" + ShellEscape(s) + "'") == Some(s)
  {
    EscapePlain(s);
    SingleQuotedPiece(s, "");
    assert ShellWord("") == Some("");
    assert "'" + s + "'" + "" == "'" + ShellEscape(s) + "'";
    assert s + "" == s;
  }

  /** One single quote and the text before it: if the rest reads back, so does the whole. */
  lemma EscapeQuoteRoundTrip(p: string, rest: string)
    requires '\'' !in p
    requires ShellWord("'" + ShellEscape(rest) + "'") == Some(rest)
    ensures ShellWord("'" + ShellEscape(p + "'" + rest) + "'") == Some(p + "'" + rest)
  {
    var e := ShellEscape(rest);
    EscapeSplit(p, rest);
    QuotedSplit(p, e);
    QuotedPieces(p, e, rest);
  }

  /** The pieces of a quoted word with one escaped quote read back in order. */
  lemma QuotedPieces(p: string, e: string, rest: string)
    requires '\'' !in p
    requires ShellWord("'" + e + "'") == Some(rest)
    ensures ShellWord("'" + p + "'" + ("\"'\"" + ("'" + e + "'"))) == Some(p + "'" + rest)
  {
    var tail := "'" + e + "'";
    DoubleQuotedQuote(tail);
    SingleQuotedPiece(p, "\"'\"" + tail);
    assert p + ("'" + rest) == p + "'" + rest;
  }

  lemma QuotedSplit(p: string, e: string)
    ensures "'" + (p + "'\"'\"'" + e) + "'" == "'" + p + "'" + ("\"'\"" + ("'" + e + "'"))
  {
  }

  /** Quoting the escaped text in single quotes makes the shell read back exactly the original text. */
  lemma ShellEscapeRoundTrip(s: string)
    ensures ShellWord("'" + ShellEscape(s) + "'") == Some(s)
  {
    ShellEscapeRoundTrip'(s);
  }

  /** The longest prefix without a single quote. */
  function PlainPrefix(s: string): (p: string)
    ensures '\'' !in p && IsPrefix(p, s)
    ensures |p| < |s| ==> s[|p|] == '\''
  {
    if |s| == 0 || s[0] == '\'' then "" else [s[0]] + PlainPrefix(s[1..])
  }

  lemma {:induction false} EscapePlain(s: string)
    requires '\'' !in s
    ensures ShellEscape(s) == s
  {
  }

  lemma {:induction false} EscapeSplit(p: string, rest: string)
    requires '\'' !in p
    ensures ShellEscape(p + "'" + rest) == p + "'\"'\"'" + ShellEscape(rest)
    decreases |p|
  {
    var s := p + "'" + rest;
    if |p| == 0 {
      assert s[0] == '\'' && s[1..] == rest;
    } else {
      assert s[0] == p[0] && s[1..] == p[1..] + "'" + rest;
      EscapeSplit(p[1..], rest);
    }
  }

  /**
    `toPascalCase`: the alphanumeric runs of the input, each with its first
    character upper-cased, concatenated in order; every other character only
    separates runs.
   */
  function PascalCase(s: string): (r: string)
    ensures forall k :: 0 <= k < |r| ==> IsAlnum(r[k])
  {
    Pascal(s, true)
  }

  function Pascal(s: string, atStart: bool): (r: string)
    ensures forall k :: 0 <= k < |r| ==> IsAlnum(r[k])
  {
    if |s| == 0 then ""
    else if IsAlnum(s[0]) then [if atStart then ToUpper(s[0]) else s[0]] + Pascal(s[1..], false)
    else Pascal(s[1..], true)
  }

  /** A word made only of letters and digits comes out with its first character upper-cased. */
  lemma PascalRun(w: string)
    requires |w| > 0 && forall k :: 0 <= k < |w| ==> IsAlnum(w[k])
    ensures PascalCase(w) == [ToUpper(w[0])] + w[1..]
  {
    PascalRest(w[1..]);
  }

  lemma {:induction false} PascalRest(w: string)
    requires forall k :: 0 <= k < |w| ==> IsAlnum(w[k])
    ensures Pascal(w, false) == w
    decreases |w|
  {
    if |w| > 0 {
      PascalRest(w[1..]);
    }
  }

  /** Runs separated by a non-alphanumeric character are converted independently and concatenated. */
  lemma {:induction false} PascalSeparated(a: string, sep: char, b: string, atStart: bool)
    requires !IsAlnum(sep)
    ensures Pascal(a + [sep] + b, atStart) == Pascal(a, atStart) + PascalCase(b)
    decreases |a|
  {
    var s := a + [sep] + b;
    if |a| == 0 {
      assert s[0] == sep && s[1..] == b;
    } else {
      assert s[0] == a[0] && s[1..] == a[1..] + [sep] + b;
      PascalSeparated(a[1..], sep, b, IsAlnum(a[0]) == false);
    }
  }

  /** Input with no letter or digit gives the empty name. */
  lemma {:induction false} PascalNoAlnum(s: string, atStart: bool)
    requires forall k :: 0 <= k < |s| ==> !IsAlnum(s[k])
    ensures Pascal(s, atStart) == ""
    decreases |s|
  {
    if |s| > 0 {
      PascalNoAlnum(s[1..], true);
    }
  }
}

=== FILE: validator.dfy ===
/**
  `validateAndRunToolCall` of src/core/tools/toolValidator.ts: the shape
  check, the six zod schemas as tables of field rules, the typed tool call
  a successful parse yields, and the dispatch to the handlers. The handlers
  other than the shell result wrapping are oracles, and so is the text of a
  zod error.
 */
module Validator {
  import opened Common
  import opened Text
  import opened Json
  import Edit

  /** What a schema demands of one field of `toolOptions`. */
  datatype Kind =
    | Str(minLength: nat)      // z.string().min(n)
    | Int(least: int)          // z.number().int() with a lower bound: 0 for nonnegative, 1 for positive
    | Num                      // z.number() with no refinement

  datatype FieldSpec = FieldSpec(key: string, kind: Kind, optional: bool)

  const ToolNames: seq<string> := ["read_file", "edit_file", "shell_command", "glob", "grep", "new_file"]

  /** The `toolOptions` object of each schema. */
  function Schema(tool: string): seq<FieldSpec> {
    match tool
    case "read_file" => [FieldSpec("absolutePath", Str(1), false), FieldSpec("startLine", Int(0), true), FieldSpec("endLine", Int(0), true)]
    case "edit_file" => [FieldSpec("filePath", Str(1), false), FieldSpec("oldString", Str(0), false),
                         FieldSpec("newString", Str(0), false), FieldSpec("expected_replacements", Int(1), true)]
    case "shell_command" => [FieldSpec("command", Str(1), false), FieldSpec("description", Str(0), true), FieldSpec("directory", Str(0), true)]
    case "glob" => [FieldSpec("pattern", Str(1), false)]
    case "grep" => [FieldSpec("pattern", Str(1), false), FieldSpec("path", Str(0), true), FieldSpec("include", Str(0), true)]
    case "new_file" => [FieldSpec("filePath", Str(1), false), FieldSpec("content", Str(0), false)]
    case _ => []
  }

  /** One field rule: a missing key is allowed only for an optional field. */
  predicate FieldOk(opts: map<string, Json>, f: FieldSpec) {
    if f.key !in opts then f.optional
    else match f.kind
      case Str(n) => opts[f.key].JStr? && |opts[f.key].s| >= n
      case Int(least) => opts[f.key].JNum? && opts[f.key].n >= least
      case Num => opts[f.key].JNum?
  }

  predicate Conforms(opts: map<string, Json>, schema: seq<FieldSpec>) {
    forall k :: 0 <= k < |schema| ==> FieldOk(opts, schema[k])
  }

  /** A tool call after a successful parse: the keys of `toolOptions` the schema does not know are stripped. */
  datatype ToolCall =
    | ReadFileCall(absolutePath: string, startLine: Option<int>, endLine: Option<int>)
    | EditFileCall(filePath: string, oldString: string, newString: string, expectedReplacements: Option<int>)
    | ShellCall(command: string, description: Option<string>, directory: Option<string>)
    | GlobCall(pattern: string)
    | GrepCall(pattern: string, path: Option<string>, includeGlob: Option<string>)
    | NewFileCall(filePath: string, content: string)

  function ToolName(c: ToolCall): (n: string)
    ensures n in ToolNames
  {
    match c
    case ReadFileCall(_, _, _) => "read_file"
    case EditFileCall(_, _, _, _) => "edit_file"
    case ShellCall(_, _, _) => "shell_command"
    case GlobCall(_) => "glob"
    case GrepCall(_, _, _) => "grep"
    case NewFileCall(_, _) => "new_file"
  }

  /** The constraints of the schemas, written directly on the typed call. */
  predicate ValidCall(c: ToolCall) {
    match c
    case ReadFileCall(p, s, e) => p != "" && (s.Some? ==> s.value >= 0) && (e.Some? ==> e.value >= 0)
    case EditFileCall(p, _, _, n) => p != "" && (n.Some? ==> n.value >= 1)
    case ShellCall(cmd, _, _) => cmd != ""
    case GlobCall(p) => p != ""
    case GrepCall(p, _, _) => p != ""
    case NewFileCall(p, _) => p != ""
  }

  function StrField(opts: map<string, Json>, key: string): string {
    if key in opts && opts[key].JStr? then opts[key].s else ""
  }

  function OptStrField(opts: map<string, Json>, key: string): Option<string> {
    if key in opts && opts[key].JStr? then Some(opts[key].s) else None
  }

  function OptInt(opts: map<string, Json>, key: string): Option<int> {
    if key in opts && opts[key].JNum? then Some(opts[key].n) else None
  }

  /** The parsed data of a conforming `toolOptions`. */
  function Extract(tool: string, opts: map<string, Json>): ToolCall
    requires tool in ToolNames
  {
    match tool
    case "read_file" => ReadFileCall(StrField(opts, "absolutePath"), OptInt(opts, "startLine"), OptInt(opts, "endLine"))
    case "edit_file" => EditFileCall(StrField(opts, "filePath"), StrField(opts, "oldString"), StrField(opts, "newString"),
                                     OptInt(opts, "expected_replacements"))
    case "shell_command" => ShellCall(StrField(opts, "command"), OptStrField(opts, "description"), OptStrField(opts, "directory"))
    case "glob" => GlobCall(StrField(opts, "pattern"))
    case "grep" => GrepCall(StrField(opts, "pattern"), OptStrField(opts, "path"), OptStrField(opts, "include"))
    case "new_file" => NewFileCall(StrField(opts, "filePath"), StrField(opts, "content"))
  }

  /** `XSchema.safeParse(data)` for the schema of `tool`. */
  function SafeParse(tool: string, data: Json): (r: Option<ToolCall>)
    requires tool in ToolNames
    ensures r.Some? ==> ToolName(r.value) == tool && ValidCall(r.value)
  {
    if data.JObj? && "tool" in data.fields && data.fields["tool"] == JStr(tool)
      && "toolOptions" in data.fields && data.fields["toolOptions"].JObj?
      && Conforms(data.fields["toolOptions"].fields, Schema(tool))
    then
      var opts := data.fields["toolOptions"].fields;
      ConformingIsValid(tool, opts);
      Some(Extract(tool, opts))
    else None
  }

  lemma ConformingIsValid(tool: string, opts: map<string, Json>)
    requires tool in ToolNames && Conforms(opts, Schema(tool))
    ensures ValidCall(Extract(tool, opts)) && ToolName(Extract(tool, opts)) == tool
  {
    var s := Schema(tool);
    assert FieldOk(opts, s[0]);
    if tool == "read_file" {
      assert FieldOk(opts, s[1]) && FieldOk(opts, s[2]);
    } else if tool == "edit_file" {
      assert FieldOk(opts, s[3]);
    }
  }

  function PutText(m: map<string, Json>, key: string, v: Option<string>): (r: map<string, Json>)
    ensures v.Some? ==> r == m[key := JStr(v.value)]
    ensures v.None? ==> r == m
  {
    if v.Some? then m[key := JStr(v.value)] else m
  }

  function PutInt(m: map<string, Json>, key: string, v: Option<int>): (r: map<string, Json>)
    ensures v.Some? ==> r == m[key := JNum(v.value)]
    ensures v.None? ==> r == m
  {
    if v.Some? then m[key := JNum(v.value)] else m
  }

  /** The `toolOptions` object of a typed call. */
  function EncodeOptions(c: ToolCall): map<string, Json> {
    match c
    case ReadFileCall(p, s, e) => PutInt(PutInt(map["absolutePath" := JStr(p)], "startLine", s), "endLine", e)
    case EditFileCall(p, o, n, k) =>
      PutInt(map["filePath" := JStr(p), "oldString" := JStr(o), "newString" := JStr(n)], "expected_replacements", k)
    case ShellCall(cmd, d, dir) => PutText(PutText(map["command" := JStr(cmd)], "description", d), "directory", dir)
    case GlobCall(p) => map["pattern" := JStr(p)]
    case GrepCall(p, path, inc) => PutText(PutText(map["pattern" := JStr(p)], "path", path), "include", inc)
    case NewFileCall(p, content) => map["filePath" := JStr(p), "content" := JStr(content)]
  }

  /** A typed call as the JSON payload the model sends. */
  function Encode(c: ToolCall): Json {
    JObj(map["tool" := JStr(ToolName(c)), "toolOptions" := JObj(EncodeOptions(c))])
  }

  /** Every valid call survives encoding and parsing unchanged. */
  lemma ParseEncode(c: ToolCall)
    requires ValidCall(c)
    ensures SafeParse(ToolName(c), Encode(c)) == Some(c)
  {
    var opts := EncodeOptions(c);
    var s := Schema(ToolName(c));
    assert Conforms(opts, s) && Extract(ToolName(c), opts) == c by {
      match c
      case ReadFileCall(p, st, e) => EncodeRead(p, st, e);
      case EditFileCall(p, o, n, k) => EncodeEdit(p, o, n, k);
      case ShellCall(cmd, d, dir) => EncodeShell(cmd, d, dir);
      case GlobCall(p) =>
      case GrepCall(p, path, inc) => EncodeGrep(p, path, inc);
      case NewFileCall(p, content) =>
    }
  }

  lemma EncodeRead(p: string, s: Option<int>, e: Option<int>)
    requires ValidCall(ReadFileCall(p, s, e))
    ensures var opts := EncodeOptions(ReadFileCall(p, s, e));
      Conforms(opts, Schema("read_file")) && Extract("read_file", opts) == ReadFileCall(p, s, e)
  {
    var opts := EncodeOptions(ReadFileCall(p, s, e));
    var sc := Schema("read_file");
    assert FieldOk(opts, sc[0]) && FieldOk(opts, sc[1]) && FieldOk(opts, sc[2]);
  }

  lemma EncodeEdit(p: string, o: string, n: string, k: Option<int>)
    requires ValidCall(EditFileCall(p, o, n, k))
    ensures var opts := EncodeOptions(EditFileCall(p, o, n, k));
      Conforms(opts, Schema("edit_file")) && Extract("edit_file", opts) == EditFileCall(p, o, n, k)
  {
    var opts := EncodeOptions(EditFileCall(p, o, n, k));
    var sc := Schema("edit_file");
    assert FieldOk(opts, sc[0]) && FieldOk(opts, sc[1]) && FieldOk(opts, sc[2]) && FieldOk(opts, sc[3]);
  }

  lemma EncodeShell(cmd: string, d: Option<string>, dir: Option<string>)
    requires ValidCall(ShellCall(cmd, d, dir))
    ensures var opts := EncodeOptions(ShellCall(cmd, d, dir));
      Conforms(opts, Schema("shell_command")) && Extract("shell_command", opts) == ShellCall(cmd, d, dir)
  {
    var opts := EncodeOptions(ShellCall(cmd, d, dir));
    var sc := Schema("shell_command");
    assert FieldOk(opts, sc[0]) && FieldOk(opts, sc[1]) && FieldOk(opts, sc[2]);
  }

  lemma EncodeGrep(p: string, path: Option<string>, inc: Option<string>)
    requires ValidCall(GrepCall(p, path, inc))
    ensures var opts := EncodeOptions(GrepCall(p, path, inc));
      Conforms(opts, Schema("grep")) && Extract("grep", opts) == GrepCall(p, path, inc)
  {
    var opts := EncodeOptions(GrepCall(p, path, inc));
    var sc := Schema("grep");
    assert FieldOk(opts, sc[0]) && FieldOk(opts, sc[1]) && FieldOk(opts, sc[2]);
  }

  /** What the parse accepts is exactly what encoding a valid call can produce, up to stripped keys. */
  lemma EncodeParse(tool: string, data: Json)
    requires tool in ToolNames && SafeParse(tool, data).Some?
    ensures SafeParse(tool, Encode(SafeParse(tool, data).value)) == SafeParse(tool, data)
  {
    ParseEncode(SafeParse(tool, data).value);
  }

  /** Options of the shell subprocess. */
  datatype ShellOptions = ShellOptions(command: string, description: Option<string>, directory: Option<string>)

  datatype GrepOptions = GrepOptions(pattern: string, path: Option<string>, includeGlob: Option<string>)

  /**
    The handlers the dispatcher calls. editTool.ts, globTool.ts, grepTool.ts
    and newFileTool.ts of src/ are not part of this model; `editIsAsync`
    says whether `editFile` returns a promise, which the dispatcher does not
    await. The read handler is async and not awaited either: of its outcome
    only whether its promise rejects matters.
   */
  datatype Handlers = Handlers(
    read: (string, Option<int>, Option<int>) -> Outcome,
    edit: Edit.EditOptions -> Outcome,
    editIsAsync: bool,
    exec: ShellOptions -> ExecResult,
    glob: string -> Outcome,
    grep: GrepOptions -> Outcome,
    newFile: (string, string) -> Outcome)

  /** A handler's value: a result, or a promise nobody awaited, which may reject. */
  datatype HandlerValue = Settled(value: ToolResult) | Pending(rejects: bool)

  /** The object `validateAndRunToolCall` resolves to. */
  datatype RunResult =
    | Failure(error: string)
    | Success(data: ToolCall, result: HandlerValue)

  /** `result.result?.LLMresult`: undefined for failures and for unawaited promises. */
  function LlmResultOf(r: RunResult): (s: Option<string>)
    ensures s.Some? <==> r.Success? && r.result.Settled?
  {
    if r.Success? && r.result.Settled? then Some(r.result.value.llmResult) else None
  }

  /**
    The result carries a promise that rejects and that nobody awaits or
    handles: Node reports the unhandled rejection and ends the process.
   */
  predicate LeavesRejection(r: RunResult) {
    r.Success? && r.result.Pending? && r.result.rejects
  }

  /** Written in two pieces so that the verifier can see its first characters. */
  const FormatError := "Invalid tool" + " call format. Expected object with \"tool\" property"

  function UnknownToolError(tool: Json): string {
    "Unknown tool: " + JsString(tool) + ". Supported tools: read_file, edit_file, shell_command, glob, grep, new_file"
  }

  const RangeOrderError := "startLine cannot be greater than endLine"

  function CaughtError(message: string): string {
    "Failed to parse tool call: " + message
  }

  function SchemaError(tool: string, zodMessage: string): string {
    "Invalid " + tool + " toolOptions: " + zodMessage
  }

  /** ` (exit code: n)` when the exit code is not null. */
  function ExitPart(code: Option<int>): string {
    if code.Some? then " (exit code: " + IntText(code.value) + ")" else ""
  }

  /** The shell handler's `DisplayResult`. */
  function ShellDisplay(r: ExecResult): (s: string)
    ensures r.success ==> IsPrefix("Command executed successfully", s)
    ensures !r.success ==> IsPrefix("Command failed", s)
    ensures r.exitCode.Some? ==> Contains(s, " (exit code: " + IntText(r.exitCode.value) + ")")
  {
    var exit := ExitPart(r.exitCode);
    if r.success then
      ContainsConcat("Command executed successfully", exit, "");
      assert "Command executed successfully" + exit + "" == "Command executed successfully" + exit;
      "Command executed successfully" + exit
    else
      var err := if r.error.Some? && r.error.value != "" then ": " + r.error.value else "";
      ContainsConcat("Command failed", exit, err);
      "Command failed" + exit + err
  }

  function ShellResult(r: ExecResult): ToolResult {
    ToolResult(CombineOutput(r), ShellDisplay(r))
  }

  /** An awaited handler: a thrown exception is caught by the dispatcher. */
  function Awaited(call: ToolCall, o: Outcome): RunResult {
    match o
    case Returned(res) => Success(call, Settled(res))
    case Threw(m) => Failure(CaughtError(m))
  }

  /**
    The dispatch once the payload is an object with a `tool` key.
    `zodMessage(data)` is the message of the schema's failed parse.
   */
  function Dispatch(data: Json, h: Handlers, zodMessage: Json -> string): (r: RunResult)
    requires data.JObj? && "tool" in data.fields
    ensures !(data.fields["tool"].JStr? && data.fields["tool"].s in ToolNames) ==> r == Failure(UnknownToolError(data.fields["tool"]))
    ensures data.fields["tool"].JStr? && data.fields["tool"].s in ToolNames && SafeParse(data.fields["tool"].s, data).None? ==>
      r == Failure(SchemaError(data.fields["tool"].s, zodMessage(data)))
    ensures r.Success? ==> data.fields["tool"] == JStr(ToolName(r.data)) && SafeParse(ToolName(r.data), data) == Some(r.data)
  {
    var tool := data.fields["tool"];
    if tool.JStr? && tool.s in ToolNames then
      var name := tool.s;
      match SafeParse(name, data)
      case None => Failure(SchemaError(name, zodMessage(data)))
      case Some(call) => RunCall(call, h)
    else Failure(UnknownToolError(tool))
  }

  /**
    The `switch` on a parsed call: the range check of `read_file`, then the
    handler. Its failures are the range error and caught exceptions.
   */
  function RunCall(call: ToolCall, h: Handlers): (r: RunResult)
    ensures r.Success? ==> r.data == call
    ensures r.Failure? ==> r.error == RangeOrderError || exists m :: r.error == CaughtError(m)
    ensures r.Failure? ==> r.error != FormatError
    ensures call.ReadFileCall? && r.Success? ==>
      r.result == Pending(h.read(call.absolutePath, call.startLine, call.endLine).Threw?)
    ensures LeavesRejection(r) ==> call.ReadFileCall? || (call.EditFileCall? && h.editIsAsync)
  {
    match call
    case ReadFileCall(p, s, e) =>
      if s.Some? && e.Some? && s.value > e.value then
        assert RangeOrderError[0] == 's' && FormatError[0] == 'I';
        Failure(RangeOrderError)
      else Success(call, Pending(h.read(p, s, e).Threw?))
    case EditFileCall(p, o, n, k) =>
      var opts := Edit.EditOptions(p, o, n, if k.Some? then k.value else 1);
      if h.editIsAsync then Success(call, Pending(h.edit(opts).Threw?)) else AwaitedCall(call, h.edit(opts))
    case ShellCall(cmd, d, dir) => Success(call, Settled(ShellResult(h.exec(ShellOptions(cmd, d, dir)))))
    case GlobCall(p) => AwaitedCall(call, h.glob(p))
    case GrepCall(p, path, inc) => AwaitedCall(call, h.grep(GrepOptions(p, path, inc)))
    case NewFileCall(p, content) => AwaitedCall(call, h.newFile(p, content))
  }

  function AwaitedCall(call: ToolCall, o: Outcome): (r: RunResult)
    ensures r.Success? <==> o.Returned?
    ensures r.Success? ==> r.data == call && r.result == Settled(o.result)
    ensures r.Failure? ==> r.error == CaughtError(o.message) && r.error != FormatError
  {
    var r := Awaited(call, o);
    if r.Failure? then
      assert CaughtError(o.message)[0] == 'F' && FormatError[0] == 'I';
      r
    else r
  }

  /** `!jsonData || typeof jsonData !== "object" || !("tool" in jsonData)`. */
  predicate WellShaped(data: Json) {
    Truthy(data) && IsObject(data) && HasKey(data, "tool")
  }

  /** `validateAndRunToolCall(jsonData, config, rootPath)`. */
  function Run(data: Json, h: Handlers, zodMessage: Json -> string): (r: RunResult)
    ensures !WellShaped(data) <==> r == Failure(FormatError)
    ensures r.Success? ==> ValidCall(r.data) && data.JObj? && data.fields["tool"] == JStr(ToolName(r.data))
    ensures r.Success? ==> SafeParse(ToolName(r.data), data) == Some(r.data)
  {
    if !WellShaped(data) then Failure(FormatError)
    else
      var r := Dispatch(data, h, zodMessage);
      assert r.Failure? ==> r.error != FormatError by {
        if r.Failure? {
          NotFormatError(data, h, zodMessage);
        }
      }
      r
  }

  lemma NotFormatError(data: Json, h: Handlers, zodMessage: Json -> string)
    requires data.JObj? && "tool" in data.fields
    requires Dispatch(data, h, zodMessage).Failure?
    ensures Dispatch(data, h, zodMessage).error != FormatError
  {
    var tool := data.fields["tool"];
    DispatchErrorShape(data, h, zodMessage);
    if tool.JStr? && tool.s in ToolNames && SafeParse(tool.s, data).None? {
      SchemaErrorNotFormat(tool.s, zodMessage(data));
    }
  }

  /** Every failure of the dispatch other than the schema error differs from the format error. */
  lemma DispatchErrorShape(data: Json, h: Handlers, zodMessage: Json -> string)
    requires data.JObj? && "tool" in data.fields
    requires Dispatch(data, h, zodMessage).Failure?
    ensures var tool := data.fields["tool"];
      var e := Dispatch(data, h, zodMessage).error;
      if tool.JStr? && tool.s in ToolNames && SafeParse(tool.s, data).None? then e == SchemaError(tool.s, zodMessage(data))
      else e != FormatError
  {
    var tool := data.fields["tool"];
    if !(tool.JStr? && tool.s in ToolNames) {
      assert UnknownToolError(tool)[0] == 'U' && FormatError[0] == 'I';
    }
  }

  /** The schema error names a known tool right after `Invalid `, and no known tool starts with `t`. */
  lemma SchemaErrorNotFormat(name: string, message: string)
    requires name in ToolNames
    ensures SchemaError(name, message) != FormatError
  {
    var e := SchemaError(name, message);
    assert e == "Invalid " + name + (" toolOptions: " + message);
    assert e[8] == name[0];
    assert name[0] != 't';
    assert FormatError[8] == 't';
  }

  /** Only an object with a `tool` key gets past the shape check. */
  lemma ShapeIsObjectWithTool(data: Json)
    ensures WellShaped(data) <==> data.JObj? && "tool" in data.fields
  {
  }

  /** A payload the schema rejects yields the schema error and no handler runs. */
  lemma SchemaMismatchSkipsHandlers(data: Json, h1: Handlers, h2: Handlers, zodMessage: Json -> string)
    requires data.JObj? && "tool" in data.fields && data.fields["tool"].JStr?
    requires data.fields["tool"].s in ToolNames && SafeParse(data.fields["tool"].s, data).None?
    ensures Run(data, h1, zodMessage) == Run(data, h2, zodMessage)
      == Failure(SchemaError(data.fields["tool"].s, zodMessage(data)))
  {
  }

  /** The path, command and pattern fields must be non-empty strings. */
  lemma EmptyRequiredTextRejected(tool: string, key: string, opts: map<string, Json>)
    requires tool in ToolNames && |Schema(tool)| > 0 && key == Schema(tool)[0].key
    requires key in opts && opts[key] == JStr("")
    ensures SafeParse(tool, JObj(map["tool" := JStr(tool), "toolOptions" := JObj(opts)])).None?
  {
    assert !FieldOk(opts, Schema(tool)[0]);
  }

  /** A read with `startLine > endLine` fails before the read handler. */
  lemma ReadRangeRejected(p: string, s: int, e: int, h: Handlers, zodMessage: Json -> string)
    requires p != "" && 0 <= e < s
    ensures Run(Encode(ReadFileCall(p, Some(s), Some(e))), h, zodMessage) == Failure(RangeOrderError)
  {
    ParseEncode(ReadFileCall(p, Some(s), Some(e)));
  }

  /** An edit without `expected_replacements` reaches the handler with 1; otherwise with the given count. */
  lemma EditDefaultsToOne(c: ToolCall, h: Handlers, zodMessage: Json -> string)
    requires c.EditFileCall? && ValidCall(c) && !h.editIsAsync
    ensures Run(Encode(c), h, zodMessage) == Awaited(c, h.edit(Edit.EditOptions(c.filePath, c.oldString, c.newString,
      if c.expectedReplacements.Some? then c.expectedReplacements.value else 1)))
    ensures c.expectedReplacements.Some? ==> c.expectedReplacements.value >= 1
  {
    ParseEncode(c);
  }

  /** The shell handler's text for the model is stdout, then stderr only when there is some. */
  lemma ShellOutput(c: ToolCall, h: Handlers, zodMessage: Json -> string)
    requires c.ShellCall? && ValidCall(c)
    ensures var x := h.exec(ShellOptions(c.command, c.description, c.directory));
      && Run(Encode(c), h, zodMessage) == Success(c, Settled(ShellResult(x)))
      && (x.stderr == "" ==> LlmResultOf(Run(Encode(c), h, zodMessage)) == Some(x.stdout))
      && (x.stderr != "" ==> LlmResultOf(Run(Encode(c), h, zodMessage)) == Some(x.stdout + "\nSTDERR:\n" + x.stderr))
  {
    ParseEncode(c);
    var x := h.exec(ShellOptions(c.command, c.description, c.directory));
    assert Dispatch(Encode(c), h, zodMessage) == Success(c, Settled(ShellResult(x)));
  }

  /** A tool name outside the six gets the error that lists the six. */
  lemma UnknownTool(name: string, rest: map<string, Json>, h: Handlers, zodMessage: Json -> string)
    requires name !in ToolNames
    ensures Run(JObj(rest["tool" := JStr(name)]), h, zodMessage) ==
      Failure("Unknown tool: " + name + ". Supported tools: read_file, edit_file, shell_command, glob, grep, new_file")
  {
  }

  /** An exception thrown by an awaited handler becomes a failure carrying its message. */
  lemma HandlerExceptionCaught(c: ToolCall, h: Handlers, zodMessage: Json -> string, message: string)
    requires ValidCall(c) && c.GlobCall? && h.glob(c.pattern) == Threw(message)
    ensures Run(Encode(c), h, zodMessage) == Failure("Failed to parse tool call: " + message)
    ensures LlmResultOf(Run(Encode(c), h, zodMessage)).None?
  {
    ParseEncode(c);
  }

  /**
    A read past the range check reaches the dispatcher's caller as an
    unawaited promise: its text is undefined, and it leaves a rejection
    nobody handles exactly when the read handler throws.
   */
  lemma ReadResultUndefined(c: ToolCall, h: Handlers, zodMessage: Json -> string)
    requires c.ReadFileCall? && ValidCall(c)
    requires c.startLine.None? || c.endLine.None? || c.startLine.value <= c.endLine.value
    ensures Run(Encode(c), h, zodMessage) == Success(c, Pending(h.read(c.absolutePath, c.startLine, c.endLine).Threw?))
    ensures LlmResultOf(Run(Encode(c), h, zodMessage)).None?
    ensures LeavesRejection(Run(Encode(c), h, zodMessage)) <==> h.read(c.absolutePath, c.startLine, c.endLine).Threw?
  {
    ParseEncode(c);
  }
}
